=== FILE: README.md ===
# tidy post-processing passes, modelled in Dafny

tidy formats PHP, HTML, CSS and SQL files. For each language it runs
an external formatter, then a set of printer classes repairs that
formatter's output with PHP string passes. This project models those
passes:

- **Shared passes.** `Printer` re-indents to a chosen width
  (`fixIndent`). It also snaps indents to the default width of four and
  trims trailing space (`trimExtraSpace`). `PrinterComments` and
  `CommentScan` re-wrap doc-blocks and runs of `//` comments
  (`wrapComments`, `wrapMultiline`, `wrapSingleLine`), built on a model
  of PHP's `wordwrap` (`WordWrap`).
- **`HtmlPrinter`.** It swaps `<script>` elements for numbered
  placeholders and later restores them (`HtmlScripts`). It puts every
  tag on a line of its own and indents lines by tag depth (`HtmlTags`).
  It then runs the markup passes:
  - empty tags, single quotes and split tags (`HtmlReflow`);
  - long tags and long prose lines (`HtmlWrap`);
  - blank lines and PHPTAL references (`HtmlCleanup`).
- **`PhpPrinter`.** It moves `//` comments to the indent of the
  following line, puts a blank line before comments that follow a
  statement, and drops blank lines just inside control blocks.
- **`CssPrinter`.** It keeps comments outside rule blocks and rejects
  a comment inside a block. It breaks long selector lists at commas.
- **`SqlPrinter`.** It splits a script into queries and tightens
  `{$var}` references. It normalises `USE db`, breaks long lines before
  `AND` and `OR`, and pulls comments to the margin.

Every regular expression is a hand-written anchored matcher. `MatchAll`
stands for `preg_match_all`, `Substitute` for `preg_replace`, and
`SplitKeep` for `preg_split` with captured delimiters (module
`Matching`). `str_replace` is `Text.ReplaceAll`: left to right, with
non-overlapping occurrences. Two texts "cannot overlap" (`Replacing.Apart`)
when no end of one is a start of the other and neither holds the other;
a loop of str_replace calls is `Replacing.ReplaceSeq`.

Most passes only move layout around. Their common invariant is
`Ink(s)`: the characters of `s` that are neither PCRE whitespace (`\s`)
nor PHP trim characters, in order. A pass that keeps `Ink` has changed layout and nothing else.

## Model

| member | source | states |
|---|---|---|
| Printer.Lead | src/Printer.php:72-73 | the width of the leading run of spaces: every char before it is a space and the next is not |
| Printer.RescaleLine | src/Printer.php:72-78 | a line with text whose indent is a multiple of 4 gets `level * indent` spaces and keeps its text; every other line is unchanged; no newline is introduced |
| Printer.FixIndent | src/Printer.php:64-83 | at the default width the source comes back unchanged; otherwise the output has as many lines as the source, each one the rescaled source line |
| Printer.RescaleAllFails | src/Printer.php:69-80 | the line loop at any width throws exactly when some line with text, indented by a multiple of four, would get a negative count of spaces |
| Printer.RescaleAllRescales | src/Printer.php:69-80 | at a width of zero or more the line loop never throws and rescales every line |
| Printer.FixIndentChecked | src/Printer.php:64-83 | fixIndent at any width: a negative width throws the str_repeat error exactly when some line with text is indented by a positive multiple of four, and a width of zero or more gives FixIndent |
| Printer.NegativeWidthThrows | src/Printer.php:76 | at width -2 the line `    a` throws, while an unindented `a` comes back unchanged |
| Printer.RescaleLevel | src/Printer.php:72-78 | a line at depth `level` in steps of 4 comes out at depth `level` in steps of `indent` |
| Printer.RescaleKeeps | src/Printer.php:72-79 | a line with no text, or with an indent not a multiple of 4, is left as it is |
| Printer.FixIndentNotReversible | src/Printer.php:66-68 | widening back to 4 does not restore a narrowed text, because the width-4 call returns its input unchanged |
| Printer.Snap | src/Printer.php:214-219 | an indent of 1 or 3 modulo 4 moves by one to the nearest multiple of 4; 2 modulo 4 is kept |
| Printer.SettleLine | src/Printer.php:207-221 | one line of trimExtraSpace: no trailing trim char, no new line break, same Ink |
| Printer.SettleSnaps | src/Printer.php:208-220 | an indented line that does not start with `*` gets the snapped indent followed by its trimmed text |
| Printer.SettleKeeps | src/Printer.php:212-213 | a line starting with `*`, or with no indent or text, is only right-trimmed |
| Printer.TrimExtraSpace | src/Printer.php:201-230 | the result neither starts nor ends with a trim char, and keeps the Ink of the source |
| Printer.SettleTwice | src/Printer.php:207-221 | a settled line settles to itself |
| Printer.TrimExtraSpaceSettled | src/Printer.php:204-228 | every line of the result is settled, including lines the final trim cut into |
| Printer.TrimExtraSpaceIdempotent | src/Printer.php:201-230 | running trimExtraSpace twice is the same as once |
| Printer.Finish | src/HtmlPrinter.php:59-60 | at the default width, the text after the two shared clean-ups is Finished: settled lines, trimmed ends, a fixpoint of trimExtraSpace |
| WordWrap.Wrap | src/Printer.php:289 | wordwrap with a one-char break only turns spaces into line breaks; the result has the length of the input |
| WordWrap.Scan | src/Printer.php:289 | the scanner behind Wrap turns only spaces into breaks and never rewrites output it has already emitted |
| WordWrap.WrapFits | src/Printer.php:289 | every line of the wrapped text fits the width, or is one word with no space to break at |
| WordWrap.WrapNeeded | src/Printer.php:289 | wordwrap is greedy: every space it turns into a line feed ends a line that, with one more space and the following word, would be wider than the width |
| WordWrap.WrapKeepsFitting | src/Printer.php:289 | a text whose every line already fits the width comes back from wordwrap unchanged |
| PrinterComments.WrapLinesFit | src/Printer.php:289 | wrapping at the comment width 75 leaves every line within that width, or one word with no space to break at |
| PrinterComments.WrapWords | src/Printer.php:289 | wrapping keeps the words of the text, in order |
| PrinterComments.StripClose | src/Printer.php:272 | the closing `*/` and trailing spaces are cut only when the line ends with them; what is left is a prefix of the line |
| PrinterComments.StripOpen | src/Printer.php:273 | the opening marks are cut from the front only; what is left is a suffix of the line |
| PrinterComments.Body | src/Printer.php:272-274 | a line with its marks stripped has every whitespace run turned into a space |
| PrinterComments.Bodies | src/Printer.php:270-274 | one body per comment line, each with whitespace collapsed |
| PrinterComments.TagOf | src/Printer.php:277-278 | a tag is a non-empty run of word chars after the `@` |
| PrinterComments.Break | src/Printer.php:280-286 | only newlines are added, and some are added exactly when the line opens an `@tag`; two when the tag differs from the last under PHP's loose `!=`, which takes numeric tags by value |
| PrinterComments.NumericTagsMeet | src/Printer.php:281 | under loose `!=` the tags `01` and `1`, `1e1` and `10`, `0e5` and `0`, `1E2` and `100` are the same tag |
| PrinterComments.NumericTagsDiffer | src/Printer.php:281 | `1e`, not a numeric string, is a different tag from `1`, as `2` is; `a` and `A` differ |
| PrinterComments.SeparatorNumericTags | src/Printer.php:277-285 | after a line `@1 a`, a line `@01 b` gets one line feed before it and a line `@2 b` gets two |
| PrinterComments.Reflow | src/Printer.php:268-289 | the reflowed text keeps the words of the bodies in order, every line fits width 75 (or is one unbreakable word), and neither end is a trim char |
| PrinterComments.ReflowTagStartsLine | src/Printer.php:277-289 | each `@tag` begins a line of the reflowed text, with exactly the earlier words before it; a tag that differs from the last under loose `!=`, after some text, has an empty line before it |
| PrinterComments.ReflowedLines | src/Printer.php:289-290 | the exploded lines of the reflowed text keep the words of the bodies and fit the width |
| PrinterComments.WrapMultiline | src/Printer.php:263-301 | the block starts with the opening indent and `/**`, and ends with ` */` and a newline |
| PrinterComments.WrapMultilineShape | src/Printer.php:290-300 | one wrapped line gives `/** line */`; several give `/**`, one ` * ` line each, then ` */` |
| PrinterComments.FramedLines | src/Printer.php:295-300 | the framed form has the opening, one trimmed ` * ` line per text line, the closing, and a final newline |
| PrinterComments.FramedOne | src/Printer.php:291-293 | one text line gives the one-line form `/** text */` |
| PrinterComments.WrapMultilineWords | src/Printer.php:265-290 | the comment lines keep the words of the stripped bodies, and each fits width 75 |
| PrinterComments.MarkIndent | src/Printer.php:266-267 | the indent is the spaces in front of `/` and the mark on the first line (also the `//` pattern at line 313), or empty when the line does not open with the mark |
| PrinterComments.SlashBodies | src/Printer.php:316-318 | each line loses its `//` mark and has its whitespace collapsed |
| PrinterComments.WrapSingleLine | src/Printer.php:310-328 | the block starts with the indent and `// `, and ends with a newline |
| PrinterComments.WrapSingleLineShape | src/Printer.php:321-326 | each wrapped line becomes `indent // line`; the lines keep the words of the bodies and fit width 75 |
| CommentScan.DocBlockAt | src/Printer.php:241 | a doc-block match starts just after a newline and ends with one |
| CommentScan.SlashRunAt | src/Printer.php:247 | a `//` run starts just after a newline and ends with one |
| CommentScan.DocBlockParts | src/Printer.php:241 | a match is spaces, `/*`, text with no earlier `*/`, `*/`, spaces, newline: the lazy `.*?` stops at the first close |
| CommentScan.SlashRunParts | src/Printer.php:247 | a match is a maximal run of whole lines, each spaces then `//` |
| CommentScan.Blocks | src/Printer.php:241-242 | the blocks are the matched slices, in order, each a pattern match |
| CommentScan.MatchHasMark | src/Printer.php:241-247 | a doc-block match implies `/*` occurs, and a slash-run match implies `//` occurs |
| CommentScan.NoMarkNoBlocks | src/Printer.php:241-247 | with no comment mark in the source, nothing is matched |
| CommentScan.WrapCommentsNoComment | src/Printer.php:239-254 | a source with no comment marks is returned unchanged |
| CommentScan.WrapCommentsOneLine | src/Printer.php:239-254 | a source with no newline is returned unchanged, since both patterns need a preceding newline |
| CommentScan.PassOneBlock | src/Printer.php:241-253 | when one pattern matches exactly once, its loop puts the rewrapped block in place of the block's first occurrence, copies the text before it, and str_replaces the rest |
| CommentScan.WrapCommentsOneDocBlock | src/Printer.php:239-254 | with one doc-block and no `//` run, wrapComments is the source with the block's first occurrence replaced by wrapMultiline of the block |
| CommentScan.ReplaceEachChain | src/Printer.php:242-245 | the foreach loop is the chain of str_replace calls, each matched block in order replaced by its rewrap in the text left by the calls before it |
| CommentScan.PassEvery | src/Printer.php:241-252 | when no block can overlap another block or a rewrap, a pass leaves every block's rewrap in the text and none of the blocks |
| CommentScan.WrapCommentsDocBlocks | src/Printer.php:239-254 | with block comments that cannot overlap each other or their rewraps, and no `//` run after their pass, wrapComments holds wrapMultiline of every block comment and none of the block comments as found |
| Text.Split | src/Printer.php:204 | explode gives at least one piece, none holding the separator, and imploding them gives the source back |
| Text.SplitJoin | src/Printer.php:225 | exploding an implode of separator-free lines gives the lines back |
| Text.Trim | src/Printer.php:228 | trim leaves neither end a trim char |
| Text.Find | src/HtmlPrinter.php:223 | the first occurrence of a needle at or after a position; none means no occurrence there |
| Text.FirstHit | src/HtmlPrinter.php:223 | the first occurrence, with none before it, or the length when there is none |
| Text.ReplaceAllAbsent | src/HtmlPrinter.php:223 | str_replace of an absent needle changes nothing |
| Text.ReplaceAtFirst | src/HtmlPrinter.php:223 | str_replace copies the text before the first occurrence and puts the replacement at that position |
| Text.ReplaceAtFirstRest | src/Printer.php:243 | str_replace is the text before the first occurrence, the replacement, and str_replace of what follows the occurrence; that rest is copied as is when the needle does not occur in it again |
| Text.ReplaceAllBack | src/HtmlPrinter.php:205-223 | replacing n by p and then p by n gives the source back, when p is non-empty, has no border (no proper prefix equal to a suffix) and is absent from the source |
| Replacing.Placed | src/HtmlPrinter.php:223 | str_replace of a non-empty needle that occurs in the subject puts the replacement in the result |
| Replacing.Keeps | src/HtmlPrinter.php:223 | str_replace keeps every occurrence of a text that cannot overlap the needle |
| Replacing.Clears | src/HtmlPrinter.php:223 | after str_replace by a replacement that cannot overlap the needle, the needle no longer occurs |
| Replacing.NoNew | src/HtmlPrinter.php:223 | str_replace by a replacement that cannot overlap a text absent from the subject does not create that text |
| Replacing.SeqSwaps | src/Printer.php:242-245 | a chain of str_replace calls whose needles all occur in the subject and cannot overlap one another or any replacement leaves every replacement in the result and none of the needles |
| Text.ReplaceAllFilter | src/HtmlPrinter.php:94 | str_replace keeps any character filter of the text when needle and replacement agree on it |
| Matching.MatchAll | src/HtmlPrinter.php:153 | matches are in range, in order, non-overlapping, each a match of the pattern |
| Matching.MatchAllGaps | src/HtmlPrinter.php:153 | between and around the matches, the pattern matches nowhere |
| Matching.ReplaceIdempotent | src/SqlPrinter.php:72 | preg_replace with a rewrite that creates no new match and is re-found as itself is idempotent |
| Matching.SplitKeepParts | src/CssPrinter.php:24 | preg_split with captured delimiters gives pieces that concatenate to the source, with the matches at the odd positions |
| Matching.NonEmptyConcatenation | src/CssPrinter.php:24 | dropping empty pieces leaves the concatenation unchanged |
| HtmlScripts.Save | src/HtmlPrinter.php:217-231 | one entry per script match, the k-th pairing the k-th script with placeholder k |
| HtmlScripts.SaveEachReplaces | src/HtmlPrinter.php:220-228 | the save loop is the chain of str_replace calls, script k replaced by placeholder k in the text left by scripts 0 to k-1 |
| HtmlScripts.ScriptShape | src/HtmlPrinter.php:219 | every matched script opens with `<s`, ends with `</script>` and occurs in the document |
| HtmlScripts.ScriptApartPlaceholder | src/HtmlPrinter.php:219-223 | a script and a placeholder cannot overlap unless the script holds the whole placeholder |
| HtmlScripts.SaveHidesScripts | src/HtmlPrinter.php:217-231 | when the document holds none of the placeholders and no two scripts can overlap, the saved text holds every placeholder and none of the scripts |
| HtmlScripts.PaddedValue | src/HtmlPrinter.php:222 | the eight-digit zero-padded number reads back as the script index |
| HtmlScripts.PlaceholderDistinct | src/HtmlPrinter.php:222 | different scripts get different placeholders |
| HtmlScripts.PlaceholderUnbordered | src/HtmlPrinter.php:222 | no proper prefix of a placeholder is also its suffix |
| HtmlScripts.SaveRestore | src/HtmlPrinter.php:196-231 | restoring the saved text gives the source back, for a source with at most one script that is not collapsed and whose placeholder is not already in the text; for any number of scripts that cannot overlap, the saved text holds every placeholder and no script |
| HtmlScripts.FixOneLine | src/HtmlPrinter.php:201-204 | the corrected half of the :202 finding: only a script that is, end to end, an opening tag, a blank body with a newline and a closing tag is collapsed; any other script, `<script>\n</SCRIPT>x</script>` among them, is left unchanged, where the code as written cuts that one short |
| HtmlScripts.FixOneLineAsWritten | src/HtmlPrinter.php:201-204 | the one-line fix as written never lengthens a script, and leaves it unchanged exactly when the case-insensitive pattern matches nowhere in it |
| HtmlScripts.FixOneLineInk | src/HtmlPrinter.php:201-204 | collapsing a broken empty script makes it shorter and keeps its Ink |
| HtmlScripts.MixedCaseScriptCutShort | src/HtmlPrinter.php:202 | the case-insensitive restore pattern cuts `<script>\n</SCRIPT>x</script>` down to `<script></SCRIPT>`; the corrected check keeps it whole |
| HtmlScripts.MixedCaseRestoredShort | src/HtmlPrinter.php:196-206 | restoreJavaScript as written gives a placeholder for that script back as `<script></SCRIPT>`; the corrected restore gives the whole script |
| HtmlTags.ExplodeTagsLines | src/HtmlPrinter.php:45-46 | after the two str_replace calls every `<` starts a line and every `>` ends one, with the same Ink |
| HtmlTags.ReplaceAllChar | src/HtmlPrinter.php:45 | replacing one char by a string is the same as mapping each occurrence of that char |
| HtmlTags.BumpLookup | src/HtmlPrinter.php:248-256 | bumping one tag's count changes that tag's entry by d and no other, and keys stay unique |
| HtmlTags.BumpSum | src/HtmlPrinter.php:259 | bumping a count by d changes array_sum by d |
| HtmlTags.TagPatternsSound | src/HtmlPrinter.php:243-253 | the open, self-close and close tag patterns each match a non-empty slice |
| HtmlTags.UpdateTagCountEffect | src/HtmlPrinter.php:241-260 | each tag's count goes up by its openings and down by its closings on the line; keys stay unique |
| HtmlTags.UpdateTagCountSum | src/HtmlPrinter.php:241-260 | the total count changes by the line's openings minus its closings |
| HtmlTags.StrayCloserNegative | src/HtmlPrinter.php:253-257 | a closing tag with no opener gives that tag the count -1 |
| HtmlTags.TagLinesNonEmpty | src/HtmlPrinter.php:111 | the lines indentTags walks are the non-empty lines of the trimmed text, or one empty line for an empty text |
| HtmlTags.IndentFromSucceeds | src/HtmlPrinter.php:116-127 | the walk succeeds exactly when the depth never goes negative |
| HtmlTags.IndentTagsLayout | src/HtmlPrinter.php:108-129 | indentTags succeeds exactly when the depth never goes negative, and then indents each line by 4 times the smaller of the depths before and after it |
| HtmlReflow.NameBackoff | src/HtmlPrinter.php:140 | regex backtracking on the tag name settles on a name whose closer occurs at the right place |
| HtmlReflow.DropGap | src/HtmlPrinter.php:140 | removing the whitespace between an empty tag's opener and closer keeps the Ink and never lengthens |
| HtmlReflow.ReplaceEmptyTagsInk | src/HtmlPrinter.php:138-142 | replaceEmptyTags keeps the Ink of the text |
| HtmlReflow.EmptyTagJoins | src/HtmlPrinter.php:140 | a match is an opener `<name…>` up to its first `>`, a non-empty run of whitespace and the closer `</name>` of the same name; it becomes the opener followed directly by the closer |
| HtmlReflow.ReplaceAllSwaps | src/HtmlPrinter.php:159-161 | str_replace with a replacement that only swaps quotes only swaps quotes in the text |
| HtmlReflow.DoubleQuote | src/HtmlPrinter.php:158 | every `'` of the attribute becomes `"`, and no other character changes |
| HtmlReflow.RequoteAttrs | src/HtmlPrinter.php:155-160 | requoting a tag's attributes only turns single quotes into double quotes, and the first attribute reads double-quoted at its first occurrence in the tag |
| HtmlReflow.RequoteTags | src/HtmlPrinter.php:153-163 | requoting the tags only turns single quotes into double quotes, and the first attribute of the first tag reads double-quoted at its place in the text |
| HtmlReflow.ReplaceSingleQuotes | src/HtmlPrinter.php:151-166 | the output has the length of the input and differs from it only where `'` became `"` |
| HtmlReflow.ReplaceSingleQuotesFirst | src/HtmlPrinter.php:151-166 | the first attribute of the first tag is double-quoted in the output at its own position: `<a name='v'>` gives `<a name="v">` |
| HtmlReflow.ReplaceSingleQuotesNoQuote | src/HtmlPrinter.php:151-166 | text without single quotes is unchanged |
| HtmlReflow.Quoted | src/HtmlPrinter.php:154-155 | the tags the outer loop rewrites are exactly the matched tags with at least one single-quoted attribute |
| HtmlReflow.AttrShape | src/HtmlPrinter.php:155 | every matched attribute ends with `'`, holds no `"` and occurs in its tag |
| HtmlReflow.RequoteAttrsChain | src/HtmlPrinter.php:155-160 | the inner loop is the chain of str_replace calls, each attribute in order replaced by its double-quoted form |
| HtmlReflow.RequoteTagsChain | src/HtmlPrinter.php:153-163 | the outer loop is the chain of str_replace calls, each tag with an attribute replaced by its rewrite |
| HtmlReflow.RequoteTagAll | src/HtmlPrinter.php:155-160 | when no two attributes of a tag can overlap, the rewritten tag holds every attribute double-quoted and none of them as found |
| HtmlReflow.ReplaceSingleQuotesAll | src/HtmlPrinter.php:151-166 | when the rewritten tags cannot overlap each other or the rewrites, nor the attributes of a tag each other, the output holds every rewritten tag's rewrite, none of those tags as found, and every attribute of every such tag double-quoted |
| HtmlReflow.ShortenInk | src/HtmlPrinter.php:180-181 | a split tag pulled onto one line keeps its Ink |
| HtmlReflow.SplitTagMatch | src/HtmlPrinter.php:178 | a match is an opener `<name…>` up to the first `>` on its line, the rest of that line, one more whole line, whitespace and the closer `</name>` of the same name |
| HtmlReflow.SplitTagShortens | src/HtmlPrinter.php:180-181 | such a match becomes the opener, the trimmed middle and the closer |
| HtmlReflow.ReplaceSplitTags | src/HtmlPrinter.php:176-187 | replaceSplitTags keeps the Ink of the text |
| HtmlWrap.LongTagAt | src/HtmlPrinter.php:274 | a match is indent, `<name`, at least 80 chars with no `>`, then `>` |
| HtmlWrap.BreakAttrs | src/HtmlPrinter.php:279 | breaking before each attribute keeps the Ink of the attributes |
| HtmlWrap.WrapTag | src/HtmlPrinter.php:274-281 | wrapping a long tag keeps the Ink of the line |
| HtmlWrap.WrapProse | src/HtmlPrinter.php:282-286 | wrapping a prose line keeps its Ink |
| HtmlWrap.WrapLine | src/HtmlPrinter.php:272-287 | each line, tag or prose, keeps its Ink |
| HtmlWrap.WrapLinesInk | src/HtmlPrinter.php:269-290 | wrapLines keeps the Ink of the text |
| HtmlCleanup.BlankRunAt | src/HtmlPrinter.php:74 | a run of blank lines is matched only over whitespace |
| HtmlCleanup.FixBlankLinesInk | src/HtmlPrinter.php:71-79 | fixBlankLines keeps the Ink of the text |
| HtmlCleanup.CollapseRefs | src/HtmlPrinter.php:91-95 | collapsing whitespace in PHPTAL references keeps the Ink |
| HtmlCleanup.FixPhpTal | src/HtmlPrinter.php:88-99 | fixPhpTal keeps the Ink of the text |
| HtmlCleanup.FixPhpTalNoRef | src/HtmlPrinter.php:90 | text with no `${` is unchanged |
| HtmlPrinter.Format | src/HtmlPrinter.php:20-62 | format fails exactly when indentTags would pass str_repeat a negative count; at the default width, success gives a Finished text |
| PhpPrinter.Reindent | src/PhpPrinter.php:71-79 | a `//` line takes the indent of the next line and keeps its comment; any other line is unchanged; Ink is kept |
| PhpPrinter.FixCommentSpacingLines | src/PhpPrinter.php:60-91 | the output lines are the reindented lines in order with only empty lines added among them, and Ink is kept |
| PhpPrinter.FixCommentSpacingSlots | src/PhpPrinter.php:60-91 | source line k comes out reindented at its slot; the slot moves on by two, leaving an empty line before it, exactly when line k is a comment whose source predecessor ends a statement, and by one otherwise |
| PhpPrinter.FixControlStructureKeeps | src/PhpPrinter.php:100-124 | only blank lines are dropped, and Ink is kept |
| PhpPrinter.FixControlStructureNoBlocks | src/PhpPrinter.php:100-124 | a source with no block openers or closers is unchanged |
| PhpPrinter.FixControlStructureLines | src/PhpPrinter.php:100-124 | the output lines are the source lines at rising positions, and a position is kept exactly when the line is not blank or neither its source predecessor opens a block nor its source successor closes one |
| PhpPrinter.TwoBlanksAfterOpener | src/PhpPrinter.php:107-118 | of two blank lines after a block opener, the first goes and the second stays unless a closer follows, because neighbours are read from the source lines |
| PhpPrinter.FixControlStructureAsWrittenLines | src/PhpPrinter.php:100-124 | as written, the output is the source lines at the positions the `!trim` test does not drop, or empty when it drops them all |
| PhpPrinter.ZeroLineDropped | src/PhpPrinter.php:107 | `!trim($line)` drops a line that is just `0`, losing text; the corrected check keeps it |
| PhpPrinter.Format | src/PhpPrinter.php:39-50 | at the default width the output ends in one newline, and what precedes it is Finished |
| CssPrinter.CommentAt | src/CssPrinter.php:24 | a comment match runs from `/*` to the first `*/` |
| CssPrinter.Parts | src/CssPrinter.php:24 | the parts are non-empty and concatenate to the source |
| CssPrinter.CommentsAreParts | src/CssPrinter.php:24 | every matched comment is one of the parts, and is recognised as a comment part |
| CssPrinter.BraceTally | src/CssPrinter.php:124-127 | the tally of matched braces equals the count of that brace in the text |
| CssPrinter.CheckBlock | src/CssPrinter.php:121-132 | checkBlock passes exactly when the block has as many `{` as `}`, and otherwise throws the comment-in-block error |
| CssPrinter.BreakLongLinesShort | src/CssPrinter.php:97-112 | a source with no line over 80 chars is unchanged |
| CssPrinter.BreakLongLinesLines | src/CssPrinter.php:97-112 | the output lines are, source line by source line, the line itself when it has at most 80 chars, and its broken lines otherwise |
| CssPrinter.BreakLineLines | src/CssPrinter.php:100-106 | a long line comes out as its comma pieces, each but the last followed by `,`, the first unindented and the rest on the line's indent plus four spaces |
| CssPrinter.BreakLineNoComma | src/CssPrinter.php:105-106 | a line with no comma followed by whitespace is unchanged |
| CssPrinter.BreakLineInk | src/CssPrinter.php:103-106 | breaking a long line at commas keeps its Ink |
| CssPrinter.Emit | src/CssPrinter.php:30-41 | the loop fails exactly when some non-comment part is unbalanced, and then with the comment-in-block error |
| CssPrinter.EmitInOrder | src/CssPrinter.php:30-41 | on success the output is each part's emitted piece, in order: a comment followed by a newline, any other part rendered, line-broken and trimmed, followed by a blank line |
| CssPrinter.EmitKeepsComments | src/CssPrinter.php:32-33 | every comment part appears verbatim, followed by a newline, where the pieces before it end |
| CssPrinter.Format | src/CssPrinter.php:18-47 | format fails exactly when some non-comment part has unbalanced braces; at the default width, success gives a Finished text |
| CssPrinter.EmitCommentOnly | src/CssPrinter.php:32-33 | a source that is one comment comes out as that comment and a newline |
| SqlPrinter.Squeeze | src/SqlPrinter.php:54 | removing whitespace leaves no space and keeps the Ink |
| SqlPrinter.FixPhpVars | src/SqlPrinter.php:49-59 | fixPhpVars keeps the Ink of the line |
| SqlPrinter.FixPhpVarsNoRef | src/SqlPrinter.php:52 | a line with no `{$` reference is unchanged |
| SqlPrinter.SqueezeTwice | src/SqlPrinter.php:54 | squeezing twice is the same as once |
| SqlPrinter.UseLineShape | src/SqlPrinter.php:72 | a `USE` match becomes `USE`, one space and the name, with the same Ink |
| SqlPrinter.FixQueryInk | src/SqlPrinter.php:67-74 | fixQuery keeps the Ink of the query |
| SqlPrinter.FixQueryIdempotent | src/SqlPrinter.php:67-74 | fixQuery applied twice is the same as once |
| SqlPrinter.IndentComments | src/SqlPrinter.php:83-87 | the line is shortened exactly when it has leading spaces followed by `#` or `--`, and then loses exactly those spaces; Ink is kept |
| SqlPrinter.IndentCommentsIdempotent | src/SqlPrinter.php:83-87 | indentComments applied twice is the same as once |
| SqlPrinter.SplitLongNoConnector | src/SqlPrinter.php:96-117 | a line with no ` AND ` or ` OR ` is unchanged |
| SqlPrinter.SplitLong | src/SqlPrinter.php:99 | a line of at most 80 chars, or a comment line, is left as it is |
| SqlPrinter.SplitLongLines | src/SqlPrinter.php:96-117 | a long line with connectors comes out as the indent and the first part, then one line per ` AND `/` OR `: the indent, four spaces, the connector, a space and the next part, and a final line feed |
| SqlPrinter.SplitLongInk | src/SqlPrinter.php:96-117 | splitting a long line before its connectors keeps its Ink |
| SqlPrinter.QueryEndAt | src/SqlPrinter.php:17 | a query separator is `;`, whitespace, and the last newline of that whitespace |
| SqlPrinter.Queries | src/SqlPrinter.php:17 | every query is non-empty |
| SqlPrinter.QueriesWithoutSemicolon | src/SqlPrinter.php:17 | a source with no `;` is one query, or none when empty |
| SqlPrinter.FixLineInk | src/SqlPrinter.php:24-29 | the per-line fixes keep the Ink of the line |
| SqlPrinter.Pretty | src/SqlPrinter.php:20-36 | each formatted query, followed by the separator, occurs in the output |
| SqlPrinter.PrettyInOrder | src/SqlPrinter.php:20-36 | the output is the formatted queries in order, each followed by the separator |
| SqlPrinter.Format | src/SqlPrinter.php:14-40 | at the default width the output is Finished |
| SqlPrinter.FormatSingleQuery | src/SqlPrinter.php:17-35 | a source with no `;` is formatted as one query with no `;\n\n` appended |

## Left out

- The external formatters are parameters or starting texts, because their code is not part of this model: tidy, php-cs-fixer, phpcbf, the SQL formatter, and the Cerdic and Sabberworm CSS formatters. `HtmlPrinter.Format` starts from tidy's output. `PhpPrinter.Format` starts from the fixers' output. `CssPrinter.Format` and `SqlPrinter.Format` take the formatter as a function.
- JsPrinter and the css_tidy front end are not part of this model.
- The file and process plumbing of Printer is not modelled, because it is I/O: `process`, `processFile`, `runCommand`, `addExt`, `addOperands`, `setOption` and `setProjectDir`. The `php -l` lint step and temporary files go with it.
- Strings are sequences of characters, while PHP's `strlen` counts bytes, so the 80-column tests agree only for single-byte text.
- HtmlPrinter keeps `$scripts` on the object across calls to format. The model starts each document with an empty list.
- PHP's `wordwrap` is modelled through its one-character-break path. `wrapLines` breaks with `"\n" . $ws`, which is the same path with the indent inserted after each break.
- Printer.FixIndent: the width is a `nat`. The `indent` option is not checked, and a negative width is `Printer.FixIndentChecked`, which fails with PHP 8's str_repeat error; PHP 7's warning and NULL are not modelled, as for `HtmlTags.IndentFrom`. The four `Format` functions take a `nat` width, so they do not carry that failure.
- Printer.FixIndent: fixIndent at width 4 returns its input, so narrowing and then widening back to 4 does not restore the text (`Printer.FixIndentNotReversible`).
- PrinterComments.Break: numeric tags are compared by their exact value. PHP compares two integer strings as integers and any other pair of numeric strings as doubles, and falls back to comparing the strings when both overflow alike. So tags that differ only past double precision or integer range are judged differently: `9007199254740993e0` and `9007199254740992` are one tag to PHP and two here.
- PrinterComments.Separator: the same exact-value comparison as `PrinterComments.Break`.
- PrinterComments.ReflowTagStartsLine: the same exact-value comparison as `PrinterComments.Break`.
- HtmlScripts.SaveRestore: the round trip is proved for a document with at most one script. With several scripts, an earlier placeholder replacement can change the text a later script is looked up in; what is proved for several is that the saved text holds every placeholder and no script (`HtmlScripts.SaveHidesScripts`).
- HtmlScripts.SaveHidesScripts: it requires that no two scripts can overlap. Two identical scripts fall outside it: the first str_replace replaces both, so the second placeholder never enters the text.
- HtmlTags.IndentFrom: a negative `str_repeat` count is a `NegativeRepeat` failure, as PHP 8 throws a ValueError there. Under PHP 7 str_repeat warns and returns NULL, the line goes out unindented and format still returns text; that behaviour is not modelled.
- HtmlPrinter.Format: it restores scripts with the corrected `HtmlScripts.Restore` of the Findings table, not restoreJavaScript as written. The as-written pass is `HtmlScripts.RestoreAsWritten`; on a script like `<script>\n</SCRIPT>x</script>` the two differ (`HtmlScripts.MixedCaseRestoredShort`).
- PhpPrinter.Format: it calls the corrected `PhpPrinter.FixControlStructure` of the Findings table, not fixControlStructure as written. The as-written pass is `PhpPrinter.FixControlStructureAsWritten`; on `$v ?:\n0` it drops the `0` line, which Format keeps (`PhpPrinter.ZeroLineDropped`).
- CommentScan.WrapComments: it is characterised for block comments only, with no `//` run left after their pass (`CommentScan.WrapCommentsDocBlocks`, and `CommentScan.WrapCommentsOneDocBlock` for the exact text of one block). The `//` pass is stated on its own by `CommentScan.PassEvery`.
- CommentScan.PassEvery: it requires that no block can overlap another block or any rewrap. A block that wrapping leaves unchanged falls outside it, and there the claim fails, since the rewrap still holds the block. A block written twice falls outside it too, and is not characterised.
- CommentScan.WrapCommentsDocBlocks: it states which texts are present and absent, not where each rewrap sits; with one block, `CommentScan.WrapCommentsOneDocBlock` gives the position.
- HtmlScripts.SaveRestore: it also requires that the script is not a broken empty script. Such a script is restored collapsed, which `HtmlScripts.FixOneLineInk` covers instead.
- CssPrinter.BreakLineInk: it requires every piece between commas to be non-empty. `PREG_SPLIT_NO_EMPTY` drops empty pieces, and with them the comma would be lost.
- SqlPrinter.SplitLongInk: it is stated for a line with no newline, which is what format hands it after exploding on newlines.
- SqlPrinter.FixLineInk: it is stated for a line that holds no newline once fixPhpVars has run. format's lines come from exploding on newlines, so they never hold one.
- SqlPrinter.Format: only the Finished shape is stated. The queries' content is left to `SqlPrinter.Pretty` and `SqlPrinter.FormatSingleQuery`, because the formatter is opaque.
- PhpPrinter.Format, HtmlPrinter.Format, CssPrinter.Format: Finished is stated only at the default width, because fixIndent at another width can rescale a trimmed line into one that trimExtraSpace would change.
- HtmlReflow.RequoteTagAll: it requires that no two attributes of the tag can overlap. An attribute that ends another, as `b='c'` and `ab='c'` in one tag, falls outside it, and such tags are not characterised.
- HtmlReflow.ReplaceSingleQuotesAll: it requires that no two rewritten tags, nor a tag and a rewrite, can overlap, and that no two attributes of a rewritten tag can, as `HtmlReflow.RequoteTagAll` does. A tag written twice in the text falls outside it, and so does one tag's text occurring inside another; such texts are not characterised.
- The `Ink` contracts of the markup passes say that layout alone changes. They do not pin down where each break goes, except where a lemma above says so (tag lines, quotes, empty and split tags, comment frames). The members below are stated this way:
- HtmlReflow.ReplaceEmptyTagsInk: Ink only for the whole text. What one match becomes is `HtmlReflow.EmptyTagJoins`.
- HtmlReflow.ReplaceSplitTags: Ink only for the whole text. Which matches are under 80 characters is not stated. What one match is and becomes is `HtmlReflow.SplitTagMatch` and `HtmlReflow.SplitTagShortens`.
- HtmlWrap.WrapLinesInk: Ink only. The 80-column bound of the wrapped lines is not stated.
- HtmlWrap.WrapLine: Ink only. Which of the tag and prose paths a line takes is in its body, not in its contract.
- HtmlWrap.WrapTag: Ink only. That each attribute of a long tag goes on a line of its own, on the tag's indent plus four spaces, is not stated.
- HtmlWrap.WrapProse: Ink only. That a prose line is wrapped at 80 minus its indent, with each continuation on the same indent, is not stated.
- HtmlWrap.BreakAttrs: Ink only. Where the breaks before the attributes go is not stated.
- HtmlCleanup.FixBlankLinesInk: Ink only. Which blank lines go is not stated.
- HtmlCleanup.FixPhpTal: Ink only. Which whitespace inside a reference goes is not stated.
- HtmlCleanup.CollapseRefs: Ink only. That the whitespace inside each `${…}` reference is removed is not stated.
- SqlPrinter.FixPhpVars: Ink only. `SqlPrinter.Squeeze` covers one variable.
- SqlPrinter.FixQueryInk: Ink only. `SqlPrinter.UseLineShape` covers one `USE` statement.

## Findings

| source | as written | input that shows it | evidently intended | confidence | as-written member | corrected member |
|---|---|---|---|---|---|---|
| src/HtmlPrinter.php:202 | the restore pattern for a broken one-line script is case-insensitive and unanchored, while saving matched a lower-case `</script>` | the script `<script>\n</SCRIPT>x</script>` is restored as `<script></SCRIPT>`, losing `x</script>` | collapse only a script that is its opening tag, blank space with a newline, and its closing tag, end to end | not executed | HtmlScripts.MixedCaseScriptCutShort | HtmlScripts.SaveRestore |
| src/PhpPrinter.php:107 | a line counts as blank when `!trim($line)`, which is also true for the line `0` | `$v ?:\n0` loses its second line, since the first ends in `:` | a line is blank only when it trims to the empty string | not executed | PhpPrinter.ZeroLineDropped | PhpPrinter.FixControlStructureKeeps |

=== FILE: comment_scan.dfy ===
/**
 * Finding the comments that wrapComments (src/Printer.php) rewraps, and the
 * rewrap itself. Two patterns are searched with preg_match_all:
 *
 *   `(?<=\n) *\/\*.*?\*\/ *\n` (dot matches line feeds): a block comment that
 *   starts a line and runs to the first `*\/` followed by spaces and a line
 *   feed;
 *   `(?<=\n)( *\/\/.*\n)+`: a run of whole `//` lines, the first of which
 *   starts a line.
 *
 * preg_match_all reports the leftmost match, resumes right after it, and so
 * on; every match is then replaced everywhere in the source with
 * str_replace, one after the other.
 */
module CommentScan {
  import opened Text
  import opened Outcomes
  import opened PrinterComments
  import opened Matching
  import opened Replacing

  /** The two comment patterns. */
  datatype Pattern = DocBlock | SlashRun

  /** `(?<=\n) *` then `mark` at `a`: where the mark ends. */
  function MarkAfterSpaces(s: string, a: nat, mark: string): (r: Option<nat>)
    requires a <= |s|
    ensures r.Some? ==> 0 < a < r.value <= |s| && s[a - 1] == '\n'
    ensures r.Some? ==> |mark| > 0 && OccursAt(s, mark, r.value - |mark|)
    ensures r.Some? ==> forall i :: a <= i < r.value - |mark| ==> s[i] == ' '
  {
    if a == 0 || s[a - 1] != '\n' || |mark| == 0 then None
    else
      var k := RunEnd(s, a, IsSpaceChar);
      if k + |mark| <= |s| && s[k..k + |mark|] == mark then Some(k + |mark|) else None
  }

  /** `\*\/ *\n` at `c`: where it ends. */
  function CloseEnd(s: string, c: nat): (r: Option<nat>)
    requires c <= |s|
    ensures r.Some? ==> c + 3 <= r.value <= |s| && s[c] == '*' && s[c + 1] == '/' && s[r.value - 1] == '\n'
    ensures r.Some? ==> forall i :: c + 2 <= i < r.value - 1 ==> s[i] == ' '
  {
    if c + 1 < |s| && s[c] == '*' && s[c + 1] == '/' then
      var m := RunEnd(s, c + 2, IsSpaceChar);
      if m < |s| && s[m] == '\n' then Some(m + 1) else None
    else None
  }

  /** The lazy `.*?`: the first position at or after `j` where the close matches. */
  function FirstClose(s: string, j: nat): (r: Option<nat>)
    requires j <= |s|
    ensures r.Some? ==> j <= r.value < |s| && CloseEnd(s, r.value).Some?
    ensures r.Some? ==> forall c :: j <= c < r.value ==> CloseEnd(s, c).None?
    ensures r.None? ==> forall c :: j <= c <= |s| ==> CloseEnd(s, c).None?
    decreases |s| - j
  {
    if j == |s| then None
    else if CloseEnd(s, j).Some? then Some(j)
    else FirstClose(s, j + 1)
  }

  /** ` *\/\/.*\n` at `a`: one whole `//` line; `.` stops at a line feed. */
  function SlashLineEnd(s: string, a: nat): (r: Option<nat>)
    requires a <= |s|
    ensures r.Some? ==> a + 3 <= r.value <= |s| && s[r.value - 1] == '\n'
    ensures r.Some? ==> forall i :: a <= i < r.value - 1 ==> s[i] != '\n'
  {
    var k := RunEnd(s, a, IsSpaceChar);
    if k + 1 < |s| && s[k] == '/' && s[k + 1] == '/' then
      var e := FindChar(s, '\n', k + 2);
      if e < |s| then Some(e + 1) else None
    else None
  }

  /** The greedy `( ... )+`: whole `//` lines for as long as there are any. */
  function SlashRunEnd(s: string, a: nat): (r: nat)
    requires a <= |s|
    ensures a <= r <= |s|
    ensures SlashLineEnd(s, r).None?
    ensures r == a || s[r - 1] == '\n'
    decreases |s| - a
  {
    match SlashLineEnd(s, a)
    case None => a
    case Some(e) => SlashRunEnd(s, e)
  }

  /** Where a match of the pattern that starts at `a` ends, if one does. */
  function MatchAt(p: Pattern, s: string, a: nat): (r: Option<nat>)
    requires a <= |s|
    ensures r.Some? ==> 0 < a < r.value <= |s| && s[a - 1] == '\n' && s[r.value - 1] == '\n'
  {
    match p
    case DocBlock => DocBlockAt(s, a)
    case SlashRun => SlashRunAt(s, a)
  }

  /** The block comment pattern at `a`: opening, the first close that fits, its end. */
  function DocBlockAt(s: string, a: nat): (r: Option<nat>)
    requires a <= |s|
    ensures r.Some? ==> 0 < a < r.value <= |s| && s[a - 1] == '\n' && s[r.value - 1] == '\n'
  {
    var o := MarkAfterSpaces(s, a, "/*");
    if o.None? then None
    else
      var c := FirstClose(s, o.value);
      if c.None? then None else CloseEnd(s, c.value)
  }

  /** The `//` run pattern at `a`: one whole `//` line at the start of a line, then as many more as follow. */
  function SlashRunAt(s: string, a: nat): (r: Option<nat>)
    requires a <= |s|
    ensures r.Some? ==> 0 < a < r.value <= |s| && s[a - 1] == '\n' && s[r.value - 1] == '\n'
  {
    if a == 0 || s[a - 1] != '\n' then None
    else
      var e := SlashLineEnd(s, a);
      if e.None? then None else Some(SlashRunEnd(s, e.value))
  }

  /** The pattern as a matcher that preg_match_all can drive. */
  function Finder(p: Pattern): Matcher {
    (s: string, q: nat) => if q <= |s| then MatchAt(p, s, q) else None
  }

  /** The matched texts, `$matches[0]`. */
  function Blocks(p: Pattern, s: string): (r: seq<string>)
    ensures Sound(Finder(p), s)
    ensures var m := MatchAll(Finder(p), s, 0);
            |r| == |m| && forall i :: 0 <= i < |r| ==> r[i] == s[m[i].0..m[i].1] && MatchAt(p, s, m[i].0) == Some(m[i].1)
  {
    Matches(Finder(p), s)
  }

  /** The rebuilt comment for a block of either kind. */
  function Rewrap(p: Pattern, block: string): string {
    match p
    case DocBlock => WrapMultiline(block)
    case SlashRun => WrapSingleLine(block)
  }

  /** The foreach loop: every block, in order, replaced everywhere by its rewrap. */
  function ReplaceEach(p: Pattern, s: string, blocks: seq<string>): string
    decreases |blocks|
  {
    if |blocks| == 0 then s
    else ReplaceEach(p, ReplaceAll(s, blocks[0], Rewrap(p, blocks[0])), blocks[1..])
  }

  /** One foreach loop of wrapComments: the pattern's blocks in `s`, each replaced everywhere by its rewrap. */
  function Pass(p: Pattern, s: string): string {
    ReplaceEach(p, s, Blocks(p, s))
  }

  /** wrapComments: block comments first, then runs of `//` lines in the result. */
  function WrapComments(source: string): string {
    Pass(SlashRun, Pass(DocBlock, source))
  }

  /**
   * A pass that finds a single block: str_replace puts the rewrap where the
   * block text first occurs, keeps the text before it, and rewraps any later
   * copy of the same text too; with no later copy the rest is kept as is.
   */
  lemma PassOneBlock(p: Pattern, s: string)
    requires |Blocks(p, s)| == 1
    ensures Blocks(p, s)[0] != [] && ReplacedFirst(Pass(p, s), s, Blocks(p, s)[0], Rewrap(p, Blocks(p, s)[0]))
  {
    var b := Blocks(p, s)[0];
    FirstMatchFound(Finder(p), s);
    OneReplaced(p, s, Blocks(p, s));
    ReplaceAtFirstRest(s, b, Rewrap(p, b));
  }

  /** The foreach loop over one block is one str_replace. */
  lemma OneReplaced(p: Pattern, s: string, blocks: seq<string>)
    requires |blocks| == 1
    ensures ReplaceEach(p, s, blocks) == ReplaceAll(s, blocks[0], Rewrap(p, blocks[0]))
  {
    assert blocks[1..] == [];
  }

  /**
   * A source with one block comment, whose rewrap leaves no run of `//`
   * lines: the comment is rebuilt by the multi-line wrapper in place of its
   * first occurrence, and the text before it is kept.
   */
  lemma WrapCommentsOneDocBlock(source: string)
    requires |Blocks(DocBlock, source)| == 1 && Blocks(SlashRun, Pass(DocBlock, source)) == []
    ensures Blocks(DocBlock, source)[0] != []
            && ReplacedFirst(WrapComments(source), source, Blocks(DocBlock, source)[0], WrapMultiline(Blocks(DocBlock, source)[0]))
  {
    PassOneBlock(DocBlock, source);
  }

  /** The rewrap of each block, in order. */
  function Rewraps(p: Pattern, blocks: seq<string>): (r: seq<string>)
    ensures |r| == |blocks| && forall i :: 0 <= i < |blocks| ==> r[i] == Rewrap(p, blocks[i])
  {
    MapEach(blocks, b => Rewrap(p, b))
  }

  /** The foreach loop is a chain of str_replace calls, block by rewrap. */
  lemma {:induction false} ReplaceEachChain(p: Pattern, s: string, blocks: seq<string>)
    ensures ReplaceEach(p, s, blocks) == ReplaceSeq(s, blocks, Rewraps(p, blocks))
    decreases |blocks|
  {
    if |blocks| > 0 {
      ReplaceEachChain(p, ReplaceAll(s, blocks[0], Rewrap(p, blocks[0])), blocks[1..]);
      MapEachTail(blocks, b => Rewrap(p, b));
      ReplaceSeqStep(s, blocks, Rewraps(p, blocks));
    }
  }

  /**
   * A pass replaces every block by its rewrap: the result holds each rewrap
   * and none of the blocks, when no block can overlap another block or a
   * rewrap.
   */
  lemma PassEvery(p: Pattern, s: string)
    requires Separate(Blocks(p, s), Rewraps(p, Blocks(p, s)))
    ensures forall i :: 0 <= i < |Blocks(p, s)| ==>
              Contains(Pass(p, s), Rewrap(p, Blocks(p, s)[i])) && !Contains(Pass(p, s), Blocks(p, s)[i])
  {
    var blocks := Blocks(p, s);
    ReplaceEachChain(p, s, blocks);
    forall i | 0 <= i < |blocks| ensures Contains(s, blocks[i]) {
      MatchesContained(Finder(p), s, i);
    }
    SeqSwaps(s, blocks, Rewraps(p, blocks));
  }

  /**
   * wrapComments on a source whose block comments cannot overlap each other
   * or their rewraps, and whose rewrapped text has no run of `//` lines:
   * every block comment is replaced by its multi-line rewrap.
   */
  lemma WrapCommentsDocBlocks(source: string)
    requires Separate(Blocks(DocBlock, source), Rewraps(DocBlock, Blocks(DocBlock, source)))
    requires Blocks(SlashRun, Pass(DocBlock, source)) == []
    ensures forall i :: 0 <= i < |Blocks(DocBlock, source)| ==>
              Contains(WrapComments(source), WrapMultiline(Blocks(DocBlock, source)[i]))
              && !Contains(WrapComments(source), Blocks(DocBlock, source)[i])
  {
    PassEvery(DocBlock, source);
  }

  // ------------------------------------------------------------ the patterns

  /**
   * A block comment match at `a`: spaces from the start of the line, `/\*`,
   * then the FIRST `*\/` after it that is followed by spaces and a line
   * feed; the match ends after that line feed.
   */
  lemma DocBlockParts(s: string, a: nat) returns (k: nat, c: nat)
    requires a <= |s| && DocBlockAt(s, a).Some?
    ensures var e := DocBlockAt(s, a).value;
            && 0 < a <= k && k + 2 <= c && c + 3 <= e <= |s|
            && s[a - 1] == '\n'
            && (forall i :: a <= i < k ==> s[i] == ' ')
            && s[k] == '/' && s[k + 1] == '*'
            && s[c] == '*' && s[c + 1] == '/'
            && (forall i :: c + 2 <= i < e - 1 ==> s[i] == ' ')
            && s[e - 1] == '\n'
            && (forall c' :: k + 2 <= c' < c ==> CloseEnd(s, c').None?)
  {
    var o := MarkAfterSpaces(s, a, "/*").value;
    k := o - 2;
    assert s[k..k + 2] == "/*";
    c := FirstClose(s, o).value;
  }

  /**
   * Conversely, spaces from the start of a line, `/\*`, and some later `*\/`
   * followed by spaces and a line feed make a block comment match.
   */
  lemma DocBlockFound(s: string, a: nat, k: nat, c: nat)
    requires 0 < a <= k && k + 2 <= c <= |s| && s[a - 1] == '\n'
    requires forall i :: a <= i < k ==> s[i] == ' '
    requires s[k] == '/' && s[k + 1] == '*'
    requires CloseEnd(s, c).Some?
    ensures DocBlockAt(s, a).Some?
  {
    RunEndIs(s, a, IsSpaceChar, k);
    assert s[k..k + 2] == "/*";
    assert MarkAfterSpaces(s, a, "/*") == Some(k + 2);
    assert FirstClose(s, k + 2).Some?;
  }

  /** A whole `//` line at `x`: spaces, `//`, anything up to a line feed. */
  predicate IsSlashLine(s: string, x: nat)
    requires x <= |s|
  {
    var k := RunEnd(s, x, IsSpaceChar);
    k + 1 < |s| && s[k] == '/' && s[k + 1] == '/' && FindChar(s, '\n', k + 2) < |s|
  }

  lemma SlashLineEndIs(s: string, x: nat)
    requires x <= |s|
    ensures SlashLineEnd(s, x).Some? <==> IsSlashLine(s, x)
  {
  }

  /** The greedy run from `a`: every line starting in it is a whole `//` line. */
  lemma {:induction false} SlashRunEndLines(s: string, a: nat)
    requires a <= |s|
    ensures forall x :: a <= x < SlashRunEnd(s, a) && (x == a || s[x - 1] == '\n') ==> IsSlashLine(s, x)
    decreases |s| - a
  {
    var e := SlashLineEnd(s, a);
    if e.Some? {
      SlashRunEndLines(s, e.value);
      SlashLineEndIs(s, a);
    }
  }

  /**
   * A `//` run matched at `a` and ending at `b`: it starts a line, every line
   * in it is a whole `//` line, and the line after it is not one (greedy).
   */
  lemma SlashRunParts(s: string, a: nat)
    requires a <= |s| && SlashRunAt(s, a).Some?
    ensures var b := SlashRunAt(s, a).value;
            && 0 < a < b <= |s| && s[a - 1] == '\n' && s[b - 1] == '\n'
            && (forall x :: a <= x < b && (x == a || s[x - 1] == '\n') ==> IsSlashLine(s, x))
            && !IsSlashLine(s, b)
  {
    var e := SlashLineEnd(s, a).value;
    var b := SlashRunEnd(s, e);
    SlashRunEndLines(s, e);
    SlashLineEndIs(s, a);
    SlashLineEndIs(s, b);
  }

  /** Conversely, a whole `//` line at the start of a line makes a `//` run match. */
  lemma SlashRunFound(s: string, a: nat)
    requires 0 < a <= |s| && s[a - 1] == '\n' && IsSlashLine(s, a)
    ensures SlashRunAt(s, a).Some?
  {
    SlashLineEndIs(s, a);
  }

  // --------------------------------------------------------------- the rewrap

  /** Every match of either pattern contains the pattern's opening mark. */
  lemma MatchHasMark(p: Pattern, s: string, a: nat)
    requires a <= |s| && MatchAt(p, s, a).Some?
    ensures p.DocBlock? ==> Contains(s, "/*")
    ensures p.SlashRun? ==> Contains(s, "//")
  {
    if p.DocBlock? {
      var o := MarkAfterSpaces(s, a, "/*").value;
      assert OccursAt(s, "/*", o - 2);
    } else {
      var k := RunEnd(s, a, IsSpaceChar);
      assert s[k..k + 2] == "//";
      assert OccursAt(s, "//", k);
    }
  }

  /** preg_match_all finds nothing where no match starts. */
  lemma NoBlocks(p: Pattern, s: string)
    requires forall q :: 0 <= q <= |s| ==> MatchAt(p, s, q).None?
    ensures Blocks(p, s) == []
  {
    assert NoMatchBetween(Finder(p), s, 0, |s|);
    MatchAllNone(Finder(p), s, 0);
  }

  /** Without the opening mark there is no match of the pattern. */
  lemma NoMarkNoBlocks(p: Pattern, s: string)
    requires p.DocBlock? ==> !Contains(s, "/*")
    requires p.SlashRun? ==> !Contains(s, "//")
    ensures Blocks(p, s) == []
  {
    forall q | 0 <= q <= |s| ensures MatchAt(p, s, q).None? {
      if MatchAt(p, s, q).Some? {
        MatchHasMark(p, s, q);
      }
    }
    NoBlocks(p, s);
  }

  /** A source without `/\*` and without `//` comes back unchanged. */
  lemma WrapCommentsNoComment(source: string)
    requires !Contains(source, "/*") && !Contains(source, "//")
    ensures WrapComments(source) == source
  {
    NoMarkNoBlocks(DocBlock, source);
    NoMarkNoBlocks(SlashRun, source);
  }

  /** A source on one line (no line feed) comes back unchanged: every match starts after a line feed. */
  lemma WrapCommentsOneLine(source: string)
    requires '\n' !in source
    ensures WrapComments(source) == source
  {
    forall q | 0 <= q <= |source| ensures MatchAt(DocBlock, source, q).None? {
    }
    NoBlocks(DocBlock, source);
    forall q | 0 <= q <= |source| ensures MatchAt(SlashRun, source, q).None? {
    }
    NoBlocks(SlashRun, source);
  }
}

=== FILE: comments.dfy ===
/**
 * Comment reflow of the printer base class (src/Printer.php): wrapComments
 * finds block comments (`/\*` ... `*\/`) and runs of `//` lines that start a line, and
 * rebuilds each one with wrapMultiline or wrapSingleLine. Both strip the
 * comment marks from every line, collapse whitespace, string the lines
 * together and re-wrap the text with PHP's wordwrap at its default width of
 * 75 columns; wrapMultiline also puts every `@tag` on a line of its own and
 * leaves an empty line where the tag name changes.
 */
module PrinterComments {
  import opened Text
  import opened TextWords
  import opened WordWrap
  import opened Outcomes

  /** wordwrap's default width; neither reflow passes one. */
  const CommentWidth: nat := 75

  /** A line that fits `width`, or that has no space after its first column (one word too long to break). */
  predicate FitsWidth(line: string, width: nat) {
    |line| <= width || forall k :: 0 < k < |line| ==> line[k] != ' '
  }

  predicate FitsComment(line: string) {
    FitsWidth(line, CommentWidth)
  }

  predicate IsStar(c: char) {
    c == '*'
  }

  /** No PCRE whitespace other than the plain space: what `\s+` -> ' ' leaves. */
  predicate Collapsed(s: string) {
    forall k :: 0 <= k < |s| ==> IsSpace(s[k]) ==> s[k] == ' '
  }

  // -------------------------------------------------------- wrapped lines fit

  /** wordwrap's lines fit the width, unless they are one word. */
  lemma WrapLinesFit(t: string)
    ensures LinesSatisfy(Wrap(t, CommentWidth), FitsComment)
  {
    var r := Wrap(t, CommentWidth);
    WrapFits(t, CommentWidth);
    forall a, b | IsLine(r, a, b) ensures FitsComment(r[a..b]) {
      assert Fits(r, a, b, CommentWidth);
      assert forall k :: 0 < k < b - a ==> r[a..b][k] == r[a + k];
    }
  }

  /** Trimming a text keeps its lines fitting: each line only gets shorter. */
  lemma TrimLinesFit(j: string)
    requires LinesSatisfy(j, FitsComment)
    ensures LinesSatisfy(Trim(j), FitsComment)
  {
    var r := Trim(j);
    var k := TrimStart(j);
    TrimSlice(j);
    forall a, b | IsLine(r, a, b) ensures FitsComment(r[a..b]) {
      var a', b' := EnclosingLine(j, r, k, a, b);
      FitsInner(j[a'..k + a], r[a..b], j[k + b..b']);
    }
  }

  lemma FitsInner(u: string, v: string, w: string)
    requires FitsComment(u + v + w)
    ensures FitsComment(v)
  {
    assert forall i :: 0 <= i < |v| ==> v[i] == (u + v + w)[|u| + i];
  }

  // ------------------------------------------------------ one line of comment

  /** preg_replace('~\*\/ *$~', '', line): the closing mark and the spaces after it. */
  function StripClose(line: string): (r: string)
    ensures StartsWith(line, r)
    ensures r != line ==> EndsWith(line[..|line| - SpanBack(line, IsSpaceChar)], "*/")
  {
    var m := |line| - SpanBack(line, IsSpaceChar);
    if m >= 2 && line[m - 2..m] == "*/" then line[..m - 2] else line
  }

  /** preg_replace('~^ *(\/\*+|\*)~', '', line): leading spaces and an opening slash with its stars, or one `*`. */
  function StripOpen(line: string): (r: string)
    ensures EndsWith(line, r)
  {
    var rest := line[Span(line, IsSpaceChar)..];
    if |rest| >= 2 && rest[0] == '/' && rest[1] == '*' then rest[1 + Span(rest[1..], IsStar)..]
    else if |rest| >= 1 && rest[0] == '*' then rest[1..]
    else line
  }

  /** What wrapMultiline keeps of one comment line. */
  function Body(line: string): (r: string)
    ensures Collapsed(r)
  {
    var r := Collapse(StripOpen(StripClose(line)));
    CollapseShape(StripOpen(StripClose(line)));
    r
  }

  function Bodies(lines: seq<string>): (r: seq<string>)
    ensures |r| == |lines|
    ensures forall i :: 0 <= i < |r| ==> Collapsed(r[i])
  {
    seq(|lines|, i requires 0 <= i < |lines| => Body(lines[i]))
  }

  /** preg_match('/^\s*@(\w+)/', body): the tag name a line starts with. */
  function TagOf(body: string): (r: Option<string>)
    ensures r.Some? ==> |r.value| > 0 && forall k :: 0 <= k < |r.value| ==> IsWordChar(r.value[k])
  {
    var n := Span(body, IsSpace);
    if n < |body| && body[n] == '@' && Span(body[n + 1..], IsWordChar) > 0 then
      Some(body[n + 1..n + 1 + Span(body[n + 1..], IsWordChar)])
    else None
  }

  // ------------------------------------------------------ gathering the text

  // ------------------------------------------------------------ comparing tags

  predicate IsDigit(c: char) {
    '0' <= c <= '9'
  }

  /** The value of a run of decimal digits. */
  function DigitsValue(s: string): nat
    requires forall k :: 0 <= k < |s| ==> IsDigit(s[k])
  {
    if |s| == 0 then 0
    else
      assert IsDigit(s[|s| - 1]);
      10 * DigitsValue(s[..|s| - 1]) + (s[|s| - 1] as int - '0' as int)
  }

  function Pow10(e: nat): (r: nat)
    ensures r > 0
  {
    if e == 0 then 1 else 10 * Pow10(e - 1)
  }

  /**
   * A tag PHP reads as a numeric string: digits, then optionally `e` or `E`
   * and more digits. A tag is made of word characters, so it cannot carry a
   * sign, a decimal point or surrounding whitespace, the other parts a
   * numeric string may have.
   */
  predicate NumericTag(t: string) {
    var m := Span(t, IsDigit);
    m > 0 && (m == |t| || (m + 1 < |t| && (t[m] == 'e' || t[m] == 'E') && Span(t[m + 1..], IsDigit) == |t| - m - 1))
  }

  /** The mantissa and the decimal exponent of a numeric tag. */
  function TagNumber(t: string): (r: (nat, nat))
    requires NumericTag(t)
  {
    var m := Span(t, IsDigit);
    (DigitsValue(t[..m]), if m == |t| then 0 else DigitsValue(t[m + 1..]))
  }

  /**
   * PHP's loose `==` on two tags: two numeric strings are equal when they
   * denote the same number, so `1`, `01` and `1e0` are one tag; any other
   * pair is equal when the strings are.
   */
  predicate SameTag(a: string, b: string) {
    if NumericTag(a) && NumericTag(b) then
      TagNumber(a).0 * Pow10(TagNumber(a).1) == TagNumber(b).0 * Pow10(TagNumber(b).1)
    else a == b
  }

  /** Loose equality agrees with string equality except between two numeric tags, and is symmetric. */
  lemma SameTagStrings(a: string, b: string)
    ensures a == b ==> SameTag(a, b)
    ensures SameTag(a, b) == SameTag(b, a)
    ensures !NumericTag(a) || !NumericTag(b) ==> (SameTag(a, b) <==> a == b)
  {
  }

  /** A run of digits is a numeric tag whose value is the run's value. */
  lemma PlainNumber(t: string)
    requires |t| > 0 && forall k :: 0 <= k < |t| ==> IsDigit(t[k])
    ensures NumericTag(t) && TagNumber(t) == (DigitsValue(t), 0)
  {
    assert Span(t, IsDigit) == |t|;
    assert t[..|t|] == t;
  }

  /** Digits, `e` or `E`, digits: a numeric tag with that mantissa and exponent. */
  lemma ExpNumber(a: string, e: char, b: string)
    requires |a| > 0 && forall k :: 0 <= k < |a| ==> IsDigit(a[k])
    requires |b| > 0 && forall k :: 0 <= k < |b| ==> IsDigit(b[k])
    requires e == 'e' || e == 'E'
    ensures NumericTag(a + [e] + b) && TagNumber(a + [e] + b) == (DigitsValue(a), DigitsValue(b))
  {
    var t := a + [e] + b;
    var m := Span(t, IsDigit);
    assert t[|a|] == e;
    assert m <= |a|;
    assert m == |a|;
    assert t[..m] == a && t[m + 1..] == b;
    assert Span(b, IsDigit) == |b|;
  }

  /** Tags that differ as strings but name one number are one tag: `01` and `1`, `1e1` and `10`, `0e5` and `0`, `1E2` and `100`. */
  lemma NumericTagsMeet()
    ensures SameTag("01", "1") && SameTag("1e1", "10") && SameTag("0e5", "0") && SameTag("1E2", "100")
  {
    LeadingZeroMeets();
    ExponentsMeet();
  }

  lemma LeadingZeroMeets()
    ensures SameTag("01", "1")
  {
    DigitsExamples();
    PlainNumber("1");
    PlainNumber("01");
  }

  lemma ExponentsMeet()
    ensures SameTag("1e1", "10") && SameTag("0e5", "0") && SameTag("1E2", "100")
  {
    DigitsExamples();
    PlainNumber("10");
    PlainNumber("0");
    PlainNumber("100");
    assert "1e1" == "1" + ['e'] + "1" && "0e5" == "0" + ['e'] + "5" && "1E2" == "1" + ['E'] + "2";
    ExpNumber("1", 'e', "1");
    ExpNumber("0", 'e', "5");
    ExpNumber("1", 'E', "2");
    assert Pow10(1) == 10 && Pow10(2) == 100;
  }

  /** `1e` is not a numeric string, so it differs from `1`; so do `1` and `2`, and `a` and `A`. */
  lemma NumericTagsDiffer()
    ensures !SameTag("1e", "1") && !SameTag("2", "1") && !SameTag("a", "A")
  {
    DigitsExamples();
    PlainNumber("1");
    PlainNumber("2");
    assert Span("1e", IsDigit) == 1;
  }

  lemma DigitsExamples()
    ensures DigitsValue("0") == 0 && DigitsValue("1") == 1 && DigitsValue("2") == 2 && DigitsValue("5") == 5
    ensures DigitsValue("01") == 1 && DigitsValue("10") == 10 && DigitsValue("100") == 100
  {
    assert "0"[..0] == "1"[..0] == "2"[..0] == "5"[..0] == "";
    assert "01"[..1] == "0" && "10"[..1] == "1" && "100"[..2] == "10";
  }

  lemma TagOfExamples()
    ensures TagOf("@01 b") == Some("01") && TagOf("@2 b") == Some("2")
  {
    assert Span("@01 b", IsSpace) == 0 && "@01 b"[1..] == "01 b";
    assert Span("01 b", IsWordChar) == 2 && "@01 b"[1..3] == "01";
    assert Span("@2 b", IsSpace) == 0 && "@2 b"[1..] == "2 b";
    assert Span("2 b", IsWordChar) == 1 && "@2 b"[1..2] == "2";
  }

  /**
   * After `@1 a`, a line `@01 b` opens the same tag and gets one line feed;
   * a line `@2 b` opens another and gets two.
   */
  lemma SeparatorNumericTags()
    ensures Separator("a ", "1", "@01 b") == "\n"
    ensures Separator("a ", "1", "@2 b") == "\n\n"
  {
    TagOfExamples();
    LeadingZeroMeets();
    NumericTagsDiffer();
    assert Truthy("a ");
  }

  /**
   * The loop of wrapMultiline that builds `$text`: every line trimmed and
   * followed by a space; a tag line preceded by a line feed, and by a second
   * one when the text so far is non-empty and the tag differs from the last
   * under PHP's loose comparison.
   */
  function Gather(bodies: seq<string>, text: string, prevTag: string): string
    decreases |bodies|
  {
    if |bodies| == 0 then text
    else
      var (t, tag) := AddLine(text, prevTag, bodies[0]);
      Gather(bodies[1..], t, tag)
  }

  /** One turn of the loop: the text and the previous tag after line `b`. */
  function AddLine(text: string, prevTag: string, b: string): (string, string) {
    (text + (Separator(text, prevTag, b) + (Trim(b) + " ")), NextTag(prevTag, b))
  }

  /** The line feeds the loop appends before line `b`: two when `$text` is true and the tag changes. */
  function Separator(text: string, prevTag: string, b: string): string {
    match TagOf(b)
    case None => ""
    case Some(tag) => if Truthy(text) && !SameTag(tag, prevTag) then "\n\n" else "\n"
  }

  /** `$prevTag` after line `b`. */
  function NextTag(prevTag: string, b: string): string {
    match TagOf(b)
    case None => prevTag
    case Some(tag) => tag
  }

  /** The tag of the last tag line, or "" when there is none. */
  function LastTag(bodies: seq<string>): string {
    if |bodies| == 0 then ""
    else match TagOf(bodies[|bodies| - 1])
      case None => LastTag(bodies[..|bodies| - 1])
      case Some(tag) => tag
  }

  /** The line feeds put before line `i`: one before a tag, two when the tag changes after the first line. */
  function Break(bodies: seq<string>, i: nat): (r: string)
    requires i < |bodies|
    ensures forall k :: 0 <= k < |r| ==> r[k] == '\n'
    ensures TagOf(bodies[i]).Some? <==> |r| > 0
  {
    match TagOf(bodies[i])
    case None => ""
    case Some(tag) => if i > 0 && !SameTag(tag, LastTag(bodies[..i])) then "\n\n" else "\n"
  }

  /** What line `i` contributes to the text. */
  function Piece(bodies: seq<string>, i: nat): string
    requires i < |bodies|
  {
    Break(bodies, i) + (Trim(bodies[i]) + " ")
  }

  /** The pieces of all lines, in order. */
  function Parts(bodies: seq<string>): (r: seq<string>)
    ensures |r| == |bodies|
    ensures forall i :: 0 <= i < |r| ==> r[i] == Piece(bodies, i)
  {
    seq(|bodies|, i requires 0 <= i < |bodies| => Piece(bodies, i))
  }

  /** Pieces end with a space; so does a non-empty run of them. */
  lemma {:induction false} PartsEnd(parts: seq<string>)
    requires |parts| > 0
    requires forall i :: 0 <= i < |parts| ==> |parts[i]| > 0 && parts[i][|parts[i]| - 1] == ' '
    ensures |Concat(parts)| > 0 && Concat(parts)[|Concat(parts)| - 1] == ' '
    decreases |parts|
  {
    if |parts| > 1 {
      PartsEnd(parts[1..]);
    }
  }

  /**
   * The gathering loop builds exactly the pieces of the lines: the PHP
   * truthiness test on the text so far is the test "this is not the first
   * line", and the previous tag is the tag of the last tag line before.
   */
  lemma {:induction false} GatherPieces(bodies: seq<string>, i: nat, text: string)
    requires i <= |bodies|
    requires text == Concat(Parts(bodies)[..i])
    ensures Gather(bodies[i..], text, LastTag(bodies[..i])) == Concat(Parts(bodies))
    decreases |bodies| - i
  {
    var parts := Parts(bodies);
    if i == |bodies| {
      assert bodies[..i] == bodies;
      assert parts[..i] == parts;
    } else {
      PartsTruthy(bodies, i);
      GatherStep(bodies, i, text);
      ConcatSnoc(parts, i);
      var t' := text + Piece(bodies, i);
      GatherPieces(bodies, i + 1, t');
    }
  }

  /** One turn of the gathering loop appends the line's piece. */
  lemma GatherStep(bodies: seq<string>, i: nat, text: string)
    requires i < |bodies|
    requires Truthy(text) <==> i > 0
    ensures Gather(bodies[i..], text, LastTag(bodies[..i]))
            == Gather(bodies[i + 1..], text + Piece(bodies, i), LastTag(bodies[..i + 1]))
  {
    var rest := bodies[i..];
    assert rest[0] == bodies[i] && rest[1..] == bodies[i + 1..];
    AddLinePiece(bodies, i, text);
  }

  /** The loop's step appends the piece of the line and moves the previous tag on. */
  lemma AddLinePiece(bodies: seq<string>, i: nat, text: string)
    requires i < |bodies|
    requires Truthy(text) <==> i > 0
    ensures AddLine(text, LastTag(bodies[..i]), bodies[i]) == (text + Piece(bodies, i), LastTag(bodies[..i + 1]))
  {
    var prefix := bodies[..i + 1];
    assert prefix[..i] == bodies[..i];
    assert prefix[i] == bodies[i];
  }

  /** The text so far is true in PHP's sense exactly when some line was added. */
  lemma PartsTruthy(bodies: seq<string>, i: nat)
    requires i <= |bodies|
    ensures Truthy(Concat(Parts(bodies)[..i])) <==> i > 0
  {
    var parts := Parts(bodies)[..i];
    if i > 0 {
      forall k | 0 <= k < |parts| ensures |parts[k]| > 0 && parts[k][|parts[k]| - 1] == ' ' {
        assert parts[k] == Piece(bodies, k);
      }
      PartsEnd(parts);
      EndsWithSpaceTruthy(Concat(parts));
    } else {
      assert parts == [];
    }
  }

  lemma EndsWithSpaceTruthy(s: string)
    requires |s| > 0 && s[|s| - 1] == ' '
    ensures Truthy(s)
  {
  }

  /** The words of the pieces are the words of the lines. */
  lemma WordsParts(bodies: seq<string>, i: nat)
    requires i <= |bodies|
    ensures Words(Concat(Parts(bodies)[..i])) == WordsOfLines(bodies[..i])
  {
    var parts := Parts(bodies)[..i];
    forall k | 0 <= k < |parts|
      ensures |parts[k]| > 0 && IsBlank(parts[k][|parts[k]| - 1])
      ensures Words(parts[k]) == Words(bodies[..i][k])
    {
      WordsPiece(bodies, k);
    }
    WordsConcat(parts);
    WordsOfLinesPointwise(parts, bodies[..i]);
  }

  /** A piece holds the words of its line and ends with a space. */
  lemma WordsPiece(bodies: seq<string>, i: nat)
    requires i < |bodies|
    ensures Words(Piece(bodies, i)) == Words(bodies[i])
    ensures |Piece(bodies, i)| > 0 && IsBlank(Piece(bodies, i)[|Piece(bodies, i)| - 1])
  {
    var br, t := Break(bodies, i), Trim(bodies[i]);
    WordsBlankPrefix(br, t + " ");
    WordsBlankSuffix(t, " ");
    WordsTrim(bodies[i]);
  }

  // ------------------------------------------------------------- the reflow

  /** trim(wordwrap($text)) for the gathered text of the lines. */
  function Reflow(bodies: seq<string>): (r: string)
    ensures Words(r) == WordsOfLines(bodies)
    ensures LinesSatisfy(r, FitsComment)
    ensures r == [] || (!IsTrimChar(r[0]) && !IsTrimChar(r[|r| - 1]))
  {
    var text := Gather(bodies, "", "");
    var w := Wrap(text, CommentWidth);
    ReflowFacts(bodies, text, w);
    Trim(w)
  }

  lemma ReflowFacts(bodies: seq<string>, text: string, w: string)
    requires text == Gather(bodies, "", "") && w == Wrap(text, CommentWidth)
    ensures Words(Trim(w)) == WordsOfLines(bodies)
    ensures LinesSatisfy(Trim(w), FitsComment)
  {
    GatherText(bodies);
    WordsParts(bodies, |bodies|);
    assert bodies[..|bodies|] == bodies;
    assert Parts(bodies)[..|bodies|] == Parts(bodies);
    WrapWords(text, CommentWidth);
    WordsTrim(w);
    WrapLinesFit(text);
    TrimLinesFit(w);
  }

  /** wordwrap only turns spaces into line feeds, so the words stay the same. */
  lemma WrapWords(t: string, width: int)
    ensures Words(Wrap(t, width)) == Words(t)
  {
    WordsSameInk(t, Wrap(t, width));
  }

  /**
   * Every `@tag` line starts a line of the reflowed text: its `@` comes right
   * after a line feed (or first), preceded by the words of the earlier lines
   * and nothing else. When the tag differs from the previous one and some
   * words came before, the line before it is empty.
   */
  lemma ReflowTagStartsLine(bodies: seq<string>, i: nat) returns (p: nat)
    requires i < |bodies| && TagOf(bodies[i]).Some?
    requires Collapsed(bodies[i])
    ensures p < |Reflow(bodies)| && Reflow(bodies)[p] == '@'
    ensures p == 0 || Reflow(bodies)[p - 1] == '\n'
    ensures Words(Reflow(bodies)[..p]) == WordsOfLines(bodies[..i])
    ensures i > 0 && !SameTag(TagOf(bodies[i]).value, LastTag(bodies[..i])) && WordsOfLines(bodies[..i]) != []
            ==> p >= 2 && Reflow(bodies)[p - 2] == '\n'
  {
    var text := Gather(bodies, "", "");
    GatherText(bodies);
    TagInText(bodies, i);
    WordsBeforeTagInText(bodies, i);
    var q := TagOffset(bodies, i);
    if i > 0 && !SameTag(TagOf(bodies[i]).value, LastTag(bodies[..i])) {
      TagAfterEmptyLine(bodies, i);
    }
    var w := Wrap(text, CommentWidth);
    WordsSameInk(text[..q], w[..q]);
    p := LineStartKept(w, q);
  }

  /** Where the `@` of line `i` sits in the gathered text: after the earlier pieces and the line's line feeds. */
  function TagOffset(bodies: seq<string>, i: nat): nat
    requires i < |bodies|
  {
    |Concat(Parts(bodies)[..i])| + |Break(bodies, i)|
  }

  /** In the gathered text, the `@` of line `i` follows a line feed. */
  lemma TagInText(bodies: seq<string>, i: nat)
    requires i < |bodies| && TagOf(bodies[i]).Some?
    requires Collapsed(bodies[i])
    ensures var text, q := Concat(Parts(bodies)), TagOffset(bodies, i);
            0 < q < |text| && text[q] == '@' && text[q - 1] == '\n'
  {
    var parts := Parts(bodies);
    PieceSplit(bodies, i);
    TrimTagLine(bodies[i]);
    TagJoint(Concat(parts), Concat(parts[..i]), Break(bodies, i), Trim(bodies[i]), Concat(parts[i + 1..]));
  }

  /** In the gathered text, only the words of the earlier lines come before the `@` of line `i`. */
  lemma WordsBeforeTagInText(bodies: seq<string>, i: nat)
    requires i < |bodies| && TagOf(bodies[i]).Some?
    requires Collapsed(bodies[i])
    ensures var text, q := Concat(Parts(bodies)), TagOffset(bodies, i);
            q <= |text| && Words(text[..q]) == WordsOfLines(bodies[..i])
  {
    PrefixBeforeTag(bodies, i);
    WordsBeforeTag(bodies, i);
  }

  /** The gathered text up to the `@` of line `i`: the earlier pieces and the line feeds. */
  lemma PrefixBeforeTag(bodies: seq<string>, i: nat)
    requires i < |bodies| && TagOf(bodies[i]).Some?
    requires Collapsed(bodies[i])
    ensures TagOffset(bodies, i) <= |Concat(Parts(bodies))|
    ensures Concat(Parts(bodies))[..TagOffset(bodies, i)] == Concat(Parts(bodies)[..i]) + Break(bodies, i)
  {
    var parts := Parts(bodies);
    var pre, br, t, rest := Concat(parts[..i]), Break(bodies, i), Trim(bodies[i]), Concat(parts[i + 1..]);
    assert Concat(parts) == pre + (br + (t + " ")) + rest by { PieceSplit(bodies, i); }
    assert |br| > 0 && br[|br| - 1] == '\n';
    assert |t| > 0 && t[0] == '@' by { TrimTagLine(bodies[i]); }
    TagJoint(Concat(parts), pre, br, t, rest);
    assert TagOffset(bodies, i) == |pre| + |br|;
  }

  /** When the tag changes after the first line, the `@` of line `i` follows an empty line. */
  lemma TagAfterEmptyLine(bodies: seq<string>, i: nat)
    requires 0 < i < |bodies| && TagOf(bodies[i]).Some?
    requires !SameTag(TagOf(bodies[i]).value, LastTag(bodies[..i]))
    requires Collapsed(bodies[i])
    ensures var text, q := Concat(Parts(bodies)), TagOffset(bodies, i);
            2 <= q < |text| && text[q - 2] == '\n'
  {
    var parts := Parts(bodies);
    PieceSplit(bodies, i);
    TrimTagLine(bodies[i]);
    assert Break(bodies, i) == "\n\n";
    TagJoint(Concat(parts), Concat(parts[..i]), Break(bodies, i), Trim(bodies[i]), Concat(parts[i + 1..]));
  }

  /** The gathered text cut around the piece of line `i`. */
  lemma PieceSplit(bodies: seq<string>, i: nat)
    requires i < |bodies|
    ensures Concat(Parts(bodies))
            == Concat(Parts(bodies)[..i]) + (Break(bodies, i) + (Trim(bodies[i]) + " ")) + Concat(Parts(bodies)[i + 1..])
  {
    ConcatSplitAt(Parts(bodies), i);
  }

  /** The `@` right after the line feeds of a piece, and what comes before it. */
  lemma TagJoint(text: string, pre: string, br: string, t: string, rest: string)
    requires text == pre + (br + (t + " ")) + rest
    requires |br| > 0 && br[|br| - 1] == '\n' && |t| > 0 && t[0] == '@'
    ensures var q := |pre| + |br|;
            && 0 < q < |text|
            && text[q] == '@' && text[q - 1] == '\n'
            && text[..q] == pre + br
            && (|br| >= 2 ==> text[q - 2] == br[|br| - 2])
  {
    assert text[..|pre| + |br|] == pre + br;
  }

  /** The words before the line feeds of line `i` are the words of the earlier lines. */
  lemma WordsBeforeTag(bodies: seq<string>, i: nat)
    requires i < |bodies|
    ensures Words(Concat(Parts(bodies)[..i]) + Break(bodies, i)) == WordsOfLines(bodies[..i])
  {
    WordsParts(bodies, i);
    WordsBlankSuffix(Concat(Parts(bodies)[..i]), Break(bodies, i));
  }

  /** The gathered text is the concatenation of the pieces. */
  lemma GatherText(bodies: seq<string>)
    ensures Gather(bodies, "", "") == Concat(Parts(bodies))
  {
    var parts := Parts(bodies);
    assert bodies[0..] == bodies;
    assert bodies[..0] == [];
    assert parts[..0] == [];
    GatherPieces(bodies, 0, "");
  }

  /**
   * A non-blank character of the wrapped text that starts a line, with the
   * words before it, keeps both once the text is trimmed; so does an empty
   * line just before it when some word comes earlier.
   */
  lemma LineStartKept(w: string, q: nat) returns (p: nat)
    requires 0 < q < |w| && IsInk(w[q]) && w[q - 1] == '\n'
    ensures p < |Trim(w)| && Trim(w)[p] == w[q]
    ensures p == 0 || Trim(w)[p - 1] == '\n'
    ensures Words(Trim(w)[..p]) == Words(w[..q])
    ensures q >= 2 && w[q - 2] == '\n' && Words(w[..q]) != [] ==> p >= 2 && Trim(w)[p - 2] == '\n'
  {
    var k, r := TrimStart(w), Trim(w);
    TrimKeeps(w, q);
    p := q - k;
    assert r[p] == w[q];
    if p > 0 {
      assert r[p - 1] == w[q - 1];
    }
    assert Words(r[..p]) == Words(w[..q]) by {
      assert r[..p] == w[k..q];
      WordsBlankPrefix(w[..k], w[k..q]);
    }
    if q >= 2 && w[q - 2] == '\n' && Words(w[..q]) != [] {
      assert k <= q - 2 by {
        EmptyLineKept(w, k, q);
      }
      assert r[p - 2] == w[q - 2];
    }
  }

  /** A position holding a non-trim character survives trimming, with what lies between it and the start. */
  lemma TrimKeeps(w: string, q: nat)
    requires q < |w| && !IsTrimChar(w[q])
    ensures TrimStart(w) <= q < TrimStart(w) + |Trim(w)|
    ensures forall x :: TrimStart(w) <= x < TrimStart(w) + |Trim(w)| ==> Trim(w)[x - TrimStart(w)] == w[x]
    ensures Trim(w)[..q - TrimStart(w)] == w[TrimStart(w)..q]
    ensures w[..q] == w[..TrimStart(w)] + w[TrimStart(w)..q]
  {
    var r, k := Trim(w), TrimStart(w);
    TrimSlice(w);
    assert k <= q < k + |r|;
    SliceOf(w, r, k, 0, |r|);
    SliceOf(w, r, k, 0, q - k);
  }

  /** Two line feeds before a position with some word earlier: trimming keeps both. */
  lemma EmptyLineKept(w: string, k: nat, q: nat)
    requires 2 <= q <= |w| && k <= q
    requires w[q - 1] == '\n' && w[q - 2] == '\n'
    requires forall x :: 0 <= x < k ==> IsTrimChar(w[x])
    requires Words(w[..q]) != []
    ensures k <= q - 2
  {
    if k > q - 2 {
      var v := w[..q];
      forall x | 0 <= x < q ensures IsBlank(v[x]) {
        assert v[x] == w[x];
      }
      WordsAllBlank(v);
    }
  }

  /** Some word lies in `w[..q]` at or after where trimming starts, so position `q` is kept. */
  lemma InkBeforeTrim(w: string, r: string, k: nat, q: nat)
    requires OccursAt(w, r, k) && q <= |w|
    requires forall x :: 0 <= x < k ==> IsTrimChar(w[x])
    requires Words(w[..q]) != []
    ensures k <= q
  {
    if q < k {
      assert forall x :: 0 <= x < q ==> IsBlank(w[..q][x]);
      WordsAllBlank(w[..q]);
    }
  }

  /** A collapsed tag line trims to a line starting with its `@`. */
  lemma TrimTagLine(b: string)
    requires TagOf(b).Some? && Collapsed(b)
    ensures |Trim(b)| > 0 && Trim(b)[0] == '@'
  {
    var n := Span(b, IsSpace);
    assert forall x :: 0 <= x < n ==> IsTrimChar(b[x]);
    assert b[n] == '@';
    var l := LTrim(b);
    assert Span(b, IsTrimChar) == n by {
      SpanTrimOf(b, n);
    }
    assert l == b[n..];
    assert RTrim(l)[0] == '@' by {
      assert RTrim(l) == l[..|RTrim(l)|];
      assert |RTrim(l)| > 0;
    }
  }

  lemma SpanTrimOf(s: string, n: nat)
    requires n < |s| && !IsTrimChar(s[n])
    requires forall x :: 0 <= x < n ==> IsTrimChar(s[x])
    ensures Span(s, IsTrimChar) == n
  {
  }

  // ---------------------------------------------------------- wrapMultiline

  /**
   * The indentation before a comment mark on the first line of a block:
   * `^( *)(/\*+)` with `mark == '*'`, `^( *)//` with `mark == '/'`. When the
   * pattern does not match, PHP's missing group reads as "".
   */
  function MarkIndent(first: string, mark: char): (r: string)
    ensures AllSpaces(r) && StartsWith(first, r)
    ensures |r| > 0 ==> |r| + 1 < |first| && first[|r|] == '/' && first[|r| + 1] == mark
  {
    var n := Span(first, IsSpaceChar);
    if n + 1 < |first| && first[n] == '/' && first[n + 1] == mark then first[..n] else ""
  }

  /** The docblock around the wrapped lines: `/\**`, one ` * ` line each, ` *\/`. */
  function Framed(indent: string, lines: seq<string>): string {
    if |lines| == 1 then indent + "/** " + lines[0] + " */\n"
    else indent + "/**\n" + StarLines(indent, lines) + indent + " */\n"
  }

  function StarLines(indent: string, lines: seq<string>): string {
    if |lines| == 0 then "" else indent + " * " + Trim(lines[0]) + "\n" + StarLines(indent, lines[1..])
  }

  /**
   * wrapMultiline: the block rebuilt as a docblock at the indentation of its
   * opening line, around the reflowed text of its lines.
   */
  function WrapMultiline(block: string): (r: string)
    ensures StartsWith(r, MarkIndent(Split(RTrim(block), '\n')[0], '*') + "/**")
    ensures EndsWith(r, " */\n")
  {
    var lines := Split(RTrim(block), '\n');
    var r := Framed(MarkIndent(lines[0], '*'), Split(Reflow(Bodies(lines)), '\n'));
    FramedEnds(MarkIndent(lines[0], '*'), Split(Reflow(Bodies(lines)), '\n'));
    r
  }

  /** A docblock opens with the indent and `/\**` and closes with ` *\/` and a line feed. */
  lemma FramedEnds(indent: string, lines: seq<string>)
    requires |lines| > 0
    ensures StartsWith(Framed(indent, lines), indent + "/**")
    ensures EndsWith(Framed(indent, lines), " */\n")
  {
    var open, close := indent + "/**", " */\n";
    var mid := if |lines| == 1 then " " + lines[0] else "\n" + StarLines(indent, lines) + indent;
    assert Framed(indent, lines) == open + mid + close by {
      if |lines| == 1 {
        assert indent + "/** " == open + " ";
        AppendAssoc(open, " ", lines[0]);
      } else {
        assert indent + "/**\n" == open + "\n";
        AppendAssoc(open, "\n", StarLines(indent, lines));
        AppendAssoc(open, "\n" + StarLines(indent, lines), indent);
      }
    }
    Affixes(open, mid, close);
  }

  /**
   * The shape of wrapMultiline's result, line by line: one wrapped line gives
   * `indent/\** line *\/`; more give `indent/\**`, one `indent * line` per
   * wrapped line and `indent *\/`.
   */
  lemma WrapMultilineShape(block: string)
    ensures var lines := Split(RTrim(block), '\n');
            FramedShape(MarkIndent(lines[0], '*'), Split(Reflow(Bodies(lines)), '\n'), Split(WrapMultiline(block), '\n'))
  {
    var lines := Split(RTrim(block), '\n');
    FramedSplit(MarkIndent(lines[0], '*'), Split(Reflow(Bodies(lines)), '\n'));
  }

  /** `out`, the lines of a docblock, frames the wrapped lines. */
  predicate FramedShape(indent: string, wrapped: seq<string>, out: seq<string>) {
    && (|wrapped| == 1 ==> out == [indent + "/** " + wrapped[0] + " */", ""])
    && (|wrapped| > 1 ==>
          && |out| == |wrapped| + 3
          && out[0] == indent + "/**"
          && (forall i :: 0 <= i < |wrapped| ==> out[i + 1] == indent + " * " + Trim(wrapped[i]))
          && out[|wrapped| + 1] == indent + " */"
          && out[|wrapped| + 2] == "")
  }

  lemma FramedSplit(indent: string, wrapped: seq<string>)
    requires AllSpaces(indent)
    requires forall i :: 0 <= i < |wrapped| ==> '\n' !in wrapped[i]
    ensures FramedShape(indent, wrapped, Split(Framed(indent, wrapped), '\n'))
  {
    if |wrapped| == 1 {
      FramedOne(indent, wrapped[0]);
      assert [wrapped[0]] == wrapped;
    } else if |wrapped| > 1 {
      FramedLines(indent, wrapped);
    }
  }

  /** The star lines, read back line by line. */
  lemma {:induction false} StarLinesSplit(indent: string, lines: seq<string>)
    requires '\n' !in indent
    requires forall i :: 0 <= i < |lines| ==> '\n' !in lines[i]
    ensures |Split(StarLines(indent, lines) + "x", '\n')| == |lines| + 1
    ensures forall i :: 0 <= i < |lines| ==> Split(StarLines(indent, lines) + "x", '\n')[i] == indent + " * " + Trim(lines[i])
    ensures Split(StarLines(indent, lines) + "x", '\n')[|lines|] == "x"
    decreases |lines|
  {
    if |lines| == 0 {
      assert StarLines(indent, lines) + "x" == "x";
      assert Split("x", '\n') == ["x"] by { assert IndexOf("x", '\n') == 1; }
    } else {
      StarLinesSplit(indent, lines[1..]);
      StarLinesSplitCons(indent, lines);
    }
  }

  /** StarLinesSplit for a first line, from the same facts about the others. */
  lemma StarLinesSplitCons(indent: string, lines: seq<string>)
    requires '\n' !in indent && |lines| > 0 && '\n' !in lines[0]
    requires var r := Split(StarLines(indent, lines[1..]) + "x", '\n');
      && |r| == |lines| && r[|lines| - 1] == "x"
      && forall i :: 0 <= i < |lines| - 1 ==> r[i] == indent + " * " + Trim(lines[i + 1])
    ensures var r := Split(StarLines(indent, lines) + "x", '\n');
      && |r| == |lines| + 1 && r[|lines|] == "x"
      && forall i :: 0 <= i < |lines| ==> r[i] == indent + " * " + Trim(lines[i])
  {
    var head := indent + " * " + Trim(lines[0]);
    var rest := StarLines(indent, lines[1..]) + "x";
    assert '\n' !in head by {
      TrimNoNewline(lines[0]);
    }
    assert StarLines(indent, lines) + "x" == head + ['\n'] + rest by {
      assert StarLines(indent, lines) == head + "\n" + StarLines(indent, lines[1..]);
    }
    SplitAfter(head, rest);
  }

  lemma TrimNoNewline(s: string)
    requires '\n' !in s
    ensures '\n' !in Trim(s)
  {
    var r := Trim(s);
    var k := TrimStart(s);
    TrimSlice(s);
    assert forall x :: 0 <= x < |r| ==> r[x] == s[k + x];
  }

  /** Splitting a line, a line feed and the rest gives the line, then the rest's pieces. */
  lemma SplitAfter(head: string, rest: string)
    requires '\n' !in head
    ensures Split(head + ['\n'] + rest, '\n') == [head] + Split(rest, '\n')
  {
    var s := head + ['\n'] + rest;
    IndexOfPrefix(head, '\n', rest);
    assert s[..|head|] == head;
    assert s[|head| + 1..] == rest;
  }

  /**
   * The shape of wrapMultiline's result, line by line: with one wrapped line,
   * `indent/\** line *\/`; otherwise `indent/\**`, one `indent * line` per
   * wrapped line (trimmed), and `indent *\/`; every line ends with a line feed.
   */
  lemma {:induction false} FramedLines(indent: string, lines: seq<string>)
    requires AllSpaces(indent)
    requires |lines| > 1
    requires forall i :: 0 <= i < |lines| ==> '\n' !in lines[i]
    ensures var out := Split(Framed(indent, lines), '\n');
            && |out| == |lines| + 3
            && out[0] == indent + "/**"
            && (forall i :: 0 <= i < |lines| ==> out[i + 1] == indent + " * " + Trim(lines[i]))
            && out[|lines| + 1] == indent + " */"
            && out[|lines| + 2] == ""
  {
    var x := indent + " */\n";
    assert '\n' !in indent by { assert forall k :: 0 <= k < |indent| ==> indent[k] == ' '; }
    var body := StarLines(indent, lines);
    assert Framed(indent, lines) == (indent + "/**") + ['\n'] + (body + x);
    SplitAfter(indent + "/**", body + x);
    StarLinesTail(indent, lines, x);
  }

  /** The star lines followed by the closing line, read back line by line. */
  lemma {:induction false} StarLinesTail(indent: string, lines: seq<string>, x: string)
    requires '\n' !in indent
    requires x == indent + " */\n"
    requires forall i :: 0 <= i < |lines| ==> '\n' !in lines[i]
    ensures |Split(StarLines(indent, lines) + x, '\n')| == |lines| + 2
    ensures forall i :: 0 <= i < |lines| ==> Split(StarLines(indent, lines) + x, '\n')[i] == indent + " * " + Trim(lines[i])
    ensures Split(StarLines(indent, lines) + x, '\n')[|lines|] == indent + " */"
    ensures Split(StarLines(indent, lines) + x, '\n')[|lines| + 1] == ""
    decreases |lines|
  {
    if |lines| == 0 {
      assert StarLines(indent, lines) + x == (indent + " */") + ['\n'] + "";
      SplitAfter(indent + " */", "");
      assert Split("", '\n') == [""];
    } else {
      var head := indent + " * " + Trim(lines[0]);
      TrimNoNewline(lines[0]);
      var rest := StarLines(indent, lines[1..]) + x;
      assert Split(StarLines(indent, lines) + x, '\n') == [head] + Split(rest, '\n') by {
        assert StarLines(indent, lines) + x == head + ['\n'] + rest;
        SplitAfter(head, rest);
      }
      StarLinesTail(indent, lines[1..], x);
      ConsIndex([head], Split(rest, '\n'), |lines|);
      ConsIndex([head], Split(rest, '\n'), |lines| + 1);
    }
  }

  /** An element past the head of a sequence is the element of its tail. */
  lemma ConsIndex<T>(h: seq<T>, t: seq<T>, k: nat)
    requires |h| <= k < |h| + |t|
    ensures (h + t)[k] == t[k - |h|]
  {
  }

  /** A single wrapped line goes on one line between the marks. */
  lemma FramedOne(indent: string, line: string)
    requires AllSpaces(indent) && '\n' !in line
    ensures Split(Framed(indent, [line]), '\n') == [indent + "/** " + line + " */", ""]
  {
    assert '\n' !in indent by { assert forall k :: 0 <= k < |indent| ==> indent[k] == ' '; }
    assert Framed(indent, [line]) == (indent + "/** " + line + " */") + ['\n'] + "";
    SplitAfter(indent + "/** " + line + " */", "");
    assert Split("", '\n') == [""];
  }

  /**
   * wrapMultiline keeps the words of the comment (the lines without their
   * comment marks) in order, and each wrapped line fits 75 columns or is a
   * single word.
   */
  lemma WrapMultilineWords(block: string)
    ensures var lines := Split(RTrim(block), '\n');
            var wrapped := Split(Reflow(Bodies(lines)), '\n');
            && WordsOfLines(wrapped) == WordsOfLines(Bodies(lines))
            && forall i :: 0 <= i < |wrapped| ==> FitsComment(wrapped[i])
  {
    ReflowedLines(Bodies(Split(RTrim(block), '\n')));
  }

  /** The lines of a reflowed text hold its words, and each fits. */
  lemma ReflowedLines(bodies: seq<string>)
    ensures WordsOfLines(Split(Reflow(bodies), '\n')) == WordsOfLines(bodies)
    ensures forall i :: 0 <= i < |Split(Reflow(bodies), '\n')| ==> FitsComment(Split(Reflow(bodies), '\n')[i])
  {
    var r := Reflow(bodies);
    WordsSplit(r);
    SplitLinesSatisfy(r, FitsComment);
  }

  /** The words of a text are the words of its lines. */
  lemma {:induction false} WordsSplit(s: string)
    ensures WordsOfLines(Split(s, '\n')) == Words(s)
    decreases |s|
  {
    var k := IndexOf(s, '\n');
    if k == |s| {
      assert s[..k] == s;
      assert Split(s, '\n') == [s];
      assert WordsOfLines([s][1..]) == [];
    } else {
      var t := s[k + 1..];
      assert s == s[..k] + ['\n'] + t;
      assert Split(s, '\n') == [s[..k]] + Split(t, '\n');
      assert ([s[..k]] + Split(t, '\n'))[1..] == Split(t, '\n');
      WordsSplit(t);
      WordsConcatBlank(s[..k], '\n', t);
    }
  }

  // --------------------------------------------------------- wrapSingleLine

  /** preg_replace('~^ *\/\/~', '', line). */
  function StripSlashes(line: string): (r: string)
    ensures EndsWith(line, r)
  {
    var n := Span(line, IsSpaceChar);
    if n + 1 < |line| && line[n] == '/' && line[n + 1] == '/' then line[n + 2..] else line
  }

  /** What wrapSingleLine keeps of each line: no slashes, whitespace collapsed. */
  function SlashBodies(lines: seq<string>): (r: seq<string>)
    ensures |r| == |lines|
    ensures forall i :: 0 <= i < |r| ==> r[i] == Collapse(StripSlashes(lines[i]))
  {
    seq(|lines|, i requires 0 <= i < |lines| => Collapse(StripSlashes(lines[i])))
  }

  /** The text wrapSingleLine gathers: each line trimmed, then a space. */
  function PlainText(bodies: seq<string>): string {
    if |bodies| == 0 then "" else Trim(bodies[0]) + " " + PlainText(bodies[1..])
  }

  function SlashLines(indent: string, lines: seq<string>): string {
    if |lines| == 0 then "" else indent + "// " + lines[0] + "\n" + SlashLines(indent, lines[1..])
  }

  /** wrapSingleLine: each wrapped line of the gathered text behind the first line's indent and `// `. */
  function WrapSingleLine(block: string): (r: string)
    ensures StartsWith(r, MarkIndent(Split(block, '\n')[0], '/') + "// ")
    ensures EndsWith(r, "\n")
  {
    var lines := Split(block, '\n');
    var wrapped := Split(Trim(Wrap(PlainText(SlashBodies(lines)), CommentWidth)), '\n');
    SlashLinesEnds(MarkIndent(lines[0], '/'), wrapped);
    SlashLines(MarkIndent(lines[0], '/'), wrapped)
  }

  lemma {:induction false} SlashLinesEnds(indent: string, lines: seq<string>)
    requires |lines| > 0
    ensures StartsWith(SlashLines(indent, lines), indent + "// ")
    ensures EndsWith(SlashLines(indent, lines), "\n")
    decreases |lines|
  {
    var head := indent + "// ";
    var rest := SlashLines(indent, lines[1..]);
    var f := head + (lines[0] + "\n" + rest);
    assert SlashLines(indent, lines) == f;
    assert f[..|head|] == head;
    if |lines| > 1 {
      SlashLinesEnds(indent, lines[1..]);
    } else {
      assert rest == [];
    }
  }

  /** The words of the gathered text are the words of the lines. */
  lemma {:induction false} WordsPlainText(bodies: seq<string>)
    ensures Words(PlainText(bodies)) == WordsOfLines(bodies)
    decreases |bodies|
  {
    if |bodies| > 0 {
      var t := Trim(bodies[0]);
      WordsPlainText(bodies[1..]);
      WordsConcatAfterBlank(t + " ", PlainText(bodies[1..]));
      WordsBlankSuffix(t, " ");
      WordsTrim(bodies[0]);
    }
  }

  /** Every line of wrapSingleLine's result is the first line's indent, `// `, and a wrapped line. */
  lemma {:induction false} SlashLinesSplit(indent: string, lines: seq<string>)
    requires AllSpaces(indent)
    requires forall i :: 0 <= i < |lines| ==> '\n' !in lines[i]
    ensures |Split(SlashLines(indent, lines), '\n')| == |lines| + 1
    ensures forall i :: 0 <= i < |lines| ==> Split(SlashLines(indent, lines), '\n')[i] == indent + "// " + lines[i]
    ensures Split(SlashLines(indent, lines), '\n')[|lines|] == ""
    decreases |lines|
  {
    assert '\n' !in indent by { assert forall k :: 0 <= k < |indent| ==> indent[k] == ' '; }
    if |lines| == 0 {
      assert Split("", '\n') == [""];
    } else {
      SlashLinesSplit(indent, lines[1..]);
      SlashLinesSplitCons(indent, lines);
    }
  }

  /** SlashLinesSplit for a first line, from the same facts about the others. */
  lemma SlashLinesSplitCons(indent: string, lines: seq<string>)
    requires '\n' !in indent && |lines| > 0 && '\n' !in lines[0]
    requires var r := Split(SlashLines(indent, lines[1..]), '\n');
      && |r| == |lines| && r[|lines| - 1] == ""
      && forall i :: 0 <= i < |lines| - 1 ==> r[i] == indent + "// " + lines[i + 1]
    ensures var r := Split(SlashLines(indent, lines), '\n');
      && |r| == |lines| + 1 && r[|lines|] == ""
      && forall i :: 0 <= i < |lines| ==> r[i] == indent + "// " + lines[i]
  {
    var head := indent + "// " + lines[0];
    var rest := SlashLines(indent, lines[1..]);
    assert '\n' !in head by {
      assert '\n' !in "// ";
      NotInParts('\n', indent, "// ");
      NotInParts('\n', indent + "// ", lines[0]);
    }
    assert SlashLines(indent, lines) == head + ['\n'] + rest;
    SplitAfter(head, rest);
  }

  /**
   * wrapSingleLine: each output line is the first line's indent, `// ` and
   * one wrapped line; the wrapped lines hold the words of the comment
   * without its slashes, in order, and fit 75 columns unless one word.
   */
  lemma WrapSingleLineShape(block: string)
    ensures var lines := Split(block, '\n');
            var wrapped := Split(Trim(Wrap(PlainText(SlashBodies(lines)), CommentWidth)), '\n');
            var out := Split(WrapSingleLine(block), '\n');
            && |out| == |wrapped| + 1
            && (forall i :: 0 <= i < |wrapped| ==> out[i] == MarkIndent(lines[0], '/') + "// " + wrapped[i])
            && out[|wrapped|] == ""
            && WordsOfLines(wrapped) == WordsOfLines(SlashBodies(lines))
            && (forall i :: 0 <= i < |wrapped| ==> FitsComment(wrapped[i]))
  {
    var lines := Split(block, '\n');
    var text := PlainText(SlashBodies(lines));
    var t := Trim(Wrap(text, CommentWidth));
    SlashLinesSplit(MarkIndent(lines[0], '/'), Split(t, '\n'));
    WordsSplit(t);
    WordsTrim(Wrap(text, CommentWidth));
    WrapWords(text, CommentWidth);
    WordsPlainText(SlashBodies(lines));
    WrapLinesFit(text);
    TrimLinesFit(Wrap(text, CommentWidth));
    SplitLinesSatisfy(t, FitsComment);
  }
}

=== FILE: css_printer.dfy ===
/**
 * CssPrinter (src/CssPrinter.php). format splits the source around the
 * comments that stand between rules, passes those through untouched, checks
 * that every other part is a whole number of blocks, has the two CSS
 * libraries render it, breaks lines longer than 80 characters at their
 * commas, and ends with the clean-ups every printer shares.
 *
 * The two libraries (csstidy and Sabberworm) are outside the model: their
 * combined rendering is the parameter `render`. Comments are written
 * slash-star ... star-slash in the prose below.
 */
module CssPrinter {
  import opened Text
  import opened Outcomes
  import opened Matching
  import Printer

  // --------------------------------------------------------------- comments

  // The comment pattern with the s flag: from a slash-star to the first
  // star-slash after it, line feeds included.
  function CommentAt(s: string, q: nat): (r: Option<nat>)
    ensures r.Some? ==> q + 4 <= r.value <= |s| && OccursAt(s, "/*", q) && OccursAt(s, "*/", r.value - 2)
  {
    if !OccursAt(s, "/*", q) then None
    else
      var k := Find(s, "*/", q + 2);
      if k.Some? then Some(k.value + 2) else None
  }

  lemma CommentSound(s: string)
    ensures Sound(CommentAt, s)
  {
  }

  /**
   * The parts format walks through: preg_split around the comments, keeping
   * the comments and dropping empty pieces. Together they are the source.
   */
  function Parts(source: string): (parts: seq<string>)
    ensures Concat(parts) == source
    ensures forall i :: 0 <= i < |parts| ==> |parts[i]| > 0
  {
    CommentSound(source);
    SplitKeepParts(CommentAt, source);
    NonEmptyConcatenation(SplitKeep(CommentAt, source));
    NonEmpty(SplitKeep(CommentAt, source))
  }

  // A part whose first two characters open a comment: format passes it
  // through untouched, whether or not the comment is ever closed.
  predicate IsCommentPart(part: string) {
    StartsWith(part, "/*")
  }

  /** Every comment preg_match_all finds between the rules is one of the parts. */
  lemma {:induction false} CommentsAreParts(source: string, i: nat)
    requires Sound(CommentAt, source)
    requires i < |MatchAll(CommentAt, source, 0)|
    ensures var c := MatchAll(CommentAt, source, 0)[i];
            source[c.0..c.1] in Parts(source) && IsCommentPart(source[c.0..c.1])
  {
    var ms := MatchAll(CommentAt, source, 0);
    var r := SplitKeep(CommentAt, source);
    SplitKeepParts(CommentAt, source);
    var t := source[ms[i].0..ms[i].1];
    assert r[2 * i + 1] == t;
    assert t[..2] == "/*";
    NonEmptyKeeps(r, 2 * i + 1);
  }

  /** PREG_SPLIT_NO_EMPTY keeps every non-empty piece. */
  lemma {:induction false} NonEmptyKeeps(ls: seq<string>, j: nat)
    requires j < |ls| && |ls[j]| > 0
    ensures ls[j] in NonEmpty(ls)
    decreases j
  {
    if j > 0 {
      NonEmptyKeeps(ls[1..], j - 1);
      assert ls == [ls[0]] + ls[1..];
      NonEmptyConcat([ls[0]], ls[1..]);
    } else {
      assert ls == [ls[0]] + ls[1..];
      NonEmptyConcat([ls[0]], ls[1..]);
    }
  }

  // ------------------------------------------------------------- checkBlock

  /** The message of the exception checkBlock throws. */
  const CommentInBlock := "Comment found inside CSS block"

  /** `[{}]`. */
  function BraceAt(s: string, q: nat): (r: Option<nat>)
    ensures r.Some? ==> q < r.value <= |s|
  {
    if q < |s| && (s[q] == '{' || s[q] == '}') then Some(q + 1) else None
  }

  lemma BraceSound(s: string)
    ensures Sound(BraceAt, s)
  {
  }

  /** How many times `c` occurs in `s`. */
  function CountChar(s: string, c: char): nat {
    if |s| == 0 then 0 else (if s[0] == c then 1 else 0) + CountChar(s[1..], c)
  }

  /** How many of the matched texts are `t`: the `$counts[$match]++` loop. */
  function Tally(ts: seq<string>, t: string): nat {
    if |ts| == 0 then 0 else (if ts[0] == t then 1 else 0) + Tally(ts[1..], t)
  }

  /** The texts of preg_match_all's matches from `a` on, `$matches[0]`. */
  function MatchedFrom(m: Matcher, s: string, a: nat): seq<string>
    requires a <= |s| && Sound(m, s)
    decreases |s| - a
  {
    if a == |s| then []
    else
      var o := m(s, a);
      if o.Some? then [s[a..o.value]] + MatchedFrom(m, s, o.value)
      else MatchedFrom(m, s, a + 1)
  }

  /** Tallying the `[{}]` matches counts the brace in the text. */
  lemma {:induction false} BraceTally(s: string, a: nat, c: char)
    requires a <= |s| && (c == '{' || c == '}')
    ensures Tally(MatchedFrom(BraceAt, s, a), [c]) == CountChar(s[a..], c)
    decreases |s| - a
  {
    if a < |s| {
      BraceTally(s, a + 1, c);
      var rest := MatchedFrom(BraceAt, s, a + 1);
      assert s[a..][1..] == s[a + 1..];
      if s[a] == '{' || s[a] == '}' {
        var ts := [s[a..a + 1]] + rest;
        assert MatchedFrom(BraceAt, s, a) == ts;
        assert ts[1..] == rest;
        assert s[a..a + 1] == [s[a]];
      }
    }
  }

  /**
   * CssPrinter::checkBlock: a part of the source outside the comments must
   * open as many blocks as it closes, or a comment was cut out of the
   * middle of a rule and format throws.
   */
  function CheckBlock(block: string): (r: Result<()>)
    ensures r.Success? <==> CountChar(block, '{') == CountChar(block, '}')
    ensures r.Failure? ==> r.error == CommentInBlock
  {
    BraceSound(block);
    var ts := MatchedFrom(BraceAt, block, 0);
    BraceTally(block, 0, '{');
    BraceTally(block, 0, '}');
    assert block[0..] == block;
    if Tally(ts, "{") != Tally(ts, "}") then Failure(CommentInBlock) else Success(())
  }

  // --------------------------------------------------------- breakLongLines

  /** The width past which a line is broken at its commas. */
  const MaxLine: nat := 80

  /** `,\s+`. */
  function CommaBreakAt(s: string, q: nat): (r: Option<nat>)
    ensures r.Some? ==> q + 2 <= r.value <= |s|
  {
    if q + 1 < |s| && s[q] == ',' && IsSpace(s[q + 1]) then Some(RunEnd(s, q + 1, IsSpace)) else None
  }

  lemma CommaSound(s: string)
    ensures Sound(CommaBreakAt, s)
  {
  }

  /** preg_split('/,\s+/', $line, -1, PREG_SPLIT_NO_EMPTY). */
  function CommaPieces(line: string): seq<string> {
    CommaSound(line);
    NonEmpty(Evens(SplitKeep(CommaBreakAt, line)))
  }

  /**
   * One line of breakLongLines: a line longer than 80 characters is cut at
   * every comma followed by whitespace, and each piece after the first goes
   * on a line of its own, four columns deeper than the line was.
   */
  function BreakLine(line: string): string {
    if |line| <= MaxLine then line
    else Join(CommaPieces(line), ",\n" + IndentOf(line) + "    ")
  }

  /** CssPrinter::breakLongLines. */
  function BreakLongLines(source: string): string {
    var lines := Split(source, '\n');
    Join(seq(|lines|, i requires 0 <= i < |lines| => BreakLine(lines[i])), "\n")
  }

  /** Where no line is longer than 80 characters, breakLongLines changes nothing. */
  lemma BreakLongLinesShort(source: string)
    requires forall i :: 0 <= i < |Split(source, '\n')| ==> |Split(source, '\n')[i]| <= MaxLine
    ensures BreakLongLines(source) == source
  {
    var lines := Split(source, '\n');
    assert seq(|lines|, i requires 0 <= i < |lines| => BreakLine(lines[i])) == lines;
  }

  /**
   * The lines one source line becomes under breakLongLines: itself when it
   * is at most 80 characters long; otherwise its comma pieces, one per line,
   * every piece but the last followed by its comma and every piece but the
   * first after the line's indentation and four more spaces.
   */
  function BrokenLines(line: string): (r: seq<string>)
    ensures |r| > 0
  {
    if |line| <= MaxLine then [line]
    else if CommaPieces(line) == [] then [""]
    else SepLines(CommaPieces(line), ",", IndentOf(line) + "    ", "")
  }

  /** The lines a source line becomes, for each line, in order. */
  function BrokenEach(lines: seq<string>): (r: seq<seq<string>>)
    ensures |r| == |lines| && forall i :: 0 <= i < |lines| ==> r[i] == BrokenLines(lines[i])
  {
    seq(|lines|, i requires 0 <= i < |lines| => BrokenLines(lines[i]))
  }

  /** The text of breakLongLines is, line by line, the lines each source line becomes, whatever its neighbours. */
  lemma BreakLongLinesLines(source: string)
    ensures Split(BreakLongLines(source), '\n') == Flatten(BrokenEach(Split(source, '\n')))
  {
    var lines := Split(source, '\n');
    var ys := seq(|lines|, i requires 0 <= i < |lines| => BreakLine(lines[i]));
    SplitJoinAll(ys, '\n');
    forall i | 0 <= i < |lines|
      ensures SplitEach(ys, '\n')[i] == BrokenEach(lines)[i]
    {
      BreakLineLines(lines[i]);
    }
    assert SplitEach(ys, '\n') == BrokenEach(lines);
  }

  /** A line without a line feed is broken into exactly the lines BrokenLines gives. */
  lemma BreakLineLines(line: string)
    requires '\n' !in line
    ensures Split(BreakLine(line), '\n') == BrokenLines(line)
  {
    if |line| <= MaxLine {
      SplitJoin([line], '\n');
      assert Join([line], "\n") == line;
    } else if CommaPieces(line) == [] {
      SplitJoin([""], '\n');
      assert BreakLine(line) == Join([""], "\n");
    } else {
      BreakPiecesLines(line);
    }
  }

  lemma BreakPiecesLines(line: string)
    requires '\n' !in line && |line| > MaxLine && CommaPieces(line) != []
    ensures Split(BreakLine(line), '\n') == SepLines(CommaPieces(line), ",", IndentOf(line) + "    ", "")
  {
    var pieces := CommaPieces(line);
    var lead := IndentOf(line) + "    ";
    JoinAsLines(pieces, ",", lead, "");
    var ls := SepLines(pieces, ",", lead, "");
    assert ",\n" + IndentOf(line) + "    " == "," + "\n" + lead;
    assert BreakLine(line) == Join(pieces, "," + "\n" + lead);
    assert BreakLine(line) == Join(ls, "\n");
    CommaPiecesFree(line);
    assert IndentOf(line) == line[..IndentEnd(line)];
    assert '\n' !in lead;
    SepLinesFree(pieces, ",", lead, "", '\n');
    SplitJoin(ls, '\n');
  }

  lemma CommaPiecesFree(line: string)
    requires '\n' !in line
    ensures forall k :: 0 <= k < |CommaPieces(line)| ==> '\n' !in CommaPieces(line)[k]
  {
    CommaSound(line);
    SplitKeepParts(CommaBreakAt, line);
    var r := SplitKeep(CommaBreakAt, line);
    NotInConcat(r, '\n');
    var e := Evens(r);
    assert forall x :: x in e ==> '\n' !in x;
    NonEmptyFrom(e);
    forall k | 0 <= k < |CommaPieces(line)|
      ensures '\n' !in CommaPieces(line)[k]
    {
      assert CommaPieces(line)[k] in e;
    }
  }

  /** A long line with no comma followed by whitespace is left as it is. */
  lemma BreakLineNoComma(line: string)
    requires NoMatchBetween(CommaBreakAt, line, 0, |line|)
    ensures BreakLine(line) == line
  {
    CommaSound(line);
    SplitKeepParts(CommaBreakAt, line);
    MatchAllNone(CommaBreakAt, line, 0);
    var r := SplitKeep(CommaBreakAt, line);
    assert |r| == 1 && r[1..] == [];
    assert Concat(r) == r[0];
    assert Evens(r)[0] == r[0];
    assert Evens(r) == [line];
    if |line| > 0 {
      assert NonEmpty([line]) == [line] + NonEmpty([]);
    }
  }

  /**
   * Joining the even pieces with a separator of the same ink as each odd
   * piece gives the ink of the whole sequence.
   */
  lemma {:induction false} JoinEvensInk(r: seq<string>, sep: string)
    requires |r| % 2 == 1
    requires forall i :: 0 <= i < |r| && i % 2 == 1 ==> Ink(r[i]) == Ink(sep)
    ensures Ink(Join(Evens(r), sep)) == Ink(Concat(r))
    decreases |r|
  {
    if |r| == 1 {
      assert Evens(r) == [r[0]];
      assert r[1..] == [];
      assert Concat(r) == r[0];
    } else {
      var t := r[2..];
      forall i | 0 <= i < |t| && i % 2 == 1 ensures Ink(t[i]) == Ink(sep) {
        assert t[i] == r[i + 2];
      }
      JoinEvensInk(t, sep);
      var e := Evens(t);
      assert Evens(r) == [r[0]] + e;
      assert ([r[0]] + e)[1..] == e;
      assert Join(Evens(r), sep) == r[0] + sep + Join(e, sep);
      assert r[1..][1..] == t;
      assert Concat(r) == r[0] + r[1] + Concat(t);
      InkThree(r[0], sep, Join(e, sep));
      InkThree(r[0], r[1], Concat(t));
    }
  }

  /** What `,\s+` matches has the ink of a single comma. */
  lemma CommaInk(s: string, q: nat, e: nat)
    requires CommaBreakAt(s, q) == Some(e)
    ensures Ink(s[q..e]) == ","
  {
    assert s[q..e] == [','] + s[q + 1..e];
    FilterConcat([','], s[q + 1..e], IsInk);
    FilterNone(s[q + 1..e], IsInk);
  }

  /** Without empty pieces, NO_EMPTY drops nothing. */
  lemma {:induction false} NonEmptyAll(ls: seq<string>)
    requires forall i :: 0 <= i < |ls| ==> |ls[i]| > 0
    ensures NonEmpty(ls) == ls
    decreases |ls|
  {
    if |ls| > 0 {
      NonEmptyAll(ls[1..]);
    }
  }

  /** The separator breakLongLines joins with has the ink of one comma. */
  lemma SeparatorInk(line: string)
    ensures Ink(",\n" + IndentOf(line) + "    ") == ","
  {
    var ws := IndentOf(line);
    assert ",\n" + ws + "    " == [','] + ("\n" + ws + "    ");
    FilterConcat([','], "\n" + ws + "    ", IsInk);
    InkThree("\n", ws, "    ");
    FilterNone("    ", IsInk);
  }

  /** Every delimiter preg_split finds in a line has the ink of one comma. */
  lemma DelimitersInk(line: string)
    ensures var r := SplitKeep(CommaBreakAt, line);
            |r| % 2 == 1 && forall i :: 0 <= i < |r| && i % 2 == 1 ==> Ink(r[i]) == ","
  {
    var r := SplitKeep(CommaBreakAt, line);
    assert |r| % 2 == 1 by {
      CommaSound(line);
      SplitKeepParts(CommaBreakAt, line);
    }
    forall i | 0 <= i < |r| && i % 2 == 1 ensures Ink(r[i]) == "," {
      DelimiterInk(line, i / 2);
    }
  }

  /** The delimiter at odd position `2 * j + 1` of the split has the ink of one comma. */
  lemma DelimiterInk(line: string, j: nat)
    requires 2 * j + 1 < |SplitKeep(CommaBreakAt, line)|
    ensures Ink(SplitKeep(CommaBreakAt, line)[2 * j + 1]) == ","
  {
    var r := SplitKeep(CommaBreakAt, line);
    var ms := MatchAll(CommaBreakAt, line, 0);
    CommaSound(line);
    SplitKeepParts(CommaBreakAt, line);
    MatchInk(line, ms, j, r[2 * j + 1]);
  }

  /** The text of the `j`-th comma-and-whitespace match has the ink of one comma. */
  lemma MatchInk(line: string, ms: seq<(nat, nat)>, j: nat, t: string)
    requires ms == MatchAll(CommaBreakAt, line, 0) && j < |ms|
    requires ms[j].0 <= ms[j].1 <= |line| && t == line[ms[j].0..ms[j].1]
    ensures Ink(t) == ","
  {
    assert CommaBreakAt(line, ms[j].0) == Some(ms[j].1);
    CommaInk(line, ms[j].0, ms[j].1);
  }

  /**
   * Breaking a line moves whitespace only, provided no comma-and-whitespace
   * run starts the line, ends it, or follows another directly: those leave
   * an empty piece, which PREG_SPLIT_NO_EMPTY drops along with its comma.
   */
  lemma BreakLineInk(line: string)
    requires forall i :: 0 <= i < |Evens(SplitKeep(CommaBreakAt, line))| ==> |Evens(SplitKeep(CommaBreakAt, line))[i]| > 0
    ensures Ink(BreakLine(line)) == Ink(line)
  {
    if |line| > MaxLine {
      var r := SplitKeep(CommaBreakAt, line);
      var sep := ",\n" + IndentOf(line) + "    ";
      SplitKeepParts(CommaBreakAt, line);
      NonEmptyAll(Evens(r));
      DelimitersInk(line);
      SeparatorInk(line);
      JoinEvensInk(r, sep);
    }
  }

  // ----------------------------------------------------------------- format

  /** A part other than a comment opens as many blocks as it closes. */
  predicate Balanced(part: string) {
    CountChar(part, '{') == CountChar(part, '}')
  }

  /**
   * The loop of format over the parts, before the shared clean-ups: a
   * comment part is copied with a line feed after it; any other part is
   * checked, rendered, has its long lines broken and is trimmed, and is
   * followed by a blank line. The first unbalanced part throws.
   */
  function Emit(parts: seq<string>, render: string -> string): (r: Result<string>)
    ensures r.Success? <==> forall i :: 0 <= i < |parts| && !IsCommentPart(parts[i]) ==> Balanced(parts[i])
    ensures r.Failure? ==> r.error == CommentInBlock
    decreases |parts|
  {
    if |parts| == 0 then Success("")
    else
      var rest := Emit(parts[1..], render);
      assert forall i :: 1 <= i < |parts| ==> parts[i] == parts[1..][i - 1];
      if IsCommentPart(parts[0]) then
        if rest.Failure? then rest else Success(parts[0] + "\n" + rest.value)
      else
        var checked := CheckBlock(parts[0]);
        if checked.Failure? then Failure(checked.error)
        else if rest.Failure? then rest
        else Success(Trim(BreakLongLines(render(parts[0]))) + "\n\n" + rest.value)
  }

  /** What format writes for one part: a comment and a line feed, or the rendered block and a blank line. */
  function EmitPiece(part: string, render: string -> string): (r: string)
    ensures IsCommentPart(part) ==> r == part + "\n"
  {
    if IsCommentPart(part) then part + "\n" else Trim(BreakLongLines(render(part))) + "\n\n"
  }

  /** When format does not throw, its text is the pieces of the parts, one after the other, in order. */
  lemma {:induction false} EmitInOrder(parts: seq<string>, render: string -> string)
    requires Emit(parts, render).Success?
    ensures Emit(parts, render).value == Concat(MapEach(parts, p => EmitPiece(p, render)))
    decreases |parts|
  {
    if |parts| > 0 {
      EmitInOrder(parts[1..], render);
      ConcatMapEach(parts, p => EmitPiece(p, render));
    }
  }

  /**
   * Every comment part reaches format's text verbatim, followed by a line
   * feed, right after what the parts before it became, whatever the
   * renderer does.
   */
  lemma EmitKeepsComments(parts: seq<string>, render: string -> string, i: nat)
    requires Emit(parts, render).Success?
    requires i < |parts| && IsCommentPart(parts[i])
    ensures OccursAt(Emit(parts, render).value, parts[i] + "\n", |Concat(MapEach(parts[..i], p => EmitPiece(p, render)))|)
  {
    var f := p => EmitPiece(p, render);
    var ps := MapEach(parts, f);
    EmitInOrder(parts, render);
    PiecePlaced(ps, i);
    assert ps[..i] == MapEach(parts[..i], f);
  }

  /**
   * CssPrinter::format. It throws exactly when a part between comments does
   * not balance its braces; otherwise the result went through the shared
   * clean-ups.
   */
  function Format(source: string, indent: nat, render: string -> string): (r: Result<string>)
    ensures r.Success? <==> forall i :: 0 <= i < |Parts(source)| && !IsCommentPart(Parts(source)[i]) ==> Balanced(Parts(source)[i])
    ensures r.Failure? ==> r.error == CommentInBlock
    ensures r.Success? && indent == Printer.DefaultIndent ==> Printer.Finished(r.value)
  {
    var pretty := Emit(Parts(source), render);
    if pretty.Failure? then pretty else Success(Printer.Finish(pretty.value, indent))
  }

  /** A source that is one comment from end to end is one part. */
  lemma PartsCommentOnly(source: string)
    requires CommentAt(source, 0) == Some(|source|)
    ensures Parts(source) == [source]
  {
    CommentSound(source);
    var n := |source|;
    assert source[n..] == [];
    assert SplitFrom(CommentAt, source, n, n) == [[]];
    assert SplitKeep(CommentAt, source) == [source[0..0], source[0..n]] + [[]];
    assert source[0..n] == source;
    var r := ["", source, ""];
    assert SplitKeep(CommentAt, source) == r;
    assert r[1..] == [source, ""];
    assert r[1..][1..] == [""];
    assert NonEmpty([""]) == [];
    assert NonEmpty(r[1..]) == [source] + NonEmpty([""]);
    assert NonEmpty(r) == NonEmpty(r[1..]);
  }

  /** Such a source is passed through with a line feed after it, whatever the renderer does. */
  lemma EmitCommentOnly(source: string, render: string -> string)
    requires CommentAt(source, 0) == Some(|source|)
    ensures Emit(Parts(source), render) == Success(source + "\n")
  {
    PartsCommentOnly(source);
    assert source[..2] == "/*";
    assert IsCommentPart(source);
    assert [source][1..] == [];
    assert Emit([source][1..], render) == Success("");
    assert Emit([source], render) == Success(source + "\n" + "");
    assert source + "\n" + "" == source + "\n";
  }
}

=== FILE: html_cleanup.dfy ===
/**
 * The last two markup passes of the HTML printer (src/HtmlPrinter.php):
 * fixBlankLines squeezes every stretch of blank lines to a single line
 * break and then puts an empty line after each line that is just a closing
 * tag; fixPhpTal collapses the whitespace inside PHPTAL `${…}` references.
 */
module HtmlCleanup {
  import opened Text
  import opened Outcomes
  import opened Matching
  import opened TextWords

  // ------------------------------------------------------------ blank lines

  /**
   * `\n+\s*\n+`: everything in it is whitespace, and it ends on a line feed;
   * from a line feed the greedy parts take the whole run of whitespace and
   * give back down to its last line feed. So it matches at a line feed whose
   * run of whitespace holds another one, and ends right after the last.
   */
  function BlankRunAt(s: string, q: nat): (r: Option<nat>)
    ensures r.Some? ==> q < r.value <= |s|
    ensures r.Some? ==> forall k :: q <= k < r.value ==> IsSpace(s[k])
  {
    if q >= |s| || s[q] != '\n' then None
    else
      var last := LastNewline(s, q + 1, RunEnd(s, q, IsSpace));
      if last.None? then None else Some(last.value + 1)
  }

  /**
   * `^</[^>]+>$` in multi-line mode: `</` at the start of a line, then up to
   * the first `>`, which must end a line. As in PCRE, `[^>]+` also runs over
   * line feeds, so a match can span several lines.
   */
  function CloserLineAt(s: string, q: nat): (r: Option<nat>)
    ensures r.Some? ==> q < r.value <= |s|
  {
    if !((q == 0 || (q <= |s| && s[q - 1] == '\n')) && OccursAt(s, "</", q)) then None
    else
      var g := FindChar(s, '>', q + 2);
      if g == q + 2 || g == |s| || (g + 1 < |s| && s[g + 1] != '\n') then None
      else Some(g + 1)
  }

  lemma CleanupPatternsSound(s: string)
    ensures Sound(BlankRunAt, s) && Sound(CloserLineAt, s)
  {
  }

  function OneNewline(t: string): string {
    "\n"
  }

  function AppendNewline(t: string): string {
    t + "\n"
  }

  /** The first replacement: every stretch of blank lines becomes one line break. */
  function SqueezeBlankLines(s: string): string {
    CleanupPatternsSound(s);
    Replace(BlankRunAt, OneNewline, s)
  }

  /** The second replacement: `\0` followed by a line feed. */
  function SpaceAfterClosers(s: string): string {
    CleanupPatternsSound(s);
    Replace(CloserLineAt, AppendNewline, s)
  }

  /** fixBlankLines. */
  function FixBlankLines(s: string): string {
    SpaceAfterClosers(SqueezeBlankLines(s))
  }

  /** Both replacements only add or drop line feeds and whitespace: the ink is unchanged. */
  lemma FixBlankLinesInk(s: string)
    ensures Ink(FixBlankLines(s)) == Ink(s)
  {
    var t := SqueezeBlankLines(s);
    CleanupPatternsSound(s);
    CleanupPatternsSound(t);
    forall q: nat | BlankRunAt(s, q).Some?
      ensures Filter(OneNewline(s[q..BlankRunAt(s, q).value]), IsInk) == Filter(s[q..BlankRunAt(s, q).value], IsInk)
    {
      FilterNone(s[q..BlankRunAt(s, q).value], IsInk);
    }
    SubstituteFilter(BlankRunAt, OneNewline, s, 0, IsInk);
    forall u: string ensures Filter(AppendNewline(u), IsInk) == Filter(u, IsInk) {
      FilterConcat(u, "\n", IsInk);
    }
    SubstituteFilter(CloserLineAt, AppendNewline, t, 0, IsInk);
    assert s[0..] == s && t[0..] == t;
  }

  // ------------------------------------------------------------ PHPTAL references

  /** `\${.*?}` with dot matching line feeds: `${` up to the first `}`. */
  function RefAt(s: string, q: nat): (r: Option<nat>)
    ensures r.Some? ==> q < r.value <= |s|
  {
    if !OccursAt(s, "${", q) then None
    else
      var k := FindChar(s, '}', q + 2);
      if k == |s| then None else Some(k + 1)
  }

  lemma RefSound(s: string)
    ensures Sound(RefAt, s)
  {
  }

  /** The loop over the references of the original text, each collapsed in the text as it stands. */
  function CollapseRefs(s: string, refs: seq<string>): (r: string)
    ensures Ink(r) == Ink(s)
    decreases |refs|
  {
    if |refs| == 0 then s
    else
      var newRef := Collapse(refs[0]);
      CollapseShape(refs[0]);
      ReplaceAllFilter(s, refs[0], newRef, IsInk);
      CollapseRefs(if refs[0] != newRef then ReplaceAll(s, refs[0], newRef) else s, refs[1..])
  }

  /** fixPhpTal: only whitespace inside references changes, so the ink is unchanged. */
  function FixPhpTal(s: string): (r: string)
    ensures Ink(r) == Ink(s)
  {
    RefSound(s);
    CollapseRefs(s, Matches(RefAt, s))
  }

  /** A text without a `${` reference comes back unchanged. */
  lemma FixPhpTalNoRef(s: string)
    requires forall k :: 0 <= k < |s| ==> !OccursAt(s, "${", k)
    ensures FixPhpTal(s) == s
  {
    RefSound(s);
    MatchAllNone(RefAt, s, 0);
  }
}

=== FILE: html_printer.dfy ===
/**
 * HtmlPrinter::format (src/HtmlPrinter.php): the text tidy produced,
 * trimmed, has its scripts saved, every tag put on a line of its own, is
 * indented by tag depth and run through the markup passes in order, gets
 * its scripts back, and ends with the two clean-ups every printer shares.
 *
 * Running tidy itself is not modelled: the function starts from tidy's
 * output.
 */
module HtmlPrinter {
  import opened Text
  import opened Outcomes
  import Printer
  import HtmlScripts
  import HtmlTags
  import HtmlReflow
  import HtmlWrap
  import HtmlCleanup

  /** The markup passes after indentation, in the order format runs them. */
  function Passes(indented: string): string {
    var a := HtmlReflow.ReplaceEmptyTags(indented);
    var b := HtmlReflow.ReplaceSingleQuotes(a);
    var c := HtmlReflow.ReplaceSplitTags(b);
    var d := HtmlWrap.WrapLines(c);
    var e := HtmlCleanup.FixBlankLines(d);
    HtmlCleanup.FixPhpTal(e)
  }

  /** The text indentTags is handed: scripts swapped out, tags on lines of their own. */
  function Exploded(tidied: string): string {
    HtmlTags.ExplodeTags(HtmlScripts.Save(Trim(tidied)).0)
  }

  /**
   * format, from tidy's output. It fails where indentTags does: when more
   * tags have been closed than opened at some line, str_repeat is asked for
   * a negative count.
   */
  function Format(tidied: string, indent: nat): (r: Result<string>)
    ensures r.Success? <==> HtmlTags.NeverNegative(HtmlTags.TagLines(Exploded(tidied)), 0, HtmlTags.Net)
    ensures r.Success? && indent == Printer.DefaultIndent ==> Printer.Finished(r.value)
  {
    var saved := HtmlScripts.Save(Trim(tidied));
    var exploded := HtmlTags.ExplodeTags(saved.0);
    HtmlTags.IndentTagsLayout(exploded);
    var indented := HtmlTags.IndentTags(exploded);
    if indented.Failure? then Failure(indented.error)
    else Success(Printer.Finish(HtmlScripts.Restore(Passes(indented.value), saved.1), indent))
  }
}

=== FILE: html_reflow.dfy ===
/**
 * Three markup passes of the HTML printer (src/HtmlPrinter.php) that rewrite
 * tags after indentation: replaceEmptyTags drops the whitespace inside an
 * empty element, replaceSingleQuotes turns single-quoted attribute values
 * into double-quoted ones, and replaceSplitTags joins a short element whose
 * text was put on a line of its own back onto one line.
 *
 * Each pattern is written as an anchored matcher (see Matching); the
 * comment on each says how the backtracking of the pattern was resolved.
 */
module HtmlReflow {
  import opened Text
  import opened Outcomes
  import opened Matching
  import opened Replacing

  // ------------------------------------------------------------ empty tags

  /** The closing tag for the name `s[q + 1..n]`. */
  function CloserFor(s: string, q: nat, n: nat): (r: string)
    requires q + 1 <= n <= |s|
    ensures |r| == n - q + 2
  {
    "</" + s[q + 1..n] + ">"
  }

  /**
   * The name `[\w:.-]+` gives back characters from the right until the rest
   * of the pattern matches: the longest name ending at or before `n` that
   * passes `ok` and whose closing tag stands at `w`.
   */
  function NameBackoff(s: string, q: nat, n: nat, w: nat, boundary: bool): (r: Option<nat>)
    requires q + 1 <= n <= |s|
    ensures r.Some? ==> q + 2 <= r.value <= n && OccursAt(s, CloserFor(s, q, r.value), w)
    ensures r.Some? && boundary ==> WordBoundary(s, r.value)
    decreases n
  {
    if n < q + 2 then None
    else if (!boundary || WordBoundary(s, n)) && OccursAt(s, CloserFor(s, q, n), w) then Some(n)
    else NameBackoff(s, q, n - 1, w, boundary)
  }

  /**
   * `(<([\w:.-]+)\b[^>]*>)\s+(</\2>)`: the opening tag runs to its first
   * `>` (no name character is a `>`, so every name length gives the same
   * one), then a non-empty run of whitespace, which cannot give back
   * anything because the closing tag starts with `<`, then the closing tag
   * of the same name, case and all.
   */
  function EmptyTagAt(s: string, q: nat): (r: Option<nat>)
    ensures r.Some? ==> q < r.value <= |s|
  {
    if q >= |s| || s[q] != '<' then None
    else
      var n0 := RunEnd(s, q + 1, IsNameChar);
      var g := FindChar(s, '>', n0);
      if n0 == q + 1 || g == |s| then None
      else
        var w := RunEnd(s, g + 1, IsSpace);
        if w == g + 1 then None
        else
          var n := NameBackoff(s, q, n0, w, true);
          if n.None? then None else Some(w + |CloserFor(s, q, n.value)|)
  }

  /**
   * The replacement `\1\3` from the matched text: the opening tag up to its
   * first `>` and what follows the whitespace after it.
   */
  function DropGap(t: string): (r: string)
    ensures Ink(r) == Ink(t) && |r| <= |t|
  {
    var g := FindChar(t, '>', 0);
    if g == |t| then t
    else
      var w := RunEnd(t, g + 1, IsSpace);
      var a, b, c := t[..g + 1], t[g + 1..w], t[w..];
      CutTwice(t, g + 1, w);
      assert Ink(b) == [] by {
        FilterNone(b, IsInk);
      }
      InkDropMiddle(a, b, c);
      a + c
  }

  lemma EmptyTagSound(s: string)
    ensures Sound(EmptyTagAt, s)
  {
  }

  /** replaceEmptyTags. */
  function ReplaceEmptyTags(s: string): string {
    EmptyTagSound(s);
    Replace(EmptyTagAt, DropGap, s)
  }

  /** Only whitespace inside empty elements goes: the ink is the same. */
  lemma ReplaceEmptyTagsInk(s: string)
    ensures Ink(ReplaceEmptyTags(s)) == Ink(s)
  {
    EmptyTagSound(s);
    forall t: string ensures Filter(DropGap(t), IsInk) == Filter(t, IsInk) {
    }
    SubstituteFilter(EmptyTagAt, DropGap, s, 0, IsInk);
    assert s[0..] == s;
  }

  /**
   * What one match of the empty-tag pattern is, and what it becomes: an
   * opening tag `<name…>` up to its first `>`, a non-empty run of
   * whitespace, and the closing tag of the same name; the replacement is
   * the opening tag followed directly by the closing tag.
   */
  lemma EmptyTagJoins(s: string, q: nat) returns (n: nat, g: nat, w: nat)
    requires EmptyTagAt(s, q).Some?
    ensures var e := EmptyTagAt(s, q).value;
            && q + 2 <= n <= g < w <= e <= |s|
            && s[q] == '<' && s[g] == '>'
            && (forall k :: q + 1 <= k < n ==> IsNameChar(s[k]))
            && (forall k :: q <= k < g ==> s[k] != '>')
            && (forall k :: g < k < w ==> IsSpace(s[k]))
            && s[w..e] == "</" + s[q + 1..n] + ">"
            && DropGap(s[q..e]) == s[q..g + 1] + s[w..e]
  {
    var e := EmptyTagAt(s, q).value;
    var n0;
    n0, g, w, n := EmptyTagSteps(s, q);
    var c := CloserFor(s, q, n);
    assert s[w..e] == c;
    assert s[w] == c[0];
    NoGtInOpener(s, q, n0, g);
    DropGapAt(s, q, e, g, w);
  }

  /** No `>` before the first one: `<`, name characters, then the run up to the `>`. */
  lemma NoGtInOpener(s: string, q: nat, n0: nat, g: nat)
    requires q < n0 <= g <= |s| && s[q] == '<'
    requires forall k :: q + 1 <= k < n0 ==> IsNameChar(s[k])
    requires forall k :: n0 <= k < g ==> s[k] != '>'
    ensures forall k :: q <= k < g ==> s[k] != '>'
  {
    forall k | q <= k < g
      ensures s[k] != '>'
    {
      if q < k < n0 {
        assert IsNameChar(s[k]);
      }
    }
  }

  /** The steps EmptyTagAt takes on its way to a match. */
  lemma EmptyTagSteps(s: string, q: nat) returns (n0: nat, g: nat, w: nat, n: nat)
    requires EmptyTagAt(s, q).Some?
    ensures q < |s| && s[q] == '<'
    ensures n0 == RunEnd(s, q + 1, IsNameChar) && q + 1 < n0
    ensures g == FindChar(s, '>', n0) && g < |s|
    ensures w == RunEnd(s, g + 1, IsSpace) && g + 1 < w
    ensures q + 2 <= n <= n0 && OccursAt(s, CloserFor(s, q, n), w)
    ensures EmptyTagAt(s, q).value == w + |CloserFor(s, q, n)|
  {
    n0 := RunEnd(s, q + 1, IsNameChar);
    g := FindChar(s, '>', n0);
    w := RunEnd(s, g + 1, IsSpace);
    n := NameBackoff(s, q, n0, w, true).value;
  }

  /** DropGap on the slice `s[q..e]`, given where its first `>` and the whitespace after it end. */
  lemma DropGapAt(s: string, q: nat, e: nat, g: nat, w: nat)
    requires q <= g < w < e <= |s| && s[g] == '>' && !IsSpace(s[w])
    requires forall k :: q <= k < g ==> s[k] != '>'
    requires forall k :: g < k < w ==> IsSpace(s[k])
    ensures DropGap(s[q..e]) == s[q..g + 1] + s[w..e]
  {
    var t := s[q..e];
    FindCharInSlice(s, q, e, '>', q, g);
    RunEndInSlice(s, q, e, IsSpace, g + 1, w);
    assert t[..g - q + 1] == s[q..g + 1];
    assert t[w - q..] == s[w..e];
  }

  // ------------------------------------------------------------ single quotes

  /** `<.*?>` with dot matching line feeds: a `<` up to the first `>` after it. */
  function TagAt(s: string, q: nat): (r: Option<nat>)
    ensures r.Some? ==> q < r.value <= |s|
  {
    if q >= |s| || s[q] != '<' then None
    else
      var g := FindChar(s, '>', q + 1);
      if g == |s| then None else Some(g + 1)
  }

  predicate IsQuote(c: char) {
    c == '\'' || c == '"'
  }

  /**
   * `\w+='([^"]*?)'`: the whole run of word characters (a shorter run would
   * leave a word character where `=` is needed), `='`, then up to the first
   * quote of either kind, which must be a single one.
   */
  function AttrAt(t: string, q: nat): (r: Option<nat>)
    ensures r.Some? ==> q < r.value <= |t|
  {
    if q >= |t| || !IsWordChar(t[q]) then None
    else
      var n := RunEnd(t, q, IsWordChar);
      if !OccursAt(t, "='", n) then None
      else
        var k := RunEnd(t, n + 2, c => !IsQuote(c));
        if k == |t| || t[k] != '\'' then None else Some(k + 1)
  }

  lemma QuotePatternsSound(s: string)
    ensures Sound(TagAt, s) && Sound(AttrAt, s)
  {
  }

  /** `r` is `s` with some single quotes turned into double quotes, and nothing else changed. */
  predicate QuotesSwapped(s: string, r: string) {
    |r| == |s| && forall i :: 0 <= i < |s| ==> r[i] == s[i] || (s[i] == '\'' && r[i] == '"')
  }

  lemma QuotesSwappedTrans(a: string, b: string, c: string)
    requires QuotesSwapped(a, b) && QuotesSwapped(b, c)
    ensures QuotesSwapped(a, c)
  {
  }

  /** str_replace with a replacement that only swaps quotes only swaps quotes. */
  lemma {:induction false} ReplaceAllSwaps(s: string, n: string, r: string)
    requires QuotesSwapped(n, r)
    ensures QuotesSwapped(s, ReplaceAll(s, n, r))
    decreases |s|
  {
    if |n| == 0 || |s| < |n| {
    } else if s[..|n|] == n {
      ReplaceAllSwaps(s[|n|..], n, r);
      var rest := ReplaceAll(s[|n|..], n, r);
      assert s == n + s[|n|..];
      forall i | 0 <= i < |s|
        ensures (r + rest)[i] == s[i] || (s[i] == '\'' && (r + rest)[i] == '"')
      {
        if i >= |n| {
          assert (r + rest)[i] == rest[i - |n|];
          assert s[i] == s[|n|..][i - |n|];
        }
      }
    } else {
      ReplaceAllSwaps(s[1..], n, r);
      var rest := ReplaceAll(s[1..], n, r);
      forall i | 1 <= i < |s|
        ensures ([s[0]] + rest)[i] == s[i] || (s[i] == '\'' && ([s[0]] + rest)[i] == '"')
      {
        assert ([s[0]] + rest)[i] == rest[i - 1];
        assert s[i] == s[1..][i - 1];
      }
    }
  }

  /** A quote swap leaves a piece without single quotes where it stands. */
  lemma SwapKeeps(t: string, r: string, x: string, k: nat)
    requires QuotesSwapped(t, r) && OccursAt(t, x, k) && '\'' !in x
    ensures OccursAt(r, x, k)
  {
    forall j | 0 <= j < |x| ensures r[k + j] == x[j] {
      assert t[k + j] == t[k..k + |x|][j];
    }
    assert r[k..k + |x|] == x;
  }

  lemma {:induction false} NoSingleQuoteLeft(s: string)
    ensures '\'' !in ReplaceAll(s, "'", "\"")
    decreases |s|
  {
    if |s| > 0 {
      NoSingleQuoteLeft(s[1..]);
      assert s[1..] == s[|"'"|..];
      if s[..1] != "'" {
        assert s[0] != '\'';
      }
    }
  }

  /** str_replace("'", '"', $attr): every single quote becomes a double one. */
  function DoubleQuote(attr: string): (r: string)
    ensures QuotesSwapped(attr, r)
    ensures '\'' !in r
  {
    assert QuotesSwapped("'", "\"");
    ReplaceAllSwaps(attr, "'", "\"");
    NoSingleQuoteLeft(attr);
    ReplaceAll(attr, "'", "\"")
  }

  /** The first occurrence of an attribute reads double-quoted once it is rewritten. */
  lemma FirstRequoted(tag: string, a: string, r: string)
    requires QuotesSwapped(ReplaceAll(tag, a, DoubleQuote(a)), r)
    ensures a != [] && FirstHit(tag, a) < |tag| ==> OccursAt(r, DoubleQuote(a), FirstHit(tag, a))
  {
    if a != [] && FirstHit(tag, a) < |tag| {
      var k, x := FirstHit(tag, a), DoubleQuote(a);
      ReplaceAtFirst(tag, a, x);
      SwapKeeps(ReplaceAll(tag, a, x), r, x, k);
    }
  }

  /**
   * The inner loop: every attribute found in the tag, replaced in turn in
   * the tag. The first attribute's first occurrence ends up double-quoted.
   */
  function RequoteAttrs(tag: string, attrs: seq<string>): (r: string)
    ensures QuotesSwapped(tag, r)
    ensures |attrs| > 0 && attrs[0] != [] && FirstHit(tag, attrs[0]) < |tag| ==>
              OccursAt(r, DoubleQuote(attrs[0]), FirstHit(tag, attrs[0]))
    decreases |attrs|
  {
    if |attrs| == 0 then tag
    else
      var t := ReplaceAll(tag, attrs[0], DoubleQuote(attrs[0]));
      ReplaceAllSwaps(tag, attrs[0], DoubleQuote(attrs[0]));
      var r := RequoteAttrs(t, attrs[1..]);
      QuotesSwappedTrans(tag, t, r);
      FirstRequoted(tag, attrs[0], r);
      r
  }

  /** One tag with its single-quoted attributes rewritten, when it has any. */
  function RequoteTag(tag: string): (r: string)
    ensures QuotesSwapped(tag, r)
  {
    QuotePatternsSound(tag);
    var attrs := Matches(AttrAt, tag);
    if |attrs| > 0 then RequoteAttrs(tag, attrs) else tag
  }

  /**
   * The outer loop: every tag of the original text that has a single-quoted
   * attribute, rewritten and replaced in the text as it stands. The first
   * tag's first occurrence holds that tag rewritten.
   */
  function RequoteTags(s: string, tags: seq<string>): (r: string)
    ensures QuotesSwapped(s, r)
    ensures |tags| > 0 && tags[0] != [] && FirstHit(s, tags[0]) < |s| ==>
              FirstAttrRequoted(r, tags[0], FirstHit(s, tags[0]))
    decreases |tags|
  {
    if |tags| == 0 then s
    else
      var tag := tags[0];
      QuotePatternsSound(tag);
      var attrs := Matches(AttrAt, tag);
      var t :=
        if |attrs| > 0 then
          ReplaceAllSwaps(s, tag, RequoteTag(tag));
          ReplaceAll(s, tag, RequoteTag(tag))
        else s;
      var r := RequoteTags(t, tags[1..]);
      QuotesSwappedTrans(s, t, r);
      FirstTagRequoted(s, tag, t, r);
      r
  }

  lemma FirstTagRequoted(s: string, tag: string, t: string, r: string)
    requires QuotesSwapped(t, r)
    requires t == (if |Matches(AttrAt, tag)| > 0 then ReplaceAll(s, tag, RequoteTag(tag)) else s)
    ensures tag != [] && FirstHit(s, tag) < |s| ==> FirstAttrRequoted(r, tag, FirstHit(s, tag))
  {
    if tag != [] && FirstHit(s, tag) < |s| && |Matches(AttrAt, tag)| > 0 {
      var k, p := FirstHit(s, tag), RequoteTag(tag);
      ReplaceAtFirst(s, tag, p);
      PieceRequoted(t, r, tag, k);
    }
  }

  /** The rewritten tag standing at `k` in `t` keeps its first attribute double-quoted through a swap. */
  lemma PieceRequoted(t: string, r: string, tag: string, k: nat)
    requires OccursAt(t, RequoteTag(tag), k) && QuotesSwapped(t, r)
    ensures FirstAttrRequoted(r, tag, k)
  {
    QuotePatternsSound(tag);
    if Matches(AttrAt, tag) != [] {
      RequoteTagFirst(tag);
      var attr := Matches(AttrAt, tag)[0];
      var j := FirstHit(tag, attr);
      SwappedInPiece(t, r, RequoteTag(tag), DoubleQuote(attr), k, j);
      AttrRequotedAt(r, tag, k, attr, j);
    }
  }

  /** A quote-free piece of a piece of `t` stands in a quote swap of `t`. */
  lemma SwappedInPiece(t: string, r: string, p: string, x: string, k: nat, j: nat)
    requires OccursAt(t, p, k) && OccursAt(p, x, j) && QuotesSwapped(t, r) && '\'' !in x
    ensures OccursAt(r, x, k + j)
  {
    OccursInPiece(t, k, p, x, j);
    SwapKeeps(t, r, x, k + j);
  }

  lemma AttrRequotedAt(r: string, tag: string, k: nat, attr: string, j: nat)
    requires Matches(AttrAt, tag) != [] && attr == Matches(AttrAt, tag)[0]
    requires attr != [] && j == FirstHit(tag, attr) && OccursAt(r, DoubleQuote(attr), k + j)
    ensures FirstAttrRequoted(r, tag, k)
  {
  }

  /**
   * The first single-quoted attribute of `tag`, double-quoted, stands at
   * its place in `r`, the tag starting at `k`.
   */
  predicate FirstAttrRequoted(r: string, tag: string, k: nat) {
    var attrs := Matches(AttrAt, tag);
    attrs != [] && attrs[0] != [] && FirstHit(tag, attrs[0]) < |tag| ==>
      OccursAt(r, DoubleQuote(attrs[0]), k + FirstHit(tag, attrs[0]))
  }

  /** The tags of a text (`$tags[0]`). */
  function Tags(s: string): seq<string> {
    QuotePatternsSound(s);
    Matches(TagAt, s)
  }

  /** replaceSingleQuotes. */
  function ReplaceSingleQuotes(s: string): (r: string)
    ensures QuotesSwapped(s, r)
  {
    RequoteTags(s, Tags(s))
  }

  /** A tag with a single-quoted attribute holds that attribute double-quoted once rewritten. */
  lemma RequoteTagFirst(tag: string)
    requires Sound(AttrAt, tag) && Matches(AttrAt, tag) != []
    ensures var attr := Matches(AttrAt, tag)[0];
            attr != [] && FirstHit(tag, attr) < |tag| && OccursAt(RequoteTag(tag), DoubleQuote(attr), FirstHit(tag, attr))
  {
    FirstMatchFound(AttrAt, tag);
  }

  /** A piece of a piece stands in the whole text. */
  lemma OccursInPiece(t: string, k: nat, p: string, x: string, j: nat)
    requires OccursAt(t, p, k) && OccursAt(p, x, j)
    ensures OccursAt(t, x, k + j)
  {
    forall i | 0 <= i < |x| ensures t[k + j + i] == x[i] {
      assert t[k..k + |p|][j + i] == p[j + i];
      assert p[j..j + |x|][i] == x[i];
    }
  }

  /**
   * The first single-quoted attribute of the first tag reads double-quoted
   * at its place: `<a name='v'>` gives `<a name="v">`.
   */
  lemma ReplaceSingleQuotesFirst(s: string, tag: string)
    requires Sound(TagAt, s) && Matches(TagAt, s) != [] && tag == Matches(TagAt, s)[0]
    ensures tag != [] && FirstHit(s, tag) < |s|
    ensures Sound(AttrAt, tag) && Matches(AttrAt, tag) != [] ==> Matches(AttrAt, tag)[0] != [] && FirstHit(tag, Matches(AttrAt, tag)[0]) < |tag|
    ensures FirstAttrRequoted(ReplaceSingleQuotes(s), tag, FirstHit(s, tag))
  {
    FirstMatchFound(TagAt, s);
    QuotePatternsSound(tag);
    if Matches(AttrAt, tag) != [] {
      FirstMatchFound(AttrAt, tag);
    }
  }

  /** A text without single quotes comes back unchanged. */
  lemma ReplaceSingleQuotesNoQuote(s: string)
    requires forall i :: 0 <= i < |s| ==> s[i] != '\''
    ensures ReplaceSingleQuotes(s) == s
  {
  }

  // ------------------------------------------------------------ every attribute, every tag

  /** The single-quoted attributes of a tag (`$attrs[0]`). */
  function AttrsOf(tag: string): seq<string> {
    QuotePatternsSound(tag);
    Matches(AttrAt, tag)
  }

  /** The tags of a list that have a single-quoted attribute: the ones the outer loop rewrites. */
  function Quoted(tags: seq<string>): (r: seq<string>)
    ensures forall j :: 0 <= j < |r| ==> r[j] in tags && AttrsOf(r[j]) != []
    ensures forall j :: 0 <= j < |tags| && AttrsOf(tags[j]) != [] ==> tags[j] in r
    decreases |tags|
  {
    if |tags| == 0 then []
    else
      var rest := Quoted(tags[1..]);
      assert forall j :: 1 <= j < |tags| ==> tags[j] == tags[1..][j - 1];
      if AttrsOf(tags[0]) != [] then [tags[0]] + rest else rest
  }

  /** The inner loop is a chain of str_replace calls, attribute by its double-quoted form. */
  lemma {:induction false} RequoteAttrsChain(tag: string, attrs: seq<string>)
    ensures RequoteAttrs(tag, attrs) == ReplaceSeq(tag, attrs, MapEach(attrs, DoubleQuote))
    decreases |attrs|
  {
    if |attrs| > 0 {
      RequoteAttrsChain(ReplaceAll(tag, attrs[0], DoubleQuote(attrs[0])), attrs[1..]);
      MapEachTail(attrs, DoubleQuote);
      ReplaceSeqStep(tag, attrs, MapEach(attrs, DoubleQuote));
    }
  }

  /** The outer loop is a chain of str_replace calls, each tag with an attribute by its rewrite. */
  lemma {:induction false} RequoteTagsChain(s: string, tags: seq<string>)
    ensures RequoteTags(s, tags) == ReplaceSeq(s, Quoted(tags), MapEach(Quoted(tags), RequoteTag))
    decreases |tags|
  {
    if |tags| > 0 {
      var tag := tags[0];
      if AttrsOf(tag) != [] {
        var t := ReplaceAll(s, tag, RequoteTag(tag));
        RequoteTagsChain(t, tags[1..]);
        var qs := Quoted(tags);
        assert qs == [tag] + Quoted(tags[1..]);
        assert qs[0] == tag && qs[1..] == Quoted(tags[1..]);
        MapEachTail(qs, RequoteTag);
        ReplaceSeqStep(s, qs, MapEach(qs, RequoteTag));
      } else {
        RequoteTagsChain(s, tags[1..]);
      }
    }
  }

  /** A found attribute: its last character is a single quote, and it holds no double quote. */
  predicate AttrShaped(a: string) {
    |a| > 0 && a[|a| - 1] == '\'' && '"' !in a
  }

  lemma AttrAtShape(t: string, q: nat, e: nat)
    requires AttrAt(t, q) == Some(e)
    ensures AttrShaped(t[q..e])
  {
    var n := RunEnd(t, q, IsWordChar);
    var k := RunEnd(t, n + 2, c => !IsQuote(c));
    assert e == k + 1 && t[k] == '\'';
    assert t[n..n + 2] == "='";
    forall i | q <= i < e ensures t[i] != '"' {
      if i < n {
        assert IsWordChar(t[i]);
      } else if i < n + 2 {
        assert t[i] == "='"[i - n];
      } else if i < k {
        assert !IsQuote(t[i]);
      }
    }
    assert t[q..e][e - q - 1] == '\'';
  }

  /** Every attribute found in a tag is shaped so and is a piece of the tag. */
  lemma AttrShape(tag: string, j: nat)
    requires j < |AttrsOf(tag)|
    ensures AttrShaped(AttrsOf(tag)[j]) && Contains(tag, AttrsOf(tag)[j])
  {
    QuotePatternsSound(tag);
    var ms := MatchAll(AttrAt, tag, 0);
    AttrAtShape(tag, ms[j].0, ms[j].1);
    MatchesContained(AttrAt, tag, j);
  }

  /** A found attribute and any double-quoted attribute cannot overlap: each ends with a quote the other lacks. */
  lemma AttrApartRequoted(a: string, b: string)
    requires AttrShaped(a) && AttrShaped(b)
    ensures Apart(a, DoubleQuote(b))
  {
    var d := DoubleQuote(b);
    assert d[|d| - 1] == '"';
    ApartByLast(a, d);
  }

  /** No two attributes of the tag can overlap. */
  predicate AttrsApart(tag: string) {
    forall i, k :: 0 <= i < k < |AttrsOf(tag)| ==> Apart(AttrsOf(tag)[i], AttrsOf(tag)[k])
  }

  /**
   * Every single-quoted attribute of a tag is replaced by its double-quoted
   * form: the rewrite holds each of them double-quoted and none of them as
   * found, when no two of them overlap.
   */
  lemma RequoteTagAll(tag: string)
    requires AttrsApart(tag)
    ensures forall j :: 0 <= j < |AttrsOf(tag)| ==>
              Contains(RequoteTag(tag), DoubleQuote(AttrsOf(tag)[j])) && !Contains(RequoteTag(tag), AttrsOf(tag)[j])
  {
    var attrs := AttrsOf(tag);
    var dq := MapEach(attrs, DoubleQuote);
    if |attrs| > 0 {
      RequoteAttrsChain(tag, attrs);
      forall k | 0 <= k < |attrs| ensures AttrShaped(attrs[k]) && Contains(tag, attrs[k]) {
        AttrShape(tag, k);
      }
      forall k, i | 0 <= k < |attrs| && 0 <= i < |attrs| ensures Apart(attrs[k], dq[i]) {
        AttrApartRequoted(attrs[k], attrs[i]);
      }
      SeparateAll(attrs, dq);
      SeqSwaps(tag, attrs, dq);
    }
  }

  /**
   * replaceSingleQuotes rewrites every tag that has a single-quoted
   * attribute: the result holds each such tag's rewrite, none of those tags
   * as found, and each of their attributes double-quoted, when no two of
   * the tags or their rewrites can overlap and no two attributes of a tag
   * can.
   */
  lemma ReplaceSingleQuotesAll(s: string)
    requires var qs := Quoted(Tags(s)); Separate(qs, MapEach(qs, RequoteTag))
    requires forall k :: 0 <= k < |Quoted(Tags(s))| ==> AttrsApart(Quoted(Tags(s))[k])
    ensures forall k :: 0 <= k < |Quoted(Tags(s))| ==>
              Contains(ReplaceSingleQuotes(s), RequoteTag(Quoted(Tags(s))[k]))
              && !Contains(ReplaceSingleQuotes(s), Quoted(Tags(s))[k])
    ensures forall k, j :: 0 <= k < |Quoted(Tags(s))| && 0 <= j < |AttrsOf(Quoted(Tags(s))[k])| ==>
              Contains(ReplaceSingleQuotes(s), DoubleQuote(AttrsOf(Quoted(Tags(s))[k])[j]))
  {
    var qs := Quoted(Tags(s));
    var out := ReplaceSingleQuotes(s);
    RequoteTagsChain(s, Tags(s));
    QuotedContained(s);
    SeqSwaps(s, qs, MapEach(qs, RequoteTag));
    forall k | 0 <= k < |qs| ensures forall j :: 0 <= j < |AttrsOf(qs[k])| ==> Contains(out, DoubleQuote(AttrsOf(qs[k])[j])) {
      TagAttrsRequoted(out, qs[k]);
    }
  }

  /** Every tag the outer loop rewrites is a piece of the text. */
  lemma QuotedContained(s: string)
    ensures forall k :: 0 <= k < |Quoted(Tags(s))| ==> Contains(s, Quoted(Tags(s))[k])
  {
    var tags := Tags(s);
    var qs := Quoted(tags);
    forall k | 0 <= k < |qs| ensures Contains(s, qs[k]) {
      var i :| 0 <= i < |tags| && tags[i] == qs[k];
      MatchesContained(TagAt, s, i);
    }
  }

  /** A text holding a tag's rewrite holds each of its attributes double-quoted. */
  lemma TagAttrsRequoted(out: string, tag: string)
    requires AttrsApart(tag) && Contains(out, RequoteTag(tag))
    ensures forall j :: 0 <= j < |AttrsOf(tag)| ==> Contains(out, DoubleQuote(AttrsOf(tag)[j]))
  {
    RequoteTagAll(tag);
    forall j | 0 <= j < |AttrsOf(tag)| ensures Contains(out, DoubleQuote(AttrsOf(tag)[j])) {
      ContainsWithin(out, RequoteTag(tag), DoubleQuote(AttrsOf(tag)[j]));
    }
  }

  // ------------------------------------------------------------ split tags

  predicate NotGtOrNewline(c: char) {
    c != '>' && c != '\n'
  }

  /**
   * `(<([\w:.-]+).*?>)(.*\n.*\n\s*)(</\2>)`, dot stopping at line feeds: the
   * opening tag up to the first `>` on its line, the rest of that line, the
   * whole next line, then the whole run of whitespace (the closing tag
   * starts with `<`, so the run cannot give back anything), then the closing
   * tag of the same name. A later `>` on the first line leaves the rest of
   * the match where it was, so the lazy `.*?` settles on the first one.
   */
  function SplitTagAt(s: string, q: nat): (r: Option<nat>)
    ensures r.Some? ==> q < r.value <= |s|
  {
    if q >= |s| || s[q] != '<' then None
    else
      var n0 := RunEnd(s, q + 1, IsNameChar);
      var g := RunEnd(s, n0, NotGtOrNewline);
      if n0 == q + 1 || g == |s| || s[g] != '>' then None
      else
        var e0 := FindChar(s, '\n', g + 1);
        if e0 == |s| then None
        else
          var e1 := FindChar(s, '\n', e0 + 1);
          if e1 == |s| then None
          else
            var w := RunEnd(s, e1 + 1, IsSpace);
            var n := NameBackoff(s, q, n0, w, false);
            if n.None? then None else Some(w + |CloserFor(s, q, n.value)|)
  }

  lemma SplitTagSound(s: string)
    ensures Sound(SplitTagAt, s)
  {
  }

  /**
   * `$matches[1] . trim($matches[3]) . $matches[4]` from the matched text:
   * the groups are found again the way the matcher found them.
   */
  function Shorten(t: string): string {
    var c := SplitGroups(t);
    if c.None? then t else TrimBetween(t, c.value.0, c.value.1)
  }

  /** A split tag pulled onto one line keeps its ink. */
  lemma ShortenInk(t: string)
    ensures Ink(Shorten(t)) == Ink(t)
  {
    var c := SplitGroups(t);
    if c.Some? {
      TrimBetweenInk(t, c.value.0, c.value.1);
    }
  }

  /**
   * Where the middle group starts and ends in a matched text: after the
   * first `>`, and after the whitespace that follows the next two line feeds.
   */
  function SplitGroups(t: string): (r: Option<(nat, nat)>)
    ensures r.Some? ==> r.value.0 <= r.value.1 <= |t|
  {
    var g := FindChar(t, '>', 0);
    if g == |t| then None
    else
      var e0 := FindChar(t, '\n', g + 1);
      if e0 == |t| then None
      else
        var e1 := FindChar(t, '\n', e0 + 1);
        if e1 == |t| then None
        else Some((g + 1, RunEnd(t, e1 + 1, IsSpace)))
  }

  /** `t` with the part between `i` and `j` trimmed. */
  function TrimBetween(t: string, i: nat, j: nat): string
    requires i <= j <= |t|
  {
    t[..i] + Trim(t[i..j]) + t[j..]
  }

  /** Trimming a middle part keeps the ink. */
  lemma TrimBetweenInk(t: string, i: nat, j: nat)
    requires i <= j <= |t|
    ensures Ink(TrimBetween(t, i, j)) == Ink(t)
  {
    var a, b, c := t[..i], t[i..j], t[j..];
    CutTwice(t, i, j);
    InkTrim(b);
    InkMiddleSwap(a, b, Trim(b), c);
  }

  /**
   * The shape of a split-tag match `s[q..e]`: `<`, the name `s[q + 1..n]`,
   * the rest of the opening tag up to its `>` at `g` on the same line, the
   * rest of that line up to the line feed at `e0`, the next line up to the
   * line feed at `e1`, whitespace up to `w`, and the closing tag of the
   * same name.
   */
  predicate SplitTagShape(s: string, q: nat, n: nat, g: nat, e0: nat, e1: nat, w: nat, e: nat) {
    && q + 2 <= n <= g < e0 < e1 < w <= e <= |s|
    && s[q] == '<' && s[g] == '>' && s[e0] == '\n' && s[e1] == '\n'
    && (forall k :: q + 1 <= k < n ==> IsNameChar(s[k]))
    && (forall k :: q <= k < g ==> s[k] != '>' && s[k] != '\n')
    && (forall k :: g < k < e0 ==> s[k] != '\n')
    && (forall k :: e0 < k < e1 ==> s[k] != '\n')
    && (forall k :: e1 < k < w ==> IsSpace(s[k]))
    && s[w..e] == "</" + s[q + 1..n] + ">"
  }

  /** What one match of the split-tag pattern is: see SplitTagShape. */
  lemma SplitTagMatch(s: string, q: nat) returns (n: nat, g: nat, e0: nat, e1: nat, w: nat)
    requires SplitTagAt(s, q).Some?
    ensures var e := SplitTagAt(s, q).value;
            && SplitTagShape(s, q, n, g, e0, e1, w, e)
  {
    var e := SplitTagAt(s, q).value;
    var n0;
    n0, g, e0, e1, w, n := SplitTagSteps(s, q);
    assert s[w..e] == CloserFor(s, q, n);
    OpenerBeforeGt(s, q, n0, g);
  }

  /** The opening tag up to its `>`: `<`, name characters, then neither `>` nor a line feed. */
  lemma OpenerBeforeGt(s: string, q: nat, n0: nat, g: nat)
    requires q < n0 <= g <= |s| && s[q] == '<'
    requires forall k :: q + 1 <= k < n0 ==> IsNameChar(s[k])
    requires forall k :: n0 <= k < g ==> NotGtOrNewline(s[k])
    ensures forall k :: q <= k < g ==> s[k] != '>' && s[k] != '\n'
  {
    forall k | q <= k < g
      ensures s[k] != '>' && s[k] != '\n'
    {
      if q < k < n0 {
        assert IsNameChar(s[k]);
      }
    }
  }

  /** The steps SplitTagAt takes on its way to a match. */
  lemma SplitTagSteps(s: string, q: nat) returns (n0: nat, g: nat, e0: nat, e1: nat, w: nat, n: nat)
    requires SplitTagAt(s, q).Some?
    ensures q < |s| && s[q] == '<'
    ensures n0 == RunEnd(s, q + 1, IsNameChar) && q + 1 < n0
    ensures g == RunEnd(s, n0, NotGtOrNewline) && g < |s| && s[g] == '>'
    ensures e0 == FindChar(s, '\n', g + 1) && e0 < |s|
    ensures e1 == FindChar(s, '\n', e0 + 1) && e1 < |s|
    ensures w == RunEnd(s, e1 + 1, IsSpace)
    ensures q + 2 <= n <= n0 && OccursAt(s, CloserFor(s, q, n), w)
    ensures SplitTagAt(s, q).value == w + |CloserFor(s, q, n)|
  {
    n0 := RunEnd(s, q + 1, IsNameChar);
    g := RunEnd(s, n0, NotGtOrNewline);
    e0 := FindChar(s, '\n', g + 1);
    e1 := FindChar(s, '\n', e0 + 1);
    w := RunEnd(s, e1 + 1, IsSpace);
    n := NameBackoff(s, q, n0, w, false).value;
  }

  /**
   * What one match of the split-tag pattern becomes: the opening tag, the
   * trimmed middle and the closing tag.
   */
  lemma SplitTagShortens(s: string, q: nat, n: nat, g: nat, e0: nat, e1: nat, w: nat, e: nat)
    requires SplitTagShape(s, q, n, g, e0, e1, w, e)
    ensures Shorten(s[q..e]) == s[q..g + 1] + Trim(s[g + 1..w]) + s[w..e]
  {
    SplitTagGroups(s, q, n, g, e0, e1, w, e);
    ShortenAt(s, q, e, g, w);
  }

  /** Where Shorten finds its groups in a split-tag match. */
  lemma SplitTagGroups(s: string, q: nat, n: nat, g: nat, e0: nat, e1: nat, w: nat, e: nat)
    requires SplitTagShape(s, q, n, g, e0, e1, w, e)
    ensures SplitGroups(s[q..e]) == Some((g + 1 - q, w - q))
  {
    assert s[w..e][0] == '<';
    SplitGroupsOfSlice(s, q, e, g, e0, e1, w);
  }

  /** Shorten on the slice `s[q..e]`, given where its groups are. */
  lemma ShortenAt(s: string, q: nat, e: nat, g: nat, w: nat)
    requires q <= g < w <= e <= |s|
    requires SplitGroups(s[q..e]) == Some((g + 1 - q, w - q))
    ensures Shorten(s[q..e]) == s[q..g + 1] + Trim(s[g + 1..w]) + s[w..e]
  {
    ShortenBetween(s, q, e, g + 1, w);
  }

  lemma ShortenBetween(s: string, q: nat, e: nat, i: nat, j: nat)
    requires q <= i <= j <= e <= |s|
    requires SplitGroups(s[q..e]) == Some((i - q, j - q))
    ensures Shorten(s[q..e]) == s[q..i] + Trim(s[i..j]) + s[j..e]
  {
    var t := s[q..e];
    calc {
      Shorten(t);
    == { ShortenIs(t, i - q, j - q); }
      TrimBetween(t, i - q, j - q);
    == { TrimBetweenSlice(s, q, e, i, j); }
      s[q..i] + Trim(s[i..j]) + s[j..e];
    }
  }

  lemma ShortenIs(t: string, i: nat, j: nat)
    requires i <= j <= |t| && SplitGroups(t) == Some((i, j))
    ensures Shorten(t) == TrimBetween(t, i, j)
  {
  }

  lemma SplitGroupsOfSlice(s: string, q: nat, e: nat, g: nat, e0: nat, e1: nat, w: nat)
    requires q <= g < e0 < e1 < w < e <= |s| && s[g] == '>' && s[e0] == '\n' && s[e1] == '\n' && !IsSpace(s[w])
    requires forall k :: q <= k < g ==> s[k] != '>'
    requires forall k :: g < k < e0 ==> s[k] != '\n'
    requires forall k :: e0 < k < e1 ==> s[k] != '\n'
    requires forall k :: e1 < k < w ==> IsSpace(s[k])
    ensures SplitGroups(s[q..e]) == Some((g - q + 1, w - q))
  {
    var t := s[q..e];
    FindCharInSlice(s, q, e, '>', q, g);
    assert FindChar(t, '>', 0) == g - q;
    FindCharInSlice(s, q, e, '\n', g + 1, e0);
    assert FindChar(t, '\n', g - q + 1) == e0 - q;
    FindCharInSlice(s, q, e, '\n', e0 + 1, e1);
    assert FindChar(t, '\n', e0 - q + 1) == e1 - q;
    RunEndInSlice(s, q, e, IsSpace, e1 + 1, w);
    assert RunEnd(t, e1 - q + 1, IsSpace) == w - q;
    SplitGroupsAt(s, q, e, g, e0, e1, w);
  }

  lemma TrimBetweenSlice(s: string, q: nat, e: nat, i: nat, j: nat)
    requires q <= i <= j <= e <= |s|
    ensures TrimBetween(s[q..e], i - q, j - q) == s[q..i] + Trim(s[i..j]) + s[j..e]
  {
    var t := s[q..e];
    assert t[..i - q] == s[q..i];
    assert t[i - q..j - q] == s[i..j] by {
      forall k | 0 <= k < j - i ensures t[i - q..j - q][k] == s[i..j][k] {
      }
    }
    assert t[j - q..] == s[j..e];
  }

  /** The groups of a match `s[q..e]` whose first `>`, next two line feeds and the whitespace after them are known. */
  lemma SplitGroupsAt(s: string, q: nat, e: nat, g: nat, e0: nat, e1: nat, w: nat)
    requires q <= g < e0 < e1 < w <= e <= |s|
    requires FindChar(s[q..e], '>', 0) == g - q
    requires FindChar(s[q..e], '\n', g - q + 1) == e0 - q
    requires FindChar(s[q..e], '\n', e0 - q + 1) == e1 - q
    requires RunEnd(s[q..e], e1 - q + 1, IsSpace) == w - q
    ensures SplitGroups(s[q..e]) == Some((g - q + 1, w - q))
  {
  }

  /** The loop over the matches of the original text, each short one replaced in the text as it stands. */
  function ShortenAll(s: string, ms: seq<string>): (r: string)
    ensures Ink(r) == Ink(s)
    decreases |ms|
  {
    if |ms| == 0 then s
    else
      var t := if |ms[0]| < 80 then ReplaceAll(s, ms[0], Shorten(ms[0])) else s;
      ShortenInk(ms[0]);
      ReplaceAllFilter(s, ms[0], Shorten(ms[0]), IsInk);
      ShortenAll(t, ms[1..])
  }

  /** replaceSplitTags: the ink is unchanged, only whitespace moves. */
  function ReplaceSplitTags(s: string): (r: string)
    ensures Ink(r) == Ink(s)
  {
    SplitTagSound(s);
    ShortenAll(s, Matches(SplitTagAt, s))
  }
}

=== FILE: html_scripts.dfy ===
/**
 * Saving and restoring embedded scripts around the markup passes
 * (saveJavaScript and restoreJavaScript, src/HtmlPrinter.php): every
 * `<script…>…</script>` element is swapped for a numbered empty placeholder
 * element before the passes run, so that the markup inside script code is
 * left alone, and swapped back afterwards.
 *
 * The vault `$scripts` is modelled for one document on a fresh printer: it
 * starts empty and holds the entries of this document only.
 */
module HtmlScripts {
  import opened Text
  import opened Outcomes
  import opened Matching
  import opened Replacing

  /** The opening and closing marks the save pattern looks for. */
  const ScriptOpen: string := "<script"
  const ScriptClose: string := "</script>"

  /**
   * `<script[^>]*>.*?</script>` with dot matching line feeds, case-sensitive:
   * the opening tag up to its first `>`, then everything up to the first
   * closing tag.
   */
  function ScriptAt(s: string, q: nat): (r: Option<nat>)
    ensures r.Some? ==> q < r.value <= |s|
  {
    if !OccursAt(s, ScriptOpen, q) then None
    else
      var g := FindChar(s, '>', q + 7);
      if g == |s| then None
      else
        var c := Find(s, ScriptClose, g + 1);
        if c.None? then None else Some(c.value + 9)
  }

  lemma ScriptAtSound(s: string)
    ensures Sound(ScriptAt, s)
  {
  }

  /** The scripts of a document, in order (`$matches[0]`). */
  function Scripts(s: string): seq<string> {
    ScriptAtSound(s);
    Matches(ScriptAt, s)
  }

  // ------------------------------------------------------------ placeholders

  function DigitChar(d: nat): (c: char)
    requires d < 10
  {
    ('0' as int + d) as char
  }

  /** Decimal digits of `n`, without leading zeros. */
  function Digits(n: nat): (r: string)
    ensures |r| >= 1
    ensures forall i :: 0 <= i < |r| ==> '0' <= r[i] <= '9'
  {
    if n < 10 then [DigitChar(n)] else Digits(n / 10) + [DigitChar(n % 10)]
  }

  /** The number a string of decimal digits stands for. */
  function ValueOf(d: string): nat
    requires forall i :: 0 <= i < |d| ==> '0' <= d[i] <= '9'
  {
    if |d| == 0 then 0 else 10 * ValueOf(d[..|d| - 1]) + (d[|d| - 1] as int - '0' as int)
  }

  /** `%0*d`: the digits, padded on the left with zeros to `width`. */
  function ZeroPad(d: string, width: nat): (r: string)
    ensures |r| >= |d| && |r| >= width
    ensures r[|r| - |d|..] == d
    ensures forall i :: 0 <= i < |r| - |d| ==> r[i] == '0'
  {
    if |d| >= width then d else seq(width - |d|, _ => '0') + d
  }

  /** sprintf('<script tempid="js%08d"></script>', i). */
  function Placeholder(i: nat): string {
    "<script tempid=\"js" + ZeroPad(Digits(i), 8) + "\"></script>"
  }

  /** Reading the digits back gives the number. */
  lemma {:induction false} ValueOfDigits(n: nat)
    ensures ValueOf(Digits(n)) == n
  {
    if n >= 10 {
      ValueOfDigits(n / 10);
      var d := Digits(n);
      assert d[..|d| - 1] == Digits(n / 10);
    }
  }

  /** Leading zeros do not change the number. */
  lemma {:induction false} ValueOfZeros(z: nat, d: string)
    requires forall i :: 0 <= i < |d| ==> '0' <= d[i] <= '9'
    ensures ValueOf(seq(z, _ => '0') + d) == ValueOf(d)
    decreases |d|
  {
    var t := seq(z, _ => '0') + d;
    if |d| == 0 {
      assert t == seq(z, _ => '0');
      ValueOfAllZeros(z);
    } else {
      assert t[..|t| - 1] == seq(z, _ => '0') + d[..|d| - 1];
      ValueOfZeros(z, d[..|d| - 1]);
    }
  }

  lemma {:induction false} ValueOfAllZeros(z: nat)
    ensures ValueOf(seq(z, _ => '0')) == 0
  {
    if z > 0 {
      assert seq(z, _ => '0')[..z - 1] == seq(z - 1, _ => '0');
      ValueOfAllZeros(z - 1);
    }
  }

  /** The padded number reads back as the number. */
  lemma PaddedValue(i: nat)
    ensures ValueOf(ZeroPad(Digits(i), 8)) == i
  {
    var d := Digits(i);
    ValueOfDigits(i);
    if |d| < 8 {
      ValueOfZeros(8 - |d|, d);
    }
  }

  /** Different positions get different placeholders: the ids are distinct. */
  lemma PlaceholderDistinct(i: nat, j: nat)
    requires i != j
    ensures Placeholder(i) != Placeholder(j)
  {
    PlaceholderId(i);
    PlaceholderId(j);
    PaddedValue(i);
    PaddedValue(j);
  }

  /** The padded number sits between the fixed 18-character head and 11-character tail. */
  lemma PlaceholderId(i: nat)
    ensures var p := Placeholder(i); |p| >= 37 && p[18..|p| - 11] == ZeroPad(Digits(i), 8)
  {
    var d := ZeroPad(Digits(i), 8);
    var head, tail := "<script tempid=\"js", "\"></script>";
    assert |head| == 18 && |tail| == 11;
    var p := head + d + tail;
    assert p[18..|p| - 11] == d;
  }

  /** The padded id is all digits. */
  lemma PaddedDigits(i: nat)
    ensures var d := ZeroPad(Digits(i), 8); forall j :: 0 <= j < |d| ==> '0' <= d[j] <= '9'
  {
    var e := Digits(i);
    var d := ZeroPad(e, 8);
    forall j | |d| - |e| <= j < |d| ensures '0' <= d[j] <= '9' {
      assert d[j] == d[|d| - |e|..][j - (|d| - |e|)];
    }
  }

  /**
   * A placeholder has no border: its only `<` are its first character and
   * the one of its closing tag, and what follows them differs. So no two
   * copies of it overlap, and str_replace finds each copy whole.
   */
  lemma PlaceholderUnbordered(i: nat)
    ensures Unbordered(Placeholder(i))
  {
    var p := Placeholder(i);
    forall k | 0 < k < |p| ensures p[k..] != p[..|p| - k] {
      PlaceholderNoBorderAt(i, k);
    }
  }

  /** The suffix of a placeholder from `k` on is not one of its prefixes. */
  lemma PlaceholderNoBorderAt(i: nat, k: nat)
    requires 0 < k < |Placeholder(i)|
    ensures var p := Placeholder(i); p[k..] != p[..|p| - k]
  {
    var p := Placeholder(i);
    PlaceholderAngles(i, k);
    if k == |p| - 9 {
      assert p[k..][1] != p[..|p| - k][1];
    } else {
      assert p[k..][0] != p[..|p| - k][0];
    }
  }

  /** Past its first character, a placeholder has `<` only where `</script>` starts. */
  lemma PlaceholderAngles(i: nat, k: nat)
    requires 0 < k < |Placeholder(i)|
    ensures var p := Placeholder(i); p[0] == '<' && p[1] == 's' && |p| >= 9
    ensures var p := Placeholder(i); p[k] == '<' <==> k == |p| - 9
    ensures var p := Placeholder(i); k == |p| - 9 ==> p[k + 1] == '/'
  {
    var d := ZeroPad(Digits(i), 8);
    PaddedDigits(i);
    var head, tail := "<script tempid=\"js", "\"></script>";
    var p := head + d + tail;
    assert p == Placeholder(i);
    if k < 18 {
      assert p[k] == head[k];
    } else if k < 18 + |d| {
      assert p[k] == d[k - 18];
    } else {
      assert p[k] == tail[k - 18 - |d|];
      if k == |p| - 9 {
        assert p[k + 1] == tail[3];
      }
    }
  }

  // ------------------------------------------------------------ save

  /** One vault entry: the script and the placeholder standing in for it. */
  datatype Entry = Entry(script: string, placeholder: string)

  /** The foreach loop of saveJavaScript from the `i`-th script on. */
  function SaveEach(s: string, scripts: seq<string>, i: nat): (r: (string, seq<Entry>))
    ensures |r.1| == |scripts| - i || (i > |scripts| && r.1 == [])
    ensures forall k :: 0 <= k < |r.1| ==> r.1[k] == Entry(scripts[i + k], Placeholder(i + k))
    decreases |scripts| - i
  {
    if i >= |scripts| then (s, [])
    else
      var rest := SaveEach(ReplaceAll(s, scripts[i], Placeholder(i)), scripts, i + 1);
      (rest.0, [Entry(scripts[i], Placeholder(i))] + rest.1)
  }

  /**
   * saveJavaScript on a fresh vault: the document with every script
   * replaced by its placeholder, and the vault.
   */
  function Save(s: string): (r: (string, seq<Entry>))
    ensures |r.1| == |Scripts(s)|
    ensures forall k :: 0 <= k < |r.1| ==> r.1[k] == Entry(Scripts(s)[k], Placeholder(k))
  {
    SaveEach(s, Scripts(s), 0)
  }

  // ------------------------------------------------------------ restore

  /** ASCII case-insensitive occurrence, as the `i` flag compares. */
  predicate OccursAtIgnoreCase(s: string, n: string, k: nat) {
    k + |n| <= |s| && ToLower(s[k..k + |n|]) == ToLower(n)
  }

  /**
   * `(<script[^>]*>)\s*\n\s*(</script>)` with the `i` flag: an opening tag,
   * a run of whitespace holding a line feed, and a closing tag, in any
   * letter case.
   */
  function BrokenScriptAt(s: string, q: nat): (r: Option<nat>)
    ensures r.Some? ==> q < r.value <= |s|
  {
    if !OccursAtIgnoreCase(s, ScriptOpen, q) then None
    else
      var g := FindChar(s, '>', q + 7);
      if g == |s| then None
      else
        var w := RunEnd(s, g + 1, IsSpace);
        if '\n' in s[g + 1..w] && OccursAtIgnoreCase(s, ScriptClose, w) then Some(w + 9) else None
  }

  lemma BrokenScriptAtSound(s: string)
    ensures Sound(BrokenScriptAt, s)
  {
  }

  /**
   * The one-line fix as written: the first match anywhere in the script,
   * when there is one, replaces the whole script by its two tags.
   */
  function FixOneLineAsWritten(script: string): (r: string)
    ensures |r| <= |script|
    ensures r == script <==> NoMatchBetween(BrokenScriptAt, script, 0, |script|)
  {
    BrokenScriptAtSound(script);
    var ms := MatchAll(BrokenScriptAt, script, 0);
    MatchAllGaps(BrokenScriptAt, script, 0);
    assert NoMatchBetween(BrokenScriptAt, script, 0, |script|) ==> ms == [] by {
      if NoMatchBetween(BrokenScriptAt, script, 0, |script|) {
        MatchAllNone(BrokenScriptAt, script, 0);
      }
    }
    if |ms| == 0 then script else KeepTags(script, ms[0].0, ms[0].1)
  }

  /** The two tags of the match from q to e, with what lay between them dropped. */
  function KeepTags(script: string, q: nat, e: nat): (r: string)
    requires BrokenScriptAt(script, q) == Some(e)
    ensures |r| < e - q
  {
    BrokenShape(script, q);
    var g := FindChar(script, '>', q + 7);
    script[q..g + 1] + script[e - 9..e]
  }

  /** The body of a saved script: what lies between its opening tag and its closing tag. */
  predicate BlankBodyWithNewline(script: string) {
    BrokenScriptAt(script, 0) == Some(|script|)
  }

  /**
   * The one-line fix as intended: a script whose whole body is whitespace
   * holding a line feed loses the body; any other script is restored as it
   * was saved.
   */
  function FixOneLine(script: string): (r: string)
    ensures !BlankBodyWithNewline(script) ==> r == script
  {
    if BlankBodyWithNewline(script) then
      var g := FindChar(script, '>', 7);
      script[..g + 1] + script[|script| - 9..]
    else script
  }

  /** The intended fix only drops whitespace, and does so only from a blank body. */
  lemma FixOneLineInk(script: string)
    requires BlankBodyWithNewline(script)
    ensures |FixOneLine(script)| < |script| && Ink(FixOneLine(script)) == Ink(script)
  {
    var g := FindChar(script, '>', 7);
    var w := RunEnd(script, g + 1, IsSpace);
    assert w == |script| - 9;
    var tag, body, close := script[..g + 1], script[g + 1..w], script[w..];
    assert script == tag + body + close;
    InkDropSpaces(tag, body, close);
  }

  /** Dropping a run of whitespace keeps the ink. */
  lemma InkDropSpaces(a: string, w: string, b: string)
    requires forall i :: 0 <= i < |w| ==> IsSpace(w[i])
    ensures Ink(a + w + b) == Ink(a + b)
  {
    FilterConcat(a + w, b, IsInk);
    FilterConcat(a, w, IsInk);
    FilterNone(w, IsInk);
    FilterConcat(a, b, IsInk);
  }

  /** The foreach loop of restoreJavaScript, with the one-line fix `fix`. */
  function RestoreWith(s: string, vault: seq<Entry>, fix: string -> string): string
    decreases |vault|
  {
    if |vault| == 0 then s
    else RestoreWith(ReplaceAll(s, vault[0].placeholder, fix(vault[0].script)), vault[1..], fix)
  }

  /** restoreJavaScript as written. */
  function RestoreAsWritten(s: string, vault: seq<Entry>): string {
    RestoreWith(s, vault, FixOneLineAsWritten)
  }

  /** restoreJavaScript with the one-line fix applied to blank script bodies only. */
  function Restore(s: string, vault: seq<Entry>): string {
    RestoreWith(s, vault, FixOneLine)
  }

  /** The placeholders for the scripts from the `i`-th on, `n` of them. */
  function PlaceholdersFrom(i: nat, n: nat): (r: seq<string>)
    ensures |r| == n && forall j :: 0 <= j < n ==> r[j] == Placeholder(i + j)
  {
    seq(n, j requires 0 <= j < n => Placeholder(i + j))
  }

  /** The save loop is a chain of str_replace calls, script by placeholder. */
  lemma {:induction false} SaveEachReplaces(s: string, xs: seq<string>, i: nat)
    requires i <= |xs|
    ensures SaveEach(s, xs, i).0 == ReplaceSeq(s, xs[i..], PlaceholdersFrom(i, |xs| - i))
    decreases |xs| - i
  {
    if i < |xs| {
      var t := ReplaceAll(s, xs[i], Placeholder(i));
      SaveEachStep(s, xs, i);
      SaveEachReplaces(t, xs, i + 1);
      PlaceholdersTail(i, |xs| - i);
      assert xs[i..][0] == xs[i] && xs[i..][1..] == xs[i + 1..];
      ReplaceSeqStep(s, xs[i..], PlaceholdersFrom(i, |xs| - i));
    }
  }

  lemma SaveEachStep(s: string, xs: seq<string>, i: nat)
    requires i < |xs|
    ensures SaveEach(s, xs, i).0 == SaveEach(ReplaceAll(s, xs[i], Placeholder(i)), xs, i + 1).0
  {
  }

  lemma PlaceholdersTail(i: nat, n: nat)
    requires n > 0
    ensures PlaceholdersFrom(i, n)[0] == Placeholder(i)
    ensures PlaceholdersFrom(i, n)[1..] == PlaceholdersFrom(i + 1, n - 1)
  {
    var ps, ps' := PlaceholdersFrom(i, n), PlaceholdersFrom(i + 1, n - 1);
    forall j | 0 <= j < |ps'| ensures ps[1..][j] == ps'[j] {
      assert ps[1..][j] == ps[j + 1] == Placeholder(i + 1 + j);
    }
  }

  /** A match of the save pattern opens with `<script` and ends with `</script>`. */
  lemma ScriptAtShape(s: string, a: nat, e: nat)
    requires ScriptAt(s, a) == Some(e)
    ensures a + 16 <= e && OccursAt(s, ScriptOpen, a) && OccursAt(s, ScriptClose, e - 9)
  {
    var g := FindChar(s, '>', a + 7);
    var c := Find(s, ScriptClose, g + 1);
    assert c.Some? && e == c.value + 9;
  }

  /** A script opens with `<s`, closes with `</script>`, and is a piece of the document. */
  lemma ScriptShape(s: string, i: nat)
    requires i < |Scripts(s)|
    ensures ScriptShaped(Scripts(s)[i]) && Contains(s, Scripts(s)[i])
  {
    ScriptAtSound(s);
    var ms := MatchAll(ScriptAt, s, 0);
    var a, e := ms[i].0, ms[i].1;
    var x := Scripts(s)[i];
    assert x == s[a..e];
    ScriptAtShape(s, a, e);
    assert x[0] == s[a..a + 7][0] && x[1] == s[a..a + 7][1];
    assert x[|x| - 9..] == s[e - 9..e];
    assert OccursAt(s, x, a);
  }

  /** Opens with `<s` and ends with `</script>`, as every script does. */
  predicate ScriptShaped(x: string) {
    |x| >= 9 && x[0] == '<' && x[1] == 's' && x[|x| - 9..] == ScriptClose
  }

  /** Opens with `<s` and has no other `<` than the one of `</` nine from its end, as a placeholder. */
  predicate PlaceholderShaped(p: string) {
    |p| >= 9 && p[0] == '<' && p[1] == 's' && p[|p| - 8] == '/'
    && forall k :: 0 < k < |p| && p[k] == '<' ==> k == |p| - 9
  }

  lemma PlaceholderIsShaped(i: nat)
    ensures PlaceholderShaped(Placeholder(i))
  {
    var p := Placeholder(i);
    PlaceholderAngles(i, 1);
    PlaceholderAngles(i, |p| - 9);
    forall k | 0 < k < |p| && p[k] == '<' ensures k == |p| - 9 {
      PlaceholderAngles(i, k);
    }
  }

  /**
   * A script and a placeholder cannot overlap unless the script holds the
   * placeholder: the placeholder has `<` only at its start and where its
   * `</script>` starts, and a script starts with `<s` and ends with
   * `</script>`.
   */
  lemma ScriptApartPlaceholder(x: string, p: string)
    requires ScriptShaped(x) && PlaceholderShaped(p) && !Contains(x, p)
    ensures Apart(x, p)
  {
    forall d | 0 < d < |p| ensures !Overlay(x, p[d..]) {
      if p[d] != '<' {
        assert x[0] != p[d..][0];
      } else {
        assert x[1] != p[d..][1];
      }
    }
    forall d | 0 <= d < |x| ensures !Overlay(x[d..], p) {
      ScriptNotOverlayAt(x, p, d);
    }
  }

  lemma ScriptNotOverlayAt(x: string, p: string, d: nat)
    requires ScriptShaped(x) && PlaceholderShaped(p) && !Contains(x, p) && d < |x|
    ensures !Overlay(x[d..], p)
  {
    var e := |x| - 9;
    if d > e {
      assert x[d] == ScriptClose[d - e];
    }
    if x[d] != '<' {
      assert x[d..][0] != p[0];
    } else if |x| - d >= |p| {
      OverlayOccurs(x, p, d);
    } else if d == e {
      assert x[d + 1] == ScriptClose[1];
      assert x[d..][1] != p[1];
    } else {
      assert x[e] == ScriptClose[0];
      assert x[d..][e - d] != p[e - d];
    }
  }

  /**
   * saveJavaScript hides every script: when the document holds none of the
   * placeholders and no two scripts can overlap, the saved text holds every
   * placeholder and none of the scripts.
   */
  lemma SaveHidesScripts(s: string)
    requires forall k :: 0 <= k < |Scripts(s)| ==> !Contains(s, Placeholder(k))
    requires forall i, k :: 0 <= i < k < |Scripts(s)| ==> Apart(Scripts(s)[i], Scripts(s)[k])
    ensures forall k :: 0 <= k < |Scripts(s)| ==> Contains(Save(s).0, Placeholder(k)) && !Contains(Save(s).0, Scripts(s)[k])
  {
    var xs := Scripts(s);
    var ps := PlaceholdersFrom(0, |xs|);
    assert xs[0..] == xs;
    SaveEachReplaces(s, xs, 0);
    assert Save(s).0 == ReplaceSeq(s, xs, ps);
    ScriptsSeparate(s);
    SeqSwaps(s, xs, ps);
  }

  /** Under the conditions of SaveHidesScripts, the scripts and their placeholders cannot overlap. */
  lemma ScriptsSeparate(s: string)
    requires forall k :: 0 <= k < |Scripts(s)| ==> !Contains(s, Placeholder(k))
    requires forall i, k :: 0 <= i < k < |Scripts(s)| ==> Apart(Scripts(s)[i], Scripts(s)[k])
    ensures Separate(Scripts(s), PlaceholdersFrom(0, |Scripts(s)|))
    ensures forall k :: 0 <= k < |Scripts(s)| ==> Contains(s, Scripts(s)[k])
  {
    var xs := Scripts(s);
    var ps := PlaceholdersFrom(0, |xs|);
    forall k | 0 <= k < |xs| ensures Contains(s, xs[k]) {
      ScriptShape(s, k);
    }
    forall k, i | 0 <= k < |xs| && 0 <= i < |xs| ensures Apart(xs[k], ps[i]) {
      ScriptShape(s, k);
      ContainsWithin(s, xs[k], Placeholder(i));
      PlaceholderIsShaped(i);
      ScriptApartPlaceholder(xs[k], Placeholder(i));
    }
    SeparateAll(xs, ps);
  }

  /**
   * Restoring gives the document back: with at most one script, whose body
   * is not blank and whose placeholder the document does not already hold,
   * restoreJavaScript undoes saveJavaScript.
   */
  lemma SaveRestore(s: string)
    requires |Scripts(s)| <= 1
    requires forall k :: 0 <= k < |Scripts(s)| ==> !BlankBodyWithNewline(Scripts(s)[k]) && !Contains(s, Placeholder(k))
    ensures forall k :: 0 <= k < |Scripts(s)| ==> Contains(Save(s).0, Placeholder(k)) && !Contains(Save(s).0, Scripts(s)[k])
    ensures Restore(Save(s).0, Save(s).1) == s
  {
    var xs := Scripts(s);
    if |xs| == 1 {
      var x, p := xs[0], Placeholder(0);
      assert |x| > 0 by { ScriptAtSound(s); }
      PlaceholderUnbordered(0);
      ReplaceAllBack(s, x, p);
      assert Save(s) == SaveEach(s, xs, 0);
      SaveOne(s, xs);
      RestoreOne(ReplaceAll(s, x, p), Entry(x, p));
    }
    SaveHidesScripts(s);
  }

  /** Saving a document with one script. */
  lemma SaveOne(s: string, xs: seq<string>)
    requires |xs| == 1
    ensures SaveEach(s, xs, 0) == (ReplaceAll(s, xs[0], Placeholder(0)), [Entry(xs[0], Placeholder(0))])
  {
    var t := ReplaceAll(s, xs[0], Placeholder(0));
    var e := Entry(xs[0], Placeholder(0));
    assert SaveEach(t, xs, 1) == (t, []);
    assert SaveEach(s, xs, 0) == (t, [e] + []);
    assert [e] + [] == [e];
  }

  /** Restoring from a vault of one entry. */
  lemma RestoreOne(t: string, e: Entry)
    ensures Restore(t, [e]) == ReplaceAll(t, e.placeholder, FixOneLine(e.script))
  {
    var u := ReplaceAll(t, e.placeholder, FixOneLine(e.script));
    assert [e][0] == e && [e][1..] == [];
    assert RestoreWith(t, [e], FixOneLine) == RestoreWith(u, [], FixOneLine);
  }

  // ------------------------------------------------------------ the case mismatch

  /** A script whose body holds a line feed and an upper-case closing tag. */
  const MixedCaseScript: string := "<script>\n</SCRIPT>x</script>"

  /**
   * Saving is case-sensitive, so the upper-case `</SCRIPT>` is part of the
   * body; restoring is case-insensitive and takes it for the closing tag,
   * so the script comes back cut short.
   */
  lemma MixedCaseScriptCutShort()
    ensures FixOneLineAsWritten(MixedCaseScript) == "<script></SCRIPT>"
    ensures FixOneLine(MixedCaseScript) == MixedCaseScript
  {
    MixedCaseAsWritten();
    MixedCaseKept();
  }

  /**
   * The cut reaches the document: restoring a placeholder that stands for
   * the mixed-case script gives back only its two tags as written, and the
   * whole script once the fix is confined to blank bodies.
   */
  lemma MixedCaseRestoredShort(p: string)
    requires |p| > 0
    ensures RestoreAsWritten(p, [Entry(MixedCaseScript, p)]) == "<script></SCRIPT>"
    ensures Restore(p, [Entry(MixedCaseScript, p)]) == MixedCaseScript
  {
    RestoreWhole(p, MixedCaseScript, FixOneLineAsWritten);
    RestoreWhole(p, MixedCaseScript, FixOneLine);
    MixedCaseScriptCutShort();
  }

  /** A document that is just one placeholder is restored to the fixed script. */
  lemma RestoreWhole(p: string, x: string, fix: string -> string)
    requires |p| > 0
    ensures RestoreWith(p, [Entry(x, p)], fix) == fix(x)
  {
    var e := Entry(x, p);
    assert p[..|p|] == p && p[|p|..] == [];
    assert ReplaceAll(p, p, fix(x)) == fix(x) + ReplaceAll([], p, fix(x));
    assert [e][0] == e && [e][1..] == [];
    assert RestoreWith(p, [e], fix) == RestoreWith(fix(x), [], fix);
  }

  lemma MixedCaseAsWritten()
    ensures FixOneLineAsWritten(MixedCaseScript) == "<script></SCRIPT>"
  {
    var x := MixedCaseScript;
    MixedCaseFirstMatch();
    MixedCaseBroken();
    assert FixOneLineAsWritten(x) == KeepTags(x, 0, 18);
    MixedCaseTags();
  }

  lemma MixedCaseTags()
    ensures FindChar(MixedCaseScript, '>', 7) == 7
    ensures MixedCaseScript[0..8] + MixedCaseScript[9..18] == "<script></SCRIPT>"
  {
    var x := MixedCaseScript;
    assert x[7] == '>';
    assert x[0..8] == "<script>";
    assert x[9..18] == "</SCRIPT>";
  }

  /** Where the pattern matches, the opening tag ends before the closing tag begins. */
  lemma BrokenShape(x: string, q: nat)
    requires BrokenScriptAt(x, q).Some?
    ensures q + 7 <= |x| && FindChar(x, '>', q + 7) + 1 < BrokenScriptAt(x, q).value - 9
  {
  }

  lemma MixedCaseKept()
    ensures FixOneLine(MixedCaseScript) == MixedCaseScript
  {
    MixedCaseBroken();
  }

  lemma MixedCaseFirstMatch()
    ensures Sound(BrokenScriptAt, MixedCaseScript)
            && var ms := MatchAll(BrokenScriptAt, MixedCaseScript, 0); |ms| > 0 && ms[0] == (0, 18)
    ensures BrokenScriptAt(MixedCaseScript, 0) != Some(|MixedCaseScript|)
  {
    BrokenScriptAtSound(MixedCaseScript);
    MixedCaseBroken();
  }

  /** The case-insensitive pattern matches the first eighteen characters. */
  lemma MixedCaseBroken()
    ensures BrokenScriptAt(MixedCaseScript, 0) == Some(18)
  {
    var x := MixedCaseScript;
    MixedCaseTags();
    MixedCaseParts();
    assert ToLower("</SCRIPT>") == "</script>";
  }

  lemma MixedCaseParts()
    ensures MixedCaseScript[0..7] == "<script" && MixedCaseScript[9..18] == "</SCRIPT>"
    ensures RunEnd(MixedCaseScript, 8, IsSpace) == 9 && MixedCaseScript[8..9] == "\n"
  {
    var x := MixedCaseScript;
    assert x[0..7] == "<script";
    RunEndIs(x, 8, IsSpace, 9);
    assert x[8..9] == "\n";
    assert x[9..18] == "</SCRIPT>";
  }
}

=== FILE: html_tags.dfy ===
/**
 * Putting every tag on a line of its own and indenting the lines by tag
 * depth (src/HtmlPrinter.php: the two str_replace calls of format,
 * indentTags and updateTagCount).
 *
 * The depth is kept as PHP keeps it: an ordered array from lower-cased tag
 * name to a count, each opening tag adding one and each closing tag taking
 * one away; the depth of a line is the sum of all counts.
 */
module HtmlTags {
  import opened Text
  import opened Outcomes
  import opened Matching
  import Printer

  // ------------------------------------------------------------ one tag per line

  /** str_replace('<', "\n<") then str_replace('>', ">\n"). */
  function ExplodeTags(s: string): string {
    ReplaceAll(ReplaceAll(s, "<", "\n<"), ">", ">\n")
  }

  /** What one character becomes. */
  function ExplodeChar(c: char): string {
    if c == '<' then "\n<" else if c == '>' then ">\n" else [c]
  }

  /** Every character rewritten on its own, in order. */
  function Exploded(s: string): string {
    if |s| == 0 then [] else ExplodeChar(s[0]) + Exploded(s[1..])
  }

  /** Replacing a one-character string rewrites each of its occurrences on its own. */
  function MapChar(s: string, c: char, r: string): string {
    if |s| == 0 then [] else (if s[0] == c then r else [s[0]]) + MapChar(s[1..], c, r)
  }

  lemma {:induction false} ReplaceAllChar(s: string, c: char, r: string)
    ensures ReplaceAll(s, [c], r) == MapChar(s, c, r)
  {
    if |s| > 0 {
      ReplaceAllChar(s[1..], c, r);
      assert s[..1] == [s[0]];
      assert s[1..] == s[|[c]|..];
    }
  }

  lemma {:induction false} MapCharAppend(a: string, b: string, c: char, r: string)
    ensures MapChar(a + b, c, r) == MapChar(a, c, r) + MapChar(b, c, r)
  {
    if |a| == 0 {
      assert a + b == b;
    } else {
      assert (a + b)[1..] == a[1..] + b;
      MapCharAppend(a[1..], b, c, r);
    }
  }

  /** The two replacements amount to rewriting each character on its own. */
  lemma {:induction false} ExplodeTagsEach(s: string)
    ensures ExplodeTags(s) == Exploded(s)
  {
    ReplaceAllChar(s, '<', "\n<");
    var t := MapChar(s, '<', "\n<");
    ReplaceAllChar(t, '>', ">\n");
    MapExploded(s);
  }

  lemma {:induction false} MapExploded(s: string)
    ensures MapChar(MapChar(s, '<', "\n<"), '>', ">\n") == Exploded(s)
  {
    if |s| > 0 {
      MapExploded(s[1..]);
      var head := if s[0] == '<' then "\n<" else [s[0]];
      MapCharAppend(head, MapChar(s[1..], '<', "\n<"), '>', ">\n");
      if s[0] == '<' {
        assert MapChar(head, '>', ">\n") == "\n<" by {
          assert head[1..] == "<";
          assert head[1..][1..] == [];
        }
      } else {
        assert MapChar(head, '>', ">\n") == ExplodeChar(s[0]) by {
          assert head[1..] == [];
        }
      }
    }
  }

  /** Every `<` opens a line and every `>` closes one. */
  predicate TagsOnOwnLines(r: string) {
    && (forall i :: 0 <= i < |r| && r[i] == '<' ==> i > 0 && r[i - 1] == '\n')
    && (forall i :: 0 <= i < |r| && r[i] == '>' ==> i + 1 < |r| && r[i + 1] == '\n')
  }

  lemma {:induction false} ExplodedOwnLines(s: string)
    ensures TagsOnOwnLines(Exploded(s))
  {
    if |s| > 0 {
      ExplodedOwnLines(s[1..]);
      var p, t := ExplodeChar(s[0]), Exploded(s[1..]);
      var r := p + t;
      assert Exploded(s) == r;
      forall i | 0 <= i < |r| && r[i] == '<' ensures i > 0 && r[i - 1] == '\n' {
        if i >= |p| {
          assert t[i - |p|] == '<';
        }
      }
      forall i | 0 <= i < |r| && r[i] == '>' ensures i + 1 < |r| && r[i + 1] == '\n' {
        if i >= |p| {
          assert t[i - |p|] == '>';
        }
      }
    }
  }

  /** Lines 45-46 put every tag on a line of its own and change nothing but line feeds. */
  lemma ExplodeTagsLines(s: string)
    ensures TagsOnOwnLines(ExplodeTags(s))
    ensures Ink(ExplodeTags(s)) == Ink(s)
  {
    ExplodeTagsEach(s);
    ExplodedOwnLines(s);
    ReplaceAllFilter(s, "<", "\n<", IsInk);
    ReplaceAllFilter(ReplaceAll(s, "<", "\n<"), ">", ">\n", IsInk);
  }

  // ------------------------------------------------------------ tag counts

  /** An ordered PHP array from tag name to count. */
  type Counts = seq<(string, int)>

  predicate UniqueKeys(c: Counts) {
    forall i, j :: 0 <= i < j < |c| ==> c[i].0 != c[j].0
  }

  /** `$counts[$tag]`, with an unset entry read as 0. */
  function Lookup(c: Counts, tag: string): int {
    if |c| == 0 then 0 else if c[0].0 == tag then c[0].1 else Lookup(c[1..], tag)
  }

  /** `$counts[$tag] = isset($counts[$tag]) ? $counts[$tag] + d : d`: a new name goes last. */
  function Bump(c: Counts, tag: string, d: int): Counts {
    if |c| == 0 then [(tag, d)]
    else if c[0].0 == tag then [(tag, c[0].1 + d)] + c[1..]
    else [c[0]] + Bump(c[1..], tag, d)
  }

  /** array_sum. */
  function Sum(c: Counts): int {
    if |c| == 0 then 0 else c[0].1 + Sum(c[1..])
  }

  /** Bumping one name changes that count by `d`, keeps the others and keeps names unique. */
  lemma {:induction false} BumpLookup(c: Counts, tag: string, d: int, t: string)
    requires UniqueKeys(c)
    ensures UniqueKeys(Bump(c, tag, d))
    ensures Lookup(Bump(c, tag, d), t) == Lookup(c, t) + (if t == tag then d else 0)
  {
    if |c| > 0 {
      if c[0].0 == tag {
        if t == tag {
          LookupAbsent(c[1..], t);
        }
      } else {
        BumpLookup(c[1..], tag, d, t);
        BumpKeys(c[1..], tag, d);
        var b := Bump(c, tag, d);
        forall i, j | 0 <= i < j < |b| ensures b[i].0 != b[j].0 {
          if i == 0 {
            assert b[j].0 == Bump(c[1..], tag, d)[j - 1].0;
          }
        }
      }
    }
  }

  /** The names of a bumped array: the old ones, and the new one if it was missing. */
  lemma {:induction false} BumpKeys(c: Counts, tag: string, d: int)
    ensures forall k :: 0 <= k < |Bump(c, tag, d)| ==>
              Bump(c, tag, d)[k].0 == tag || exists i :: 0 <= i < |c| && c[i].0 == Bump(c, tag, d)[k].0
  {
    if |c| > 0 && c[0].0 != tag {
      BumpKeys(c[1..], tag, d);
      var b := Bump(c, tag, d);
      forall k | 0 <= k < |b| ensures b[k].0 == tag || exists i :: 0 <= i < |c| && c[i].0 == b[k].0 {
        if k == 0 {
          assert c[0].0 == b[0].0;
        } else {
          var b' := Bump(c[1..], tag, d);
          assert b[k] == b'[k - 1];
          if b'[k - 1].0 != tag {
            var i :| 0 <= i < |c[1..]| && c[1..][i].0 == b'[k - 1].0;
            assert c[i + 1].0 == b[k].0;
          }
        }
      }
    }
  }

  /** A name that does not occur reads as 0. */
  lemma {:induction false} LookupAbsent(c: Counts, t: string)
    requires forall i :: 0 <= i < |c| ==> c[i].0 != t
    ensures Lookup(c, t) == 0
  {
    if |c| > 0 {
      LookupAbsent(c[1..], t);
    }
  }

  /** The sum moves by exactly the amount bumped. */
  lemma {:induction false} BumpSum(c: Counts, tag: string, d: int)
    ensures Sum(Bump(c, tag, d)) == Sum(c) + d
  {
    if |c| > 0 && c[0].0 != tag {
      BumpSum(c[1..], tag, d);
    }
  }

  /**
   * `<([\w:.-]+).*?>` (the dot stops at line feeds): `<`, a tag name, then
   * everything up to the first `>` on the same line.
   */
  function OpenTagAt(s: string, q: nat): (r: Option<nat>)
    ensures r.Some? ==> q + 2 < r.value <= |s|
  {
    if q + 1 >= |s| || s[q] != '<' || !IsNameChar(s[q + 1]) then None
    else
      var n := RunEnd(s, q + 1, IsNameChar);
      var g := RunEnd(s, n, IsTagFiller);
      if g < |s| && s[g] == '>' then Some(g + 1) else None
  }

  /** What `.*?` may pass over before the `>`: anything but a line feed or `>`. */
  predicate IsTagFiller(c: char) {
    c != '\n' && c != '>'
  }

  /** `</([\w:.-]+)`: the start of a closing tag, up to the end of its name. */
  function CloseTagAt(s: string, q: nat): (r: Option<nat>)
    ensures r.Some? ==> q + 2 < r.value <= |s|
  {
    if q + 2 >= |s| || s[q] != '<' || s[q + 1] != '/' || !IsNameChar(s[q + 2]) then None
    else Some(RunEnd(s, q + 2, IsNameChar))
  }

  /** `/\s*>`: a slash, optional whitespace, then `>`. */
  function SlashCloseAt(s: string, q: nat): (r: Option<nat>)
    ensures r.Some? ==> q < r.value <= |s|
  {
    if q >= |s| || s[q] != '/' then None
    else
      var w := RunEnd(s, q + 1, IsSpace);
      if w < |s| && s[w] == '>' then Some(w + 1) else None
  }

  lemma TagPatternsSound(s: string)
    ensures Sound(OpenTagAt, s) && Sound(CloseTagAt, s) && Sound(SlashCloseAt, s)
  {
  }

  /** preg_match('~/\s*>~', $tag): the tag closes itself. */
  predicate SelfClosing(tag: string) {
    TagPatternsSound(tag);
    |MatchAll(SlashCloseAt, tag, 0)| > 0
  }

  /** The lower-cased name of the tag matched at [q, e). */
  function OpenName(s: string, q: nat): string
    requires q + 1 < |s|
  {
    ToLower(s[q + 1..RunEnd(s, q + 1, IsNameChar)])
  }

  /** The first foreach of updateTagCount over the opening-tag matches `ms`. */
  function CountOpens(c: Counts, line: string, ms: seq<(nat, nat)>): Counts
    requires forall i :: 0 <= i < |ms| ==> ms[i].0 + 2 < ms[i].1 <= |line|
    decreases |ms|
  {
    if |ms| == 0 then c
    else
      var q, e := ms[0].0, ms[0].1;
      var c' := if SelfClosing(line[q..e]) then c else Bump(c, OpenName(line, q), 1);
      CountOpens(c', line, ms[1..])
  }

  /** The second foreach of updateTagCount over the closing-tag matches `ms`. */
  function CountCloses(c: Counts, line: string, ms: seq<(nat, nat)>): Counts
    requires forall i :: 0 <= i < |ms| ==> ms[i].0 + 2 < ms[i].1 <= |line|
    decreases |ms|
  {
    if |ms| == 0 then c
    else CountCloses(Bump(c, ToLower(line[ms[0].0 + 2..ms[0].1]), -1), line, ms[1..])
  }

  /** updateTagCount. */
  function UpdateTagCount(c: Counts, line: string): Counts {
    TagPatternsSound(line);
    CountCloses(CountOpens(c, line, MatchAll(OpenTagAt, line, 0)), line, MatchAll(CloseTagAt, line, 0))
  }

  /** The names the opening tags of `ms` add one to, in order; self-closing tags add nothing. */
  function OpenedIn(line: string, ms: seq<(nat, nat)>): seq<string>
    requires forall i :: 0 <= i < |ms| ==> ms[i].0 + 2 < ms[i].1 <= |line|
  {
    if |ms| == 0 then []
    else
      var q, e := ms[0].0, ms[0].1;
      (if SelfClosing(line[q..e]) then [] else [OpenName(line, q)]) + OpenedIn(line, ms[1..])
  }

  /** The names the closing tags of `ms` take one from. */
  function ClosedIn(line: string, ms: seq<(nat, nat)>): seq<string>
    requires forall i :: 0 <= i < |ms| ==> ms[i].0 + 2 < ms[i].1 <= |line|
  {
    if |ms| == 0 then [] else [ToLower(line[ms[0].0 + 2..ms[0].1])] + ClosedIn(line, ms[1..])
  }

  function Opened(line: string): seq<string> {
    TagPatternsSound(line);
    OpenedIn(line, MatchAll(OpenTagAt, line, 0))
  }

  function Closed(line: string): seq<string> {
    TagPatternsSound(line);
    ClosedIn(line, MatchAll(CloseTagAt, line, 0))
  }

  /** How often `t` occurs in `names`. */
  function Count(names: seq<string>, t: string): nat {
    if |names| == 0 then 0 else (if names[0] == t then 1 else 0) + Count(names[1..], t)
  }

  lemma {:induction false} CountOpensEffect(c: Counts, line: string, ms: seq<(nat, nat)>, t: string)
    requires forall i :: 0 <= i < |ms| ==> ms[i].0 + 2 < ms[i].1 <= |line|
    requires UniqueKeys(c)
    ensures UniqueKeys(CountOpens(c, line, ms))
    ensures Lookup(CountOpens(c, line, ms), t) == Lookup(c, t) + Count(OpenedIn(line, ms), t)
    decreases |ms|
  {
    if |ms| > 0 {
      var q, e := ms[0].0, ms[0].1;
      if SelfClosing(line[q..e]) {
        CountOpensEffect(c, line, ms[1..], t);
        assert OpenedIn(line, ms) == OpenedIn(line, ms[1..]);
      } else {
        var tag := OpenName(line, q);
        BumpLookup(c, tag, 1, t);
        CountOpensEffect(Bump(c, tag, 1), line, ms[1..], t);
      }
    }
  }

  lemma {:induction false} CountOpensSum(c: Counts, line: string, ms: seq<(nat, nat)>)
    requires forall i :: 0 <= i < |ms| ==> ms[i].0 + 2 < ms[i].1 <= |line|
    ensures Sum(CountOpens(c, line, ms)) == Sum(c) + |OpenedIn(line, ms)|
    decreases |ms|
  {
    if |ms| > 0 {
      var q, e := ms[0].0, ms[0].1;
      if SelfClosing(line[q..e]) {
        CountOpensSum(c, line, ms[1..]);
        assert OpenedIn(line, ms) == OpenedIn(line, ms[1..]);
      } else {
        var tag := OpenName(line, q);
        BumpSum(c, tag, 1);
        CountOpensSum(Bump(c, tag, 1), line, ms[1..]);
      }
    }
  }

  lemma {:induction false} CountClosesEffect(c: Counts, line: string, ms: seq<(nat, nat)>, t: string)
    requires forall i :: 0 <= i < |ms| ==> ms[i].0 + 2 < ms[i].1 <= |line|
    requires UniqueKeys(c)
    ensures UniqueKeys(CountCloses(c, line, ms))
    ensures Lookup(CountCloses(c, line, ms), t) == Lookup(c, t) - Count(ClosedIn(line, ms), t)
    decreases |ms|
  {
    if |ms| > 0 {
      var tag := ToLower(line[ms[0].0 + 2..ms[0].1]);
      BumpLookup(c, tag, -1, t);
      CountClosesEffect(Bump(c, tag, -1), line, ms[1..], t);
    }
  }

  lemma {:induction false} CountClosesSum(c: Counts, line: string, ms: seq<(nat, nat)>)
    requires forall i :: 0 <= i < |ms| ==> ms[i].0 + 2 < ms[i].1 <= |line|
    ensures Sum(CountCloses(c, line, ms)) == Sum(c) - |ClosedIn(line, ms)|
    decreases |ms|
  {
    if |ms| > 0 {
      var tag := ToLower(line[ms[0].0 + 2..ms[0].1]);
      BumpSum(c, tag, -1);
      CountClosesSum(Bump(c, tag, -1), line, ms[1..]);
    }
  }

  /**
   * The counting rule: every opening tag that does not close itself adds
   * one to its lower-cased name, every closing tag takes one away, with no
   * floor at zero.
   */
  lemma UpdateTagCountEffect(c: Counts, line: string, t: string)
    requires UniqueKeys(c)
    ensures UniqueKeys(UpdateTagCount(c, line))
    ensures Lookup(UpdateTagCount(c, line), t) == Lookup(c, t) + Count(Opened(line), t) - Count(Closed(line), t)
  {
    TagPatternsSound(line);
    var opens := MatchAll(OpenTagAt, line, 0);
    CountOpensEffect(c, line, opens, t);
    CountClosesEffect(CountOpens(c, line, opens), line, MatchAll(CloseTagAt, line, 0), t);
  }

  /** The sum of all counts moves by the tags opened minus the tags closed. */
  lemma UpdateTagCountSum(c: Counts, line: string)
    ensures Sum(UpdateTagCount(c, line)) == Sum(c) + Net(line)
  {
    TagPatternsSound(line);
    var opens := MatchAll(OpenTagAt, line, 0);
    CountOpensSum(c, line, opens);
    CountClosesSum(CountOpens(c, line, opens), line, MatchAll(CloseTagAt, line, 0));
  }

  /** An unmatched closing tag leaves a negative count. */
  lemma StrayCloserNegative()
    ensures UpdateTagCount([], "</p>") == [("p", -1)]
  {
    var line := "</p>";
    TagPatternsSound(line);
    StrayCloserMatches();
    assert ToLower(line[2..3]) == "p";
    assert CountCloses([], line, [(0, 3)]) == CountCloses([("p", -1)], line, []);
  }

  lemma StrayCloserMatches()
    ensures Sound(OpenTagAt, "</p>") && Sound(CloseTagAt, "</p>")
    ensures MatchAll(OpenTagAt, "</p>", 0) == [] && MatchAll(CloseTagAt, "</p>", 0) == [(0, 3)]
  {
    var line := "</p>";
    TagPatternsSound(line);
    assert OpenTagAt(line, 0).None?;
    assert MatchAll(OpenTagAt, line, 3) == [];
    assert MatchAll(OpenTagAt, line, 2) == [];
    assert MatchAll(OpenTagAt, line, 1) == [];
    assert RunEnd(line, 3, IsNameChar) == 3;
    assert RunEnd(line, 2, IsNameChar) == 3;
    assert CloseTagAt(line, 0) == Some(3);
    assert MatchAll(CloseTagAt, line, 3) == [];
  }

  // ------------------------------------------------------------ indentation


  /**
   * preg_split('~\n+~', s): the text between runs of line feeds. Only the
   * first and the last piece can be empty.
   */
  function SplitRuns(s: string): (r: seq<string>)
    ensures |r| >= 1
  {
    var p := Split(s, '\n');
    if |p| == 1 then p else [p[0]] + NonEmpty(p[1..|p| - 1]) + [p[|p| - 1]]
  }

  /** The lines indentTags works on. */
  function TagLines(pretty: string): seq<string> {
    SplitRuns(Trim(pretty))
  }


  /** A text that does not start with the separator has a non-empty first piece. */
  lemma SplitFirst(s: string, c: char)
    requires |s| > 0 && s[0] != c
    ensures |Split(s, c)[0]| > 0
  {
  }

  /** A text that does not end with the separator has a non-empty last piece. */
  lemma {:induction false} SplitLast(s: string, c: char)
    requires |s| > 0 && s[|s| - 1] != c
    ensures var p := Split(s, c); |p[|p| - 1]| > 0
    decreases |s|, 1
  {
    if IndexOf(s, c) < |s| {
      SplitLastAfter(s, c);
    } else {
      assert Split(s, c) == [s];
    }
  }

  /** The last piece of a text holding the separator is the last piece of what follows the first one. */
  lemma {:induction false} SplitLastAfter(s: string, c: char)
    requires |s| > 0 && s[|s| - 1] != c && IndexOf(s, c) < |s|
    ensures var p := Split(s, c); |p[|p| - 1]| > 0
    decreases |s|, 0
  {
    var k := IndexOf(s, c);
    var t := s[k + 1..];
    var q := Split(t, c);
    assert |q[|q| - 1]| > 0 by {
      assert t[|t| - 1] == s[|s| - 1];
      SplitLast(t, c);
    }
    SplitStep(s, c);
    LastCons(s[..k], q);
  }

  lemma LastCons(x: string, q: seq<string>)
    requires |q| > 0
    ensures var p := [x] + q; p[|p| - 1] == q[|q| - 1]
  {
  }

  /** Without line feeds at either end, the runs split off no empty piece. */
  lemma SplitRunsNonEmpty(t: string)
    requires |t| > 0 && t[0] != '\n' && t[|t| - 1] != '\n'
    ensures SplitRuns(t) == NonEmpty(Split(t, '\n'))
  {
    SplitFirst(t, '\n');
    SplitLast(t, '\n');
    NonEmptyEnds(Split(t, '\n'));
  }

  lemma NonEmptyEnds(p: seq<string>)
    requires |p| >= 1 && |p[0]| > 0 && |p[|p| - 1]| > 0
    ensures NonEmpty(p) == if |p| == 1 then p else [p[0]] + NonEmpty(p[1..|p| - 1]) + [p[|p| - 1]]
  {
    if |p| > 1 {
      var mid := p[1..|p| - 1];
      assert p == [p[0]] + mid + [p[|p| - 1]];
      NonEmptyConcat([p[0]] + mid, [p[|p| - 1]]);
      NonEmptyConcat([p[0]], mid);
    } else {
      assert p == [p[0]];
    }
  }

  /**
   * The lines indentTags works on are the non-empty lines of the trimmed
   * text: runs of line feeds leave no empty line between two others, and
   * trimming leaves none at the ends. Only an all-blank text gives the one
   * empty line.
   */
  lemma TagLinesNonEmpty(pretty: string)
    ensures var t := Trim(pretty);
            && (t != [] ==> TagLines(pretty) == NonEmpty(Split(t, '\n')))
            && (t == [] ==> TagLines(pretty) == [[]])
  {
    var t := Trim(pretty);
    if t != [] {
      SplitRunsNonEmpty(t);
    } else {
      assert Join(Split(t, '\n'), ['\n']) == [];
    }
  }

  /**
   * The foreach loop of indentTags from line `i`, with the counts and the
   * depth of the line before; `update` is the count update, updateTagCount.
   */
  function IndentFrom(lines: seq<string>, i: nat, c: Counts, prev: int, update: (Counts, string) -> Counts): Result<string>
    requires i <= |lines|
    decreases |lines| - i
  {
    if i == |lines| then Success([])
    else
      var c' := update(c, lines[i]);
      var depth := Sum(c');
      var n := if depth < prev then Printer.DefaultIndent * depth else Printer.DefaultIndent * prev;
      if n < 0 then Failure(NegativeRepeat)
      else
        var rest := IndentFrom(lines, i + 1, c', depth, update);
        if rest.Failure? then rest else Success(Spaces(n) + lines[i] + "\n" + rest.value)
  }

  /** indentTags. */
  function IndentTags(pretty: string): Result<string> {
    IndentFrom(TagLines(pretty), 0, [], 0, UpdateTagCount)
  }

  /** Tags a line opens minus tags it closes. */
  function Net(line: string): int {
    |Opened(line)| - |Closed(line)|
  }

  /** The depth after the first `i` lines, each line moving it by `net` (Net for indentTags). */
  function Depth(lines: seq<string>, i: nat, net: string -> int): int
    requires i <= |lines|
  {
    if i == 0 then 0 else Depth(lines, i - 1, net) + net(lines[i - 1])
  }

  /** The depth is never negative after line `i`. */
  predicate NeverNegative(lines: seq<string>, i: nat, net: string -> int)
    requires i <= |lines|
  {
    forall k :: i <= k <= |lines| ==> Depth(lines, k, net) >= 0
  }

  function Min(a: int, b: int): int {
    if a < b then a else b
  }

  /**
   * The intended layout from line `i` on: each line, in order, on the
   * shallower of the depths before and after it, four spaces a level.
   */
  function Layout(lines: seq<string>, i: nat, net: string -> int): string
    requires i <= |lines| && NeverNegative(lines, i, net)
    decreases |lines| - i
  {
    if i == |lines| then []
    else
      Spaces(Printer.DefaultIndent * Min(Depth(lines, i, net), Depth(lines, i + 1, net))) + lines[i] + "\n" + Layout(lines, i + 1, net)
  }

  /** One turn of the loop of indentTags. */
  lemma IndentFromStep(lines: seq<string>, i: nat, c: Counts, update: (Counts, string) -> Counts)
    requires i < |lines|
    ensures var c' := update(c, lines[i]);
            var n := Printer.DefaultIndent * Min(Sum(c), Sum(c'));
            var rest := IndentFrom(lines, i + 1, c', Sum(c'), update);
            IndentFrom(lines, i, c, Sum(c), update)
            == if n < 0 then Failure(NegativeRepeat)
               else if rest.Failure? then rest else Success(Spaces(n) + lines[i] + "\n" + rest.value)
  {
  }

  lemma NeverNegativeStep(lines: seq<string>, i: nat, net: string -> int)
    requires i < |lines| && Depth(lines, i, net) >= 0
    ensures NeverNegative(lines, i, net) <==> NeverNegative(lines, i + 1, net)
  {
  }

  /** A count update that moves the sum by the net tags of the line. */
  ghost predicate TracksNet(update: (Counts, string) -> Counts, net: string -> int) {
    forall c: Counts, line: string :: Sum(update(c, line)) == Sum(c) + net(line)
  }

  lemma {:induction false} IndentFromSucceeds(lines: seq<string>, i: nat, c: Counts, update: (Counts, string) -> Counts, net: string -> int)
    requires i <= |lines| && TracksNet(update, net) && Sum(c) == Depth(lines, i, net) >= 0
    ensures IndentFrom(lines, i, c, Sum(c), update).Success? <==> NeverNegative(lines, i, net)
    decreases |lines| - i
  {
    if i < |lines| {
      var c' := update(c, lines[i]);
      IndentFromStep(lines, i, c, update);
      if Sum(c') >= 0 {
        IndentFromSucceeds(lines, i + 1, c', update, net);
        NeverNegativeStep(lines, i, net);
      } else {
        assert Depth(lines, i + 1, net) < 0;
      }
    }
  }

  lemma {:induction false} IndentFromLayout(lines: seq<string>, i: nat, c: Counts, update: (Counts, string) -> Counts, net: string -> int)
    requires i <= |lines| && TracksNet(update, net) && Sum(c) == Depth(lines, i, net) >= 0 && NeverNegative(lines, i, net)
    ensures IndentFrom(lines, i, c, Sum(c), update).Success? ==> IndentFrom(lines, i, c, Sum(c), update).value == Layout(lines, i, net)
    decreases |lines| - i
  {
    if i < |lines| {
      var c' := update(c, lines[i]);
      IndentFromStep(lines, i, c, update);
      IndentFromLayout(lines, i + 1, c', update, net);
    }
  }

  /**
   * indentTags succeeds exactly when the depth never drops below zero,
   * and then lays out the lines as intended.
   */
  lemma IndentTagsLayout(pretty: string)
    ensures IndentTags(pretty).Success? <==> NeverNegative(TagLines(pretty), 0, Net)
    ensures IndentTags(pretty).Success? ==> IndentTags(pretty).value == Layout(TagLines(pretty), 0, Net)
  {
    forall c: Counts, line: string
      ensures Sum(UpdateTagCount(c, line)) == Sum(c) + Net(line)
    {
      UpdateTagCountSum(c, line);
    }
    IndentFromSucceeds(TagLines(pretty), 0, [], UpdateTagCount, Net);
    if IndentTags(pretty).Success? {
      IndentFromLayout(TagLines(pretty), 0, [], UpdateTagCount, Net);
    }
  }
}

=== FILE: html_wrap.dfy ===
/**
 * wrapLines (src/HtmlPrinter.php): every line of the indented markup is
 * looked at on its own. An opening tag of 80 or more characters of
 * attributes gets each `name=` that follows whitespace moved to a line of
 * its own, indented one level past the tag; a line of plain text (no `<`,
 * no `>`) is word-wrapped to 80 columns, counting its indentation, with
 * the indentation repeated after every break. Every line is written back
 * followed by a line feed.
 */
module HtmlWrap {
  import opened Text
  import opened Outcomes
  import opened Matching
  import opened WordWrap
  import Printer

  /** The parts of a long opening tag at the start of a line. */
  datatype LongTag = LongTag(wsEnd: nat, nameEnd: nat, gt: nat)

  /**
   * `^(\s*)(<[\w:.-]+)([^>]{80,})>`: the indentation is the whole run of
   * whitespace (a shorter one would leave a blank where `<` is needed); the
   * attributes run to the first `>`; the name gives back characters from the
   * right until at least 80 characters stand between it and the `>`, so the
   * tag matches when `<`, one name character and 80 more fit before it.
   */
  function LongTagAt(line: string): (r: Option<LongTag>)
    ensures r.Some? ==> var m := r.value;
      && m.wsEnd + 2 <= m.nameEnd && m.nameEnd + 80 <= m.gt < |line|
      && line[m.gt] == '>' && line[m.wsEnd] == '<'
      && (forall k :: 0 <= k < m.wsEnd ==> IsSpace(line[k]))
      && (forall k :: m.wsEnd + 1 <= k < m.nameEnd ==> IsNameChar(line[k]))
      && (forall k :: m.nameEnd <= k < m.gt ==> line[k] != '>')
  {
    var w := RunEnd(line, 0, IsSpace);
    if w == |line| || line[w] != '<' then None
    else
      var n0 := RunEnd(line, w + 1, IsNameChar);
      var g := FindChar(line, '>', n0);
      if n0 == w + 1 || g == |line| || g < w + 2 + 80 then None
      else Some(LongTag(w, if n0 <= g - 80 then n0 else g - 80, g))
  }

  /**
   * `\s+([\w:.-]+=)`: the whole run of whitespace and the whole name (giving
   * back either would leave the wrong kind of character next), then `=`.
   */
  function AttrBreakAt(a: string, q: nat): (r: Option<nat>)
    ensures r.Some? ==> q < r.value <= |a|
  {
    if q >= |a| || !IsSpace(a[q]) then None
    else
      var w := RunEnd(a, q, IsSpace);
      var n := RunEnd(a, w, IsNameChar);
      if n == w || n == |a| || a[n] != '=' then None else Some(n + 1)
  }

  lemma AttrBreakSound(a: string)
    ensures Sound(AttrBreakAt, a)
  {
  }

  /** The replacement `"\n" . $ws . "    " . '\1'`: the whitespace before the name becomes a fresh line. */
  function BreakBefore(ws: string, t: string): (r: string)
    requires Ink(ws) == []
    ensures Ink(r) == Ink(t)
  {
    var k := RunEnd(t, 0, IsSpace);
    var pad := "\n" + ws + Spaces(Printer.DefaultIndent);
    assert t == t[..k] + t[k..];
    FilterConcat(t[..k], t[k..], IsInk);
    FilterNone(t[..k], IsInk);
    FilterConcat("\n" + ws, Spaces(Printer.DefaultIndent), IsInk);
    FilterConcat("\n", ws, IsInk);
    FilterNone(Spaces(Printer.DefaultIndent), IsInk);
    FilterConcat(pad, t[k..], IsInk);
    pad + t[k..]
  }

  /** preg_replace of AttrBreakAt in the attributes of a tag indented by `ws`. */
  function BreakAttrs(ws: string, attrib: string): (r: string)
    requires Ink(ws) == []
    ensures Ink(r) == Ink(attrib)
  {
    AttrBreakSound(attrib);
    forall t: string ensures Filter(BreakBefore(ws, t), IsInk) == Filter(t, IsInk) {
    }
    SubstituteFilter(AttrBreakAt, t => BreakBefore(ws, t), attrib, 0, IsInk);
    assert attrib[0..] == attrib;
    Replace(AttrBreakAt, t => BreakBefore(ws, t), attrib)
  }

  /** The long-tag case: the attributes rebroken, then str_replace of the old tag by the new one in the line. */
  function WrapTag(line: string, m: LongTag): (r: string)
    requires m.wsEnd <= m.nameEnd <= m.gt < |line| && line[m.gt] == '>'
    requires forall k :: 0 <= k < m.wsEnd ==> IsSpace(line[k])
    ensures Ink(r) == Ink(line)
  {
    var ws := line[..m.wsEnd];
    assert Ink(ws) == [] by {
      FilterNone(ws, IsInk);
    }
    var newAttrib := BreakAttrs(ws, line[m.nameEnd..m.gt]);
    var newTag := ws + line[m.wsEnd..m.nameEnd] + newAttrib + ">";
    TagSwapInk(line, m.wsEnd, m.nameEnd, m.gt, newAttrib);
    ReplaceAllFilter(line, line[..m.gt + 1], newTag, IsInk);
    ReplaceAll(line, line[..m.gt + 1], newTag)
  }

  /** The tag ending at `g`, its attributes `[n, g)` swapped for ones with the same ink, keeps its ink. */
  lemma TagSwapInk(line: string, w: nat, n: nat, g: nat, newAttrib: string)
    requires w <= n <= g < |line| && line[g] == '>'
    requires Ink(newAttrib) == Ink(line[n..g])
    ensures Ink(line[..g + 1]) == Ink(line[..w] + line[w..n] + newAttrib + ">")
  {
    SliceParts(line, w, n, g);
    assert [line[g]] == ">";
    InkMiddleSwap(line[..w] + line[w..n], line[n..g], newAttrib, ">");
  }

  /** A prefix ending at `g` cut at `w` and `n`. */
  lemma SliceParts<T>(s: seq<T>, w: nat, n: nat, g: nat)
    requires w <= n <= g < |s|
    ensures s[..g + 1] == s[..w] + s[w..n] + s[n..g] + [s[g]]
  {
  }

  /** Turning some spaces into line feeds keeps the ink. */
  lemma {:induction false} SpacesBrokenInk(t: string, r: string)
    requires SpacesBroken(t, r)
    ensures Ink(r) == Ink(t)
    decreases |t|
  {
    if |t| > 0 {
      SpacesBrokenInk(t[1..], r[1..]);
      assert t == [t[0]] + t[1..];
      assert r == [r[0]] + r[1..];
      FilterConcat([t[0]], t[1..], IsInk);
      FilterConcat([r[0]], r[1..], IsInk);
    }
  }

  /**
   * The plain-text case: wordwrap($line, 80 - strlen($ws), "\n" . $ws). The
   * line holds no line feed of its own, so PHP's general multi-character
   * path breaks at the same spaces as the one-character path Wrap models
   * and writes the longer break string there.
   */
  function WrapProse(line: string): (r: string)
    ensures Ink(r) == Ink(line)
  {
    var ws := line[..RunEnd(line, 0, IsSpace)];
    FilterNone(ws, IsInk);
    var wrapped := Wrap(line, 80 - |ws|);
    SpacesBrokenInk(line, wrapped);
    FilterConcat("\n", ws, IsInk);
    ReplaceAllFilter(wrapped, "\n", "\n" + ws, IsInk);
    ReplaceAll(wrapped, "\n", "\n" + ws)
  }

  /** `preg_match('~[<>]~', $line)`. */
  predicate HasAngle(line: string) {
    exists k :: 0 <= k < |line| && (line[k] == '<' || line[k] == '>')
  }

  /** One line of the loop, before its line feed. */
  function WrapLine(line: string): (r: string)
    ensures Ink(r) == Ink(line)
  {
    var m := LongTagAt(line);
    if m.Some? then
      WrapTag(line, m.value)
    else if !HasAngle(line) then WrapProse(line)
    else line
  }

  /** The loop over the lines, each written back with a line feed. */
  function WrapAll(lines: seq<string>): string {
    if |lines| == 0 then [] else WrapLine(lines[0]) + "\n" + WrapAll(lines[1..])
  }

  /** wrapLines: explode on line feeds, wrap each line. */
  function WrapLines(s: string): string {
    WrapAll(Split(s, '\n'))
  }

  lemma {:induction false} WrapAllInk(lines: seq<string>)
    requires |lines| >= 1
    ensures Ink(WrapAll(lines)) == Ink(Join(lines, "\n"))
    decreases |lines|
  {
    var head := WrapLine(lines[0]) + "\n";
    FilterConcat(WrapLine(lines[0]), "\n", IsInk);
    if |lines| == 1 {
      assert WrapAll(lines[1..]) == [];
      assert WrapAll(lines) == head;
      assert Join(lines, "\n") == lines[0];
      assert Filter("\n", IsInk) == [];
      assert Ink(WrapLine(lines[0])) == Ink(lines[0]);
    } else {
      WrapAllInk(lines[1..]);
      FilterConcat(head, WrapAll(lines[1..]), IsInk);
      FilterConcat(lines[0] + "\n", Join(lines[1..], "\n"), IsInk);
      FilterConcat(lines[0], "\n", IsInk);
    }
  }

  /** wrapLines only moves whitespace: the ink of the document is unchanged. */
  lemma WrapLinesInk(s: string)
    ensures Ink(WrapLines(s)) == Ink(s)
  {
    WrapAllInk(Split(s, '\n'));
  }
}

=== FILE: matching.dfy ===
/**
 * PHP's preg_match_all and preg_replace over a pattern given as an anchored
 * matcher: `m(s, q)` is the end of the match that starts at `q`, if the
 * pattern matches there. Every pattern of the markup passes is written as
 * such a matcher, next to the pass that uses it; this module holds the
 * drivers that are the same for all of them: take the leftmost match,
 * resume right after it, and so on.
 */
module Matching {
  import opened Text
  import opened Outcomes

  /** A pattern anchored at a position of the subject. */
  type Matcher = (string, nat) -> Option<nat>

  /** Every match is non-empty and ends inside the subject. */
  ghost predicate Sound(m: Matcher, s: string) {
    forall q: nat :: m(s, q).Some? ==> q < m(s, q).value <= |s|
  }

  /** The pattern matches at no position in [x, y). */
  predicate NoMatchBetween(m: Matcher, s: string, x: nat, y: nat) {
    forall q: nat :: x <= q < y ==> m(s, q).None?
  }

  /** First position at or after `a` holding `c`, or the end of `s`. */
  function FindChar(s: string, c: char, a: nat): (k: nat)
    requires a <= |s|
    ensures a <= k <= |s| && (k == |s| || s[k] == c)
    ensures forall i :: a <= i < k ==> s[i] != c
    decreases |s| - a
  {
    if a == |s| || s[a] == c then a else FindChar(s, c, a + 1)
  }

  /** The first `c` is known by where it stands. */
  lemma FindCharIs(s: string, c: char, a: nat, k: nat)
    requires a <= k < |s| && s[k] == c
    requires forall i :: a <= i < k ==> s[i] != c
    ensures FindChar(s, c, a) == k
  {
  }

  /** The last line feed in `s[a..b]`, if there is one. */
  function LastNewline(s: string, a: nat, b: nat): (r: Option<nat>)
    requires a <= b <= |s|
    ensures r.Some? ==> a <= r.value < b && s[r.value] == '\n'
    ensures r.Some? ==> forall k :: r.value < k < b ==> s[k] != '\n'
    ensures r.None? ==> forall k :: a <= k < b ==> s[k] != '\n'
    decreases b
  {
    if b == a then None
    else if s[b - 1] == '\n' then Some(b - 1)
    else LastNewline(s, a, b - 1)
  }

  /** End of the run of characters satisfying `p` that starts at `a`. */
  function RunEnd(s: string, a: nat, p: char -> bool): (k: nat)
    requires a <= |s|
    ensures a <= k <= |s| && (k == |s| || !p(s[k]))
    ensures forall i :: a <= i < k ==> p(s[i])
    decreases |s| - a
  {
    if a == |s| || !p(s[a]) then a else RunEnd(s, a + 1, p)
  }

  /** A run is known by where it stops. */
  lemma RunEndIs(s: string, a: nat, p: char -> bool, k: nat)
    requires a <= k <= |s| && (k == |s| || !p(s[k]))
    requires forall i :: a <= i < k ==> p(s[i])
    ensures RunEnd(s, a, p) == k
  {
  }

  /** FindCharIs on the slice `s[q..e]`, with positions counted in `s`. */
  lemma FindCharInSlice(s: string, q: nat, e: nat, c: char, a: nat, k: nat)
    requires q <= a <= k < e <= |s| && s[k] == c
    requires forall i :: a <= i < k ==> s[i] != c
    ensures FindChar(s[q..e], c, a - q) == k - q
  {
    var t := s[q..e];
    forall i | a - q <= i < k - q ensures t[i] != c {
      assert t[i] == s[q + i];
    }
    FindCharIs(t, c, a - q, k - q);
  }

  /** RunEndIs on the slice `s[q..e]`, with positions counted in `s`. */
  lemma RunEndInSlice(s: string, q: nat, e: nat, p: char -> bool, a: nat, k: nat)
    requires q <= a <= k < e <= |s| && !p(s[k])
    requires forall i :: a <= i < k ==> p(s[i])
    ensures RunEnd(s[q..e], a - q, p) == k - q
  {
    var t := s[q..e];
    forall i | a - q <= i < k - q ensures p(t[i]) {
      assert t[i] == s[q + i];
    }
    RunEndIs(t, a - q, p, k - q);
  }

  /** End of the `^\s*` group of a line. */
  function IndentEnd(line: string): (k: nat)
    ensures k <= |line| && (k == |line| || !IsSpace(line[k]))
    ensures forall i :: 0 <= i < k ==> IsSpace(line[i])
  {
    RunEnd(line, 0, IsSpace)
  }

  /** The `^\s*` group of a line. */
  function IndentOf(line: string): (ws: string)
    ensures Ink(ws) == []
  {
    var ws := line[..IndentEnd(line)];
    FilterNone(ws, IsInk);
    ws
  }

  /**
   * preg_match_all from `a`: the leftmost match, then the leftmost one
   * after it, and so on, as (start, end) pairs.
   */
  function MatchAll(m: Matcher, s: string, a: nat): (r: seq<(nat, nat)>)
    requires a <= |s| && Sound(m, s)
    ensures forall i :: 0 <= i < |r| ==> a <= r[i].0 < r[i].1 <= |s| && m(s, r[i].0) == Some(r[i].1)
    ensures forall i :: 0 <= i < |r| - 1 ==> r[i].1 <= r[i + 1].0
    decreases |s| - a
  {
    if a == |s| then []
    else
      var o := m(s, a);
      if o.Some? then [(a, o.value)] + MatchAll(m, s, o.value)
      else MatchAll(m, s, a + 1)
  }

  /** Where the gap after the `i`-th match of `r` ends: at the next match, or past the end. */
  function GapEnd(s: string, r: seq<(nat, nat)>, i: nat): nat {
    if i + 1 < |r| then r[i + 1].0 else |s| + 1
  }

  /**
   * The pattern matches nowhere in the gaps of `r` from `a` on: before its
   * first match, between consecutive matches, and after its last.
   */
  ghost predicate GapsClear(m: Matcher, s: string, a: nat, r: seq<(nat, nat)>) {
    && NoMatchBetween(m, s, a, if |r| == 0 then |s| + 1 else r[0].0)
    && forall i :: 0 <= i < |r| ==> NoMatchBetween(m, s, r[i].1, GapEnd(s, r, i))
  }

  /** Between the matches preg_match_all reports, the pattern matches nowhere. */
  lemma {:induction false} MatchAllGaps(m: Matcher, s: string, a: nat)
    requires a <= |s| && Sound(m, s)
    ensures GapsClear(m, s, a, MatchAll(m, s, a))
    decreases |s| - a
  {
    if a == |s| {
      assert m(s, a).None?;
    } else {
      var o := m(s, a);
      if o.Some? {
        MatchAllGaps(m, s, o.value);
        GapsMatch(m, s, a, o.value, MatchAll(m, s, o.value));
      } else {
        MatchAllGaps(m, s, a + 1);
        GapsSkip(m, s, a, MatchAll(m, s, a + 1));
      }
    }
  }

  /** A position where nothing matches widens the first gap by one. */
  lemma GapsSkip(m: Matcher, s: string, a: nat, r: seq<(nat, nat)>)
    requires m(s, a).None? && GapsClear(m, s, a + 1, r)
    requires |r| > 0 ==> a < r[0].0
    ensures GapsClear(m, s, a, r)
  {
  }

  /** A match `[a, e)` in front of matches whose gaps are clear from `e` keeps them clear from `a`. */
  lemma GapsMatch(m: Matcher, s: string, a: nat, e: nat, rest: seq<(nat, nat)>)
    requires GapsClear(m, s, e, rest)
    ensures GapsClear(m, s, a, [(a, e)] + rest)
  {
    var r := [(a, e)] + rest;
    assert NoMatchBetween(m, s, r[0].1, GapEnd(s, r, 0)) by {
      assert 1 < |r| ==> r[1] == rest[0];
    }
    forall i | 1 <= i < |r| ensures NoMatchBetween(m, s, r[i].1, GapEnd(s, r, i)) {
      assert r[i] == rest[i - 1];
      assert GapEnd(s, r, i) == GapEnd(s, rest, i - 1) by {
        assert i + 1 < |r| ==> r[i + 1] == rest[i];
      }
    }
  }

  /** The matched texts, `$matches[0]`. */
  function Matches(m: Matcher, s: string): (r: seq<string>)
    requires Sound(m, s)
    ensures var ms := MatchAll(m, s, 0);
            |r| == |ms| && forall i :: 0 <= i < |r| ==> r[i] == s[ms[i].0..ms[i].1]
  {
    var ms := MatchAll(m, s, 0);
    seq(|ms|, i requires 0 <= i < |ms| => s[ms[i].0..ms[i].1])
  }

  /**
   * preg_replace from `a`, the replacement computed from the matched text:
   * every match found the preg_match_all way is replaced, the text between
   * matches is copied.
   */
  function Substitute(m: Matcher, f: string -> string, s: string, a: nat): string
    requires a <= |s| && Sound(m, s)
    decreases |s| - a
  {
    if a == |s| then []
    else
      var o := m(s, a);
      if o.Some? then f(s[a..o.value]) + Substitute(m, f, s, o.value)
      else [s[a]] + Substitute(m, f, s, a + 1)
  }

  /** One step of preg_replace at a match. */
  lemma SubstituteMatch(m: Matcher, f: string -> string, s: string, a: nat, n: nat)
    requires a < |s| && Sound(m, s) && m(s, a) == Some(n)
    ensures Substitute(m, f, s, a) == f(s[a..n]) + Substitute(m, f, s, n)
  {
  }

  /** One step of preg_replace at a match, the subject given in three parts. */
  lemma SubstituteMatchParts(m: Matcher, f: string -> string, x: string, p: string, t: string, y: string)
    requires x == p + t + y && |t| > 0 && Sound(m, x) && m(p + t + y, |p|) == Some(|p| + |t|)
    ensures Substitute(m, f, x, |p|) == f(t) + Substitute(m, f, p + t + y, |p| + |t|)
  {
    assert x[|p|..|p| + |t|] == t;
  }

  /** One step of preg_replace where nothing matches, the subject given in three parts. */
  lemma SubstituteCopyParts(m: Matcher, f: string -> string, x: string, p: string, c: string, z: string)
    requires x == p + c + z && |c| == 1 && Sound(m, x) && m(x, |p|).None?
    ensures Substitute(m, f, x, |p|) == c + Substitute(m, f, p + c + z, |p| + 1)
  {
    assert [x[|p|]] == c;
  }

  /** One step of preg_replace where nothing matches. */
  lemma SubstituteCopy(m: Matcher, f: string -> string, s: string, a: nat)
    requires a < |s| && Sound(m, s) && m(s, a).None?
    ensures Substitute(m, f, s, a) == [s[a]] + Substitute(m, f, s, a + 1)
  {
  }

  /** What stands before the output from `a` on ends in the character that stood before `a`. */
  predicate Aligned(p: string, s: string, a: nat)
    requires a <= |s|
  {
    if a == 0 then |p| == 0 else |p| > 0 && p[|p| - 1] == s[a - 1]
  }

  /** Every match of the pattern, in every subject, is non-empty and ends inside it. */
  ghost predicate AlwaysSound(m: Matcher) {
    forall s: string, q: nat :: m(s, q).Some? ==> q < m(s, q).value <= |s|
  }

  /**
   * Where the pattern does not match the subject, it does not match the
   * output at the same place either, whatever aligned text precedes it.
   */
  ghost predicate FindsNothingNew(m: Matcher, f: string -> string) {
    AlwaysSound(m) &&
    forall s: string, p: string, a: nat {:trigger m(p + Substitute(m, f, s, a), |p|)} ::
      a < |s| && Aligned(p, s, a) && m(s, a).None? ==> m(p + Substitute(m, f, s, a), |p|).None?
  }

  /** `y` can follow position `n` of `s` in the output: it starts with the character at `n`, or is empty at the end. */
  predicate Continues(y: string, s: string, n: nat)
    requires n <= |s|
  {
    if n == |s| then |y| == 0 else |y| > 0 && y[0] == s[n]
  }

  /**
   * Where the pattern matches the subject, the replacement starts and ends
   * with the characters the match started and ended with, and is its own
   * replacement.
   */
  ghost predicate KeepsEnds(m: Matcher, f: string -> string) {
    forall s: string, a: nat {:trigger f(s[a..m(s, a).value])} ::
      a < |s| && m(s, a).Some? && a < m(s, a).value <= |s| ==>
        var t := f(s[a..m(s, a).value]);
        |t| > 0 && t[0] == s[a] && t[|t| - 1] == s[m(s, a).value - 1] && f(t) == t
  }

  /** The replacement of a match is matched whole at the same place of the output, whatever follows it. */
  ghost predicate Refinds(m: Matcher, f: string -> string) {
    forall s: string, p: string, a: nat, y: string {:trigger m(p + f(s[a..m(s, a).value]) + y, |p|)} ::
      a < |s| && m(s, a).Some? && a < m(s, a).value <= |s| && Aligned(p, s, a) && Continues(y, s, m(s, a).value) ==>
        var t := f(s[a..m(s, a).value]);
        m(p + t + y, |p|) == Some(|p| + |t|)
  }

  /** The two above, for a sound pattern. */
  ghost predicate RefindsRewrites(m: Matcher, f: string -> string) {
    AlwaysSound(m) && KeepsEnds(m, f) && Refinds(m, f)
  }

  /** The output of a replacement from `n` on can follow position `n`. */
  lemma SubstituteContinues(m: Matcher, f: string -> string, s: string, n: nat)
    requires RefindsRewrites(m, f) && n <= |s|
    ensures Sound(m, s) && Continues(Substitute(m, f, s, n), s, n)
  {
    assert Sound(m, s);
    if n < |s| && m(s, n).Some? {
      var t := f(s[n..m(s, n).value]);
      assert |t| > 0 && t[0] == s[n];
      assert Substitute(m, f, s, n) == t + Substitute(m, f, s, m(s, n).value);
    }
  }

  /**
   * Replacing again in the output of a replacement, from the place it was
   * joined on, changes nothing: every match found is a replacement found
   * again and rewritten to itself.
   */
  lemma {:induction false} SubstituteAgain(m: Matcher, f: string -> string, s: string, p: string, a: nat)
    requires FindsNothingNew(m, f) && RefindsRewrites(m, f)
    requires a <= |s| && Aligned(p, s, a)
    ensures Substitute(m, f, p + Substitute(m, f, s, a), |p|) == Substitute(m, f, s, a)
    decreases |s| - a
  {
    var y := Substitute(m, f, s, a);
    var x := p + y;
    assert Sound(m, s) && Sound(m, x);
    if a == |s| {
      assert x == p;
    } else if m(s, a).Some? {
      var n := m(s, a).value;
      var t := f(s[a..n]);
      var z := Substitute(m, f, s, n);
      RefoundAt(m, f, s, p, a);
      SubstituteAgain(m, f, s, p + t, n);
      AppendAssoc(p, t, z);
      SubstituteMatchParts(m, f, x, p, t, z);
    } else {
      var c := [s[a]];
      var z := Substitute(m, f, s, a + 1);
      CopiedAt(m, f, s, p, a);
      SubstituteAgain(m, f, s, p + c, a + 1);
      AppendAssoc(p, c, z);
      SubstituteCopyParts(m, f, x, p, c, z);
    }
  }

  /** The other case: the character is copied, and nothing is found where it now stands. */
  lemma CopiedAt(m: Matcher, f: string -> string, s: string, p: string, a: nat)
    requires FindsNothingNew(m, f)
    requires a < |s| && Aligned(p, s, a) && m(s, a).None?
    ensures Sound(m, s)
    ensures var z := Substitute(m, f, s, a + 1);
            && Substitute(m, f, s, a) == [s[a]] + z
            && Aligned(p + [s[a]], s, a + 1)
            && m(p + Substitute(m, f, s, a), |p|).None?
  {
    assert Sound(m, s);
  }

  /** The match case of the above: the rewrite is found again where it was written. */
  lemma RefoundAt(m: Matcher, f: string -> string, s: string, p: string, a: nat)
    requires RefindsRewrites(m, f)
    requires a < |s| && Aligned(p, s, a) && m(s, a).Some?
    ensures Sound(m, s)
    ensures var n := m(s, a).value;
            var t := f(s[a..n]);
            var z := Substitute(m, f, s, n);
            && Substitute(m, f, s, a) == t + z && |t| > 0 && f(t) == t
            && Aligned(p + t, s, n) && m(p + t + z, |p|) == Some(|p| + |t|)
  {
    var n := m(s, a).value;
    SubstituteContinues(m, f, s, n);
  }

  /** preg_replace is idempotent for a pattern and replacement as above. */
  lemma ReplaceIdempotent(m: Matcher, f: string -> string, s: string)
    requires FindsNothingNew(m, f) && RefindsRewrites(m, f)
    ensures Sound(m, Replace(m, f, s)) && Replace(m, f, Replace(m, f, s)) == Replace(m, f, s)
  {
    assert Sound(m, s);
    SubstituteAgain(m, f, s, [], 0);
    assert [] + Replace(m, f, s) == Replace(m, f, s);
  }

  /** preg_replace over the whole subject. */
  function Replace(m: Matcher, f: string -> string, s: string): string
    requires Sound(m, s)
  {
    Substitute(m, f, s, 0)
  }

  /** Where the pattern never matches, preg_replace leaves the subject alone. */
  lemma {:induction false} SubstituteNoMatch(m: Matcher, f: string -> string, s: string, a: nat)
    requires a <= |s| && Sound(m, s)
    requires NoMatchBetween(m, s, a, |s|)
    ensures Substitute(m, f, s, a) == s[a..]
    decreases |s| - a
  {
    if a < |s| {
      SubstituteNoMatch(m, f, s, a + 1);
      assert s[a..] == [s[a]] + s[a + 1..];
    }
  }

  /** The rewrite keeps the characters satisfying `p` of every text the pattern matches. */
  ghost predicate KeepsFilter(m: Matcher, f: string -> string, s: string, p: char -> bool)
    requires Sound(m, s)
  {
    forall q: nat :: m(s, q).Some? ==> Filter(f(s[q..m(s, q).value]), p) == Filter(s[q..m(s, q).value], p)
  }

  /**
   * A rewrite that keeps the characters satisfying `p` of every match keeps
   * them for the whole subject.
   */
  lemma {:induction false} SubstituteFilter(m: Matcher, f: string -> string, s: string, a: nat, p: char -> bool)
    requires a <= |s| && Sound(m, s) && KeepsFilter(m, f, s, p)
    ensures Filter(Substitute(m, f, s, a), p) == Filter(s[a..], p)
    decreases |s| - a
  {
    if a < |s| {
      var o := m(s, a);
      if o.Some? {
        var e := o.value;
        SubstituteFilter(m, f, s, e, p);
        assert s[a..] == s[a..e] + s[e..];
        FilterConcat(s[a..e], s[e..], p);
        FilterConcat(f(s[a..e]), Substitute(m, f, s, e), p);
      } else {
        SubstituteFilter(m, f, s, a + 1, p);
        assert s[a..] == [s[a]] + s[a + 1..];
        FilterConcat([s[a]], s[a + 1..], p);
        FilterConcat([s[a]], Substitute(m, f, s, a + 1), p);
      }
    }
  }

  /** Where the pattern matches nowhere, preg_match_all finds nothing. */
  lemma {:induction false} MatchAllNone(m: Matcher, s: string, a: nat)
    requires a <= |s| && Sound(m, s) && NoMatchBetween(m, s, a, |s|)
    ensures MatchAll(m, s, a) == []
    decreases |s| - a
  {
    if a < |s| {
      MatchAllNone(m, s, a + 1);
    }
  }

  /** What PREG_SPLIT_NO_EMPTY keeps: the non-empty pieces, in order. */
  function NonEmpty(ls: seq<string>): (r: seq<string>)
    ensures forall i :: 0 <= i < |r| ==> |r[i]| > 0
  {
    if |ls| == 0 then [] else (if |ls[0]| > 0 then [ls[0]] else []) + NonEmpty(ls[1..])
  }

  /** The first match of a pattern is a non-empty piece of the text, so it is found. */
  lemma FirstMatchFound(m: Matcher, s: string)
    requires Sound(m, s) && Matches(m, s) != []
    ensures Matches(m, s)[0] != [] && FirstHit(s, Matches(m, s)[0]) < |s|
  {
    var ms := MatchAll(m, s, 0);
    assert OccursAt(s, Matches(m, s)[0], ms[0].0);
  }

  /** NO_EMPTY only drops pieces: whatever it keeps was a piece. */
  lemma {:induction false} NonEmptyFrom(ls: seq<string>)
    ensures forall x :: x in NonEmpty(ls) ==> x in ls
    decreases |ls|
  {
    if |ls| > 0 {
      NonEmptyFrom(ls[1..]);
      assert forall x :: x in ls[1..] ==> x in ls;
    }
  }

  lemma {:induction false} NonEmptyConcat(a: seq<string>, b: seq<string>)
    ensures NonEmpty(a + b) == NonEmpty(a) + NonEmpty(b)
    decreases |a|
  {
    if |a| == 0 {
      assert a + b == b;
    } else {
      var h := if |a[0]| > 0 then [a[0]] else [];
      assert (a + b)[0] == a[0];
      assert (a + b)[1..] == a[1..] + b;
      NonEmptyConcat(a[1..], b);
      assert NonEmpty(a + b) == h + NonEmpty(a[1..] + b);
      AppendAssoc(h, NonEmpty(a[1..]), NonEmpty(b));
    }
  }

  /** PREG_SPLIT_NO_EMPTY adds nothing and drops nothing but empty pieces. */
  lemma {:induction false} NonEmptyConcatenation(ls: seq<string>)
    ensures Concat(NonEmpty(ls)) == Concat(ls)
    decreases |ls|
  {
    if |ls| > 0 {
      NonEmptyConcatenation(ls[1..]);
      assert ls == [ls[0]] + ls[1..];
      NonEmptyConcat([ls[0]], ls[1..]);
      ConcatAppend([ls[0]], ls[1..]);
      ConcatAppend(if |ls[0]| > 0 then [ls[0]] else [], NonEmpty(ls[1..]));
    }
  }

  /**
   * preg_split from `a` with PREG_SPLIT_DELIM_CAPTURE and the whole pattern
   * captured: the text before each match, the match itself, and at the end
   * the text after the last match. `start` is where the current piece began.
   */
  function SplitFrom(m: Matcher, s: string, start: nat, a: nat): (r: seq<string>)
    requires start <= a <= |s| && Sound(m, s)
    decreases |s| - a
  {
    if a == |s| then [s[start..]]
    else
      var o := m(s, a);
      if o.Some? then [s[start..a], s[a..o.value]] + SplitFrom(m, s, o.value, o.value)
      else SplitFrom(m, s, start, a + 1)
  }

  /** preg_split with the delimiters captured, over the whole subject. */
  function SplitKeep(m: Matcher, s: string): seq<string>
    requires Sound(m, s)
  {
    SplitFrom(m, s, 0, 0)
  }

  /** The pieces at even positions: preg_split without the delimiters. */
  function Evens(r: seq<string>): (e: seq<string>)
    ensures |e| == (|r| + 1) / 2
    ensures forall i :: 0 <= i < |e| ==> e[i] == r[2 * i]
  {
    seq((|r| + 1) / 2, i requires 0 <= i < (|r| + 1) / 2 => r[2 * i])
  }

  /**
   * The split is a partition of the subject, and its odd positions are the
   * matches preg_match_all reports: piece, match, piece, ..., piece.
   */
  lemma {:induction false} SplitFromParts(m: Matcher, s: string, start: nat, a: nat)
    requires start <= a <= |s| && Sound(m, s)
    requires forall q :: start <= q < a ==> m(s, q).None?
    ensures var r, ms := SplitFrom(m, s, start, a), MatchAll(m, s, a);
            && Concat(r) == s[start..]
            && |r| == 2 * |ms| + 1
            && (forall i :: 0 <= i < |ms| ==> r[2 * i + 1] == s[ms[i].0..ms[i].1])
    decreases |s| - a
  {
    var r, ms := SplitFrom(m, s, start, a), MatchAll(m, s, a);
    if a == |s| {
      assert Concat(r) == s[start..] + Concat([]);
    } else {
      var o := m(s, a);
      if o.Some? {
        SplitFromParts(m, s, o.value, o.value);
        SplitPartsMatch(m, s, start, a, o.value);
      } else {
        SplitFromParts(m, s, start, a + 1);
      }
    }
  }

  /** SplitFromParts where a match `[a, e)` is found, from the same facts after it. */
  lemma SplitPartsMatch(m: Matcher, s: string, start: nat, a: nat, e: nat)
    requires start <= a < e <= |s| && Sound(m, s) && m(s, a) == Some(e)
    requires var r, ms := SplitFrom(m, s, e, e), MatchAll(m, s, e);
             && Concat(r) == s[e..]
             && |r| == 2 * |ms| + 1
             && (forall i :: 0 <= i < |ms| ==> r[2 * i + 1] == s[ms[i].0..ms[i].1])
    ensures var r, ms := SplitFrom(m, s, start, a), MatchAll(m, s, a);
            && Concat(r) == s[start..]
            && |r| == 2 * |ms| + 1
            && (forall i :: 0 <= i < |ms| ==> r[2 * i + 1] == s[ms[i].0..ms[i].1])
  {
    var rest, tail := SplitFrom(m, s, e, e), MatchAll(m, s, e);
    var r, ms := SplitFrom(m, s, start, a), MatchAll(m, s, a);
    assert r == [s[start..a], s[a..e]] + rest;
    assert ms == [(a, e)] + tail;
    assert Concat(r) == s[start..] by {
      PiecesConcat(s, start, a, e, rest);
    }
    assert forall i :: 0 <= i < |ms| ==> r[2 * i + 1] == s[ms[i].0..ms[i].1] by {
      forall i | 0 <= i < |ms| ensures r[2 * i + 1] == s[ms[i].0..ms[i].1] {
        if i > 0 {
          assert r[2 * i + 1] == rest[2 * (i - 1) + 1];
        }
      }
    }
  }

  /** A piece and a delimiter before pieces that concatenate to the rest of the subject. */
  lemma PiecesConcat(s: string, start: nat, a: nat, e: nat, rest: seq<string>)
    requires start <= a <= e <= |s| && Concat(rest) == s[e..]
    ensures Concat([s[start..a], s[a..e]] + rest) == s[start..]
  {
    ConcatAppend([s[start..a], s[a..e]], rest);
    assert Concat([s[start..a], s[a..e]]) == s[start..a] + s[a..e] by {
      assert Concat([s[a..e]]) == s[a..e] + Concat([]);
    }
    assert s[start..] == s[start..a] + s[a..e] + s[e..];
  }

  /** Over the whole subject: the pieces and delimiters concatenate back to it. */
  lemma SplitKeepParts(m: Matcher, s: string)
    requires Sound(m, s)
    ensures var r, ms := SplitKeep(m, s), MatchAll(m, s, 0);
            && Concat(r) == s
            && |r| == 2 * |ms| + 1
            && (forall i :: 0 <= i < |ms| ==> r[2 * i + 1] == s[ms[i].0..ms[i].1])
  {
    SplitFromParts(m, s, 0, 0);
    assert s[0..] == s;
  }
}

=== FILE: outcomes.dfy ===
/** The two ways a step of the printers can end without a plain value. */
module Outcomes {
  /** A value that may be missing, as the groups of a regex that may not match. */
  datatype Option<T> = None | Some(value: T)

  /** A value, or the message of the exception PHP would throw instead. */
  datatype Result<T> = Success(value: T) | Failure(error: string)

  /** What str_repeat throws for a negative count, as PHP 8 words it. */
  const NegativeRepeat: string := "str_repeat(): Argument #2 ($times) must be greater than or equal to 0"
}

=== FILE: php_printer.dfy ===
/**
 * The two line passes of PhpPrinter that run after the external fixer:
 * fixCommentSpacing, which aligns a `//` comment with the line below it and
 * puts a blank line in front of a comment that follows a statement or a
 * block, and fixControlStructure, which drops blank lines just inside the
 * braces of a control structure (and after a `case ...:`). Both work on
 * explode("\n", ...) and implode the result again.
 */
module PhpPrinter {
  import opened Text
  import opened Matching
  import Printer
  import CommentScan

  /** `^(\s*)(//.*)`: the line is a `//` comment. */
  predicate IsLineComment(line: string) {
    OccursAt(line, "//", IndentEnd(line))
  }

  /** `^\s*(//|/\*)`: the line opens a comment of either kind. */
  predicate IsComment(line: string) {
    OccursAt(line, "//", IndentEnd(line)) || OccursAt(line, "/*", IndentEnd(line))
  }

  /** The last character before trailing `\s`, if there is one, is one of `ends`. */
  predicate EndsWithAny(line: string, ends: string) {
    var k := |line| - SpanBack(line, IsSpace);
    k > 0 && line[k - 1] in ends
  }

  /** `[};]\s*$`: the line ends a statement or a block. */
  predicate EndsStatement(line: string) {
    EndsWithAny(line, "};")
  }

  // ------------------------------------------------------- fixCommentSpacing

  /**
   * A `//` comment line that has a line after it takes that line's
   * indentation; every other line is left alone.
   */
  function Reindent(line: string, next: string): (r: string)
    ensures Ink(r) == Ink(line)
    ensures IsLineComment(line) ==> IndentOf(r) == IndentOf(next) && r[IndentEnd(r)..] == line[IndentEnd(line)..]
    ensures !IsLineComment(line) ==> r == line
    ensures '\n' !in line && '\n' !in next ==> '\n' !in r
  {
    if IsLineComment(line) then
      var ws, comment := IndentOf(next), line[IndentEnd(line)..];
      var r := ws + comment;
      LeadingRun(ws, comment);
      assert line == IndentOf(line) + comment;
      FilterConcat(IndentOf(line), comment, IsInk);
      FilterConcat(ws, comment, IsInk);
      r
    else line
  }

  /** `\s*` stops where a `/` follows a run of whitespace. */
  lemma LeadingRun(ws: string, comment: string)
    requires forall i :: 0 <= i < |ws| ==> IsSpace(ws[i])
    requires |comment| > 0 && comment[0] == '/'
    ensures IndentEnd(ws + comment) == |ws|
    ensures (ws + comment)[..|ws|] == ws && (ws + comment)[|ws|..] == comment
  {
    var s := ws + comment;
    assert s[|ws|] == '/';
  }

  /** Line `i` after the reindent rule: the last line has no line below it. */
  function ReindentAt(lines: seq<string>, i: nat): string
    requires i < |lines|
  {
    if i + 1 < |lines| then Reindent(lines[i], lines[i + 1]) else lines[i]
  }

  /** A blank line goes before line `i` when it opens a comment and the line above ends a statement. */
  predicate BlankBefore(lines: seq<string>, i: nat)
    requires i < |lines|
  {
    i > 0 && IsComment(lines[i]) && EndsStatement(lines[i - 1])
  }

  /** The loop of fixCommentSpacing from line `i` on; neighbours are read from the input lines. */
  function SpaceLines(lines: seq<string>, i: nat): seq<string>
    requires i <= |lines|
    decreases |lines| - i
  {
    if i == |lines| then []
    else (if BlankBefore(lines, i) then [""] else []) + [ReindentAt(lines, i)] + SpaceLines(lines, i + 1)
  }

  /** PhpPrinter::fixCommentSpacing. */
  function FixCommentSpacing(source: string): string {
    Join(SpaceLines(Split(source, '\n'), 0), "\n")
  }

  /**
   * `b` is `a` with extra lines satisfying `p` inserted anywhere; read the
   * other way, `a` is `b` with some `p`-lines deleted.
   */
  predicate Padded(a: seq<string>, b: seq<string>, p: string -> bool)
    decreases |b|
  {
    if |b| == 0 then |a| == 0
    else (|a| > 0 && b[0] == a[0] && Padded(a[1..], b[1..], p)) || (p(b[0]) && Padded(a, b[1..], p))
  }

  predicate IsEmptyLine(line: string) {
    line == ""
  }

  /** The input lines after the reindent rule, one for one. */
  function Reindented(lines: seq<string>): (r: seq<string>)
    ensures |r| == |lines|
  {
    seq(|lines|, i requires 0 <= i < |lines| => ReindentAt(lines, i))
  }

  /** The loop's output is the reindented lines with empty lines inserted, and nothing else. */
  lemma SpaceLinesPadded(lines: seq<string>, i: nat)
    requires i <= |lines|
    ensures Padded(Reindented(lines)[i..], SpaceLines(lines, i), IsEmptyLine)
  {
    SpaceLinesSpread(lines, i);
    SpreadPadded(Reindented(lines)[i..], Flags(lines)[i..]);
  }

  /** Spread puts in empty lines and nothing else. */
  lemma {:induction false} SpreadPadded(xs: seq<string>, flags: seq<bool>)
    requires |xs| == |flags|
    ensures Padded(xs, Spread(xs, flags), IsEmptyLine)
    decreases |xs|
  {
    if |xs| > 0 {
      var rest := Spread(xs[1..], flags[1..]);
      SpreadPadded(xs[1..], flags[1..]);
      PaddedKeep(xs, rest, IsEmptyLine);
      if flags[0] {
        PaddedInsert(xs, [xs[0]] + rest, IsEmptyLine, "");
      }
    }
  }

  lemma PaddedKeep(a: seq<string>, b: seq<string>, p: string -> bool)
    requires |a| > 0 && Padded(a[1..], b, p)
    ensures Padded(a, [a[0]] + b, p)
  {
    assert ([a[0]] + b)[1..] == b;
  }

  lemma PaddedInsert(a: seq<string>, b: seq<string>, p: string -> bool, x: string)
    requires p(x) && Padded(a, b, p)
    ensures Padded(a, [x] + b, p)
  {
    assert ([x] + b)[1..] == b;
  }

  /** A line feed between lines adds no ink: the ink of joined lines is the ink of each in turn. */
  lemma InkJoinCons(b: seq<string>)
    requires |b| > 0
    ensures Ink(Join(b, "\n")) == Ink(b[0]) + Ink(Join(b[1..], "\n"))
  {
    if |b| > 1 {
      InkAroundBlank(b[0], '\n', Join(b[1..], "\n"));
    } else {
      assert Join(b[1..], "\n") == [];
    }
  }

  /** Inserting lines without ink does not change the ink of the joined text. */
  lemma {:induction false} PaddedInk(a: seq<string>, b: seq<string>, p: string -> bool)
    requires Padded(a, b, p)
    requires forall i :: 0 <= i < |b| && p(b[i]) ==> Ink(b[i]) == []
    ensures Ink(Join(b, "\n")) == Ink(Join(a, "\n"))
    decreases |b|
  {
    if |b| > 0 {
      InkJoinCons(b);
      if |a| > 0 && b[0] == a[0] && Padded(a[1..], b[1..], p) {
        PaddedInk(a[1..], b[1..], p);
        InkJoinCons(a);
      } else {
        PaddedInk(a, b[1..], p);
      }
    }
  }

  /** No line of the loop's output holds a line feed when no input line does. */
  lemma {:induction false} SpaceLinesSingle(lines: seq<string>, i: nat)
    requires i <= |lines|
    requires forall k :: 0 <= k < |lines| ==> '\n' !in lines[k]
    ensures forall k :: 0 <= k < |SpaceLines(lines, i)| ==> '\n' !in SpaceLines(lines, i)[k]
    decreases |lines| - i
  {
    if i < |lines| {
      SpaceLinesSingle(lines, i + 1);
    }
  }

  /**
   * Exploding fixCommentSpacing's output gives the input lines, reindented,
   * with empty lines inserted; and the pass moves whitespace only.
   */
  lemma FixCommentSpacingLines(source: string)
    ensures Padded(Reindented(Split(source, '\n')), Split(FixCommentSpacing(source), '\n'), IsEmptyLine)
    ensures Ink(FixCommentSpacing(source)) == Ink(source)
  {
    var lines := Split(source, '\n');
    var out := SpaceLines(lines, 0);
    SpaceLinesPadded(lines, 0);
    assert Reindented(lines)[0..] == Reindented(lines);
    assert |out| >= 1 by {
      assert BlankBefore(lines, 0) == false;
    }
    SpaceLinesSingle(lines, 0);
    SplitJoin(out, '\n');
    PaddedInk(Reindented(lines), out, IsEmptyLine);
    forall i | 0 <= i < |lines| ensures Ink(Reindented(lines)[i]) == Ink(lines[i]) {
    }
    JoinInk(Reindented(lines), lines, "\n");
  }

  /** Each line, with an empty line in front of it where its flag is set. */
  function Spread(xs: seq<string>, flags: seq<bool>): seq<string>
    requires |xs| == |flags|
    decreases |xs|
  {
    if |xs| == 0 then []
    else (if flags[0] then [""] else []) + [xs[0]] + Spread(xs[1..], flags[1..])
  }

  /** How many of the first `k` flags are set. */
  function Trues(flags: seq<bool>, k: nat): nat
    requires k <= |flags|
  {
    if k == 0 then 0 else Trues(flags, k - 1) + (if flags[k - 1] then 1 else 0)
  }

  /** Where line `k` lands in Spread: after the `k` lines before it and the empty lines put in up to it. */
  function Slot(flags: seq<bool>, k: nat): nat
    requires k < |flags|
  {
    k + Trues(flags, k + 1)
  }

  lemma {:induction false} TruesFront(flags: seq<bool>, k: nat)
    requires 0 < k <= |flags|
    ensures Trues(flags, k) == (if flags[0] then 1 else 0) + Trues(flags[1..], k - 1)
  {
    if k > 1 {
      TruesFront(flags, k - 1);
      assert flags[1..][k - 2] == flags[k - 1];
    }
  }

  /** Lines keep their order, one place further on per line put in front. */
  lemma Shifted(pre: seq<string>, x: string, rest: seq<string>, q: nat, y: string, blank: bool)
    requires q < |rest| && rest[q] == y && (blank ==> 0 < q && rest[q - 1] == "")
    ensures var out := pre + [x] + rest;
            |pre| + 1 + q < |out| && out[|pre| + 1 + q] == y && (blank ==> out[|pre| + q] == "")
  {
  }

  /** Line `k` of Spread from line `k - 1` of Spread without the first line. */
  lemma SpreadAt(xs: seq<string>, flags: seq<bool>, k: nat)
    requires |xs| == |flags| && 0 < k < |xs|
    requires var r, fs := Spread(xs[1..], flags[1..]), flags[1..];
             Slot(fs, k - 1) < |r| && r[Slot(fs, k - 1)] == xs[1..][k - 1] &&
             (fs[k - 1] ==> 0 < Slot(fs, k - 1) && r[Slot(fs, k - 1) - 1] == "")
    ensures Slot(flags, k) < |Spread(xs, flags)| && Spread(xs, flags)[Slot(flags, k)] == xs[k]
    ensures flags[k] ==> 0 < Slot(flags, k) && Spread(xs, flags)[Slot(flags, k) - 1] == ""
  {
    var pre: seq<string> := if flags[0] then [""] else [];
    var fs := flags[1..];
    assert Spread(xs, flags) == pre + [xs[0]] + Spread(xs[1..], fs);
    TruesFront(flags, k + 1);
    assert Slot(flags, k) == |pre| + 1 + Slot(fs, k - 1);
    assert fs[k - 1] == flags[k];
    Shifted(pre, xs[0], Spread(xs[1..], fs), Slot(fs, k - 1), xs[k], flags[k]);
  }

  /**
   * Spread line by line: line `k` stands at `Slot(flags, k)`, an empty
   * line stands just before it when its flag is set, and the result is as
   * long as the lines plus the flags set.
   */
  lemma {:induction false} SpreadSlots(xs: seq<string>, flags: seq<bool>)
    requires |xs| == |flags|
    ensures |Spread(xs, flags)| == |xs| + Trues(flags, |flags|)
    ensures forall k :: 0 <= k < |xs| ==> Slot(flags, k) < |Spread(xs, flags)| && Spread(xs, flags)[Slot(flags, k)] == xs[k]
    ensures forall k :: 0 <= k < |xs| && flags[k] ==> 0 < Slot(flags, k) && Spread(xs, flags)[Slot(flags, k) - 1] == ""
    decreases |xs|
  {
    if |xs| > 0 {
      SpreadSlots(xs[1..], flags[1..]);
      var pre: seq<string> := if flags[0] then [""] else [];
      var out := pre + [xs[0]] + Spread(xs[1..], flags[1..]);
      assert Spread(xs, flags) == out;
      TruesFront(flags, |flags|);
      assert Trues(flags, 1) == |pre|;
      assert Slot(flags, 0) == |pre| && out[|pre|] == xs[0];
      forall k | 0 < k < |xs|
        ensures Slot(flags, k) < |Spread(xs, flags)| && Spread(xs, flags)[Slot(flags, k)] == xs[k]
        ensures flags[k] ==> 0 < Slot(flags, k) && Spread(xs, flags)[Slot(flags, k) - 1] == ""
      {
        SpreadAt(xs, flags, k);
      }
    }
  }

  /** Which input lines get an empty line in front of them. */
  function Flags(lines: seq<string>): (r: seq<bool>)
    ensures |r| == |lines|
  {
    seq(|lines|, k requires 0 <= k < |lines| => BlankBefore(lines, k))
  }

  /** The loop is Spread over the reindented lines and their flags. */
  lemma {:induction false} SpaceLinesSpread(lines: seq<string>, i: nat)
    requires i <= |lines|
    ensures SpaceLines(lines, i) == Spread(Reindented(lines)[i..], Flags(lines)[i..])
    decreases |lines| - i
  {
    if i < |lines| {
      SpaceLinesSpread(lines, i + 1);
      assert Reindented(lines)[i..][1..] == Reindented(lines)[i + 1..];
      assert Flags(lines)[i..][1..] == Flags(lines)[i + 1..];
    }
  }

  /** The first slot is 0, and each next slot is two on where the line gets an empty line in front, else one on. */
  predicate SlotGaps(lines: seq<string>)
    requires |lines| > 0
  {
    var flags := Flags(lines);
    Slot(flags, 0) == 0 &&
    forall k :: 0 < k < |lines| ==> Slot(flags, k) == Slot(flags, k - 1) + (if BlankBefore(lines, k) then 2 else 1)
  }

  lemma FlagsGaps(lines: seq<string>)
    requires |lines| > 0
    ensures SlotGaps(lines)
  {
    var flags := Flags(lines);
    assert Trues(flags, 1) == 0 by {
      assert !flags[0];
    }
    forall k | 0 < k < |lines|
      ensures Slot(flags, k) == Slot(flags, k - 1) + (if BlankBefore(lines, k) then 2 else 1)
    {
      assert flags[k] == BlankBefore(lines, k);
    }
  }

  /**
   * `out` is `lines` spaced: input line `k`, reindented, stands at
   * `Slot(Flags(lines), k)`, the empty line BlankBefore asks for stands just
   * before it, and nothing else is there.
   */
  predicate Spaced(lines: seq<string>, out: seq<string>) {
    var flags := Flags(lines);
    |out| == |lines| + Trues(flags, |lines|) &&
    (forall k :: 0 <= k < |lines| ==> Slot(flags, k) < |out| && out[Slot(flags, k)] == ReindentAt(lines, k)) &&
    (forall k :: 0 <= k < |lines| && BlankBefore(lines, k) ==> 0 < Slot(flags, k) && out[Slot(flags, k) - 1] == "")
  }

  /** The loop's output line by line, through Spread. */
  lemma SpaceLinesSlots(lines: seq<string>)
    ensures Spaced(lines, SpaceLines(lines, 0))
  {
    var flags, xs := Flags(lines), Reindented(lines);
    var out := SpaceLines(lines, 0);
    SpaceLinesSpread(lines, 0);
    assert xs[0..] == xs && flags[0..] == flags;
    SpreadSlots(xs, flags);
    forall k | 0 <= k < |lines| ensures out[Slot(flags, k)] == ReindentAt(lines, k) {
      assert xs[k] == ReindentAt(lines, k);
    }
    forall k | 0 <= k < |lines| && BlankBefore(lines, k) ensures 0 < Slot(flags, k) && out[Slot(flags, k) - 1] == "" {
      assert flags[k];
    }
  }

  /**
   * Exploding fixCommentSpacing's output gives the source lines spaced: each
   * reindented line at its slot, the slots rising by two exactly where an
   * empty line goes in front of a comment that follows an input line ending
   * in `}` or `;`, and by one everywhere else.
   */
  lemma FixCommentSpacingSlots(source: string)
    ensures SlotGaps(Split(source, '\n'))
    ensures Spaced(Split(source, '\n'), Split(FixCommentSpacing(source), '\n'))
  {
    var lines := Split(source, '\n');
    var out := SpaceLines(lines, 0);
    SpaceLinesSlots(lines);
    FlagsGaps(lines);
    SpaceLinesSingle(lines, 0);
    SplitJoin(out, '\n');
  }

  // ----------------------------------------------------- fixControlStructure

  /** `[{:]\s*$`: the line opens a block or ends a `case` label. */
  predicate OpensBlock(line: string) {
    EndsWithAny(line, "{:")
  }

  /** `^\s*}`: the line closes a block. */
  predicate ClosesBlock(line: string) {
    IndentEnd(line) < |line| && line[IndentEnd(line)] == '}'
  }

  /** A line holding nothing but trim characters. */
  predicate IsBlankLine(line: string) {
    Trim(line) == ""
  }

  /** `!trim($line)`: PHP's falsiness also takes a line that trims to "0". */
  predicate IsBlankAsWritten(line: string) {
    !Truthy(Trim(line))
  }

  /**
   * Line `i` goes when `blank` holds of it and the input line above opens a
   * block or the input line below closes one. On the first and last line the
   * missing neighbour is null, which neither pattern matches.
   */
  predicate DropsAt(lines: seq<string>, i: nat, blank: string -> bool)
    requires i < |lines|
  {
    blank(lines[i]) && ((i > 0 && OpensBlock(lines[i - 1])) || (i + 1 < |lines| && ClosesBlock(lines[i + 1])))
  }

  /** The loop of fixControlStructure from line `i` on. */
  function KeepLines(lines: seq<string>, i: nat, blank: string -> bool): seq<string>
    requires i <= |lines|
    decreases |lines| - i
  {
    if i == |lines| then []
    else (if DropsAt(lines, i, blank) then [] else [lines[i]]) + KeepLines(lines, i + 1, blank)
  }

  /** fixControlStructure with the blank-line test as a parameter. */
  function ControlStructureWith(source: string, blank: string -> bool): string {
    Join(KeepLines(Split(source, '\n'), 0, blank), "\n")
  }

  /** PhpPrinter::fixControlStructure as written: `!trim($line)` also drops a line "0". */
  function FixControlStructureAsWritten(source: string): string {
    ControlStructureWith(source, IsBlankAsWritten)
  }

  /** fixControlStructure dropping only lines that are blank after trim. */
  function FixControlStructure(source: string): string {
    ControlStructureWith(source, IsBlankLine)
  }

  /** The loop deletes lines satisfying `blank`, and only those; the rest stay in order. */
  lemma {:induction false} KeepLinesPadded(lines: seq<string>, i: nat, blank: string -> bool)
    requires i <= |lines|
    ensures Padded(KeepLines(lines, i, blank), lines[i..], blank)
    decreases |lines| - i
  {
    if i < |lines| {
      KeepLinesPadded(lines, i + 1, blank);
      var rest := KeepLines(lines, i + 1, blank);
      assert lines[i..][1..] == lines[i + 1..];
      if !DropsAt(lines, i, blank) {
        assert KeepLines(lines, i, blank) == [lines[i]] + rest;
        assert ([lines[i]] + rest)[1..] == rest;
      } else {
        assert KeepLines(lines, i, blank) == rest;
        assert blank(lines[i..][0]);
      }
    }
  }

  /** A blank line has no ink. */
  lemma BlankLineInk(line: string)
    requires IsBlankLine(line)
    ensures Ink(line) == []
  {
    InkTrim(line);
  }

  /**
   * fixControlStructure deletes blank lines only: every line with text in
   * it survives, in order, and the ink of the source is kept.
   */
  lemma FixControlStructureKeeps(source: string)
    ensures Padded(KeepLines(Split(source, '\n'), 0, IsBlankLine), Split(source, '\n'), IsBlankLine)
    ensures Ink(FixControlStructure(source)) == Ink(source)
  {
    var lines := Split(source, '\n');
    var kept := KeepLines(lines, 0, IsBlankLine);
    KeepLinesPadded(lines, 0, IsBlankLine);
    assert lines[0..] == lines;
    forall i | 0 <= i < |lines| && IsBlankLine(lines[i]) ensures Ink(lines[i]) == [] {
      BlankLineInk(lines[i]);
    }
    PaddedInk(kept, lines, IsBlankLine);
  }

  /**
   * Where no line opens or closes a block, fixControlStructure leaves the
   * source alone, blank lines included.
   */
  lemma {:induction false} KeepLinesNoBlocks(lines: seq<string>, i: nat, blank: string -> bool)
    requires i <= |lines|
    requires forall k :: 0 <= k < |lines| ==> !OpensBlock(lines[k]) && !ClosesBlock(lines[k])
    ensures KeepLines(lines, i, blank) == lines[i..]
    decreases |lines| - i
  {
    if i < |lines| {
      KeepLinesNoBlocks(lines, i + 1, blank);
      assert lines[i..] == [lines[i]] + lines[i + 1..];
    }
  }

  lemma FixControlStructureNoBlocks(source: string)
    requires forall k :: 0 <= k < |Split(source, '\n')| ==> !OpensBlock(Split(source, '\n')[k]) && !ClosesBlock(Split(source, '\n')[k])
    ensures FixControlStructure(source) == source
  {
    var lines := Split(source, '\n');
    KeepLinesNoBlocks(lines, 0, IsBlankLine);
    assert lines[0..] == lines;
  }

  /** The positions, from `i` on, of the input lines the loop keeps, in order. */
  function Kept(lines: seq<string>, i: nat, blank: string -> bool): seq<nat>
    requires i <= |lines|
    decreases |lines| - i
  {
    if i == |lines| then []
    else (if DropsAt(lines, i, blank) then [] else [i]) + Kept(lines, i + 1, blank)
  }

  /**
   * `out` picks the lines of `lines` at the rising positions `idx`, all at
   * or after `i`.
   */
  predicate Picks(out: seq<string>, lines: seq<string>, idx: seq<nat>, i: nat) {
    |out| == |idx| &&
    (forall m :: 0 <= m < |idx| ==> i <= idx[m] < |lines| && out[m] == lines[idx[m]]) &&
    (forall m, n :: 0 <= m < n < |idx| ==> idx[m] < idx[n])
  }

  lemma PicksCons(out: seq<string>, lines: seq<string>, idx: seq<nat>, i: nat)
    requires i < |lines| && Picks(out, lines, idx, i + 1)
    ensures Picks([lines[i]] + out, lines, [i] + idx, i)
  {
    var o, x := [lines[i]] + out, [i] + idx;
    forall m | 0 < m < |x| ensures i < x[m] < |lines| && o[m] == lines[x[m]] {
      assert x[m] == idx[m - 1] && o[m] == out[m - 1];
    }
  }

  /** The loop's output picks the input lines at the positions `Kept`. */
  lemma {:induction false} KeepLinesPicks(lines: seq<string>, i: nat, blank: string -> bool)
    requires i <= |lines|
    ensures Picks(KeepLines(lines, i, blank), lines, Kept(lines, i, blank), i)
    decreases |lines| - i
  {
    if i < |lines| {
      KeepLinesPicks(lines, i + 1, blank);
      if !DropsAt(lines, i, blank) {
        PicksCons(KeepLines(lines, i + 1, blank), lines, Kept(lines, i + 1, blank), i);
      }
    }
  }

  /** The positions `Kept` keeps are exactly those DropsAt does not take. */
  lemma {:induction false} KeptExactly(lines: seq<string>, i: nat, blank: string -> bool)
    requires i <= |lines|
    ensures forall k :: i <= k < |lines| ==> (k in Kept(lines, i, blank) <==> !DropsAt(lines, k, blank))
    decreases |lines| - i
  {
    if i < |lines| {
      KeptExactly(lines, i + 1, blank);
      KeepLinesPicks(lines, i + 1, blank);
      var ri := Kept(lines, i + 1, blank);
      var pre: seq<nat> := if DropsAt(lines, i, blank) then [] else [i];
      assert Kept(lines, i, blank) == pre + ri;
      forall k | i <= k < |lines| ensures (k in pre + ri <==> !DropsAt(lines, k, blank)) {
        if k == i {
          assert i !in ri;
        } else {
          assert k !in pre;
        }
      }
    }
  }

  /** A blank line is all trim characters, so it neither opens nor closes a block. */
  lemma BlankNoBrace(line: string)
    requires IsBlankLine(line)
    ensures !OpensBlock(line) && !ClosesBlock(line)
  {
    TrimSlice(line);
    assert forall i :: 0 <= i < |line| ==> IsTrimChar(line[i]);
    if IndentEnd(line) < |line| {
      assert IsTrimChar(line[IndentEnd(line)]);
    }
    var k := |line| - SpanBack(line, IsSpace);
    if k > 0 {
      assert IsTrimChar(line[k - 1]);
    }
  }

  /**
   * Of two blank lines after a line opening a block, only the first goes,
   * unless the line after them closes the block.
   */
  lemma TwoBlanksAfterOpener(lines: seq<string>, i: nat)
    requires 0 < i && i + 1 < |lines| && OpensBlock(lines[i - 1])
    requires IsBlankLine(lines[i]) && IsBlankLine(lines[i + 1])
    requires i + 2 == |lines| || !ClosesBlock(lines[i + 2])
    ensures DropsAt(lines, i, IsBlankLine) && !DropsAt(lines, i + 1, IsBlankLine)
  {
    BlankNoBrace(lines[i]);
  }

  /**
   * Some line survives the corrected pass: the first line goes only when
   * the second closes a block, and a line that closes a block is not blank.
   */
  lemma SomeLineKept(lines: seq<string>)
    requires |lines| >= 1
    ensures |Kept(lines, 0, IsBlankLine)| > 0
  {
    KeptExactly(lines, 0, IsBlankLine);
    if DropsAt(lines, 0, IsBlankLine) {
      if IsBlankLine(lines[1]) {
        BlankNoBrace(lines[1]);
      }
      assert !DropsAt(lines, 1, IsBlankLine);
      assert 1 in Kept(lines, 0, IsBlankLine);
    } else {
      assert 0 in Kept(lines, 0, IsBlankLine);
    }
  }

  /**
   * Exploding fixControlStructure's output gives the source lines at the
   * rising positions `Kept`, which are exactly the lines DropsAt does not
   * take: blank lines after a line opening a block or before a line closing
   * one, judged on the source's own neighbours.
   */
  lemma FixControlStructureLines(source: string)
    ensures var lines, out := Split(source, '\n'), Split(FixControlStructure(source), '\n');
            var idx := Kept(lines, 0, IsBlankLine);
            Picks(out, lines, idx, 0) && forall k :: 0 <= k < |lines| ==> (k in idx <==> !DropsAt(lines, k, IsBlankLine))
  {
    var lines := Split(source, '\n');
    var kept := KeepLines(lines, 0, IsBlankLine);
    KeepLinesPicks(lines, 0, IsBlankLine);
    KeptExactly(lines, 0, IsBlankLine);
    SomeLineKept(lines);
    SplitJoin(kept, '\n');
  }

  /**
   * As written, the loop is the same with `!trim` for blankness: the output
   * joins the source lines at the positions `Kept`, those DropsAt does not
   * take; when it takes them all, the output is empty.
   */
  lemma FixControlStructureAsWrittenLines(source: string)
    ensures var lines, idx := Split(source, '\n'), Kept(Split(source, '\n'), 0, IsBlankAsWritten);
            && (|idx| > 0 ==> Picks(Split(FixControlStructureAsWritten(source), '\n'), lines, idx, 0))
            && (|idx| == 0 ==> FixControlStructureAsWritten(source) == "")
            && forall k :: 0 <= k < |lines| ==> (k in idx <==> !DropsAt(lines, k, IsBlankAsWritten))
  {
    var lines := Split(source, '\n');
    var kept := KeepLines(lines, 0, IsBlankAsWritten);
    KeepLinesPicks(lines, 0, IsBlankAsWritten);
    KeptExactly(lines, 0, IsBlankAsWritten);
    if |kept| > 0 {
      SplitJoin(kept, '\n');
    }
  }

  /**
   * As written, the pass deletes text: in the continuation of an elvis
   * expression, a line holding just `0` after a line ending in `?:` trims
   * to "0", which PHP reads as false, and the line is dropped with its ink.
   */
  lemma ZeroLineDropped()
    ensures Ink(FixControlStructureAsWritten("$v ?:\n0")) != Ink("$v ?:\n0")
    ensures FixControlStructure("$v ?:\n0") == "$v ?:\n0"
  {
    var s := "$v ?:\n0";
    var lines := ["$v ?:", "0"];
    ElvisLines();
    ZeroLineFacts();
    KeepTwoDrops(lines, IsBlankAsWritten);
    KeepTwoKeeps(lines, IsBlankLine);
    assert FixControlStructureAsWritten(s) == "$v ?:";
    ElvisInk();
    assert FixControlStructure(s) == Join(lines, "\n");
  }

  lemma ElvisInk()
    ensures Ink("$v ?:\n0") != Ink("$v ?:")
  {
    assert "$v ?:\n0" == "$v ?:" + "\n0";
    FilterConcat("$v ?:", "\n0", IsInk);
    assert Ink("\n0") == "0";
  }

  lemma ElvisLines()
    ensures Split("$v ?:\n0", '\n') == ["$v ?:", "0"]
  {
    var s := "$v ?:\n0";
    ElvisBreak();
    assert s[..5] == "$v ?:" && s[6..] == "0";
    assert Split("0", '\n') == ["0"];
  }

  lemma ElvisBreak()
    ensures IndexOf("$v ?:\n0", '\n') == 5
  {
  }

  lemma ZeroLineFacts()
    ensures IsBlankAsWritten("0") && !IsBlankLine("0")
    ensures OpensBlock("$v ?:") && !IsBlankAsWritten("$v ?:") && !IsBlankLine("$v ?:")
  {
    ZeroBlank();
    ElvisNotBlank();
  }

  lemma ZeroBlank()
    ensures IsBlankAsWritten("0") && !IsBlankLine("0")
  {
    ZeroTrim();
  }

  lemma ElvisNotBlank()
    ensures OpensBlock("$v ?:") && !IsBlankAsWritten("$v ?:") && !IsBlankLine("$v ?:")
  {
    ElvisTrim();
    ElvisOpens();
  }

  lemma ZeroTrim()
    ensures Trim("0") == "0"
  {
    assert Span("0", IsTrimChar) == 0;
    assert SpanBack("0", IsTrimChar) == 0;
  }

  lemma ElvisTrim()
    ensures Trim("$v ?:") == "$v ?:"
  {
    assert Span("$v ?:", IsTrimChar) == 0;
    assert SpanBack("$v ?:", IsTrimChar) == 0;
  }

  lemma ElvisOpens()
    ensures OpensBlock("$v ?:")
  {
    assert SpanBack("$v ?:", IsSpace) == 0;
  }

  /** Of two lines, a blank second line after an opening first one is dropped. */
  lemma KeepTwoDrops(lines: seq<string>, blank: string -> bool)
    requires |lines| == 2 && !blank(lines[0]) && blank(lines[1]) && OpensBlock(lines[0])
    ensures KeepLines(lines, 0, blank) == [lines[0]]
  {
    assert !DropsAt(lines, 0, blank) && DropsAt(lines, 1, blank);
    assert KeepLines(lines, 1, blank) == [] + KeepLines(lines, 2, blank);
  }

  /** Of two lines, none of them blank, both are kept. */
  lemma KeepTwoKeeps(lines: seq<string>, blank: string -> bool)
    requires |lines| == 2 && !blank(lines[0]) && !blank(lines[1])
    ensures KeepLines(lines, 0, blank) == lines
  {
    assert !DropsAt(lines, 0, blank) && !DropsAt(lines, 1, blank);
    assert KeepLines(lines, 1, blank) == [lines[1]] + KeepLines(lines, 2, blank);
  }

  // ------------------------------------------------------------------ format

  /**
   * format, from the text php-cs-fixer and phpcbf leave in the temporary
   * file: comments wrapped when the option asks for it, the two line passes,
   * trimExtraSpace with a line feed put back at the end, and fixIndent. At
   * the default width the text before that final line feed is finished the
   * way every printer finishes its output.
   */
  function Format(fixed: string, indent: nat, wrapComments: bool): (r: string)
    ensures indent == Printer.DefaultIndent ==> |r| > 0 && r[|r| - 1] == '\n'
    ensures indent == Printer.DefaultIndent ==> Printer.Finished(r[..|r| - 1])
  {
    var wrapped := if wrapComments then CommentScan.WrapComments(fixed) else fixed;
    var passed := FixControlStructure(FixCommentSpacing(wrapped));
    FinishedWithNewline(passed);
    Printer.FixIndent(Printer.TrimExtraSpace(passed) + "\n", indent)
  }

  /** At the default width fixIndent returns trimExtraSpace's text and its line feed as they are. */
  lemma FinishedWithNewline(passed: string)
    ensures var r := Printer.FixIndent(Printer.TrimExtraSpace(passed) + "\n", Printer.DefaultIndent);
            |r| > 0 && r[|r| - 1] == '\n' && Printer.Finished(r[..|r| - 1])
  {
    var trimmed := Printer.TrimExtraSpace(passed);
    Printer.TrimExtraSpaceSettled(passed);
    Printer.TrimExtraSpaceIdempotent(passed);
    assert (trimmed + "\n")[..|trimmed|] == trimmed;
  }
}

=== FILE: printer.dfy ===
/**
 * The two line-by-line clean-ups of the printer base class (src/Printer.php)
 * that every formatter ends with.
 *
 * trimExtraSpace strips trailing whitespace from every line, snaps an
 * indentation that is one column off a multiple of four back onto it
 * (docblock continuation lines, which start with `*`, are left alone), and
 * trims the whole text. fixIndent rescales indentation that is a whole number
 * of four-space levels to the width the user asked for.
 */
module Printer {
  import opened Text
  import opened Outcomes

  /** Printer::DEFAULT_INDENT: the formatters emit four spaces per level. */
  const DefaultIndent: nat := 4

  /** The number of leading spaces of a line (the group `^( *)`). */
  function Lead(line: string): (n: nat)
    ensures n <= |line|
    ensures forall i :: 0 <= i < n ==> line[i] == ' '
    ensures n == |line| || line[n] != ' '
  {
    Span(line, IsSpaceChar)
  }

  /** `^( *)(\S.*)` matches: the leading spaces are followed by a non-whitespace character. */
  predicate HasText(line: string) {
    Lead(line) < |line| && !IsSpace(line[Lead(line)])
  }

  lemma LeadSpaces(k: nat, body: string)
    requires |body| > 0 && body[0] != ' '
    ensures Lead(Spaces(k) + body) == k
    ensures (Spaces(k) + body)[k..] == body
  {
    SpanConcat(Spaces(k), body, IsSpaceChar);
  }

  // ---------------------------------------------------------------- fixIndent

  /** One line of fixIndent. */
  function RescaleLine(line: string, indent: nat): (r: string)
    ensures '\n' !in line ==> '\n' !in r
    ensures r != line ==> HasText(line) && Lead(line) % DefaultIndent == 0
    ensures HasText(line) && Lead(line) % DefaultIndent == 0
            ==> Lead(r) == Lead(line) / DefaultIndent * indent && r[Lead(r)..] == line[Lead(line)..]
  {
    var n := Lead(line);
    if HasText(line) && n % DefaultIndent == 0 then
      var r := Spaces(n / DefaultIndent * indent) + line[n..];
      LeadSpaces(n / DefaultIndent * indent, line[n..]);
      r
    else
      line
  }

  /**
   * fixIndent: with the default width the text is returned as it is;
   * otherwise it is cut into lines and each line rescaled.
   */
  function FixIndent(source: string, indent: nat): (r: string)
    ensures indent == DefaultIndent ==> r == source
    ensures indent != DefaultIndent ==>
              |Split(r, '\n')| == |Split(source, '\n')|
              && forall i :: 0 <= i < |Split(r, '\n')| ==>
                   Split(r, '\n')[i] == RescaleLine(Split(source, '\n')[i], indent)
  {
    if indent == DefaultIndent then source
    else
      var lines := Split(source, '\n');
      var out := seq(|lines|, i requires 0 <= i < |lines| => RescaleLine(lines[i], indent));
      SplitJoin(out, '\n');
      Join(out, "\n")
  }

  /** Rescaling the line to a width asks str_repeat for a negative number of spaces. */
  predicate NegativeCount(line: string, indent: int) {
    HasText(line) && Lead(line) % DefaultIndent == 0 && Lead(line) / DefaultIndent * indent < 0
  }

  /**
   * The foreach loop of fixIndent for a width of either sign: str_repeat
   * throws at the first line that asks for a negative count. A negative
   * width reaches str_repeat without throwing only on level 0, where it
   * gives no spaces, as width 0 does.
   */
  function RescaleAll(lines: seq<string>, indent: int): (r: Result<seq<string>>)
    ensures r.Failure? ==> r.error == NegativeRepeat
    ensures r.Success? ==> |r.value| == |lines|
    decreases |lines|
  {
    if |lines| == 0 then Success([])
    else if NegativeCount(lines[0], indent) then Failure(NegativeRepeat)
    else
      var first := RescaleLine(lines[0], if indent < 0 then 0 else indent);
      match RescaleAll(lines[1..], indent)
      case Failure(e) => Failure(e)
      case Success(rest) => Success([first] + rest)
  }

  /** The loop throws exactly when some line asks for a negative count. */
  lemma {:induction false} RescaleAllFails(lines: seq<string>, indent: int)
    ensures RescaleAll(lines, indent).Failure? <==> exists i :: 0 <= i < |lines| && NegativeCount(lines[i], indent)
    decreases |lines|
  {
    if |lines| > 0 && !NegativeCount(lines[0], indent) {
      RescaleAllFails(lines[1..], indent);
      assert forall i :: 1 <= i < |lines| ==> lines[i] == lines[1..][i - 1];
      if exists i :: 0 <= i < |lines| && NegativeCount(lines[i], indent) {
        var i :| 0 <= i < |lines| && NegativeCount(lines[i], indent);
        assert NegativeCount(lines[1..][i - 1], indent);
      }
    }
  }

  /** At a width of zero or more the loop never throws and rescales every line. */
  lemma {:induction false} RescaleAllRescales(lines: seq<string>, indent: int)
    ensures indent >= 0 ==> RescaleAll(lines, indent).Success?
    ensures indent >= 0 ==> forall i :: 0 <= i < |lines| ==> RescaleAll(lines, indent).value[i] == RescaleLine(lines[i], indent)
    decreases |lines|
  {
    if |lines| > 0 && indent >= 0 {
      NegativeCountBelowZero(lines[0], indent);
      RescaleAllRescales(lines[1..], indent);
      var rest := RescaleAll(lines[1..], indent).value;
      assert RescaleAll(lines, indent).value == [RescaleLine(lines[0], indent)] + rest;
      forall i | 1 <= i < |lines| ensures RescaleAll(lines, indent).value[i] == RescaleLine(lines[i], indent) {
        assert lines[i] == lines[1..][i - 1];
      }
    }
  }

  /**
   * fixIndent for a width of either sign, as the unchecked `indent` option
   * gives it: a negative width throws as soon as a line with text is
   * indented by a positive multiple of four, and any other width is
   * FixIndent.
   */
  function FixIndentChecked(source: string, indent: int): (r: Result<string>)
    ensures indent >= 0 ==> r == Success(FixIndent(source, indent))
    ensures r.Failure? <==> indent < 0 && exists i :: 0 <= i < |Split(source, '\n')| && NegativeCount(Split(source, '\n')[i], indent)
    ensures r.Failure? ==> r.error == NegativeRepeat
  {
    if indent == DefaultIndent then Success(source)
    else
      var lines := Split(source, '\n');
      RescaleAllFails(lines, indent);
      RescaleAllRescales(lines, indent);
      match RescaleAll(lines, indent)
      case Failure(e) =>
        var i :| 0 <= i < |lines| && NegativeCount(lines[i], indent);
        NegativeCountBelowZero(lines[i], indent);
        assert NegativeCount(Split(source, '\n')[i], indent);
        Failure(e)
      case Success(out) =>
        if indent >= 0 then
          RescaledIsFixIndent(source, indent, out);
          Success(Join(out, "\n"))
        else Success(Join(out, "\n"))
  }

  /** Lines rescaled one by one and imploded are what FixIndent gives. */
  lemma RescaledIsFixIndent(source: string, indent: nat, out: seq<string>)
    requires indent != DefaultIndent && |out| == |Split(source, '\n')|
    requires forall i :: 0 <= i < |out| ==> out[i] == RescaleLine(Split(source, '\n')[i], indent)
    ensures Join(out, "\n") == FixIndent(source, indent)
  {
    var lines := Split(source, '\n');
    assert out == seq(|lines|, i requires 0 <= i < |lines| => RescaleLine(lines[i], indent));
  }

  lemma NegativeCountBelowZero(line: string, indent: int)
    ensures NegativeCount(line, indent) ==> indent < 0
  {
    var level := Lead(line) / DefaultIndent;
    if indent >= 0 {
      assert level * indent >= 0;
    }
  }

  /** A negative width throws on `    a`, and leaves an unindented `a` alone. */
  lemma NegativeWidthThrows()
    ensures FixIndentChecked("    a", -2) == Failure(NegativeRepeat)
    ensures FixIndentChecked("a", -2) == Success("a")
  {
    OneLine("    a");
    OneLine("a");
    assert NegativeCount("    a", -2) by {
      assert Lead("    a") == 4;
    }
    assert !NegativeCount("a", -2) by {
      assert Lead("a") == 0;
    }
    assert RescaleLine("a", 0) == "a";
  }

  /** explode on a text with no line feed gives the text alone. */
  lemma OneLine(s: string)
    requires '\n' !in s
    ensures Split(s, '\n') == [s]
  {
    assert IndexOf(s, '\n') == |s|;
  }

  /** A line `level` four-space levels deep comes out `level` levels of the new width deep. */
  lemma RescaleLevel(level: nat, body: string, indent: nat)
    requires |body| > 0 && !IsSpace(body[0])
    ensures RescaleLine(Spaces(level * DefaultIndent) + body, indent) == Spaces(level * indent) + body
  {
    var k := level * DefaultIndent;
    var line := Spaces(k) + body;
    assert Lead(line) == k && line[k..] == body by {
      LeadSpaces(k, body);
    }
    assert HasText(line) by {
      assert line[k] == body[0];
    }
    assert k % DefaultIndent == 0 && k / DefaultIndent == level;
  }

  /** An indentation that is not a whole number of levels is left as it is. */
  lemma RescaleKeeps(line: string, indent: nat)
    requires Lead(line) % DefaultIndent != 0 || !HasText(line)
    ensures RescaleLine(line, indent) == line
  {
  }

  /**
   * fixIndent cannot take a rescaled text back to the default width: it only
   * rescales from four columns, and asking for four returns the text as it is.
   */
  lemma FixIndentNotReversible()
    ensures FixIndent("    a", 2) == "  a"
    ensures FixIndent(FixIndent("    a", 2), DefaultIndent) != "    a"
  {
    var line := "    a";
    assert line == Spaces(1 * DefaultIndent) + "a";
    RescaleLevel(1, "a", 2);
    assert Split(line, '\n') == [line] by {
      assert IndexOf(line, '\n') == |line|;
    }
    var r := FixIndent(line, 2);
    assert |Split(r, '\n')| == 1;
    assert Join(Split(r, '\n'), "\n") == r;
    assert Spaces(1 * 2) + "a" == "  a";
  }

  // ----------------------------------------------------------- trimExtraSpace

  /**
   * The indentation trimExtraSpace settles on: one column past a multiple of
   * four drops back to it, one column short of one moves up to it.
   */
  function Snap(n: nat): (m: nat)
    ensures m % 4 == 0 || m % 4 == 2
    ensures n % 4 != 2 ==> m % 4 == 0 && n - 1 <= m <= n + 1
    ensures n % 4 == 2 ==> m == n
  {
    if n % DefaultIndent == 1 then n - 1
    else if n % DefaultIndent == DefaultIndent - 1 then n + 1
    else n
  }

  /** The rtrimmed line has some indentation, then a non-whitespace character other than `*`. */
  predicate Snaps(l: string) {
    0 < Lead(l) && HasText(l) && l[Lead(l)] != '*'
  }

  /** One line of trimExtraSpace. */
  function SettleLine(line: string): (r: string)
    ensures '\n' !in line ==> '\n' !in r
    ensures r == [] || !IsTrimChar(r[|r| - 1])
    ensures Ink(r) == Ink(line)
  {
    var l := RTrim(line);
    InkTrim(line);
    if Snaps(l) then
      ReindentFacts(l);
      Spaces(Snap(Lead(l))) + LTrim(l)
    else
      l
  }

  /** Re-indenting an rtrimmed line keeps its ink and its last character. */
  lemma ReindentFacts(l: string)
    requires Snaps(l)
    requires !IsTrimChar(l[|l| - 1])
    ensures LTrim(l) != [] && !IsTrimChar(LTrim(l)[0])
    ensures !IsTrimChar((Spaces(Snap(Lead(l))) + LTrim(l))[|Spaces(Snap(Lead(l))) + LTrim(l)| - 1])
    ensures Ink(Spaces(Snap(Lead(l))) + LTrim(l)) == Ink(l)
    ensures '\n' !in l ==> '\n' !in Spaces(Snap(Lead(l))) + LTrim(l)
  {
    var body := LTrim(l);
    var sp := Spaces(Snap(Lead(l)));
    var x := sp + body;
    assert body != [] && body[|body| - 1] == l[|l| - 1] by {
      assert body == l[|l| - |body|..];
    }
    assert x[|x| - 1] == body[|body| - 1];
    assert Ink(sp) == [] by {
      FilterNone(sp, IsInk);
    }
    assert Ink(x) == Ink(body) by {
      FilterConcat(sp, body, IsInk);
    }
    assert Ink(body) == Ink(l) by {
      InkTrim(l);
    }
    if '\n' !in l {
      assert '\n' !in x by {
        assert '\n' !in sp;
        NotInSuffix('\n', l, |l| - |body|);
        NotInParts('\n', sp, body);
      }
    }
  }

  /**
   * A settled line: its indentation is the snapped one and the rest of the
   * line is the original line without its surrounding whitespace.
   */
  lemma SettleSnaps(line: string)
    requires Snaps(RTrim(line))
    ensures Lead(SettleLine(line)) == Snap(Lead(RTrim(line)))
    ensures SettleLine(line)[Lead(SettleLine(line))..] == Trim(line)
  {
    var l := RTrim(line);
    var body := LTrim(l);
    assert body != [] by { assert !IsTrimChar(l[|l| - 1]); }
    LeadSpaces(Snap(Lead(l)), body);
    assert Trim(line) == RTrim(LTrim(line));
    TrimCommute(line);
  }

  /** ltrim and rtrim commute. */
  lemma TrimCommute(s: string)
    ensures LTrim(RTrim(s)) == RTrim(LTrim(s))
  {
    var a := Span(s, IsTrimChar);
    var n := |RTrim(s)|;
    if a == |s| {
      assert RTrim(s) == [];
    } else {
      assert a < n by {
        assert !IsTrimChar(s[a]);
      }
      TrimBothEnds(s, a, n);
    }
  }

  /** Both orders cut `s` to `s[a..n]`, the text between its leading and its trailing trim characters. */
  lemma TrimBothEnds(s: string, a: nat, n: nat)
    requires a == Span(s, IsTrimChar) && n == |RTrim(s)| && a < n
    ensures LTrim(RTrim(s)) == s[a..n] && RTrim(LTrim(s)) == s[a..n]
  {
    LTrimOfRTrim(s, a, n);
    RTrimOfLTrim(s, a, n);
  }

  /** rtrim first: what is left starts where the leading trim characters end. */
  lemma LTrimOfRTrim(s: string, a: nat, n: nat)
    requires a == Span(s, IsTrimChar) && n == |RTrim(s)| && a < n
    ensures LTrim(RTrim(s)) == s[a..n]
  {
    var r := RTrim(s);
    assert r[a] == s[a];
    SpanPrefixOf(r, a);
    SliceOfSlice(s, a, n);
  }

  /** ltrim first: what is left ends where the trailing trim characters start. */
  lemma RTrimOfLTrim(s: string, a: nat, n: nat)
    requires a == Span(s, IsTrimChar) && n == |RTrim(s)| && a < n
    ensures RTrim(LTrim(s)) == s[a..n]
  {
    var l := LTrim(s);
    assert l == s[a..];
    assert l[|l| - (|s| - n) - 1] == s[n - 1];
    SpanBackSuffixOf(l, |s| - n);
    SliceOfSlice(s, a, n);
  }

  lemma SpanPrefixOf(s: string, a: nat)
    requires a < |s| && !IsTrimChar(s[a])
    requires forall i :: 0 <= i < a ==> IsTrimChar(s[i])
    ensures Span(s, IsTrimChar) == a
  {
  }

  lemma SpanBackSuffixOf(s: string, b: nat)
    requires b < |s| && !IsTrimChar(s[|s| - b - 1])
    requires forall i :: |s| - b <= i < |s| ==> IsTrimChar(s[i])
    ensures SpanBack(s, IsTrimChar) == b
  {
  }

  /** Docblock continuation lines and lines without indentation only lose trailing whitespace. */
  lemma SettleKeeps(line: string)
    requires !Snaps(RTrim(line))
    ensures SettleLine(line) == RTrim(line)
  {
  }

  /**
   * trimExtraSpace: every line rtrimmed and its indentation snapped, then the
   * whole text trimmed. Only whitespace changes, and the result neither
   * starts nor ends with whitespace.
   */
  function TrimExtraSpace(source: string): (r: string)
    ensures r == [] || (!IsTrimChar(r[0]) && !IsTrimChar(r[|r| - 1]))
    ensures Ink(r) == Ink(source)
  {
    var out := SettleLines(Split(source, '\n'));
    SettleInk(Split(source, '\n'));
    Trim(Join(out, "\n"))
  }

  /** Every line settled. */
  function SettleLines(lines: seq<string>): (out: seq<string>)
    ensures |out| == |lines|
    ensures forall i :: 0 <= i < |lines| ==> out[i] == SettleLine(lines[i])
  {
    seq(|lines|, i requires 0 <= i < |lines| => SettleLine(lines[i]))
  }

  lemma SettleInk(lines: seq<string>)
    ensures Ink(Trim(Join(SettleLines(lines), "\n"))) == Ink(Join(lines, "\n"))
  {
    var out := SettleLines(lines);
    JoinInk(lines, out, "\n");
    InkTrim(Join(out, "\n"));
  }

  /** A line trimExtraSpace would leave as it is. */
  predicate Settled(line: string) {
    SettleLine(line) == line
  }

  /** Settling is idempotent on one line. */
  lemma SettleTwice(line: string)
    ensures Settled(SettleLine(line))
  {
    var l := RTrim(line);
    if Snaps(l) {
      SettleSnapped(line);
    } else {
      assert SettleLine(line) == l;
      RTrimKeeps(l);
    }
  }

  /** SettleTwice for a line whose indentation is snapped. */
  lemma SettleSnapped(line: string)
    requires Snaps(RTrim(line))
    ensures Settled(SettleLine(line))
  {
    var l := RTrim(line);
    var r := SettleLine(line);
    assert RTrim(r) == r by { RTrimKeeps(r); }
    var body := LTrim(l);
    assert body != [] by { assert !IsTrimChar(l[|l| - 1]); }
    var m := Snap(Lead(l));
    LeadSpaces(m, body);
    assert Lead(r) == m;
    if Snaps(r) {
      assert Snap(m) == m;
      assert LTrim(r) == body by { LTrimAfterSpaces(m, body); }
    }
  }

  lemma RTrimKeeps(s: string)
    requires s == [] || !IsTrimChar(s[|s| - 1])
    ensures RTrim(s) == s
  {
  }

  lemma LTrimAfterSpaces(m: nat, body: string)
    requires body != [] && !IsTrimChar(body[0])
    ensures LTrim(Spaces(m) + body) == body
  {
    SpanConcat(Spaces(m), body, IsTrimChar);
    assert (Spaces(m) + body)[m..] == body;
  }

  /**
   * A line of a text whose lines are all settled, cut down by trimming the
   * text, is still settled: what trimming removes from it is whitespace next
   * to a non-whitespace character.
   */
  lemma SettledInner(u: string, v: string, w: string)
    requires Settled(u + v + w)
    requires forall i :: 0 <= i < |u| ==> IsTrimChar(u[i])
    requires forall i :: 0 <= i < |w| ==> IsTrimChar(w[i])
    requires v != [] && u != [] ==> !IsTrimChar(v[0])
    requires v != [] && w != [] ==> !IsTrimChar(v[|v| - 1])
    ensures Settled(v)
  {
    var x := u + v + w;
    if v != [] {
      assert w == [];
      assert x == u + v;
      assert x[|x| - 1] == v[|v| - 1];
      RTrimKeeps(v);
      if u != [] {
        assert Lead(v) == 0;
      } else {
        assert x == v;
      }
    }
  }

  /** Every line of the result of trimExtraSpace is settled. */
  lemma TrimExtraSpaceSettled(source: string)
    ensures LinesSatisfy(TrimExtraSpace(source), Settled)
  {
    var lines := Split(source, '\n');
    var out := SettleLines(lines);
    forall i | 0 <= i < |out| ensures '\n' !in out[i] && Settled(out[i]) {
      SettleTwice(lines[i]);
    }
    JoinLinesSatisfy(out, Settled);
    var j := Join(out, "\n");
    TrimSettled(j);
  }

  /** `r` is what trim leaves of `j`, found at `k`: only trim characters around it, none at its ends. */
  predicate TrimmedAt(j: string, r: string, k: nat) {
    && OccursAt(j, r, k)
    && (forall i :: 0 <= i < k ==> IsTrimChar(j[i]))
    && (forall i :: k + |r| <= i < |j| ==> IsTrimChar(j[i]))
    && (r == [] || (!IsTrimChar(r[0]) && !IsTrimChar(r[|r| - 1])))
  }

  /** Trimming a text whose lines are settled leaves its lines settled. */
  lemma TrimSettled(j: string)
    requires LinesSatisfy(j, Settled)
    ensures LinesSatisfy(Trim(j), Settled)
  {
    var r := Trim(j);
    var k := TrimStart(j);
    assert TrimmedAt(j, r, k) by {
      TrimSlice(j);
    }
    forall a, b | IsLine(r, a, b) ensures Settled(r[a..b]) {
      SliceLineSettled(j, r, k, a, b);
    }
  }

  /** One line of the trimmed text sits inside one settled line of the text. */
  lemma SliceLineSettled(j: string, r: string, k: nat, a: nat, b: nat)
    requires LinesSatisfy(j, Settled) && TrimmedAt(j, r, k) && IsLine(r, a, b)
    ensures Settled(r[a..b])
  {
    var a', b' := EnclosingLine(j, r, k, a, b);
    SettledInner(j[a'..k + a], r[a..b], j[k + b..b']);
  }

  /** trimExtraSpace is idempotent. */
  lemma TrimExtraSpaceIdempotent(source: string)
    ensures TrimExtraSpace(TrimExtraSpace(source)) == TrimExtraSpace(source)
  {
    var r := TrimExtraSpace(source);
    TrimExtraSpaceSettled(source);
    SplitLinesSatisfy(r, Settled);
    var lines := Split(r, '\n');
    var out := SettleLines(lines);
    assert out == lines;
    assert Join(out, "\n") == r;
    assert Trim(r) == r by {
      assert LTrim(r) == r by { if r != [] { assert Span(r, IsTrimChar) == 0; } }
      RTrimKeeps(r);
    }
  }

  // ------------------------------------------------------ shared clean-ups

  /** Every line without trailing whitespace and its indentation snapped to whole levels (see Printer), the whole trimmed. */
  ghost predicate Finished(r: string) {
    && LinesSatisfy(r, Settled)
    && (r == [] || (!IsTrimChar(r[0]) && !IsTrimChar(r[|r| - 1])))
    && TrimExtraSpace(r) == r
  }

  /**
   * The two shared clean-ups that end format. At the default width the
   * result is what trimExtraSpace leaves: every line settled, nothing to
   * trim at either end, and another round of trimExtraSpace changes nothing.
   */
  function Finish(restored: string, indent: nat): (r: string)
    ensures indent == DefaultIndent ==> Finished(r)
  {
    TrimExtraSpaceSettled(restored);
    TrimExtraSpaceIdempotent(restored);
    FixIndent(TrimExtraSpace(restored), indent)
  }
}

=== FILE: replacing.dfy ===
/**
 * What a chain of str_replace calls leaves in a text.
 *
 * The printers replace a list of found pieces one after another, each by a
 * text computed from it: scripts by placeholders, tags and attributes by
 * their double-quoted forms, comments by their rewraps. When no piece can
 * overlap another piece or a replacement, every replacement ends up in the
 * result and no piece is left.
 */
module Replacing {
  import opened Text
  import opened Matching

  // ------------------------------------------------------------ overlap

  /** `a` and `b` agree wherever both are defined: one is a prefix of the other. */
  predicate Overlay(a: string, b: string) {
    forall k :: 0 <= k < |a| && k < |b| ==> a[k] == b[k]
  }

  /**
   * No occurrence of `a` can share a position with an occurrence of `b`:
   * `b` does not start inside or at the start of `a`, nor `a` inside `b`.
   */
  predicate Apart(a: string, b: string) {
    |a| > 0 && |b| > 0
    && (forall d :: 0 <= d < |a| ==> !Overlay(a[d..], b))
    && (forall d :: 0 < d < |b| ==> !Overlay(a, b[d..]))
  }

  /**
   * Two texts are apart when each ends with a character the other lacks:
   * any overlap would put one of those last characters inside the other.
   */
  lemma ApartByLast(a: string, b: string)
    requires |a| > 0 && |b| > 0
    requires a[|a| - 1] !in b && b[|b| - 1] !in a
    ensures Apart(a, b)
  {
    forall d | 0 <= d < |a| ensures !Overlay(a[d..], b) {
      if |a| - d <= |b| {
        assert a[d..][|a| - 1 - d] == a[|a| - 1];
      } else {
        assert a[d..][|b| - 1] == a[d + |b| - 1];
      }
    }
    forall d | 0 < d < |b| ensures !Overlay(a, b[d..]) {
      if |b| - d <= |a| {
        assert b[d..][|b| - 1 - d] == b[|b| - 1];
      } else {
        assert b[d..][|a| - 1] == b[d + |a| - 1];
      }
    }
  }

  /** A text overlaying what follows position `d`, and no longer than it, occurs at `d`. */
  lemma OverlayOccurs(x: string, p: string, d: nat)
    requires d + |p| <= |x|
    ensures Overlay(x[d..], p) ==> OccursAt(x, p, d)
  {
    if Overlay(x[d..], p) {
      assert x[d..d + |p|] == p;
    }
  }

  /** Occurrence is transitive: what occurs in a piece of `s` occurs in `s`. */
  lemma ContainsWithin(s: string, x: string, n: string)
    requires Contains(s, x)
    ensures Contains(x, n) ==> Contains(s, n)
  {
    if Contains(x, n) {
      var a :| 0 <= a <= |s| && OccursAt(s, x, a);
      var b :| 0 <= b <= |x| && OccursAt(x, n, b);
      forall i | 0 <= i < |n| ensures s[a + b + i] == n[i] {
        assert x[b..b + |n|][i] == n[i];
        assert s[a..a + |x|][b + i] == s[a + b + i];
      }
      assert s[a + b..a + b + |n|] == n;
      assert OccursAt(s, n, a + b);
    }
  }

  /** Every match of a pattern is a piece of the text it was found in. */
  lemma MatchesContained(m: Matcher, s: string, i: nat)
    requires Sound(m, s) && i < |Matches(m, s)|
    ensures Contains(s, Matches(m, s)[i])
  {
    var ms := MatchAll(m, s, 0);
    assert OccursAt(s, Matches(m, s)[i], ms[i].0);
  }

  // ------------------------------------------------------------ one call

  /** Two texts that both start `s` overlay each other. */
  lemma OverlayPrefixes(s: string, a: string, b: string)
    requires OccursAt(s, a, 0) && OccursAt(s, b, 0)
    ensures Overlay(a, b)
  {
    forall k | 0 <= k < |a| && k < |b| ensures a[k] == b[k] {
      assert a[k] == s[0..|a|][k] == s[k];
      assert b[k] == s[0..|b|][k] == s[k];
    }
  }

  /** A text starting with the tail `q[j..]` still starts with it after replacing some `m` apart from `q`. */
  lemma {:induction false} KeepsFront(s: string, m: string, p: string, q: string, j: nat)
    requires Apart(m, q) && j <= |q| && OccursAt(s, q[j..], 0)
    ensures OccursAt(ReplaceAll(s, m, p), q[j..], 0)
    decreases |s|
  {
    if j == |q| {
      assert ReplaceAll(s, m, p)[0..0] == q[j..];
    } else if |s| < |m| {
    } else {
      PrefixOverlay(s, m, q[j..]);
      assert s[1..][0..|q[j + 1..]|] == q[j + 1..];
      KeepsFront(s[1..], m, p, q, j + 1);
      var r' := ReplaceAll(s[1..], m, p);
      assert ReplaceAll(s, m, p) == [s[0]] + r';
      assert ([s[0]] + r')[0..|q[j..]|] == [q[j]] + r'[0..|q[j + 1..]|];
      assert q[j..] == [q[j]] + q[j + 1..];
    }
  }

  /** A text that starts `s` where `b` does overlays `b`. */
  lemma PrefixOverlay(s: string, a: string, b: string)
    requires OccursAt(s, b, 0) && |a| <= |s|
    ensures s[..|a|] == a ==> Overlay(a[0..], b) && Overlay(a, b)
  {
    if s[..|a|] == a {
      OverlayPrefixes(s, a, b);
      assert a[0..] == a;
    }
  }

  /** An occurrence of `q` at `k` inside an `m` that starts `s` overlays the rest of `m`. */
  lemma OverlayInside(s: string, m: string, q: string, k: nat)
    requires OccursAt(s, m, 0) && OccursAt(s, q, k)
    ensures k < |m| ==> Overlay(m[k..], q)
  {
    if k < |m| {
      forall i | 0 <= i < |m[k..]| && i < |q| ensures m[k..][i] == q[i] {
        assert m[k..][i] == s[0..|m|][k + i] == s[k + i];
        assert q[i] == s[k..k + |q|][i] == s[k + i];
      }
    }
  }

  /** str_replace of `m` keeps every occurrence of a text apart from `m`. */
  lemma {:induction false} Keeps(s: string, m: string, p: string, q: string, k: nat)
    requires Apart(m, q) && OccursAt(s, q, k)
    ensures Contains(ReplaceAll(s, m, p), q)
    decreases |s|
  {
    var r := ReplaceAll(s, m, p);
    if |s| < |m| {
      assert OccursAt(r, q, k);
    } else if s[..|m|] == m {
      OverlayInside(s, m, q, k);
      var t := s[|m|..];
      assert t[k - |m|..k - |m| + |q|] == s[k..k + |q|];
      Keeps(t, m, p, q, k - |m|);
      ContainsAfter(p, ReplaceAll(t, m, p), q);
    } else if k == 0 {
      assert q[0..] == q;
      KeepsFront(s, m, p, q, 0);
      assert OccursAt(r, q, 0);
    } else {
      OccursShift(s, q, k);
      Keeps(s[1..], m, p, q, k - 1);
      ContainsAfter([s[0]], ReplaceAll(s[1..], m, p), q);
    }
  }

  /** str_replace puts its replacement in the text whenever the search string occurs in it. */
  lemma Placed(s: string, m: string, p: string)
    requires |m| > 0 && Contains(s, m)
    ensures Contains(ReplaceAll(s, m, p), p)
  {
    ReplaceAtFirst(s, m, p);
    assert OccursAt(ReplaceAll(s, m, p), p, FirstHit(s, m));
  }

  /**
   * A result that starts with the tail `n[j..]` of a text apart from the
   * replacement got it from the subject: the subject starts with it too.
   */
  lemma {:induction false} NoNewFront(s: string, m: string, p: string, n: string, j: nat)
    requires |m| > 0 && Apart(n, p) && j <= |n|
    ensures OccursAt(ReplaceAll(s, m, p), n[j..], 0) ==> OccursAt(s, n[j..], 0)
    decreases |s|
  {
    var r := ReplaceAll(s, m, p);
    if j == |n| {
      assert s[0..0] == n[j..];
    } else if |s| < |m| {
    } else if s[..|m|] == m {
      var r' := ReplaceAll(s[|m|..], m, p);
      assert r == p + r';
      OccursOverlay(p, r', n[j..], 0);
      assert p[0..] == p;
    } else if OccursAt(r, n[j..], 0) {
      var r' := ReplaceAll(s[1..], m, p);
      assert r == [s[0]] + r';
      assert r'[0..|n[j + 1..]|] == r[1..1 + |n[j + 1..]|] == n[j..][1..];
      assert n[j..][1..] == n[j + 1..];
      NoNewFront(s[1..], m, p, n, j + 1);
      assert s[0] == r[0] == n[j];
      assert s[0..|n[j..]|] == [s[0]] + s[1..][0..|n[j + 1..]|];
    }
  }

  /** Past the end of `x`, occurrences in `x + y` are occurrences in `y`. */
  lemma OccursJoin(x: string, y: string, n: string, k: nat)
    requires k >= |x|
    ensures OccursAt(x + y, n, k) <==> OccursAt(y, n, k - |x|)
  {
    if k + |n| <= |x + y| {
      assert (x + y)[k..k + |n|] == y[k - |x|..k - |x| + |n|];
    }
  }

  /** An occurrence of `n` starting inside `p` overlays the rest of `p`. */
  lemma OccursOverlay(p: string, t: string, n: string, k: nat)
    requires k < |p|
    ensures OccursAt(p + t, n, k) ==> Overlay(n, p[k..])
  {
    var x := p + t;
    if OccursAt(x, n, k) {
      forall i | 0 <= i < |n| && i < |p[k..]| ensures n[i] == p[k..][i] {
        assert n[i] == x[k..k + |n|][i] == x[k + i] == p[k + i];
      }
    }
  }

  /** Nothing apart from `p` starts inside it. */
  lemma NotInReplacement(p: string, t: string, n: string, k: nat)
    requires Apart(n, p) && k < |p|
    ensures !OccursAt(p + t, n, k)
  {
    OccursOverlay(p, t, n, k);
    if k == 0 {
      assert n[0..] == n && p[0..] == p;
    }
  }

  /** After str_replace of `m` by a text apart from it, `m` no longer occurs. */
  lemma {:induction false} Clears(s: string, m: string, p: string)
    requires Apart(m, p)
    ensures !Contains(ReplaceAll(s, m, p), m)
    decreases |s|
  {
    var r := ReplaceAll(s, m, p);
    if |s| < |m| {
    } else if s[..|m|] == m {
      var r' := ReplaceAll(s[|m|..], m, p);
      assert r == p + r';
      Clears(s[|m|..], m, p);
      forall k | 0 <= k <= |r| ensures !OccursAt(r, m, k) {
        if k < |p| {
          NotInReplacement(p, r', m, k);
        } else {
          OccursJoin(p, r', m, k);
        }
      }
    } else {
      var r' := ReplaceAll(s[1..], m, p);
      assert r == [s[0]] + r';
      Clears(s[1..], m, p);
      forall k | 0 <= k <= |r| ensures !OccursAt(r, m, k) {
        if k == 0 {
          assert m[0..] == m;
          NoNewFront(s, m, p, m, 0);
        } else {
          OccursJoin([s[0]], r', m, k);
        }
      }
    }
  }

  /** str_replace of `m` by a text apart from `n` does not create `n`. */
  lemma {:induction false} NoNew(s: string, m: string, p: string, n: string)
    requires |m| > 0 && Apart(n, p) && !Contains(s, n)
    ensures !Contains(ReplaceAll(s, m, p), n)
    decreases |s|
  {
    var r := ReplaceAll(s, m, p);
    if |s| < |m| {
    } else if s[..|m|] == m {
      var r' := ReplaceAll(s[|m|..], m, p);
      assert r == p + r';
      NotContainsSuffix(s, |m|, n);
      NoNew(s[|m|..], m, p, n);
      forall k | 0 <= k <= |r| ensures !OccursAt(r, n, k) {
        if k < |p| {
          NotInReplacement(p, r', n, k);
        } else {
          OccursJoin(p, r', n, k);
        }
      }
    } else {
      var r' := ReplaceAll(s[1..], m, p);
      assert r == [s[0]] + r';
      NotContainsSuffix(s, 1, n);
      NoNew(s[1..], m, p, n);
      forall k | 0 <= k <= |r| ensures !OccursAt(r, n, k) {
        if k == 0 {
          assert n[0..] == n;
          NoNewFront(s, m, p, n, 0);
        } else {
          OccursJoin([s[0]], r', n, k);
        }
      }
    }
  }

  // ------------------------------------------------------------ a chain of calls

  /** str_replace of `ns[0]` by `rs[0]`, then of `ns[1]` by `rs[1]` in the result, and so on. */
  function ReplaceSeq(s: string, ns: seq<string>, rs: seq<string>): string
    requires |ns| == |rs|
    decreases |ns|
  {
    if |ns| == 0 then s else ReplaceSeq(ReplaceAll(s, ns[0], rs[0]), ns[1..], rs[1..])
  }

  /** The replacements of a mapped list, first and rest. */
  lemma MapEachTail(xs: seq<string>, f: string -> string)
    requires |xs| > 0
    ensures MapEach(xs, f)[0] == f(xs[0]) && MapEach(xs, f)[1..] == MapEach(xs[1..], f)
  {
  }

  /** The first step of the chain. */
  lemma ReplaceSeqStep(s: string, ns: seq<string>, rs: seq<string>)
    requires |ns| == |rs| && |ns| > 0
    ensures ReplaceSeq(s, ns, rs) == ReplaceSeq(ReplaceAll(s, ns[0], rs[0]), ns[1..], rs[1..])
  {
  }

  /**
   * No search string can overlap a later one, a replacement of its own or a
   * later step, or an earlier step's replacement.
   */
  predicate Separate(ns: seq<string>, rs: seq<string>)
    requires |ns| == |rs|
  {
    (forall i, k :: 0 <= i < k < |ns| ==> Apart(ns[i], ns[k]))
    && (forall i, k :: 0 <= k <= i < |ns| ==> Apart(ns[k], rs[i]))
    && (forall i, k :: 0 <= k < i < |ns| ==> Apart(ns[i], rs[k]))
  }

  /** Pieces that are pairwise apart, and apart from every replacement, are separate. */
  lemma SeparateAll(ns: seq<string>, rs: seq<string>)
    requires |ns| == |rs|
    requires forall i, k :: 0 <= i < k < |ns| ==> Apart(ns[i], ns[k])
    requires forall k, i :: 0 <= k < |ns| && 0 <= i < |rs| ==> Apart(ns[k], rs[i])
    ensures Separate(ns, rs)
  {
  }

  lemma SeparateTail(ns: seq<string>, rs: seq<string>)
    requires |ns| == |rs| && |ns| > 0 && Separate(ns, rs)
    ensures Separate(ns[1..], rs[1..])
  {
    var ns', rs' := ns[1..], rs[1..];
    forall i, k | 0 <= i < k < |ns'| ensures Apart(ns'[i], ns'[k]) {
      assert ns'[i] == ns[i + 1] && ns'[k] == ns[k + 1];
    }
    forall i, k | 0 <= k <= i < |ns'| ensures Apart(ns'[k], rs'[i]) {
      assert ns'[k] == ns[k + 1] && rs'[i] == rs[i + 1];
    }
    forall i, k | 0 <= k < i < |ns'| ensures Apart(ns'[i], rs'[k]) {
      assert ns'[i] == ns[i + 1] && rs'[k] == rs[k + 1];
    }
  }

  /** A text apart from every search string of the chain survives it. */
  lemma {:induction false} SeqKeeps(s: string, ns: seq<string>, rs: seq<string>, q: string)
    requires |ns| == |rs| && Contains(s, q)
    requires forall i :: 0 <= i < |ns| ==> Apart(ns[i], q)
    ensures Contains(ReplaceSeq(s, ns, rs), q)
    decreases |ns|
  {
    if |ns| > 0 {
      var k :| 0 <= k <= |s| && OccursAt(s, q, k);
      Keeps(s, ns[0], rs[0], q, k);
      forall i | 0 <= i < |ns[1..]| ensures Apart(ns[1..][i], q) {
        assert ns[1..][i] == ns[i + 1];
      }
      SeqKeeps(ReplaceAll(s, ns[0], rs[0]), ns[1..], rs[1..], q);
    }
  }

  /** A text absent from the subject and apart from every replacement is absent after the chain. */
  lemma {:induction false} SeqNoNew(s: string, ns: seq<string>, rs: seq<string>, n: string)
    requires |ns| == |rs| && !Contains(s, n)
    requires forall i :: 0 <= i < |ns| ==> |ns[i]| > 0 && Apart(n, rs[i])
    ensures !Contains(ReplaceSeq(s, ns, rs), n)
    decreases |ns|
  {
    if |ns| > 0 {
      NoNew(s, ns[0], rs[0], n);
      forall i | 0 <= i < |ns[1..]| ensures |ns[1..][i]| > 0 && Apart(n, rs[1..][i]) {
        assert ns[1..][i] == ns[i + 1] && rs[1..][i] == rs[i + 1];
      }
      SeqNoNew(ReplaceAll(s, ns[0], rs[0]), ns[1..], rs[1..], n);
    }
  }

  /** Each search string present in the subject leaves its replacement in the result. */
  lemma {:induction false} SeqPlaces(s: string, ns: seq<string>, rs: seq<string>, k: nat)
    requires |ns| == |rs| && Separate(ns, rs) && k < |ns| && Contains(s, ns[k])
    ensures Contains(ReplaceSeq(s, ns, rs), rs[k])
    decreases k
  {
    var t := ReplaceAll(s, ns[0], rs[0]);
    SeparateTail(ns, rs);
    if k == 0 {
      assert Apart(ns[0], rs[0]);
      Placed(s, ns[0], rs[0]);
      forall i | 0 <= i < |ns[1..]| ensures Apart(ns[1..][i], rs[0]) {
        assert ns[1..][i] == ns[i + 1];
      }
      SeqKeeps(t, ns[1..], rs[1..], rs[0]);
    } else {
      var j :| 0 <= j <= |s| && OccursAt(s, ns[k], j);
      Keeps(s, ns[0], rs[0], ns[k], j);
      assert ns[1..][k - 1] == ns[k] && rs[1..][k - 1] == rs[k];
      SeqPlaces(t, ns[1..], rs[1..], k - 1);
    }
  }

  /** No search string of the chain is left in the result. */
  lemma {:induction false} SeqClears(s: string, ns: seq<string>, rs: seq<string>, k: nat)
    requires |ns| == |rs| && Separate(ns, rs) && k < |ns|
    ensures !Contains(ReplaceSeq(s, ns, rs), ns[k])
    decreases k
  {
    var t := ReplaceAll(s, ns[0], rs[0]);
    SeparateTail(ns, rs);
    if k == 0 {
      assert Apart(ns[0], rs[0]);
      Clears(s, ns[0], rs[0]);
      forall i | 0 <= i < |ns[1..]| ensures |ns[1..][i]| > 0 && Apart(ns[0], rs[1..][i]) {
        assert ns[1..][i] == ns[i + 1] && rs[1..][i] == rs[i + 1];
        assert Apart(ns[i + 1], rs[i + 1]);
      }
      SeqNoNew(t, ns[1..], rs[1..], ns[0]);
    } else {
      assert ns[1..][k - 1] == ns[k];
      SeqClears(t, ns[1..], rs[1..], k - 1);
    }
  }

  /**
   * A chain of str_replace calls whose pieces are all in the subject and
   * cannot overlap: every piece is replaced, every replacement is in place.
   */
  lemma SeqSwaps(s: string, ns: seq<string>, rs: seq<string>)
    requires |ns| == |rs| && Separate(ns, rs)
    requires forall k :: 0 <= k < |ns| ==> Contains(s, ns[k])
    ensures forall k :: 0 <= k < |ns| ==>
              Contains(ReplaceSeq(s, ns, rs), rs[k]) && !Contains(ReplaceSeq(s, ns, rs), ns[k])
  {
    forall k | 0 <= k < |ns|
      ensures Contains(ReplaceSeq(s, ns, rs), rs[k]) && !Contains(ReplaceSeq(s, ns, rs), ns[k])
    {
      SeqPlaces(s, ns, rs, k);
      SeqClears(s, ns, rs, k);
    }
  }
}

=== FILE: sql_printer.dfy ===
/**
 * SqlPrinter (src/SqlPrinter.php): the line fixes applied to each query the
 * external SQL formatter produced. fixPhpVars squeezes the whitespace out of
 * `{$var}` references, splitLong puts each AND/OR clause of a long line on
 * a line of its own, indentComments pulls a comment back to the start of its
 * line, and fixQuery joins `USE` and its database name onto one line.
 *
 * The formatter (PhpMyAdmin's SqlParser) is outside the model: it is the
 * parameter `formatter` of Format.
 */
module SqlPrinter {
  import opened Text
  import opened Outcomes
  import opened Matching
  import Printer

  // ------------------------------------------------------------- fixPhpVars

  predicate NotBraceOrNewline(c: char) {
    c != '}' && c != '\n'
  }

  /**
   * `{ *\$ *\w.*?}`: a brace, spaces, a dollar, spaces, a word character
   * (fewer spaces would leave a space where the `$` or the `\w` is needed),
   * then up to the first closing brace on the same line.
   */
  function VarRefAt(s: string, q: nat): (r: Option<nat>)
    ensures r.Some? ==> q < r.value <= |s|
  {
    if q >= |s| || s[q] != '{' then None
    else
      var a := RunEnd(s, q + 1, IsSpaceChar);
      if a == |s| || s[a] != '$' then None
      else
        var b := RunEnd(s, a + 1, IsSpaceChar);
        if b == |s| || !IsWordChar(s[b]) then None
        else
          var k := RunEnd(s, b + 1, NotBraceOrNewline);
          if k == |s| || s[k] != '}' then None else Some(k + 1)
  }

  /** preg_replace('/\s+/', '', $match). */
  function Squeeze(t: string): (r: string)
    ensures forall i :: 0 <= i < |r| ==> !IsSpace(r[i])
    ensures Ink(r) == Ink(t)
    decreases |t|
  {
    if |t| == 0 then []
    else
      var rest := Squeeze(t[1..]);
      assert t == [t[0]] + t[1..];
      FilterConcat([t[0]], t[1..], IsInk);
      if IsSpace(t[0]) then rest
      else
        FilterConcat([t[0]], rest, IsInk);
        [t[0]] + rest
  }

  /** The loop over the references found in the original line, each replaced throughout the line as it stands. */
  function SqueezeRefs(line: string, refs: seq<string>): (r: string)
    ensures Ink(r) == Ink(line)
    decreases |refs|
  {
    if |refs| == 0 then line
    else
      ReplaceAllFilter(line, refs[0], Squeeze(refs[0]), IsInk);
      SqueezeRefs(ReplaceAll(line, refs[0], Squeeze(refs[0])), refs[1..])
  }

  /** SqlPrinter::fixPhpVars: whitespace only is removed. */
  function FixPhpVars(line: string): (r: string)
    ensures Ink(r) == Ink(line)
  {
    SqueezeRefs(line, Matches(VarRefAt, line))
  }

  /** A line without a `{$` reference is left alone. */
  lemma FixPhpVarsNoRef(line: string)
    requires NoMatchBetween(VarRefAt, line, 0, |line|)
    ensures FixPhpVars(line) == line
  {
    MatchAllNone(VarRefAt, line, 0);
  }

  /** Each squeezed reference has no whitespace left, so a second squeeze changes nothing. */
  lemma SqueezeTwice(t: string)
    ensures Squeeze(Squeeze(t)) == Squeeze(t)
  {
    NoSpaceSqueeze(Squeeze(t));
  }

  lemma {:induction false} NoSpaceSqueeze(t: string)
    requires forall i :: 0 <= i < |t| ==> !IsSpace(t[i])
    ensures Squeeze(t) == t
    decreases |t|
  {
    if |t| > 0 {
      NoSpaceSqueeze(t[1..]);
      assert t == [t[0]] + t[1..];
    }
  }

  // --------------------------------------------------------------- fixQuery

  /** `USE` at `q`, letter by letter. */
  predicate UseWordAt(s: string, q: nat) {
    q + 3 <= |s| && s[q] == 'U' && s[q + 1] == 'S' && s[q + 2] == 'E'
  }

  /**
   * `\bUSE\s+(\w+)`: `USE` at a word boundary (the `U` is a word character,
   * so nothing word-like may precede it), the whole run of whitespace after
   * it (the name cannot start with whitespace), then the whole name.
   */
  function UseAt(s: string, q: nat): (r: Option<nat>)
    ensures r.Some? ==> q + 5 <= r.value <= |s|
  {
    if !(q <= |s| && WordBoundary(s, q) && UseWordAt(s, q)) then None
    else
      var w := RunEnd(s, q + 3, IsSpace);
      if w == q + 3 then None
      else
        var n := RunEnd(s, w, IsWordChar);
        if n == w then None else Some(n)
  }

  /** The replacement `USE \1`, from the matched text. */
  function UseLine(t: string): string {
    if |t| < 3 then t else "USE " + t[RunEnd(t, 3, IsSpace)..]
  }

  lemma UseSound(s: string)
    ensures Sound(UseAt, s)
  {
  }

  /** SqlPrinter::fixQuery: `USE` and the database name on one line, one space apart. */
  function FixQuery(query: string): string {
    UseSound(query);
    Replace(UseAt, UseLine, query)
  }

  /** The rewrite of one match: only the whitespace between `USE` and the name changes. */
  lemma UseLineShape(s: string, q: nat, n: nat)
    requires UseAt(s, q) == Some(n)
    ensures var t, w := s[q..n], RunEnd(s, q + 3, IsSpace);
            && UseLine(t) == "USE " + s[w..n]
            && Ink(UseLine(t)) == Ink(t)
            && q + 3 < w < n
  {
    var w := RunEnd(s, q + 3, IsSpace);
    UseMatchParts(s, q, n, w);
    UseLineInk(s[q + 3..w], s[w..n]);
  }

  /** A match is `USE`, its run of whitespace and the name. */
  lemma UseMatchParts(s: string, q: nat, n: nat, w: nat)
    requires UseAt(s, q) == Some(n) && w == RunEnd(s, q + 3, IsSpace)
    ensures q + 3 < w < n
    ensures s[q..n] == "USE" + s[q + 3..w] + s[w..n]
    ensures forall i :: q + 3 <= i < w ==> IsSpace(s[i])
    ensures !IsSpace(s[w])
  {
    assert UseWordAt(s, q) && w != q + 3 && n == RunEnd(s, w, IsWordChar) && n != w;
    assert s[q..q + 3] == "USE" by {
      assert s[q..q + 3] == [s[q], s[q + 1], s[q + 2]];
    }
    SliceThree(s, q, q + 3, w, n);
  }

  /** The rewrite of `USE`, whitespace, name: the whitespace becomes one space, the ink stays. */
  lemma UseLineInk(ws: string, name: string)
    requires |ws| > 0 && |name| > 0 && !IsSpace(name[0])
    requires forall i :: 0 <= i < |ws| ==> IsSpace(ws[i])
    ensures UseLine("USE" + ws + name) == "USE " + name
    ensures Ink("USE " + name) == Ink("USE" + ws + name)
  {
    var t := "USE" + ws + name;
    assert forall i :: 3 <= i < 3 + |ws| ==> t[i] == ws[i - 3];
    assert t[3 + |ws|] == name[0];
    RunEndIs(t, 3, IsSpace, 3 + |ws|);
    assert t[3 + |ws|..] == name;
    InkThree("USE", ws, name);
    FilterNone(ws, IsInk);
    assert "USE " + name == "USE" + " " + name;
    InkThree("USE", " ", name);
  }

  /** fixQuery only moves whitespace. */
  lemma FixQueryInk(query: string)
    ensures Ink(FixQuery(query)) == Ink(query)
  {
    UseSound(query);
    forall q: nat | UseAt(query, q).Some?
      ensures Filter(UseLine(query[q..UseAt(query, q).value]), IsInk) == Filter(query[q..UseAt(query, q).value], IsInk)
    {
      UseLineShape(query, q, UseAt(query, q).value);
    }
    SubstituteFilter(UseAt, UseLine, query, 0, IsInk);
    assert query[0..] == query;
  }

  /** The text fixQuery produces from position `a` of the query on. */
  function Fixed(s: string, a: nat): string
    requires a <= |s|
  {
    UseSound(s);
    Substitute(UseAt, UseLine, s, a)
  }

  /** The output from `a` on starts with the character at `a`: both a copied character and a rewritten match do. */
  lemma FixedFirst(s: string, a: nat)
    requires a < |s|
    ensures |Fixed(s, a)| > 0 && Fixed(s, a)[0] == s[a]
  {
    UseSound(s);
    var o := UseAt(s, a);
    if o.Some? {
      UseLineShape(s, a, o.value);
    }
  }

  /** Where no match starts, the character is copied. */
  lemma FixedCopies(s: string, a: nat)
    requires a < |s| && UseAt(s, a).None?
    ensures Fixed(s, a) == [s[a]] + Fixed(s, a + 1)
  {
  }

  /** No match starts right after a word character, nor at anything but a `U`. */
  lemma NoUseAt(s: string, a: nat)
    requires a < |s|
    requires (a > 0 && IsWordChar(s[a - 1])) || s[a] != 'U'
    ensures UseAt(s, a).None?
  {
  }

  /** After a word character the output copies the next character. */
  lemma CopiedAfterWord(s: string, a: nat, y: string)
    requires 0 < a <= |s| && IsWordChar(s[a - 1])
    requires Fixed(s, a) == y && |y| > 0
    ensures a < |s| && s[a] == y[0] && Fixed(s, a + 1) == y[1..]
  {
    NoUseAt(s, a);
    FixedCopies(s, a);
  }

  /** A run of whitespace is copied as it is. */
  lemma {:induction false} FixedSpaceRun(s: string, a: nat, w: nat)
    requires a <= w <= |s|
    requires forall i :: a <= i < w ==> IsSpace(s[i])
    ensures Fixed(s, a) == s[a..w] + Fixed(s, w)
    decreases w - a
  {
    if a < w {
      assert Fixed(s, a) == [s[a]] + Fixed(s, a + 1) by {
        NoUseAt(s, a);
        FixedCopies(s, a);
      }
      assert Fixed(s, a + 1) == s[a + 1..w] + Fixed(s, w) by {
        FixedSpaceRun(s, a + 1, w);
      }
      assert s[a..w] == [s[a]] + s[a + 1..w];
      AppendAssoc([s[a]], s[a + 1..w], Fixed(s, w));
    } else {
      assert s[a..w] == [];
    }
  }

  /** At the boundary the output is joined on, `\b` reads the same. */
  lemma BoundaryAligned(p: string, y: string, s: string, a: nat)
    requires a <= |s| && Aligned(p, s, a)
    requires |y| > 0 && a < |s| && y[0] == s[a]
    ensures WordBoundary(p + y, |p|) == WordBoundary(s, a)
  {
  }

  /** `USE` at the start of the output where the query had no match was copied from the query. */
  lemma UseCopied(s: string, a: nat)
    requires a < |s| && UseAt(s, a).None? && UseWordAt(Fixed(s, a), 0)
    ensures a + 3 <= |s| && UseWordAt(s, a)
    ensures Fixed(s, a) == s[a..a + 3] + Fixed(s, a + 3)
  {
    var y := Fixed(s, a);
    assert s[a] == y[0] && Fixed(s, a + 1) == y[1..] by {
      FixedCopies(s, a);
    }
    assert a + 1 < |s| && s[a + 1] == y[1] && Fixed(s, a + 2) == y[2..] by {
      CopiedAfterWord(s, a + 1, y[1..]);
    }
    assert a + 2 < |s| && s[a + 2] == y[2] && Fixed(s, a + 3) == y[3..] by {
      CopiedAfterWord(s, a + 2, y[2..]);
    }
    ThreeThenRest(y, s[a..a + 3]);
  }

  /** A sequence is its first three elements, wherever they are copied from, then the rest. */
  lemma ThreeThenRest<T>(y: seq<T>, x: seq<T>)
    requires |y| >= 3 && |x| == 3 && x[0] == y[0] && x[1] == y[1] && x[2] == y[2]
    ensures y == x + y[3..]
  {
  }

  /** Where no match starts in the query, none starts at the same place of the output. */
  lemma NoNewMatch(s: string, p: string, a: nat)
    requires a < |s| && Aligned(p, s, a) && UseAt(s, a).None?
    ensures UseAt(p + Fixed(s, a), |p|).None?
  {
    var y := Fixed(s, a);
    if UseWordAt(y, 0) {
      NoNewMatchUse(s, p, a);
    } else {
      assert !UseWordAt(p + y, |p|) by {
        PieceAt(p, y, []);
        assert p + y + [] == p + y;
      }
    }
  }

  /** The case where the output at `a` does start with `USE`: then so did the query. */
  lemma NoNewMatchUse(s: string, p: string, a: nat)
    requires a < |s| && Aligned(p, s, a) && UseAt(s, a).None?
    requires UseWordAt(Fixed(s, a), 0)
    ensures UseAt(p + Fixed(s, a), |p|).None?
  {
    var y := Fixed(s, a);
    assert a + 3 <= |s| && UseWordAt(s, a) && y == s[a..a + 3] + Fixed(s, a + 3) by {
      UseCopied(s, a);
    }
    var w := RunEnd(s, a + 3, IsSpace);
    assert Fixed(s, a + 3) == s[a + 3..w] + Fixed(s, w) by {
      FixedSpaceRun(s, a + 3, w);
    }
    assert y == s[a..w] + Fixed(s, w) by {
      assert s[a..w] == s[a..a + 3] + s[a + 3..w];
      AppendAssoc(s[a..a + 3], s[a + 3..w], Fixed(s, w));
    }
    NoNewMatchRun(s, p, a, w);
  }

  /** The rest of the argument above: the run of whitespace and the name agree too. */
  lemma NoNewMatchRun(s: string, p: string, a: nat, w: nat)
    requires a + 3 <= w <= |s| && Aligned(p, s, a) && UseAt(s, a).None?
    requires UseWordAt(s, a) && w == RunEnd(s, a + 3, IsSpace)
    requires Fixed(s, a) == s[a..w] + Fixed(s, w)
    ensures UseAt(p + Fixed(s, a), |p|).None?
  {
    var x := p + Fixed(s, a);
    var b := |p|;
    var e := b + (w - a);
    assert forall i :: a <= i < w ==> x[b + (i - a)] == s[i];
    if w < |s| {
      FixedFirst(s, w);
      assert x[e] == s[w];
    } else {
      assert |x| == e;
    }
    RunEndIs(x, b + 3, IsSpace, e);
    BoundaryAligned(p, Fixed(s, a), s, a);
  }

  /** `USE `, a name, and no word character after it: a match, whatever stands before and after. */
  lemma UseJoined(p: string, name: string, y: string)
    requires |name| > 0 && forall i :: 0 <= i < |name| ==> IsWordChar(name[i])
    requires |y| == 0 || !IsWordChar(y[0])
    requires WordBoundary(p + ("USE " + name) + y, |p|)
    ensures UseAt(p + ("USE " + name) + y, |p|) == Some(|p| + 4 + |name|)
  {
    var x, b := p + ("USE " + name) + y, |p|;
    UsePrefixAt(p, name, y);
    NameRunAt(p, name, y);
    UseAtIs(x, b, b + 4, b + 4 + |name|);
  }

  /** The pattern, read off its parts. */
  lemma UseAtIs(x: string, q: nat, w: nat, n: nat)
    requires q <= |x| && WordBoundary(x, q) && UseWordAt(x, q)
    requires q + 3 <= |x| && RunEnd(x, q + 3, IsSpace) == w && w != q + 3
    requires RunEnd(x, w, IsWordChar) == n && n != w
    ensures UseAt(x, q) == Some(n)
  {
  }

  /** `USE` and exactly one space, where the rewrite stands. */
  lemma UsePrefixAt(p: string, name: string, y: string)
    requires |name| > 0 && IsWordChar(name[0])
    ensures var x, b := p + ("USE " + name) + y, |p|;
            UseWordAt(x, b) && b + 3 <= |x| && RunEnd(x, b + 3, IsSpace) == b + 4
  {
    var t := "USE " + name;
    var x, b := p + t + y, |p|;
    PieceAt(p, t, y);
    assert x[b..b + 3] == "USE" by {
      assert x[b] == 'U' && x[b + 1] == 'S' && x[b + 2] == 'E';
    }
    assert x[b + 3] == ' ' && x[b + 4] == name[0];
    RunEndIs(x, b + 3, IsSpace, b + 4);
  }

  /** The name runs to its end and no further, where the rewrite stands. */
  lemma NameRunAt(p: string, name: string, y: string)
    requires forall i :: 0 <= i < |name| ==> IsWordChar(name[i])
    requires |y| == 0 || !IsWordChar(y[0])
    ensures var x, b := p + ("USE " + name) + y, |p|;
            b + 4 <= |x| && RunEnd(x, b + 4, IsWordChar) == b + 4 + |name|
  {
    var t := "USE " + name;
    var x, b := p + t + y, |p|;
    PieceAt(p, t, y);
    forall i | b + 4 <= i < b + |t| ensures IsWordChar(x[i]) {
      assert x[i] == t[i - b] == name[i - b - 4];
    }
    RunEndIs(x, b + 4, IsWordChar, b + |t|);
  }

  /** The rewritten text of a match is `USE `, one space, and the name: word characters up to the end of the match. */
  lemma UseLineName(s: string, a: nat, n: nat) returns (name: string)
    requires UseAt(s, a) == Some(n)
    ensures UseLine(s[a..n]) == "USE " + name
    ensures |name| > 0 && (forall i :: 0 <= i < |name| ==> IsWordChar(name[i])) && name[|name| - 1] == s[n - 1]
    ensures s[a] == 'U' && (n < |s| ==> !IsWordChar(s[n]))
  {
    var w := RunEnd(s, a + 3, IsSpace);
    assert a + 3 < w < n && UseLine(s[a..n]) == "USE " + s[w..n] by {
      UseLineShape(s, a, n);
    }
    name := s[w..n];
    assert (forall i :: w <= i < n ==> IsWordChar(s[i])) && s[a] == 'U' && (n < |s| ==> !IsWordChar(s[n])) by {
      UseNameRun(s, a, n);
    }
    SliceAll(s, w, n, IsWordChar);
  }

  /** A slice of a run of `p`-elements is all `p`, and ends where the run does. */
  lemma SliceAll<T>(s: seq<T>, w: nat, n: nat, p: T -> bool)
    requires w < n <= |s| && forall i :: w <= i < n ==> p(s[i])
    ensures var x := s[w..n]; (forall i :: 0 <= i < |x| ==> p(x[i])) && x[|x| - 1] == s[n - 1]
  {
    var x := s[w..n];
    assert forall i :: 0 <= i < |x| ==> x[i] == s[w + i];
  }

  /** A match ends where the name does: the name is a run of word characters that nothing word-like follows. */
  lemma UseNameRun(s: string, a: nat, n: nat)
    requires UseAt(s, a) == Some(n)
    ensures var w := RunEnd(s, a + 3, IsSpace);
            && w < n && s[a] == 'U'
            && (forall i :: w <= i < n ==> IsWordChar(s[i]))
            && (n < |s| ==> !IsWordChar(s[n]))
  {
    var w := RunEnd(s, a + 3, IsSpace);
    assert UseWordAt(s, a) && w != a + 3 && n == RunEnd(s, w, IsWordChar) && n != w;
  }

  /** `USE `, then a name: its own rewrite, and a line of the shape a match rewrites to. */
  lemma UseNameLine(name: string)
    requires |name| > 0 && forall i :: 0 <= i < |name| ==> IsWordChar(name[i])
    ensures var t := "USE " + name;
            && |t| > 4 && t[..4] == "USE " && UseLine(t) == t
            && (forall i :: 4 <= i < |t| ==> IsWordChar(t[i]))
            && t[0] == 'U' && t[|t| - 1] == name[|name| - 1]
  {
    var t := "USE " + name;
    assert forall i :: 4 <= i < |t| ==> t[i] == name[i - 4];
    RunEndIs(t, 3, IsSpace, 4);
    assert t[4..] == name;
  }

  /** A rewritten match is found again at the same place of the output, whatever follows it there. */
  lemma MatchKept(s: string, p: string, a: nat, n: nat, y: string)
    requires a < |s| && Aligned(p, s, a) && UseAt(s, a) == Some(n) && Continues(y, s, n)
    ensures var t := UseLine(s[a..n]);
            UseAt(p + t + y, |p|) == Some(|p| + |t|)
  {
    var name := UseLineName(s, a, n);
    var t := "USE " + name;
    assert WordBoundary(p + t + y, |p|) by {
      assert (t + y)[0] == 'U';
      BoundaryAligned(p, t + y, s, a);
      AppendAssoc(p, t, y);
    }
    UseJoined(p, name, y);
  }

  /** `\bUSE\s+\w+` finds nothing in the output of fixQuery that was not a match of the query. */
  lemma UseFindsNothingNew()
    ensures FindsNothingNew(UseAt, UseLine)
  {
    forall s: string, p: string, a: nat | a < |s| && Aligned(p, s, a) && UseAt(s, a).None?
      ensures UseAt(p + Substitute(UseAt, UseLine, s, a), |p|).None?
    {
      NoNewMatch(s, p, a);
    }
  }

  /** Each `USE name` fixQuery writes is found again, whole, and `USE \1` leaves it as it is. */
  lemma UseRefindsRewrites()
    ensures RefindsRewrites(UseAt, UseLine)
  {
    UseLineEnds();
    UseRefound();
  }

  /** `USE \1` starts and ends a match with the characters it started and ended with, and is its own rewrite. */
  lemma UseLineEnds()
    ensures KeepsEnds(UseAt, UseLine)
  {
    var m: Matcher, f: string -> string := UseAt, UseLine;
    forall s: string, a: nat {:trigger f(s[a..m(s, a).value])} | a < |s| && m(s, a).Some? && a < m(s, a).value <= |s|
      ensures var t := f(s[a..m(s, a).value]);
              |t| > 0 && t[0] == s[a] && t[|t| - 1] == s[m(s, a).value - 1] && f(t) == t
    {
      var n := UseAt(s, a).value;
      assert m(s, a) == Some(n);
      var t := UseLine(s[a..n]);
      assert f(s[a..m(s, a).value]) == t && f(t) == UseLine(t);
      UseLineEndsAt(s, a);
    }
    assert KeepsEnds(m, f);
  }

  /** One match: its rewrite starts and ends as it did, and is its own rewrite. */
  lemma UseLineEndsAt(s: string, a: nat)
    requires a < |s| && UseAt(s, a).Some?
    ensures var n := UseAt(s, a).value; var t := UseLine(s[a..n]);
            |t| > 0 && t[0] == s[a] && t[|t| - 1] == s[n - 1] && UseLine(t) == t
  {
    var n := UseAt(s, a).value;
    var name := UseLineName(s, a, n);
    UseNameLine(name);
  }

  /** Each rewrite is found again where it was written. */
  lemma UseRefound()
    ensures Refinds(UseAt, UseLine)
  {
    var m: Matcher, f: string -> string := UseAt, UseLine;
    forall s: string, p: string, a: nat, y: string {:trigger m(p + f(s[a..m(s, a).value]) + y, |p|)}
      | a < |s| && m(s, a).Some? && a < m(s, a).value <= |s| && Aligned(p, s, a) && Continues(y, s, m(s, a).value)
      ensures var t := f(s[a..m(s, a).value]);
              m(p + t + y, |p|) == Some(|p| + |t|)
    {
      MatchKept(s, p, a, UseAt(s, a).value, y);
    }
    assert Refinds(m, f);
  }

  /** fixQuery is idempotent: a second run finds every `USE` already on one line with its name. */
  lemma FixQueryIdempotent(query: string)
    ensures FixQuery(FixQuery(query)) == FixQuery(query)
  {
    UseFindsNothingNew();
    UseRefindsRewrites();
    ReplaceIdempotent(UseAt, UseLine, query);
  }

  // --------------------------------------------------------- indentComments

  /** `^ +(#|--)` replaced by `\1`: a comment loses the spaces in front of it. */
  function IndentComments(line: string): (r: string)
    ensures Ink(r) == Ink(line)
    ensures |r| <= |line| && line == Spaces(|line| - |r|) + r
    ensures |r| < |line| <==> Printer.Lead(line) > 0
                              && (OccursAt(line, "#", Printer.Lead(line)) || OccursAt(line, "--", Printer.Lead(line)))
    ensures |r| < |line| ==> |line| - |r| == Printer.Lead(line)
  {
    var w := Printer.Lead(line);
    assert line == line[..w] + line[w..];
    assert line[..w] == Spaces(w);
    if w > 0 && (OccursAt(line, "#", w) || OccursAt(line, "--", w)) then
      FilterConcat(line[..w], line[w..], IsInk);
      FilterNone(line[..w], IsInk);
      line[w..]
    else
      assert Spaces(0) + line == line;
      line
  }

  /** A second run changes nothing: the comment already starts its line. */
  lemma IndentCommentsIdempotent(line: string)
    ensures IndentComments(IndentComments(line)) == IndentComments(line)
  {
    var r := IndentComments(line);
    var w := Printer.Lead(line);
    if r != line {
      assert r == line[w..];
      assert Printer.Lead(r) == 0;
    }
  }

  // -------------------------------------------------------------- splitLong

  /** The width up to which splitLong leaves a line alone. */
  const MaxLine: nat := 80

  /** `^\s+(#|--)`: the line is a comment. */
  predicate IsCommentLine(line: string) {
    var k := IndentEnd(line);
    k > 0 && (OccursAt(line, "#", k) || OccursAt(line, "--", k))
  }

  /** ` (AND|OR) `. */
  function ConnectorAt(s: string, q: nat): (r: Option<nat>)
    ensures r.Some? ==> q < r.value <= |s|
  {
    if OccursAt(s, " AND ", q) then Some(q + 5)
    else if OccursAt(s, " OR ", q) then Some(q + 4)
    else None
  }

  /** The captured group of a delimiter: the connector without the spaces around it. */
  function Connector(d: string): string {
    if |d| < 2 then d else d[1..|d| - 1]
  }

  /** The loop of splitLong: one line per connector and the clause after it. */
  function Clauses(parts: seq<string>, ws: string): string
    requires |parts| % 2 == 0
    decreases |parts|
  {
    if |parts| == 0 then ""
    else ws + Spaces(Printer.DefaultIndent) + Connector(parts[0]) + " " + parts[1] + "\n" + Clauses(parts[2..], ws)
  }

  /**
   * SqlPrinter::splitLong. A line longer than 80 characters that is not a
   * comment is cut before every ` AND ` and ` OR `; the clauses go on lines
   * of their own, indented one level deeper than the line, each line ending
   * in a line feed. `(.*)` stops at a line feed, so text after one is lost.
   */
  function SplitLong(line: string): (r: string)
    ensures |line| <= MaxLine || IsCommentLine(line) ==> r == line
  {
    if |line| <= MaxLine || IsCommentLine(line) then line
    else
      var w := Printer.Lead(line);
      var rest := line[w..FindChar(line, '\n', w)];
      ConnectorSound(rest);
      SplitKeepParts(ConnectorAt, rest);
      var parts := SplitKeep(ConnectorAt, rest);
      if |parts| > 1 then line[..w] + parts[0] + "\n" + Clauses(parts[1..], line[..w])
      else line
  }

  lemma ConnectorSound(s: string)
    ensures Sound(ConnectorAt, s)
  {
  }

  /** A long line without ` AND ` or ` OR ` stays as it is. */
  lemma SplitLongNoConnector(line: string)
    requires forall q :: 0 <= q <= |line| ==> !OccursAt(line, " AND ", q) && !OccursAt(line, " OR ", q)
    ensures SplitLong(line) == line
  {
    if |line| > MaxLine && !IsCommentLine(line) {
      var w := Printer.Lead(line);
      var rest := line[w..FindChar(line, '\n', w)];
      forall q: nat | q < |rest| ensures ConnectorAt(rest, q).None? {
        if OccursAt(rest, " AND ", q) {
          OccursWithin(line, w, FindChar(line, '\n', w), " AND ", q);
        } else if OccursAt(rest, " OR ", q) {
          OccursWithin(line, w, FindChar(line, '\n', w), " OR ", q);
        }
      }
      ConnectorSound(rest);
      MatchAllNone(ConnectorAt, rest, 0);
      SplitKeepParts(ConnectorAt, rest);
    }
  }

  /** What occurs in a slice occurs in the whole line. */
  lemma OccursWithin(line: string, w: nat, e: nat, n: string, q: nat)
    requires w <= e <= |line| && OccursAt(line[w..e], n, q)
    ensures OccursAt(line, n, w + q)
  {
    var r := line[w..e];
    assert forall i :: 0 <= i < |n| ==> line[w + q + i] == r[q + i] == n[i];
    assert line[w + q..w + q + |n|] == n;
  }

  /** A delimiter keeps its ink when the spaces around it go. */
  lemma ConnectorInk(d: string)
    requires |d| >= 2 && d[0] == ' ' && d[|d| - 1] == ' '
    ensures Ink(Connector(d)) == Ink(d)
  {
    assert d == [d[0]] + d[1..|d| - 1] + [d[|d| - 1]];
    InkThree([d[0]], d[1..|d| - 1], [d[|d| - 1]]);
  }

  /** A delimiter: a connector with a space on either side. */
  predicate IsDelimiter(d: string) {
    |d| >= 2 && d[0] == ' ' && d[|d| - 1] == ' '
  }

  /** The pieces at positions of parity `r` are delimiters. */
  predicate Delimited(parts: seq<string>, r: nat) {
    forall i :: 0 <= i < |parts| && i % 2 == r ==> IsDelimiter(parts[i])
  }

  lemma DelimitedTail(parts: seq<string>, r: nat)
    requires |parts| > 0 && r < 2 && Delimited(parts, r)
    ensures Delimited(parts[1..], 1 - r)
  {
    forall i | 0 <= i < |parts| - 1 && i % 2 == 1 - r
      ensures IsDelimiter(parts[1..][i])
    {
      assert parts[1..][i] == parts[i + 1];
    }
  }

  /** One clause line holds the ink of its delimiter and clause. */
  lemma ClauseLineInk(ws: string, d: string, c: string)
    requires Ink(ws) == [] && IsDelimiter(d)
    ensures Ink(ws + Spaces(Printer.DefaultIndent) + Connector(d) + " " + c + "\n") == Ink(d + c)
  {
    var lead := ws + Spaces(Printer.DefaultIndent);
    assert Ink(lead) == [] by {
      FilterNone(Spaces(Printer.DefaultIndent), IsInk);
      FilterConcat(ws, Spaces(Printer.DefaultIndent), IsInk);
    }
    var k := lead + Connector(d);
    assert Ink(k) == Ink(d) by {
      FilterConcat(lead, Connector(d), IsInk);
      ConnectorInk(d);
    }
    var y := k + " " + c;
    assert Ink(y) == Ink(d + c) by {
      InkAroundBlank(k, ' ', c);
      FilterConcat(d, c, IsInk);
    }
    InkBlankEnd(y, '\n');
  }

  /** The clause lines hold the ink of the connectors and clauses, in order. */
  lemma {:induction false} ClausesInk(parts: seq<string>, ws: string)
    requires |parts| % 2 == 0 && Ink(ws) == []
    requires Delimited(parts, 0)
    ensures Ink(Clauses(parts, ws)) == Ink(Concat(parts))
    decreases |parts|
  {
    if |parts| > 0 {
      var t := parts[2..];
      assert Delimited(t, 0) by {
        DelimitedTail(parts, 0);
        DelimitedTail(parts[1..], 1);
        assert parts[1..][1..] == t;
      }
      ClausesInk(t, ws);
      ClausesInkCons(parts, ws);
    }
  }

  /** ClausesInk for the first clause line, from the same fact about the rest. */
  lemma ClausesInkCons(parts: seq<string>, ws: string)
    requires |parts| >= 2 && |parts| % 2 == 0 && Ink(ws) == [] && IsDelimiter(parts[0])
    requires Ink(Clauses(parts[2..], ws)) == Ink(Concat(parts[2..]))
    ensures Ink(Clauses(parts, ws)) == Ink(Concat(parts))
  {
    var t := parts[2..];
    var line := ws + Spaces(Printer.DefaultIndent) + Connector(parts[0]) + " " + parts[1] + "\n";
    ClausesCons(parts, ws);
    ConcatTwo(parts);
    ClauseLineInk(ws, parts[0], parts[1]);
    InkSameSplit(Clauses(parts, ws), line, Clauses(t, ws), Concat(parts), parts[0] + parts[1], Concat(t));
  }

  lemma ClausesCons(parts: seq<string>, ws: string)
    requires |parts| >= 2 && |parts| % 2 == 0
    ensures Clauses(parts, ws)
            == ws + Spaces(Printer.DefaultIndent) + Connector(parts[0]) + " " + parts[1] + "\n" + Clauses(parts[2..], ws)
  {
  }

  lemma ConcatTwo(parts: seq<string>)
    requires |parts| >= 2
    ensures Concat(parts) == parts[0] + parts[1] + Concat(parts[2..])
  {
    assert parts[1..][1..] == parts[2..];
  }

  /** Every delimiter of the split is ` AND ` or ` OR `. */
  lemma Delimiters(rest: string)
    ensures var r := SplitKeep(ConnectorAt, rest);
            Delimited(r, 1)
  {
    ConnectorSound(rest);
    var r := SplitKeep(ConnectorAt, rest);
    var ms := MatchAll(ConnectorAt, rest, 0);
    SplitKeepParts(ConnectorAt, rest);
    forall i | 0 <= i < |r| && i % 2 == 1
      ensures IsDelimiter(r[i])
    {
      var j := (i - 1) / 2;
      assert 2 * j + 1 == i;
      ConnectorDelimiter(rest, ms[j].0, ms[j].1);
    }
  }

  /** What ConnectorAt matches is a delimiter. */
  lemma ConnectorDelimiter(s: string, q: nat, e: nat)
    requires ConnectorAt(s, q) == Some(e)
    ensures IsDelimiter(s[q..e])
  {
    if OccursAt(s, " AND ", q) {
      assert s[q..e] == " AND ";
    } else {
      assert s[q..e] == " OR ";
    }
  }

  /** The split line holds the ink of the pieces it was cut into. */
  lemma SplitPiecesInk(ws: string, parts: seq<string>)
    requires |parts| > 1 && |parts| % 2 == 1 && Ink(ws) == []
    requires Delimited(parts, 1)
    ensures Ink(ws + parts[0] + "\n" + Clauses(parts[1..], ws)) == Ink(Concat(parts))
  {
    var tail := parts[1..];
    DelimitedTail(parts, 1);
    ClausesInk(tail, ws);
    assert Concat(parts) == parts[0] + Concat(tail);
    assert ws + parts[0] + "\n" + Clauses(tail, ws) == (ws + parts[0]) + "\n" + Clauses(tail, ws);
    InkThree(ws + parts[0], "\n", Clauses(tail, ws));
    FilterConcat(ws, parts[0], IsInk);
    FilterConcat(parts[0], Concat(tail), IsInk);
  }

  /** Splitting a line moves whitespace only, as long as it has no line feed to cut the text short. */
  lemma SplitLongInk(line: string)
    requires '\n' !in line
    ensures Ink(SplitLong(line)) == Ink(line)
  {
    if |line| > MaxLine && !IsCommentLine(line) {
      var w := Printer.Lead(line);
      assert FindChar(line, '\n', w) == |line|;
      var rest := line[w..FindChar(line, '\n', w)];
      assert rest == line[w..];
      ConnectorSound(rest);
      SplitKeepParts(ConnectorAt, rest);
      var parts := SplitKeep(ConnectorAt, rest);
      if |parts| > 1 {
        SplitCutInk(line, w, parts);
      }
    }
  }

  /** The clause lines of splitLong for the pieces of a cut, without their line feeds. */
  function ClauseLines(parts: seq<string>, ws: string): (r: seq<string>)
    requires |parts| % 2 == 1
    ensures |r| == |parts| / 2
  {
    seq(|parts| / 2, j requires 0 <= j < |parts| / 2 =>
      ws + Spaces(Printer.DefaultIndent) + Connector(parts[2 * j + 1]) + " " + parts[2 * j + 2])
  }

  /** Clauses writes the clause lines one after the other, each ended by a line feed. */
  lemma {:induction false} ClausesJoin(parts: seq<string>, ws: string)
    requires |parts| % 2 == 1
    ensures Clauses(parts[1..], ws) == Join(ClauseLines(parts, ws) + [""], "\n")
    decreases |parts|
  {
    if |parts| > 1 {
      var t := parts[2..];
      ClausesJoin(t, ws);
      assert parts[1..][2..] == t[1..];
      var ls := ClauseLines(parts, ws);
      var rest := ClauseLines(t, ws) + [""];
      assert ls[1..] == ClauseLines(t, ws) by {
        forall j | 0 <= j < |ClauseLines(t, ws)|
          ensures ClauseLines(t, ws)[j] == ls[j + 1]
        {
          assert t[2 * j + 1] == parts[2 * (j + 1) + 1] && t[2 * j + 2] == parts[2 * (j + 1) + 2];
        }
      }
      assert (ls + [""])[1..] == rest;
    }
  }

  /**
   * The lines splitLong writes for a long line it cuts: the indentation and
   * the first piece, then one line per ` AND ` / ` OR ` holding the
   * indentation, four more spaces, the connector, a space and the clause
   * after it, and the empty text after the last line feed. The pieces put
   * together are the line after its indentation, with a delimiter at every
   * odd position.
   */
  lemma SplitLongLines(line: string)
    requires '\n' !in line && |line| > MaxLine && !IsCommentLine(line)
    ensures var w := Printer.Lead(line);
            var parts := SplitKeep(ConnectorAt, line[w..]);
            Concat(parts) == line[w..] && |parts| % 2 == 1 && Delimited(parts, 1)
            && (|parts| > 1 ==> CutInto(Split(SplitLong(line), '\n'), line[..w], parts))
  {
    var w := Printer.Lead(line);
    assert FindChar(line, '\n', w) == |line|;
    var rest := line[w..FindChar(line, '\n', w)];
    assert rest == line[w..];
    ConnectorSound(rest);
    SplitKeepParts(ConnectorAt, rest);
    Delimiters(rest);
    var parts := SplitKeep(ConnectorAt, rest);
    if |parts| > 1 {
      NotInConcat(parts, '\n');
      CutLines(line[..w], parts);
    }
  }

  /** The lines of a cut: the first piece on the indentation, then one clause line per delimiter, then "". */
  predicate CutInto(out: seq<string>, ws: string, parts: seq<string>)
    requires |parts| % 2 == 1
  {
    |out| == |parts| / 2 + 2 && out[0] == ws + parts[0] && out[|out| - 1] == ""
    && forall j :: 0 <= j < |parts| / 2 ==>
         out[j + 1] == ws + Spaces(Printer.DefaultIndent) + Connector(parts[2 * j + 1]) + " " + parts[2 * j + 2]
  }

  /** Splitting the cut text at its line feeds gives back the lines it was written from. */
  lemma CutLines(ws: string, parts: seq<string>)
    requires |parts| > 1 && |parts| % 2 == 1 && '\n' !in ws
    requires forall i :: 0 <= i < |parts| ==> '\n' !in parts[i]
    ensures CutInto(Split(ws + parts[0] + "\n" + Clauses(parts[1..], ws), '\n'), ws, parts)
  {
    var text := ws + parts[0] + "\n" + Clauses(parts[1..], ws);
    ClausesJoin(parts, ws);
    var cl := ClauseLines(parts, ws);
    var ls := [ws + parts[0]] + (cl + [""]);
    assert ls[1..] == cl + [""];
    assert text == Join(ls, "\n");
    CutLinesFree(ls, ws, parts);
    SplitJoin(ls, '\n');
    assert Split(text, '\n') == ls;
    CutIntoLines(ls, ws, parts);
  }

  lemma CutIntoLines(ls: seq<string>, ws: string, parts: seq<string>)
    requires |parts| % 2 == 1 && ls == [ws + parts[0]] + (ClauseLines(parts, ws) + [""])
    ensures CutInto(ls, ws, parts)
  {
    var cl := ClauseLines(parts, ws);
    assert forall j :: 0 <= j < |cl| ==> ls[j + 1] == cl[j];
  }

  lemma CutLinesFree(ls: seq<string>, ws: string, parts: seq<string>)
    requires |parts| % 2 == 1 && '\n' !in ws
    requires forall i :: 0 <= i < |parts| ==> '\n' !in parts[i]
    requires ls == [ws + parts[0]] + (ClauseLines(parts, ws) + [""])
    ensures forall i :: 0 <= i < |ls| ==> '\n' !in ls[i]
  {
    ClauseLinesFree(parts, ws);
    forall i | 0 <= i < |ls|
      ensures '\n' !in ls[i]
    {
      if 0 < i < |ls| - 1 {
        assert ls[i] == ClauseLines(parts, ws)[i - 1];
      }
    }
  }

  lemma ClauseLinesFree(parts: seq<string>, ws: string)
    requires |parts| % 2 == 1 && '\n' !in ws
    requires forall i :: 0 <= i < |parts| ==> '\n' !in parts[i]
    ensures forall j :: 0 <= j < |parts| / 2 ==> '\n' !in ClauseLines(parts, ws)[j]
  {
    forall j | 0 <= j < |parts| / 2
      ensures '\n' !in ClauseLines(parts, ws)[j]
    {
      var d := parts[2 * j + 1];
      var c := parts[2 * j + 2];
      assert '\n' !in Connector(d);
      assert '\n' !in Spaces(Printer.DefaultIndent);
      var x := ws + Spaces(Printer.DefaultIndent) + Connector(d) + " ";
      assert '\n' !in x;
      assert ClauseLines(parts, ws)[j] == x + c;
    }
  }

  /** The cut line: the indentation, the first piece, and the clauses, with the ink of the line. */
  lemma SplitCutInk(line: string, w: nat, parts: seq<string>)
    requires w <= |line| && w == Printer.Lead(line) && Sound(ConnectorAt, line[w..])
    requires parts == SplitKeep(ConnectorAt, line[w..]) && |parts| > 1 && |parts| % 2 == 1
    ensures Ink(line[..w] + parts[0] + "\n" + Clauses(parts[1..], line[..w])) == Ink(line)
  {
    var ws, rest := line[..w], line[w..];
    assert Ink(ws) == [] by {
      FilterNone(ws, IsInk);
    }
    assert Concat(parts) == rest by {
      SplitKeepParts(ConnectorAt, rest);
    }
    Delimiters(rest);
    SplitPiecesInk(ws, parts);
    assert Ink(line) == Ink(ws) + Ink(rest) by {
      assert line == ws + rest;
      FilterConcat(ws, rest, IsInk);
    }
  }

  // ----------------------------------------------------------------- format

  /**
   * `;\s*\n` at `q`: a semicolon, then the whitespace after it; the greedy
   * `\s*` gives back characters until a line feed can end the match, so the
   * match ends at the last line feed of that whitespace.
   */
  function QueryEndAt(s: string, q: nat): (r: Option<nat>)
    ensures r.Some? ==> q < r.value <= |s| && s[q] == ';' && s[r.value - 1] == '\n'
    ensures r.Some? ==> forall k :: q < k < r.value ==> IsSpace(s[k])
    ensures r.None? && q < |s| && s[q] == ';' ==> forall k :: q < k < RunEnd(s, q + 1, IsSpace) ==> s[k] != '\n'
  {
    if q >= |s| || s[q] != ';' then None
    else
      var last := LastNewline(s, q + 1, RunEnd(s, q + 1, IsSpace));
      if last.None? then None else Some(last.value + 1)
  }

  lemma QueryEndSound(s: string)
    ensures Sound(QueryEndAt, s)
  {
  }

  /** preg_split('/;\s*\n/', $source, -1, PREG_SPLIT_NO_EMPTY). */
  function Queries(source: string): (r: seq<string>)
    ensures forall i :: 0 <= i < |r| ==> |r[i]| > 0
  {
    QueryEndSound(source);
    NonEmpty(Evens(SplitKeep(QueryEndAt, source)))
  }

  /** A source with no semicolon is one query, or none when it is empty. */
  lemma QueriesWithoutSemicolon(source: string)
    requires ';' !in source
    ensures Queries(source) == (if source == [] then [] else [source])
  {
    QueryEndSound(source);
    assert NoMatchBetween(QueryEndAt, source, 0, |source|);
    SplitKeepParts(QueryEndAt, source);
    MatchAllNone(QueryEndAt, source, 0);
    var r := SplitKeep(QueryEndAt, source);
    assert |r| == 1 && r[1..] == [];
    assert Concat(r) == r[0];
    assert Evens(r) == [source];
    if |source| > 0 {
      assert NonEmpty([source]) == [source] + NonEmpty([]);
    }
  }

  /** The fixes format applies to one line of the formatter's output, then rtrim. */
  function FixLine(line: string): string {
    RTrim(IndentComments(SplitLong(FixPhpVars(line))))
  }

  /** The line fixes move whitespace only, on a line fixPhpVars leaves without a line feed. */
  lemma FixLineInk(line: string)
    requires '\n' !in FixPhpVars(line)
    ensures Ink(FixLine(line)) == Ink(line)
  {
    var a := FixPhpVars(line);
    SplitLongInk(a);
    InkTrim(IndentComments(SplitLong(a)));
  }

  /** One query: formatted, every line fixed, the lines joined again, then fixQuery. */
  function FormatQuery(query: string, formatter: string -> string): string {
    var lines := Split(formatter(query), '\n');
    FixQuery(Join(seq(|lines|, i requires 0 <= i < |lines| => FixLine(lines[i])), "\n"))
  }

  /**
   * The loop of format over the queries: each formatted query, followed by
   * `sep` (";\n\n" when there is more than one query, else nothing).
   */
  function Pretty(queries: seq<string>, formatter: string -> string, sep: string): (r: string)
    ensures forall i :: 0 <= i < |queries| ==> Contains(r, FormatQuery(queries[i], formatter) + sep)
    ensures queries == [] ==> r == []
    decreases |queries|
  {
    if |queries| == 0 then []
    else
      var head := FormatQuery(queries[0], formatter) + sep;
      var rest := Pretty(queries[1..], formatter, sep);
      assert OccursAt(head + rest, head, 0);
      assert forall i :: 1 <= i < |queries| ==> Contains(head + rest, FormatQuery(queries[i], formatter) + sep) by {
        forall i | 1 <= i < |queries|
          ensures Contains(head + rest, FormatQuery(queries[i], formatter) + sep)
        {
          assert queries[1..][i - 1] == queries[i];
          ContainsAfter(head, rest, FormatQuery(queries[i], formatter) + sep);
        }
      }
      head + rest
  }

  /** The loop of format writes each formatted query and the separator, in the order of the queries, nothing else. */
  lemma {:induction false} PrettyInOrder(queries: seq<string>, formatter: string -> string, sep: string)
    ensures Pretty(queries, formatter, sep) == Concat(MapEach(queries, q => FormatQuery(q, formatter) + sep))
    decreases |queries|
  {
    if |queries| > 0 {
      PrettyInOrder(queries[1..], formatter, sep);
      ConcatMapEach(queries, q => FormatQuery(q, formatter) + sep);
    }
  }

  /**
   * SqlPrinter::format. Every query's formatted text reaches the result
   * before the shared clean-ups, followed by ";\n\n" when the source holds
   * more than one query; at the default width the result is finished.
   */
  function Format(source: string, indent: nat, formatter: string -> string): (r: string)
    ensures indent == Printer.DefaultIndent ==> Printer.Finished(r)
  {
    var queries := Queries(source);
    Printer.Finish(Pretty(queries, formatter, if |queries| > 1 then ";\n\n" else ""), indent)
  }

  /** A source without a semicolon is formatted as a single query, with nothing appended. */
  lemma FormatSingleQuery(source: string, indent: nat, formatter: string -> string)
    requires ';' !in source && source != []
    ensures Format(source, indent, formatter) == Printer.Finish(FormatQuery(source, formatter), indent)
  {
    QueriesWithoutSemicolon(source);
    var q := FormatQuery(source, formatter);
    assert Pretty([source], formatter, "") == q + "" + Pretty([], formatter, "") by {
      assert [source][1..] == [];
    }
    assert q + "" + [] == q;
  }
}

=== FILE: text.dfy ===
/**
 * Character classes and the PHP string primitives the printers are built
 * from: trim/ltrim/rtrim, explode/implode on a single character, str_repeat
 * of spaces, str_replace, strtolower, and the "ink" projection (the text
 * with every whitespace-like character removed) used to say that a pass only
 * moves whitespace around.
 */
module Text {
  import opened Outcomes

  /** PCRE `\s`: space, tab, line feed, vertical tab, form feed, carriage return. */
  predicate IsSpace(c: char) {
    c == ' ' || c == '\t' || c == '\n' || c == '\U{B}' || c == '\U{C}' || c == '\r'
  }

  /** The characters PHP's trim, ltrim and rtrim strip by default. */
  predicate IsTrimChar(c: char) {
    c == ' ' || c == '\t' || c == '\n' || c == '\r' || c == '\0' || c == '\U{B}'
  }

  /** Whitespace in either sense above. */
  predicate IsBlank(c: char) {
    IsSpace(c) || IsTrimChar(c)
  }

  /** Everything that is not blank: the characters a layout pass must not touch. */
  predicate IsInk(c: char) {
    !IsBlank(c)
  }

  /** PCRE `\w` without the Unicode flag. */
  predicate IsWordChar(c: char) {
    ('a' <= c <= 'z') || ('A' <= c <= 'Z') || ('0' <= c <= '9') || c == '_'
  }

  /** The tag-name class `[\w:.-]` used by the markup passes. */
  predicate IsNameChar(c: char) {
    IsWordChar(c) || c == ':' || c == '.' || c == '-'
  }

  predicate IsSpaceChar(c: char) {
    c == ' '
  }

  predicate IsNewline(c: char) {
    c == '\n'
  }

  /** PCRE `\b` at `k`: a word character on exactly one side (either end of the subject counts as a non-word). */
  predicate WordBoundary(s: string, k: nat)
    requires k <= |s|
  {
    (k > 0 && IsWordChar(s[k - 1])) != (k < |s| && IsWordChar(s[k]))
  }

  /** str_repeat(' ', n). */
  function Spaces(n: nat): (r: string)
    ensures |r| == n
    ensures forall i :: 0 <= i < n ==> r[i] == ' '
  {
    seq(n, _ => ' ')
  }

  predicate AllSpaces(s: string) {
    forall i :: 0 <= i < |s| ==> s[i] == ' '
  }

  predicate All(s: string, p: char -> bool) {
    forall i :: 0 <= i < |s| ==> p(s[i])
  }

  /** Length of the longest prefix of `s` whose characters all satisfy `p`. */
  function Span(s: string, p: char -> bool): (n: nat)
    ensures n <= |s|
    ensures forall i :: 0 <= i < n ==> p(s[i])
    ensures n == |s| || !p(s[n])
  {
    if |s| == 0 || !p(s[0]) then 0 else 1 + Span(s[1..], p)
  }

  /** Length of the longest suffix of `s` whose characters all satisfy `p`. */
  function SpanBack(s: string, p: char -> bool): (n: nat)
    ensures n <= |s|
    ensures forall i :: |s| - n <= i < |s| ==> p(s[i])
    ensures n == |s| || !p(s[|s| - n - 1])
  {
    if |s| == 0 || !p(s[|s| - 1]) then 0 else 1 + SpanBack(s[..|s| - 1], p)
  }

  function LTrim(s: string): (r: string)
    ensures |r| <= |s|
    ensures r == s[|s| - |r|..]
    ensures forall i :: 0 <= i < |s| - |r| ==> IsTrimChar(s[i])
    ensures r == [] || !IsTrimChar(r[0])
  {
    s[Span(s, IsTrimChar)..]
  }

  function RTrim(s: string): (r: string)
    ensures |r| <= |s|
    ensures r == s[..|r|]
    ensures forall i :: |r| <= i < |s| ==> IsTrimChar(s[i])
    ensures r == [] || !IsTrimChar(r[|r| - 1])
  {
    s[..|s| - SpanBack(s, IsTrimChar)]
  }

  /** PHP trim: both ends. */
  function Trim(s: string): (r: string)
    ensures |r| <= |s|
    ensures r == [] || (!IsTrimChar(r[0]) && !IsTrimChar(r[|r| - 1]))
  {
    RTrim(LTrim(s))
  }

  /** What trim cuts off is trim characters: `TrimStart(s)` of them in front, the rest behind. */
  lemma TrimSlice(s: string)
    ensures OccursAt(s, Trim(s), TrimStart(s))
    ensures forall i :: TrimStart(s) + |Trim(s)| <= i < |s| ==> IsTrimChar(s[i])
  {
    var l := LTrim(s);
    var r := RTrim(l);
    var k := |s| - |l|;
    assert s[k..k + |r|] == l[..|r|];
  }

  /** How many trim characters PHP's trim cuts from the front of `s`. */
  function TrimStart(s: string): (k: nat)
    ensures k <= |s|
    ensures forall i :: 0 <= i < k ==> IsTrimChar(s[i])
  {
    Span(s, IsTrimChar)
  }

  /** Index of the first `c` in `s`, or |s| when there is none. */
  function IndexOf(s: string, c: char): (k: nat)
    ensures k <= |s|
    ensures forall i :: 0 <= i < k ==> s[i] != c
    ensures k == |s| || s[k] == c
  {
    if |s| == 0 then 0 else if s[0] == c then 0 else 1 + IndexOf(s[1..], c)
  }

  /** implode(sep, lines). */
  function Join(lines: seq<string>, sep: string): string {
    if |lines| == 0 then []
    else if |lines| == 1 then lines[0]
    else lines[0] + sep + Join(lines[1..], sep)
  }

  /** explode(c, s) for a one-character separator. */
  function Split(s: string, c: char): (r: seq<string>)
    ensures |r| >= 1
    ensures forall i :: 0 <= i < |r| ==> c !in r[i]
    ensures Join(r, [c]) == s
    decreases |s|
  {
    var k := IndexOf(s, c);
    if k == |s| then
      assert c !in s;
      [s]
    else
      var rest := Split(s[k + 1..], c);
      assert c !in s[..k];
      assert s == s[..k] + [c] + s[k + 1..];
      [s[..k]] + rest
  }

  /** explode cuts at the first separator and goes on after it. */
  lemma SplitStep(s: string, c: char)
    requires IndexOf(s, c) < |s|
    ensures Split(s, c) == [s[..IndexOf(s, c)]] + Split(s[IndexOf(s, c) + 1..], c)
  {
  }

  /** Joining lines that do not contain the separator and splitting again gives the lines back. */
  lemma {:induction false} SplitJoin(lines: seq<string>, c: char)
    requires |lines| >= 1
    requires forall i :: 0 <= i < |lines| ==> c !in lines[i]
    ensures Split(Join(lines, [c]), c) == lines
    decreases |lines|
  {
    if |lines| == 1 {
      var s := lines[0];
      assert IndexOf(s, c) == |s|;
    } else {
      var s := Join(lines, [c]);
      var tail := Join(lines[1..], [c]);
      assert s == lines[0] + [c] + tail;
      IndexOfPrefix(lines[0], c, tail);
      assert s[..|lines[0]|] == lines[0];
      assert s[|lines[0]| + 1..] == tail;
      SplitJoin(lines[1..], c);
    }
  }

  /** explode over two texts joined by the separator gives the pieces of the one, then of the other. */
  lemma SplitAppend(a: string, c: char, b: string)
    ensures Split(a + [c] + b, c) == Split(a, c) + Split(b, c)
  {
    var x := Split(a, c);
    var y := Split(b, c);
    JoinAppend(x, y, [c]);
    SplitJoin(x + y, c);
  }

  /** implode of two runs of lines is the two texts with one separator between them. */
  lemma {:induction false} JoinAppend(x: seq<string>, y: seq<string>, sep: string)
    requires |x| > 0 && |y| > 0
    ensures Join(x + y, sep) == Join(x, sep) + sep + Join(y, sep)
    decreases |x|
  {
    assert (x + y)[0] == x[0];
    if |x| > 1 {
      JoinAppend(x[1..], y, sep);
      assert (x + y)[1..] == x[1..] + y;
    } else {
      assert (x + y)[1..] == y;
    }
  }

  /** The pieces of a sequence of sequences, one after the other. */
  function Flatten(xss: seq<seq<string>>): (r: seq<string>)
    ensures |xss| == 1 ==> r == xss[0]
  {
    if |xss| == 0 then [] else xss[0] + Flatten(xss[1..])
  }

  /** explode of each text, in order. */
  function SplitEach(ys: seq<string>, c: char): (r: seq<seq<string>>)
    ensures |r| == |ys| && forall i :: 0 <= i < |ys| ==> r[i] == Split(ys[i], c)
  {
    seq(|ys|, i requires 0 <= i < |ys| => Split(ys[i], c))
  }

  /** explode of an implode: the lines of every joined text, in order, whatever separators the texts hold. */
  lemma {:induction false} SplitJoinAll(ys: seq<string>, c: char)
    requires |ys| > 0
    ensures Split(Join(ys, [c]), c) == Flatten(SplitEach(ys, c))
    decreases |ys|
  {
    if |ys| > 1 {
      SplitJoinAll(ys[1..], c);
      SplitAppend(ys[0], c, Join(ys[1..], [c]));
      var e := SplitEach(ys, c);
      assert e[1..] == SplitEach(ys[1..], c);
    }
  }

  /**
   * The lines of pieces joined by `tail`, a line feed and `lead`: each piece
   * on a line of its own, after `first` on the first line and after `lead`
   * on the others, and followed by `tail` on all but the last.
   */
  function SepLines(pieces: seq<string>, tail: string, lead: string, first: string): (r: seq<string>)
    ensures |r| == |pieces|
  {
    seq(|pieces|, k requires 0 <= k < |pieces| =>
      (if k == 0 then first else lead) + pieces[k] + (if k < |pieces| - 1 then tail else ""))
  }

  lemma {:induction false} JoinAsLines(pieces: seq<string>, tail: string, lead: string, first: string)
    requires |pieces| > 0
    ensures first + Join(pieces, tail + "\n" + lead) == Join(SepLines(pieces, tail, lead, first), "\n")
    decreases |pieces|
  {
    var ls := SepLines(pieces, tail, lead, first);
    if |pieces| == 1 {
      assert ls[0] == first + pieces[0] + "";
    } else {
      var rest := pieces[1..];
      JoinAsLines(rest, tail, lead, lead);
      var rs := SepLines(rest, tail, lead, lead);
      assert ls[1..] == rs by {
        forall j | 0 <= j < |rs|
          ensures ls[j + 1] == rs[j]
        {
          assert rest[j] == pieces[j + 1];
        }
      }
      assert ls[0] == first + pieces[0] + tail;
      var sep := tail + "\n" + lead;
      assert Join(pieces, sep) == pieces[0] + sep + Join(rest, sep);
      assert Join(ls, "\n") == ls[0] + "\n" + Join(rs, "\n");
    }
  }

  /** Lines built from pieces without the separator have none either. */
  lemma SepLinesFree(pieces: seq<string>, tail: string, lead: string, first: string, c: char)
    requires c !in tail && c !in lead && c !in first
    requires forall k :: 0 <= k < |pieces| ==> c !in pieces[k]
    ensures forall k :: 0 <= k < |pieces| ==> c !in SepLines(pieces, tail, lead, first)[k]
  {
    forall k | 0 <= k < |pieces|
      ensures c !in SepLines(pieces, tail, lead, first)[k]
    {
      var x := if k == 0 then first else lead;
      var y := if k < |pieces| - 1 then tail else "";
      assert c !in x + pieces[k];
      assert SepLines(pieces, tail, lead, first)[k] == x + pieces[k] + y;
    }
  }

  lemma IndexOfPrefix(a: string, c: char, b: string)
    requires c !in a
    ensures IndexOf(a + [c] + b, c) == |a|
  {
    var s := a + [c] + b;
    assert forall i :: 0 <= i < |a| ==> s[i] == a[i];
    assert s[|a|] == c;
  }

  lemma AppendAssoc<T>(a: seq<T>, b: seq<T>, c: seq<T>)
    ensures a + (b + c) == a + b + c
  {
  }

  /** A slice cut in three. */
  lemma SliceThree(s: string, x: nat, y: nat, z: nat, w: nat)
    requires x <= y <= z <= w <= |s|
    ensures s[x..w] == s[x..y] + s[y..z] + s[z..w]
  {
  }

  function Concat(pieces: seq<string>): (r: string)
    ensures |pieces| == 0 ==> r == []
  {
    if |pieces| == 0 then [] else pieces[0] + Concat(pieces[1..])
  }

  lemma {:induction false} ConcatAppend(a: seq<string>, b: seq<string>)
    ensures Concat(a + b) == Concat(a) + Concat(b)
    decreases |a|
  {
    if |a| == 0 {
      assert a + b == b;
    } else {
      assert (a + b)[0] == a[0];
      assert (a + b)[1..] == a[1..] + b;
      ConcatAppend(a[1..], b);
      AppendAssoc(a[0], Concat(a[1..]), Concat(b));
    }
  }

  /** Appending one more piece to a prefix of the pieces. */
  lemma ConcatSnoc(parts: seq<string>, i: nat)
    requires i < |parts|
    ensures Concat(parts[..i + 1]) == Concat(parts[..i]) + parts[i]
  {
    var a, b := parts[..i], [parts[i]];
    assert parts[..i + 1] == a + b;
    ConcatAppend(a, b);
    assert b[1..] == [];
  }

  /** The concatenation of the pieces, cut around piece `i`. */
  lemma ConcatSplitAt(parts: seq<string>, i: nat)
    requires i < |parts|
    ensures Concat(parts) == Concat(parts[..i]) + parts[i] + Concat(parts[i + 1..])
  {
    CutAround(parts, i);
    ConcatAround(parts[..i], parts[i], parts[i + 1..]);
  }

  /** A sequence is what lies before element `i`, the element, and what lies after it. */
  lemma CutAround<T>(s: seq<T>, i: nat)
    requires i < |s|
    ensures s == s[..i] + ([s[i]] + s[i + 1..])
  {
  }

  /** Cutting a concatenation inside its first piece. */
  lemma CutInFront<T>(a: seq<T>, t: seq<T>, j: nat)
    requires j < |a|
    ensures (a + t)[..j] == a[..j] && (a + t)[j + 1..] == a[j + 1..] + t
  {
  }

  /** If `all` is `w` then `x`, and `x` is `y` then `z`, `all` is `w + y` then `z`. */
  lemma RegroupFront<T>(all: seq<T>, w: seq<T>, x: seq<T>, wy: seq<T>, y: seq<T>, z: seq<T>)
    requires all == w + x && x == y + z && wy == w + y
    ensures all == wy + z
  {
  }

  lemma EmptyAppend<T>(s: seq<T>)
    ensures [] + s == s
  {
  }

  /** A sequence is what lies before `m` and what lies from `m` on. */
  lemma CutAt<T>(s: seq<T>, m: nat)
    requires m <= |s|
    ensures s == s[..m] + s[m..]
  {
  }

  /** A sequence cut at `i` and at `j`. */
  lemma CutTwice<T>(s: seq<T>, i: nat, j: nat)
    requires i <= j <= |s|
    ensures s == s[..i] + s[i..j] + s[j..]
  {
  }

  /** Slices of slices are slices. */
  lemma SliceOfSlice<T>(s: seq<T>, a: nat, n: nat)
    requires a <= n <= |s|
    ensures s[a..][..n - a] == s[a..n] && s[..n][a..] == s[a..n]
  {
  }

  /** What is in neither piece is not in their concatenation. */
  lemma NotInParts<T>(x: T, a: seq<T>, b: seq<T>)
    requires x !in a && x !in b
    ensures x !in a + b
  {
  }

  /** What is not in a sequence is not in its suffixes. */
  lemma NotInSuffix<T>(x: T, s: seq<T>, k: nat)
    requires x !in s && k <= |s|
    ensures x !in s[k..]
  {
    assert forall i :: 0 <= i < |s| - k ==> s[k..][i] == s[k + i];
  }

  /** A non-empty sequence is its first element and the rest. */
  lemma HeadTail<T>(s: seq<T>)
    requires |s| > 0
    ensures s == [s[0]] + s[1..]
  {
  }

  lemma ConcatAround(a: seq<string>, x: string, c: seq<string>)
    ensures Concat(a + ([x] + c)) == Concat(a) + x + Concat(c)
  {
    ConcatAppend(a, [x] + c);
    ConcatCons(x, c);
    AppendAssoc(Concat(a), x, Concat(c));
  }

  lemma ConcatCons(x: string, c: seq<string>)
    ensures Concat([x] + c) == x + Concat(c)
  {
    assert ([x] + c)[1..] == c;
  }

  /** A character missing from a concatenation is missing from every piece. */
  lemma {:induction false} NotInConcat(pieces: seq<string>, c: char)
    requires c !in Concat(pieces)
    ensures forall i :: 0 <= i < |pieces| ==> c !in pieces[i]
    decreases |pieces|
  {
    if |pieces| > 0 {
      assert Concat(pieces) == pieces[0] + Concat(pieces[1..]);
      NotInConcat(pieces[1..], c);
      forall i | 1 <= i < |pieces|
        ensures c !in pieces[i]
      {
        assert pieces[i] == pieces[1..][i - 1];
      }
    }
  }

  /** The pieces f(x) for each x of xs, in order. */
  function MapEach(xs: seq<string>, f: string -> string): (r: seq<string>)
    ensures |r| == |xs| && forall i :: 0 <= i < |xs| ==> r[i] == f(xs[i])
  {
    seq(|xs|, i requires 0 <= i < |xs| => f(xs[i]))
  }

  lemma ConcatMapEach(xs: seq<string>, f: string -> string)
    requires |xs| > 0
    ensures Concat(MapEach(xs, f)) == f(xs[0]) + Concat(MapEach(xs[1..], f))
  {
    assert MapEach(xs, f)[1..] == MapEach(xs[1..], f);
  }

  function Join3(lines: seq<string>, sep: string, last: string): string {
    Join(lines, sep) + last
  }

  /** `s` begins with `p`. */
  predicate StartsWith(s: string, p: string) {
    |p| <= |s| && s[..|p|] == p
  }

  predicate EndsWith(s: string, p: string) {
    |p| <= |s| && s[|s| - |p|..] == p
  }

  /** A concatenation begins with its first piece and ends with its last. */
  lemma Affixes(p: string, m: string, q: string)
    ensures StartsWith(p + m + q, p) && EndsWith(p + m + q, q)
  {
    var s := p + m + q;
    assert s[..|p|] == p;
    assert s[|s| - |q|..] == q;
  }

  /** `n` occurs in `s` at position `k`. */
  predicate OccursAt(s: string, n: string, k: int) {
    0 <= k && k + |n| <= |s| && s[k..k + |n|] == n
  }

  /** Where the middle piece of three stands in their concatenation, and what follows it. */
  lemma PieceAt(p: string, t: string, y: string)
    ensures forall i :: 0 <= i < |t| ==> (p + t + y)[|p| + i] == t[i]
    ensures |y| > 0 ==> (p + t + y)[|p| + |t|] == y[0]
  {
  }

  /** A piece of a concatenation occurs where the pieces before it end. */
  lemma PiecePlaced(ps: seq<string>, i: nat)
    requires i < |ps|
    ensures OccursAt(Concat(ps), ps[i], |Concat(ps[..i])|)
  {
    assert ps == ps[..i] + ([ps[i]] + ps[i + 1..]);
    ConcatAround(ps[..i], ps[i], ps[i + 1..]);
    OccursMiddle(Concat(ps[..i]), ps[i], Concat(ps[i + 1..]));
  }

  /** The middle of three texts occurs where the first ends. */
  lemma OccursMiddle(p: string, t: string, y: string)
    ensures OccursAt(p + t + y, t, |p|)
  {
    assert (p + t + y)[|p|..|p| + |t|] == t;
  }

  /** An occurrence right where `p` ends is a prefix of what follows `p`. */
  lemma OccursAfter(p: string, y: string, n: string)
    ensures OccursAt(p + y, n, |p|) <==> |n| <= |y| && y[..|n|] == n
  {
    if |n| <= |y| {
      assert (p + y)[|p|..|p| + |n|] == y[..|n|];
    }
  }

  predicate Contains(s: string, n: string) {
    exists k :: 0 <= k <= |s| && OccursAt(s, n, k)
  }

  /** `n` occurs in `t` and so in any text that ends with `t`. */
  lemma ContainsAfter(h: string, t: string, n: string)
    requires Contains(t, n)
    ensures Contains(h + t, n)
  {
    var k :| 0 <= k <= |t| && OccursAt(t, n, k);
    assert (h + t)[|h| + k..|h| + k + |n|] == t[k..k + |n|];
    assert OccursAt(h + t, n, |h| + k);
  }

  /**
   * str_replace(n, r, s) for one search string: scan left to right, replace
   * every occurrence of `n`, resume after it. An empty search string leaves
   * the subject unchanged.
   */
  function ReplaceAll(s: string, n: string, r: string): string
    decreases |s|
  {
    if |n| == 0 || |s| < |n| then s
    else if s[..|n|] == n then r + ReplaceAll(s[|n|..], n, r)
    else [s[0]] + ReplaceAll(s[1..], n, r)
  }

  /** A subject in which the search string never occurs comes back unchanged. */
  lemma {:induction false} ReplaceAllAbsent(s: string, n: string, r: string)
    requires !Contains(s, n)
    ensures ReplaceAll(s, n, r) == s
    decreases |s|
  {
    if |n| == 0 || |s| < |n| {
    } else {
      assert !OccursAt(s, n, 0);
      assert s[..|n|] != n;
      forall k | OccursAt(s[1..], n, k) ensures false {
        assert s[1..][k..k + |n|] == s[k + 1..k + 1 + |n|];
        assert OccursAt(s, n, k + 1);
      }
      ReplaceAllAbsent(s[1..], n, r);
    }
  }

  /** What does not occur in a text does not occur in any suffix of it. */
  lemma NotContainsSuffix(s: string, j: nat, n: string)
    requires j <= |s| && !Contains(s, n)
    ensures !Contains(s[j..], n)
  {
    forall k | 0 <= k <= |s[j..]| && OccursAt(s[j..], n, k) ensures false {
      assert s[j..][k..k + |n|] == s[j + k..j + k + |n|];
      assert OccursAt(s, n, j + k);
    }
  }

  /** No proper suffix of `p` is also a prefix of it, so two occurrences of `p` never overlap. */
  predicate Unbordered(p: string) {
    forall d :: 0 < d < |p| ==> p[d..] != p[..|p| - d]
  }

  /** An occurrence past the first character is one in the text without it. */
  lemma OccursShift(t: string, n: string, j: nat)
    requires 1 <= j && 0 < |t|
    ensures OccursAt(t, n, j) <==> OccursAt(t[1..], n, j - 1)
  {
    if j + |n| <= |t| {
      assert t[1..][j - 1..j - 1 + |n|] == t[j..j + |n|];
    }
  }

  /** `n` occurs at none of the first `k` positions of `t`. */
  predicate NoHitBefore(t: string, n: string, k: nat) {
    forall j :: 0 <= j < k ==> !OccursAt(t, n, j)
  }

  /** First position at or after `a` where `n` occurs, if any. */
  function Find(s: string, n: string, a: nat): (r: Option<nat>)
    ensures r.Some? ==> a <= r.value && OccursAt(s, n, r.value)
    ensures r.Some? ==> forall k :: a <= k < r.value ==> !OccursAt(s, n, k)
    ensures r.None? ==> forall k :: a <= k ==> !OccursAt(s, n, k)
    decreases |s| - a
  {
    if a + |n| > |s| then None
    else if s[a..a + |n|] == n then Some(a)
    else Find(s, n, a + 1)
  }

  /** Where str_replace's left-to-right scan first finds `n` in `t`; |t| when it finds none. */
  function FirstHit(t: string, n: string): (k: nat)
    requires |n| > 0
    ensures k <= |t|
    ensures k < |t| ==> OccursAt(t, n, k) && NoHitBefore(t, n, k)
    ensures k == |t| ==> !Contains(t, n)
  {
    var f := Find(t, n, 0);
    if f.None? then |t| else f.value
  }

  /** Past a position where `n` does not occur, the first hit is one further on in the rest. */
  lemma FirstHitStep(t: string, n: string)
    requires |n| > 0 && 0 < |t| && !OccursAt(t, n, 0)
    ensures FirstHit(t, n) == FirstHit(t[1..], n) + 1
  {
    var k, j := FirstHit(t, n), FirstHit(t[1..], n);
    if k < |t| {
      OccursShift(t, n, k);
      if j < k - 1 {
        OccursShift(t, n, j + 1);
      }
    } else if j < |t[1..]| {
      OccursShift(t, n, j + 1);
    }
  }

  /**
   * str_replace copies the text before its first hit unchanged and puts the
   * replacement where the hit was.
   */
  lemma {:induction false} ReplaceAtFirst(s: string, n: string, p: string)
    requires |n| > 0
    ensures FirstHit(s, n) <= |ReplaceAll(s, n, p)|
    ensures ReplaceAll(s, n, p)[..FirstHit(s, n)] == s[..FirstHit(s, n)]
    ensures FirstHit(s, n) < |s| ==> OccursAt(ReplaceAll(s, n, p), p, FirstHit(s, n))
    decreases |s|
  {
    if |s| < |n| {
    } else if s[..|n|] == n {
      assert ReplaceAll(s, n, p)[..|p|] == p;
    } else {
      ReplaceAtFirst(s[1..], n, p);
      HitAfterHead(s, n, p);
    }
  }

  /**
   * str_replace cut at its first hit: the text before it, the replacement,
   * then str_replace of the rest.
   */
  lemma ReplaceAtFirstRest(s: string, n: string, p: string)
    requires |n| > 0 && FirstHit(s, n) < |s|
    ensures ReplacedFirst(ReplaceAll(s, n, p), s, n, p)
  {
    ReplacedAtHit(s, n, p, FirstHit(s, n));
  }

  /** `out` is `s` with `r` in place of the first hit of `n`. */
  predicate ReplacedFirst(out: string, s: string, n: string, r: string)
    requires |n| > 0
  {
    FirstHit(s, n) < |s| && ReplacedAt(out, s, n, r, FirstHit(s, n))
  }

  /**
   * `out` is `s` with `r` in place of the hit of `n` at `k`: the text before
   * the hit, `r`, then str_replace of the rest, which is the rest itself
   * when `n` does not occur in it again.
   */
  predicate ReplacedAt(out: string, s: string, n: string, r: string, k: nat) {
    k + |n| <= |s|
    && out == s[..k] + r + ReplaceAll(s[k + |n|..], n, r)
    && (!Contains(s[k + |n|..], n) ==> out == s[..k] + r + s[k + |n|..])
  }

  lemma ReplacedAtHit(s: string, n: string, p: string, k: nat)
    requires |n| > 0 && OccursAt(s, n, k) && NoHitBefore(s, n, k)
    ensures ReplacedAt(ReplaceAll(s, n, p), s, n, p, k)
  {
    ReplaceAtHit(s, n, p, k);
    if !Contains(s[k + |n|..], n) {
      ReplaceAllAbsent(s[k + |n|..], n, p);
    }
  }

  /** ReplaceAtFirstRest for a hit with none before it, by induction on where it is. */
  lemma {:induction false} ReplaceAtHit(s: string, n: string, p: string, k: nat)
    requires |n| > 0 && OccursAt(s, n, k) && NoHitBefore(s, n, k)
    ensures CutAtHit(s, n, p, k)
    decreases k
  {
    if k == 0 {
      ReplaceAllHit(s, n, p);
    } else {
      HitShift(s, n, k);
      ReplaceAtHit(s[1..], n, p, k - 1);
      ReplaceRestStep(s, n, p, k);
    }
  }

  /** A first hit past the start is a first hit of the text without its first character. */
  lemma HitShift(s: string, n: string, k: nat)
    requires |n| > 0 && 0 < k && OccursAt(s, n, k) && NoHitBefore(s, n, k)
    ensures |n| <= |s| && s[..|n|] != n
    ensures OccursAt(s[1..], n, k - 1) && NoHitBefore(s[1..], n, k - 1)
  {
    assert s[0..|n|] == s[..|n|];
    assert !OccursAt(s, n, 0);
    OccursShift(s, n, k);
    forall i | 0 <= i < k - 1
      ensures !OccursAt(s[1..], n, i)
    {
      OccursShift(s, n, i + 1);
    }
  }

  /** str_replace of `s` is the text before `k`, the replacement, then str_replace past the hit at `k`. */
  predicate CutAtHit(s: string, n: string, p: string, k: nat)
    requires k + |n| <= |s|
  {
    ReplaceAll(s, n, p) == s[..k] + p + ReplaceAll(s[k + |n|..], n, p)
  }

  lemma ReplaceRestStep(s: string, n: string, p: string, k: nat)
    requires |n| > 0 && 1 <= k && k + |n| <= |s| && s[..|n|] != n
    requires CutAtHit(s[1..], n, p, k - 1)
    ensures CutAtHit(s, n, p, k)
  {
    ReplaceAllHead(s, n, p);
    var a := s[1..][..k - 1];
    var rest := ReplaceAll(s[k + |n|..], n, p);
    assert s[1..][k - 1 + |n|..] == s[k + |n|..];
    assert [s[0]] + a == s[..k];
    AppendAssoc([s[0]], a + p, rest);
    AppendAssoc([s[0]], a, p);
  }

  /** Where `n` starts the subject, str_replace begins with the replacement. */
  lemma ReplaceAllHit(s: string, n: string, p: string)
    requires |n| > 0 && OccursAt(s, n, 0)
    ensures CutAtHit(s, n, p, 0)
  {
    assert s[0..|n|] == s[..|n|];
    assert s[..0] + p == p;
  }

  /** Where `n` does not start the subject, str_replace copies its first character. */
  lemma ReplaceAllHead(s: string, n: string, p: string)
    requires |n| > 0 && |n| <= |s| && s[..|n|] != n
    ensures ReplaceAll(s, n, p) == [s[0]] + ReplaceAll(s[1..], n, p)
  {
  }

  /** ReplaceAtFirst from its instance one character further on. */
  lemma HitAfterHead(s: string, n: string, p: string)
    requires |n| > 0 && |s| >= |n| && s[..|n|] != n
    requires FirstHit(s[1..], n) <= |ReplaceAll(s[1..], n, p)|
    requires ReplaceAll(s[1..], n, p)[..FirstHit(s[1..], n)] == s[1..][..FirstHit(s[1..], n)]
    requires FirstHit(s[1..], n) < |s[1..]| ==> OccursAt(ReplaceAll(s[1..], n, p), p, FirstHit(s[1..], n))
    ensures FirstHit(s, n) <= |ReplaceAll(s, n, p)|
    ensures ReplaceAll(s, n, p)[..FirstHit(s, n)] == s[..FirstHit(s, n)]
    ensures FirstHit(s, n) < |s| ==> OccursAt(ReplaceAll(s, n, p), p, FirstHit(s, n))
  {
    var j := FirstHit(s[1..], n);
    var r' := ReplaceAll(s[1..], n, p);
    var r := ReplaceAll(s, n, p);
    assert r == [s[0]] + r';
    assert !OccursAt(s, n, 0) by { assert s[0..|n|] == s[..|n|]; }
    FirstHitStep(s, n);
    assert r[..j + 1] == [s[0]] + r'[..j];
    assert s[..j + 1] == [s[0]] + s[1..][..j];
    if j < |s[1..]| {
      assert r[j + 1..j + 1 + |p|] == r'[j..j + |p|];
    }
  }

  /**
   * After replacing `n` by an unbordered `p` absent from the subject, `p`
   * does not start a text that the subject does not start with `n`.
   */
  lemma NoFalseStart(s: string, n: string, p: string)
    requires |n| > 0 && |p| > 0 && Unbordered(p) && !Contains(s, p)
    requires |s| >= |n| && s[..|n|] != n
    requires |ReplaceAll(s, n, p)| >= |p|
    ensures ReplaceAll(s, n, p)[..|p|] != p
  {
    var r := ReplaceAll(s, n, p);
    var k := FirstHit(s, n);
    assert k >= 1 by { assert s[0..|n|] == s[..|n|]; }
    ReplaceAtFirst(s, n, p);
    if k == |s| {
      ReplaceAllAbsent(s, n, p);
      assert !OccursAt(s, p, 0);
    } else if k >= |p| {
      assert r[..|p|] == s[..|p|];
      assert !OccursAt(s, p, 0);
    } else {
      assert r[k..k + |p|] == p;
      assert r[k..|p|] == p[..|p| - k];
      assert p[k..] != p[..|p| - k];
      assert r[..|p|][k..] == r[k..|p|];
    }
  }

  /**
   * Replacing `n` by a placeholder `p` and then `p` by `n` gives the subject
   * back, provided `p` is unbordered and absent from the subject.
   */
  lemma {:induction false} ReplaceAllBack(s: string, n: string, p: string)
    requires |n| > 0 && |p| > 0 && Unbordered(p) && !Contains(s, p)
    ensures ReplaceAll(ReplaceAll(s, n, p), p, n) == s
    decreases |s|
  {
    if |s| < |n| {
      ReplaceAllAbsent(s, p, n);
    } else if s[..|n|] == n {
      var t := s[|n|..];
      var r' := ReplaceAll(t, n, p);
      NotContainsSuffix(s, |n|, p);
      ReplaceAllBack(t, n, p);
      assert (p + r')[..|p|] == p && (p + r')[|p|..] == r';
      assert n + t == s;
    } else {
      var t := s[1..];
      var r' := ReplaceAll(t, n, p);
      var r := [s[0]] + r';
      NotContainsSuffix(s, 1, p);
      ReplaceAllBack(t, n, p);
      if |r| < |p| {
        assert ReplaceAll(r', p, n) == r';
      } else {
        NoFalseStart(s, n, p);
        assert r[1..] == r';
      }
      assert [s[0]] + t == s;
    }
  }

  /** The characters of `s` that satisfy `p`, in order. */
  function Filter(s: string, p: char -> bool): (r: string)
    ensures |r| <= |s|
  {
    if |s| == 0 then [] else (if p(s[0]) then [s[0]] else []) + Filter(s[1..], p)
  }

  lemma {:induction false} FilterConcat(a: string, b: string, p: char -> bool)
    ensures Filter(a + b, p) == Filter(a, p) + Filter(b, p)
    decreases |a|
  {
    if |a| == 0 {
      assert a + b == b;
    } else {
      var h := if p(a[0]) then [a[0]] else [];
      assert (a + b)[0] == a[0];
      assert (a + b)[1..] == a[1..] + b;
      FilterConcat(a[1..], b, p);
      assert Filter(a + b, p) == h + Filter(a[1..] + b, p);
      AppendAssoc(h, Filter(a[1..], p), Filter(b, p));
    }
  }

  lemma FilterNone(s: string, p: char -> bool)
    requires forall i :: 0 <= i < |s| ==> !p(s[i])
    ensures Filter(s, p) == []
    decreases |s|
  {
    if |s| > 0 {
      FilterNone(s[1..], p);
    }
  }

  /** The ink of a string: everything but whitespace, in order. */
  function Ink(s: string): string {
    Filter(s, IsInk)
  }

  /** The ink of three pieces put together is theirs in turn. */
  lemma InkThree(a: string, b: string, c: string)
    ensures Ink(a + b + c) == Ink(a) + Ink(b) + Ink(c)
  {
    FilterConcat(a + b, c, IsInk);
    FilterConcat(a, b, IsInk);
  }

  /** Swapping the middle of three pieces for one with the same ink keeps the ink. */
  lemma InkMiddleSwap(a: string, b: string, b2: string, c: string)
    requires Ink(b) == Ink(b2)
    ensures Ink(a + b + c) == Ink(a + b2 + c)
  {
    InkThree(a, b, c);
    InkThree(a, b2, c);
  }

  /** Dropping a middle piece without ink keeps the ink. */
  lemma InkDropMiddle(a: string, b: string, c: string)
    requires Ink(b) == []
    ensures Ink(a + b + c) == Ink(a + c)
  {
    InkThree(a, b, c);
    FilterConcat(a, c, IsInk);
  }

  /** Texts cut into pieces of the same ink have the same ink. */
  lemma InkSameSplit(x: string, x1: string, x2: string, y: string, y1: string, y2: string)
    requires x == x1 + x2 && y == y1 + y2
    requires Ink(x1) == Ink(y1) && Ink(x2) == Ink(y2)
    ensures Ink(x) == Ink(y)
  {
    FilterConcat(x1, x2, IsInk);
    FilterConcat(y1, y2, IsInk);
  }

  /** A blank at the end adds no ink. */
  lemma InkBlankEnd(a: string, c: char)
    requires IsBlank(c)
    ensures Ink(a + [c]) == Ink(a)
  {
    FilterConcat(a, [c], IsInk);
    assert Ink([c]) == [] by {
      assert [c][1..] == [];
    }
  }

  /** A blank between two pieces adds no ink. */
  lemma InkAroundBlank(a: string, c: char, b: string)
    requires IsBlank(c)
    ensures Ink(a + [c] + b) == Ink(a) + Ink(b)
  {
    InkThree(a, [c], b);
    assert Ink([c]) == [] by {
      assert [c][1..] == [];
    }
  }

  /**
   * Replacing every occurrence of `n` by a string with the same filtered
   * content keeps the filtered content of the whole subject.
   */
  lemma {:induction false} ReplaceAllFilter(s: string, n: string, r: string, p: char -> bool)
    requires Filter(n, p) == Filter(r, p)
    ensures Filter(ReplaceAll(s, n, r), p) == Filter(s, p)
    decreases |s|
  {
    if |n| == 0 || |s| < |n| {
    } else if s[..|n|] == n {
      assert s == n + s[|n|..];
      FilterConcat(n, s[|n|..], p);
      FilterConcat(r, ReplaceAll(s[|n|..], n, r), p);
      ReplaceAllFilter(s[|n|..], n, r, p);
    } else {
      assert s == [s[0]] + s[1..];
      FilterConcat([s[0]], s[1..], p);
      FilterConcat([s[0]], ReplaceAll(s[1..], n, r), p);
      ReplaceAllFilter(s[1..], n, r, p);
    }
  }

  function LowerChar(c: char): char {
    if 'A' <= c <= 'Z' then (c as int + 32) as char else c
  }

  /** strtolower on ASCII letters. */
  function ToLower(s: string): (r: string)
    ensures |r| == |s|
    ensures forall i :: 0 <= i < |s| ==> r[i] == LowerChar(s[i])
  {
    seq(|s|, i requires 0 <= i < |s| => LowerChar(s[i]))
  }

  /** ASCII case-insensitive equality, as PCRE's `i` flag compares. */
  predicate EqualsIgnoreCase(a: string, b: string) {
    ToLower(a) == ToLower(b)
  }

  /** `r[a..b]` is a whole line of `r`: it is delimited by line feeds or the ends of `r`. */
  predicate IsLine(r: string, a: int, b: int) {
    && 0 <= a <= b <= |r|
    && (a == 0 || r[a - 1] == '\n')
    && (b == |r| || r[b] == '\n')
    && (forall k :: a <= k < b ==> r[k] != '\n')
  }

  /** Every line of `s` satisfies `p`. */
  ghost predicate LinesSatisfy(s: string, p: string -> bool) {
    forall a, b :: IsLine(s, a, b) ==> p(s[a..b])
  }

  /** What holds of every line holds of every piece explode("\n", s) returns. */
  lemma {:induction false} SplitLinesSatisfy(s: string, p: string -> bool)
    requires LinesSatisfy(s, p)
    ensures forall k :: 0 <= k < |Split(s, '\n')| ==> p(Split(s, '\n')[k])
    decreases |s|
  {
    var k := IndexOf(s, '\n');
    assert IsLine(s, 0, k);
    assert p(s[..k]) by { assert s[0..k] == s[..k]; }
    if k < |s| {
      var t := s[k + 1..];
      forall a, b | IsLine(t, a, b) ensures p(t[a..b]) {
        assert t[a..b] == s[k + 1 + a..k + 1 + b];
        assert IsLine(s, k + 1 + a, k + 1 + b);
      }
      SplitLinesSatisfy(t, p);
      assert Split(s, '\n') == [s[..k]] + Split(t, '\n');
    } else {
      assert s[..k] == s;
      assert Split(s, '\n') == [s];
    }
  }

  /** Lines joined with line feeds: each line of the result is one of them. */
  lemma {:induction false} JoinLinesSatisfy(lines: seq<string>, p: string -> bool)
    requires forall k :: 0 <= k < |lines| ==> '\n' !in lines[k] && p(lines[k])
    requires |lines| > 0
    ensures LinesSatisfy(Join(lines, "\n"), p)
    decreases |lines|
  {
    var s := Join(lines, "\n");
    if |lines| == 1 {
      forall a, b | IsLine(s, a, b) ensures p(s[a..b]) {
        assert a == 0 && b == |s|;
        assert s[a..b] == lines[0];
      }
    } else {
      var h, t := lines[0], Join(lines[1..], "\n");
      assert s == h + "\n" + t;
      JoinLinesSatisfy(lines[1..], p);
      forall a, b | IsLine(s, a, b) ensures p(s[a..b]) {
        if a <= |h| {
          assert forall k :: 0 <= k < |h| ==> s[k] == h[k];
          assert s[|h|] == '\n';
          assert a == 0 && b == |h|;
          assert s[a..b] == h;
        } else {
          assert forall k :: 0 <= k < |t| ==> s[|h| + 1 + k] == t[k];
          assert s[a..b] == t[a - |h| - 1..b - |h| - 1];
          assert IsLine(t, a - |h| - 1, b - |h| - 1);
        }
      }
    }
  }

  /** The longest `p`-prefix of a concatenation. */
  lemma {:induction false} SpanConcat(a: string, t: string, p: char -> bool)
    ensures Span(a, p) < |a| ==> Span(a + t, p) == Span(a, p)
    ensures Span(a, p) == |a| ==> Span(a + t, p) == |a| + Span(t, p)
    decreases |a|
  {
    if |a| > 0 {
      assert (a + t)[1..] == a[1..] + t;
      SpanConcat(a[1..], t, p);
    } else {
      assert a + t == t;
    }
  }

  /** Removing trim characters from the ends keeps the ink. */
  lemma InkTrim(s: string)
    ensures Ink(LTrim(s)) == Ink(s)
    ensures Ink(RTrim(s)) == Ink(s)
    ensures Ink(Trim(s)) == Ink(s)
  {
    InkLTrim(s);
    InkRTrim(s);
    InkLTrim(LTrim(s));
    InkRTrim(LTrim(s));
  }

  lemma InkLTrim(x: string)
    ensures Ink(LTrim(x)) == Ink(x)
  {
    var l := LTrim(x);
    var p := x[..|x| - |l|];
    assert x == p + l by {
      CutAt(x, |x| - |l|);
    }
    assert Ink(p) == [] by {
      FilterNone(p, IsInk);
    }
    FilterConcat(p, l, IsInk);
  }

  lemma InkRTrim(x: string)
    ensures Ink(RTrim(x)) == Ink(x)
  {
    var r := RTrim(x);
    var q := x[|r|..];
    assert x == r + q by {
      CutAt(x, |r|);
    }
    assert Ink(q) == [] by {
      FilterNone(q, IsInk);
    }
    FilterConcat(r, q, IsInk);
  }

  /** Joining pieces with the same ink, with the same separator, gives the same ink. */
  lemma {:induction false} JoinInk(a: seq<string>, b: seq<string>, sep: string)
    requires |a| == |b|
    requires forall i :: 0 <= i < |a| ==> Ink(a[i]) == Ink(b[i])
    ensures Ink(Join(a, sep)) == Ink(Join(b, sep))
    decreases |a|
  {
    if |a| > 1 {
      JoinInk(a[1..], b[1..], sep);
      FilterConcat(a[0] + sep, Join(a[1..], sep), IsInk);
      FilterConcat(a[0], sep, IsInk);
      FilterConcat(b[0] + sep, Join(b[1..], sep), IsInk);
      FilterConcat(b[0], sep, IsInk);
    }
  }

  /**
   * The line of `j` around a line of `r`, where `r` is `j` with trim
   * characters cut from both ends: it adds trim characters only, and only
   * next to a non-whitespace character.
   */
  lemma EnclosingLine(j: string, r: string, k: nat, a: nat, b: nat) returns (a': nat, b': nat)
    requires OccursAt(j, r, k)
    requires forall i :: 0 <= i < k ==> IsTrimChar(j[i])
    requires forall i :: k + |r| <= i < |j| ==> IsTrimChar(j[i])
    requires IsLine(r, a, b)
    ensures a' <= k + a <= k + b <= b' && IsLine(j, a', b')
    ensures j[a'..b'] == j[a'..k + a] + r[a..b] + j[k + b..b']
    ensures forall i :: a' <= i < k + a ==> IsTrimChar(j[i])
    ensures forall i :: k + b <= i < b' ==> IsTrimChar(j[i])
    ensures a' < k + a ==> a == 0
    ensures k + b < b' ==> b == |r|
  {
    a' := EnclosingStart(j, r, k, a);
    b' := EnclosingEnd(j, r, k, b);
    EmbeddedLine(j, r, k, a, b);
    LinesMeet(j, a', k + a, k + b, b');
    SliceAround(j, r, k, a, b, a', b');
  }

  /** A stretch of `j` around where `r` stands, cut at a slice of `r`. */
  lemma SliceAround(j: string, r: string, k: nat, a: nat, b: nat, a': nat, b': nat)
    requires OccursAt(j, r, k) && a' <= k + a <= k + b <= b' <= |j| && b <= |r|
    ensures j[a'..b'] == j[a'..k + a] + r[a..b] + j[k + b..b']
  {
    SliceOf(j, r, k, a, b);
    SliceThree(j, a', k + a, k + b, b');
  }

  /** A line of `r` has no line feed where `r` stands in `j` either. */
  lemma EmbeddedLine(j: string, r: string, k: nat, a: nat, b: nat)
    requires OccursAt(j, r, k) && IsLine(r, a, b)
    ensures forall i :: k + a <= i < k + b ==> j[i] != '\n'
  {
    Embedded(j, r, k);
    forall i | k + a <= i < k + b ensures j[i] != '\n' {
      assert r[i - k] == j[i];
    }
  }

  /** Three stretches without a line feed, between line feeds, make one line. */
  lemma LinesMeet(s: string, a: nat, x: nat, y: nat, b: nat)
    requires a <= x <= y <= b <= |s| && (a == 0 || s[a - 1] == '\n') && (b == |s| || s[b] == '\n')
    requires forall i :: a <= i < x ==> s[i] != '\n'
    requires forall i :: x <= i < y ==> s[i] != '\n'
    requires forall i :: y <= i < b ==> s[i] != '\n'
    ensures IsLine(s, a, b)
  {
  }

  /** Where the line of `r` starting at `a` starts in `j`. */
  lemma EnclosingStart(j: string, r: string, k: nat, a: nat) returns (a': nat)
    requires OccursAt(j, r, k) && a <= |r| && (a == 0 || r[a - 1] == '\n')
    requires forall i :: 0 <= i < k ==> IsTrimChar(j[i])
    ensures a' <= k + a && (a' == 0 || j[a' - 1] == '\n')
    ensures forall i :: a' <= i < k + a ==> IsTrimChar(j[i]) && j[i] != '\n'
    ensures a' < k + a ==> a == 0
  {
    if a > 0 {
      a' := k + a;
      assert j[a' - 1] == '\n' by {
        Embedded(j, r, k);
        assert r[a - 1] == j[k + a - 1];
      }
    } else {
      a' := LineStart(j, k);
    }
  }

  /** Where the line of `r` ending at `b` ends in `j`. */
  lemma EnclosingEnd(j: string, r: string, k: nat, b: nat) returns (b': nat)
    requires OccursAt(j, r, k) && b <= |r| && (b == |r| || r[b] == '\n')
    requires forall i :: k + |r| <= i < |j| ==> IsTrimChar(j[i])
    ensures k + b <= b' <= |j| && (b' == |j| || j[b'] == '\n')
    ensures forall i :: k + b <= i < b' ==> IsTrimChar(j[i]) && j[i] != '\n'
    ensures k + b < b' ==> b == |r|
  {
    if b < |r| {
      b' := k + b;
      assert j[b'] == '\n' by {
        Embedded(j, r, k);
        assert r[b] == j[k + b];
      }
    } else {
      b' := LineEnd(j, k + |r|);
    }
  }

  lemma Embedded(j: string, r: string, k: nat)
    requires OccursAt(j, r, k)
    ensures forall i :: 0 <= i < |r| ==> r[i] == j[k + i]
  {
    assert j[k..k + |r|] == r;
  }

  lemma SliceOf(j: string, r: string, k: nat, a: nat, b: nat)
    requires OccursAt(j, r, k)
    requires 0 <= a <= b <= |r|
    ensures j[k + a..k + b] == r[a..b]
  {
    assert forall i :: 0 <= i < |r| ==> r[i] == j[k + i];
  }

  /** Start of the line of `s` holding position `p`. */
  function LineStart(s: string, p: nat): (a: nat)
    requires p <= |s|
    ensures a <= p && (a == 0 || s[a - 1] == '\n')
    ensures forall i :: a <= i < p ==> s[i] != '\n'
  {
    if p == 0 || s[p - 1] == '\n' then p else LineStart(s, p - 1)
  }

  /** End of the line of `s` holding position `p`. */
  function LineEnd(s: string, p: nat): (b: nat)
    requires p <= |s|
    ensures p <= b <= |s| && (b == |s| || s[b] == '\n')
    ensures forall i :: p <= i < b ==> s[i] != '\n'
    decreases |s| - p
  {
    if p == |s| || s[p] == '\n' then p else LineEnd(s, p + 1)
  }

  /** PHP truthiness of a string: everything but "" and "0" is true. */
  predicate Truthy(s: string) {
    s != "" && s != "0"
  }
}

=== FILE: words.dfy ===
/**
 * Words of a text (maximal runs of non-blank characters) and the whitespace
 * rewrites that keep them: turning one blank into another, trimming, and
 * PCRE's `\s+` -> " " collapse. The comment reflow is specified by saying
 * that it keeps the words of the comment in order.
 */
module TextWords {
  import opened Text

  /** The words of `s`, in order. */
  function Words(s: string): seq<string>
    decreases |s|
  {
    var k := Span(s, IsInk);
    if k == |s| then (if k == 0 then [] else [s])
    else (if k == 0 then [] else [s[..k]]) + Words(s[k + 1..])
  }

  /** The words of several lines, one line after the other. */
  function WordsOfLines(lines: seq<string>): seq<string> {
    if |lines| == 0 then [] else Words(lines[0]) + WordsOfLines(lines[1..])
  }

  predicate StartsInk(s: string) {
    |s| > 0 && IsInk(s[0])
  }

  /** `a` and `b` differ at most by exchanging one blank for another. */
  predicate SameInkAt(a: string, b: string) {
    |a| == |b| && forall i :: 0 <= i < |a| ==> a[i] == b[i] || (IsBlank(a[i]) && IsBlank(b[i]))
  }

  lemma {:induction false} WordsAllBlank(s: string)
    requires forall i :: 0 <= i < |s| ==> IsBlank(s[i])
    ensures Words(s) == []
    decreases |s|
  {
    if |s| > 0 {
      assert Span(s, IsInk) == 0;
      WordsAllBlank(s[1..]);
    }
  }

  /** A blank separates: the words of `a`, then the words of `b`. */
  lemma WordsConcatBlank(a: string, c: char, b: string)
    requires IsBlank(c)
    ensures Words(a + [c] + b) == Words(a) + Words(b)
  {
    WordsBeforeBlank(a, [c] + b);
    assert a + [c] + b == a + ([c] + b);
    assert ([c] + b)[1..] == b;
  }

  /** The same, with the blank and what follows it as one piece `t`. */
  lemma {:induction false} WordsBeforeBlank(a: string, t: string)
    requires |t| > 0 && IsBlank(t[0])
    ensures Words(a + t) == Words(a) + Words(t[1..])
    decreases |a|
  {
    var j := Span(a, IsInk);
    assert Span(a + t, IsInk) == j by {
      SpanConcat(a, t, IsInk);
    }
    if j == |a| {
      WordsBlankAfter(a, t);
    } else {
      WordsBeforeBlank(a[j + 1..], t);
      WordsBlankCut(a, t, j);
    }
  }

  /** WordsBeforeBlank when a blank of `a` sits at `j`, from the same fact about what follows it. */
  lemma {:induction false} WordsBlankCut(a: string, t: string, j: nat)
    requires j < |a| && |t| > 0 && Span(a, IsInk) == j && Span(a + t, IsInk) == j
    requires Words(a[j + 1..] + t) == Words(a[j + 1..]) + Words(t[1..])
    ensures Words(a + t) == Words(a) + Words(t[1..])
  {
    var w := if j == 0 then [] else [a[..j]];
    assert Words(a + t) == w + Words(a[j + 1..] + t) by {
      WordsStep(a + t, j);
      CutInFront(a, t, j);
    }
    WordsStep(a, j);
    RegroupFront(Words(a + t), w, Words(a[j + 1..] + t), Words(a), Words(a[j + 1..]), Words(t[1..]));
  }

  /** WordsBeforeBlank when `a` holds no blank. */
  lemma {:induction false} WordsBlankAfter(a: string, t: string)
    requires |t| > 0 && Span(a, IsInk) == |a| && Span(a + t, IsInk) == |a|
    ensures Words(a + t) == Words(a) + Words(t[1..])
  {
    assert Words(a + t) == (if |a| == 0 then [] else [a]) + Words(t[1..]) by {
      WordsStep(a + t, |a|);
      assert (a + t)[..|a|] == a;
      assert (a + t)[|a| + 1..] == t[1..];
    }
  }

  lemma WordsNil()
    ensures Words([]) == []
  {
  }

  /** Concatenation after a blank concatenates the words. */
  lemma WordsConcatAfterBlank(a: string, b: string)
    requires |a| > 0 && IsBlank(a[|a| - 1])
    ensures Words(a + b) == Words(a) + Words(b)
  {
    var a', c := a[..|a| - 1], a[|a| - 1];
    assert a + b == a' + [c] + b;
    WordsConcatBlank(a', c, b);
    assert a' + [c] + [] == a;
    WordsConcatBlank(a', c, []);
    WordsNil();
  }

  /** Concatenation before a blank concatenates the words. */
  lemma WordsConcatBeforeBlank(a: string, b: string)
    requires |b| > 0 && IsBlank(b[0])
    ensures Words(a + b) == Words(a) + Words(b)
  {
    var c, b' := b[0], b[1..];
    assert a + b == a + [c] + b';
    WordsConcatBlank(a, c, b');
    assert Span(b, IsInk) == 0;
    assert Words(b) == Words(b');
  }

  lemma WordsBlankPrefix(pre: string, s: string)
    requires forall i :: 0 <= i < |pre| ==> IsBlank(pre[i])
    ensures Words(pre + s) == Words(s)
  {
    if |pre| > 0 {
      WordsConcatAfterBlank(pre, s);
      WordsAllBlank(pre);
    } else {
      assert pre + s == s;
    }
  }

  lemma WordsBlankSuffix(s: string, post: string)
    requires forall i :: 0 <= i < |post| ==> IsBlank(post[i])
    ensures Words(s + post) == Words(s)
  {
    if |post| > 0 {
      WordsConcatBeforeBlank(s, post);
      WordsAllBlank(post);
    } else {
      assert s + post == s;
    }
  }

  /** Exchanging blanks for blanks keeps the words. */
  lemma {:induction false} WordsSameInk(a: string, b: string)
    requires SameInkAt(a, b)
    ensures Words(a) == Words(b)
    decreases |a|
  {
    var k := Span(a, IsInk);
    SpanSameInk(a, b);
    if k < |a| {
      assert a[..k] == b[..k];
      WordsSameInk(a[k + 1..], b[k + 1..]);
    } else {
      assert a == b;
    }
  }

  lemma {:induction false} SpanSameInk(a: string, b: string)
    requires SameInkAt(a, b)
    ensures Span(a, IsInk) == Span(b, IsInk)
    ensures forall i :: 0 <= i < Span(a, IsInk) ==> a[i] == b[i]
    decreases |a|
  {
    if |a| > 0 {
      SpanSameInk(a[1..], b[1..]);
    }
  }

  lemma WordsLTrim(s: string)
    ensures Words(LTrim(s)) == Words(s)
  {
    var r := LTrim(s);
    var pre := s[..|s| - |r|];
    assert s == pre + r;
    WordsBlankPrefix(pre, r);
  }

  lemma WordsRTrim(s: string)
    ensures Words(RTrim(s)) == Words(s)
  {
    var r := RTrim(s);
    var post := s[|r|..];
    assert s == r + post;
    WordsBlankSuffix(r, post);
  }

  /** Trimming only removes blanks at the ends. */
  lemma WordsTrim(s: string)
    ensures Words(Trim(s)) == Words(s)
  {
    WordsLTrim(s);
    WordsRTrim(LTrim(s));
  }

  /** Putting a non-blank character in front of a text extends its first word or starts a new one. */
  lemma {:induction false} WordsCons(c: char, x: string)
    requires IsInk(c)
    ensures Words([c] + x)
            == if StartsInk(x) then [[c] + Words(x)[0]] + Words(x)[1..] else [[c]] + Words(x)
  {
    var s := [c] + x;
    var j := Span(x, IsInk);
    assert Span(s, IsInk) == 1 + j by {
      assert s[1..] == x;
    }
    if j == |x| {
      WordsConsWhole(c, x);
    } else {
      WordsConsCut(c, x, j);
    }
  }

  /** Words when the first word, possibly empty, ends at the blank at `k`. */
  lemma {:induction false} WordsStep(s: string, k: nat)
    requires k < |s| && Span(s, IsInk) == k
    ensures Words(s) == (if k == 0 then [] else [s[..k]]) + Words(s[k + 1..])
  {
  }

  /** The case of WordsCons where `x` is one word or empty. */
  lemma {:induction false} WordsConsWhole(c: char, x: string)
    requires IsInk(c) && Span(x, IsInk) == |x| && Span([c] + x, IsInk) == 1 + |x|
    ensures Words([c] + x) == if StartsInk(x) then [[c] + Words(x)[0]] + Words(x)[1..] else [[c]] + Words(x)
  {
    if |x| > 0 {
      assert Words(x) == [x];
    } else {
      assert [c] + x == [c];
    }
  }

  /** The case of WordsCons where a blank follows the first `j` characters of `x`. */
  lemma {:induction false} WordsConsCut(c: char, x: string, j: nat)
    requires IsInk(c) && j < |x| && Span(x, IsInk) == j && Span([c] + x, IsInk) == 1 + j
    ensures Words([c] + x) == if StartsInk(x) then [[c] + Words(x)[0]] + Words(x)[1..] else [[c]] + Words(x)
  {
    var s := [c] + x;
    assert Words(s) == [[c] + x[..j]] + Words(x[j + 1..]) by {
      WordsStep(s, 1 + j);
      assert s[..1 + j] == [c] + x[..j];
      assert s[1 + j + 1..] == x[j + 1..];
    }
    if j == 0 {
      WordsConsBlank(c, x);
    } else {
      WordsConsWord(c, x, j);
    }
  }

  /** WordsConsCut when `x` starts with a blank. */
  lemma {:induction false} WordsConsBlank(c: char, x: string)
    requires 0 < |x| && Span(x, IsInk) == 0
    requires Words([c] + x) == [[c] + x[..0]] + Words(x[1..])
    ensures !StartsInk(x) && Words([c] + x) == [[c]] + Words(x)
  {
    assert !IsInk(x[0]);
    assert Words(x) == Words(x[1..]) by {
      WordsStep(x, 0);
      EmptyAppend(Words(x[1..]));
    }
    assert [c] + x[..0] == [c];
  }

  /** WordsConsCut when `x` starts with a word of `j` characters. */
  lemma {:induction false} WordsConsWord(c: char, x: string, j: nat)
    requires 0 < j < |x| && Span(x, IsInk) == j
    requires Words([c] + x) == [[c] + x[..j]] + Words(x[j + 1..])
    ensures StartsInk(x) && Words([c] + x) == [[c] + Words(x)[0]] + Words(x)[1..]
  {
    WordsStep(x, j);
  }

  /** preg_replace('~\s+~', ' ', s): every run of PCRE whitespace becomes one space. */
  function Collapse(s: string): (r: string)
    ensures |r| <= |s|
    decreases |s|
  {
    if |s| == 0 then []
    else if IsSpace(s[0]) then [' '] + Collapse(s[Span(s, IsSpace)..])
    else [s[0]] + Collapse(s[1..])
  }

  /** Collapsing whitespace keeps the words and whether the text starts inside a word. */
  lemma {:induction false} WordsCollapse(s: string)
    ensures Words(Collapse(s)) == Words(s)
    ensures StartsInk(Collapse(s)) == StartsInk(s)
    decreases |s|
  {
    if |s| == 0 {
    } else if IsSpace(s[0]) {
      WordsCollapse(s[Span(s, IsSpace)..]);
      WordsCollapseSpace(s);
    } else {
      WordsCollapse(s[1..]);
      WordsCollapseOther(s);
    }
  }

  /** WordsCollapse for a text starting with a run of whitespace, from the same fact after the run. */
  lemma WordsCollapseSpace(s: string)
    requires |s| > 0 && IsSpace(s[0])
    requires var rest := s[Span(s, IsSpace)..];
      Words(Collapse(rest)) == Words(rest) && StartsInk(Collapse(rest)) == StartsInk(rest)
    ensures Words(Collapse(s)) == Words(s)
    ensures StartsInk(Collapse(s)) == StartsInk(s)
  {
    var m := Span(s, IsSpace);
    var rest := s[m..];
    assert Collapse(s) == [' '] + Collapse(rest);
    assert Words(s) == Words(rest) by {
      CutAt(s, m);
      WordsBlankPrefix(s[..m], rest);
    }
    WordsBlankPrefix([' '], Collapse(rest));
  }

  /** WordsCollapse for a text starting with anything else, from the same fact about its tail. */
  lemma WordsCollapseOther(s: string)
    requires |s| > 0 && !IsSpace(s[0])
    requires Words(Collapse(s[1..])) == Words(s[1..]) && StartsInk(Collapse(s[1..])) == StartsInk(s[1..])
    ensures Words(Collapse(s)) == Words(s)
    ensures StartsInk(Collapse(s)) == StartsInk(s)
  {
    var tail := s[1..];
    assert Collapse(s) == [s[0]] + Collapse(tail);
    HeadTail(s);
    if IsBlank(s[0]) {
      WordsBlankPrefix([s[0]], tail);
      WordsBlankPrefix([s[0]], Collapse(tail));
    } else {
      WordsCons(s[0], tail);
      WordsCons(s[0], Collapse(tail));
    }
  }

  /** Collapsing whitespace never produces a PCRE whitespace character other than a single space. */
  lemma {:induction false} CollapseShape(s: string)
    ensures forall i :: 0 <= i < |Collapse(s)| ==> (IsSpace(Collapse(s)[i]) ==> Collapse(s)[i] == ' ')
    ensures Ink(Collapse(s)) == Ink(s)
    decreases |s|
  {
    if |s| == 0 {
    } else if IsSpace(s[0]) {
      var m := Span(s, IsSpace);
      CollapseShape(s[m..]);
      assert s == s[..m] + s[m..];
      FilterConcat(s[..m], s[m..], IsInk);
      FilterNone(s[..m], IsInk);
      FilterConcat([' '], Collapse(s[m..]), IsInk);
    } else {
      CollapseShape(s[1..]);
      assert s == [s[0]] + s[1..];
      FilterConcat([s[0]], s[1..], IsInk);
      FilterConcat([s[0]], Collapse(s[1..]), IsInk);
    }
  }

  /** Joining lines with a blank separator strings their words together. */
  lemma {:induction false} WordsJoin(lines: seq<string>, c: char)
    requires IsBlank(c)
    ensures Words(Join(lines, [c])) == WordsOfLines(lines)
    decreases |lines|
  {
    if |lines| == 0 {
    } else if |lines| == 1 {
      assert WordsOfLines(lines[1..]) == [];
    } else {
      WordsJoin(lines[1..], c);
      assert Join(lines, [c]) == lines[0] + [c] + Join(lines[1..], [c]);
      WordsConcatBlank(lines[0], c, Join(lines[1..], [c]));
    }
  }

  lemma {:induction false} WordsOfLinesAppend(a: seq<string>, b: seq<string>)
    ensures WordsOfLines(a + b) == WordsOfLines(a) + WordsOfLines(b)
    decreases |a|
  {
    if |a| == 0 {
      assert a + b == b;
    } else {
      assert (a + b)[1..] == a[1..] + b;
      WordsOfLinesAppend(a[1..], b);
    }
  }

  /** Pieces that each end with a blank: the words of the whole are the words of the pieces. */
  lemma {:induction false} WordsConcat(parts: seq<string>)
    requires forall i :: 0 <= i < |parts| ==> |parts[i]| > 0 && IsBlank(parts[i][|parts[i]| - 1])
    ensures Words(Concat(parts)) == WordsOfLines(parts)
    decreases |parts|
  {
    if |parts| > 0 {
      WordsConcat(parts[1..]);
      WordsConcatAfterBlank(parts[0], Concat(parts[1..]));
    }
  }

  lemma {:induction false} WordsOfLinesPointwise(a: seq<string>, b: seq<string>)
    requires |a| == |b|
    requires forall i :: 0 <= i < |a| ==> Words(a[i]) == Words(b[i])
    ensures WordsOfLines(a) == WordsOfLines(b)
    decreases |a|
  {
    if |a| > 0 {
      WordsOfLinesPointwise(a[1..], b[1..]);
    }
  }
}

=== FILE: wordwrap.dfy ===
/**
 * PHP's wordwrap($text, $width, "\n", false), the single-character-break
 * path of the C implementation: the text is scanned once, remembering where
 * the current line started and where the last space was; a space that is at
 * least `width` columns into its line becomes the break, and a character
 * past the width turns the last space of the line into the break. Existing
 * line feeds start a new line. Nothing is inserted or deleted: some spaces
 * turn into line feeds.
 */
module WordWrap {
  import opened Text
  import Matching

  /** `r` is `t` with some spaces turned into line feeds. */
  predicate SpacesBroken(t: string, r: string) {
    |r| == |t| && forall i :: 0 <= i < |t| ==> r[i] == t[i] || (t[i] == ' ' && r[i] == '\n')
  }

  /**
   * A line fits the width, or it is one unbreakable word: no space after its
   * first column.
   */
  predicate Fits(r: string, a: int, b: int, width: int)
    requires 0 <= a <= b <= |r|
  {
    b - a <= width || forall k :: a < k < b ==> r[k] != ' '
  }

  /** Every line of `r` fits `width` in the sense above. */
  ghost predicate AllLinesFit(r: string, width: int) {
    forall a, b :: IsLine(r, a, b) ==> Fits(r, a, b, width)
  }

  /** State the scan keeps between characters. */
  predicate ScanState(t: string, width: int, cur: nat, start: nat, space: nat, out: string) {
    && |out| == |t|
    && start <= cur <= |t|
    && SpacesBroken(t, out)
    && space <= cur
    && start <= space + 1
    && (space != start ==> space < |t| && t[space] == ' ')
    && (start == 0 || out[start - 1] == '\n')
    && (forall k :: start <= k < cur ==> out[k] == t[k] && t[k] != '\n')
    && (forall k :: cur <= k < |t| ==> out[k] == t[k])
    && (forall k :: start <= k < cur && t[k] == ' ' ==> k <= space)
  }

  /** The C loop, one character per call; `out` is the buffer being edited. */
  function Scan(t: string, width: int, cur: nat, start: nat, space: nat, out: string): (r: string)
    requires ScanState(t, width, cur, start, space, out)
    ensures SpacesBroken(t, r)
    ensures forall k :: 0 <= k < start - 1 ==> r[k] == out[k]
    decreases |t| - cur
  {
    if cur == |t| then out
    else if t[cur] == '\n' then
      Scan(t, width, cur + 1, cur + 1, cur + 1, out)
    else if t[cur] == ' ' then
      if cur - start >= width then
        Scan(t, width, cur + 1, cur + 1, cur, out[cur := '\n'])
      else
        Scan(t, width, cur + 1, start, cur, out)
    else if cur - start >= width && start != space then
      Scan(t, width, cur + 1, space + 1, space, out[space := '\n'])
    else
      Scan(t, width, cur + 1, start, space, out)
  }

  /** wordwrap($t, $width) with the "\n" break and no cutting. */
  function Wrap(t: string, width: int): (r: string)
    ensures SpacesBroken(t, r)
  {
    Scan(t, width, 0, 0, 0, t)
  }

  /** Lines already closed off by the scan fit the width. */
  ghost predicate ClosedLinesFit(out: string, start: nat, width: int)
    requires start <= |out|
  {
    forall a, b :: IsLine(out, a, b) && b < start ==> Fits(out, a, b, width)
  }

  /** The line being scanned fits so far, unless it is still one word. */
  predicate OpenLineFits(t: string, cur: nat, start: nat, width: int)
    requires start <= cur <= |t|
  {
    cur - start <= width || forall k :: start < k < cur ==> t[k] != ' '
  }

  /** A line that starts where the scan's current line starts is that line. */
  lemma LineStartsAt(out: string, start: nat, a: int, b: int)
    requires start <= |out|
    requires start == 0 || out[start - 1] == '\n'
    requires IsLine(out, a, b)
    requires start <= b
    requires forall k :: start <= k < b ==> out[k] != '\n'
    ensures a == start
  {
  }

  /** Closing the open line at `p` (which becomes the break) keeps every closed line fitting. */
  lemma CloseLine(t: string, out: string, out': string, start: nat, p: nat, width: int)
    requires |out| == |out'| == |t|
    requires start <= p < |t|
    requires start == 0 || out[start - 1] == '\n'
    requires forall k :: start <= k < p ==> out[k] != '\n' && out[k] == t[k]
    requires out'[p] == '\n'
    requires forall k :: 0 <= k < |t| && k != p ==> out'[k] == out[k]
    requires ClosedLinesFit(out, start, width)
    requires p - start <= width || forall k :: start < k < p ==> t[k] != ' '
    ensures ClosedLinesFit(out', p + 1, width)
  {
    forall a, b | IsLine(out', a, b) && b < p + 1
      ensures Fits(out', a, b, width)
    {
      if b < start {
        assert IsLine(out, a, b);
        assert Fits(out, a, b, width);
      } else {
        assert forall k :: start <= k < p ==> out'[k] != '\n';
        assert b == p;
        LineStartsAt(out', start, a, b);
      }
    }
  }

  /** The scan's state after one step still satisfies the fitting invariants. */
  lemma {:induction false} ScanFits(t: string, width: int, cur: nat, start: nat, space: nat, out: string)
    requires ScanState(t, width, cur, start, space, out)
    requires ClosedLinesFit(out, start, width)
    requires OpenLineFits(t, cur, start, width)
    ensures AllLinesFit(Scan(t, width, cur, start, space, out), width)
    decreases |t| - cur, 1
  {
    if cur == |t| {
      ScanEndFits(t, width, start, space, out);
    } else if t[cur] == '\n' {
      StepNewline(t, width, cur, start, space, out);
      ScanFits(t, width, cur + 1, cur + 1, cur + 1, out);
    } else if t[cur] == ' ' {
      ScanFitsSpace(t, width, cur, start, space, out);
    } else {
      ScanFitsOther(t, width, cur, start, space, out);
    }
  }

  /** ScanFits at a space of the text. */
  lemma {:induction false} ScanFitsSpace(t: string, width: int, cur: nat, start: nat, space: nat, out: string)
    requires ScanState(t, width, cur, start, space, out) && cur < |t| && t[cur] == ' '
    requires ClosedLinesFit(out, start, width)
    requires OpenLineFits(t, cur, start, width)
    ensures AllLinesFit(Scan(t, width, cur, start, space, out), width)
    decreases |t| - cur, 0
  {
    if cur - start >= width {
      StepBreakAtSpace(t, width, cur, start, space, out);
      ScanFits(t, width, cur + 1, cur + 1, cur, out[cur := '\n']);
    } else {
      StepSpace(t, width, cur, start, space, out);
      ScanFits(t, width, cur + 1, start, cur, out);
    }
  }

  /** ScanFits at any other character of the text. */
  lemma {:induction false} ScanFitsOther(t: string, width: int, cur: nat, start: nat, space: nat, out: string)
    requires ScanState(t, width, cur, start, space, out) && cur < |t| && t[cur] != ' ' && t[cur] != '\n'
    requires ClosedLinesFit(out, start, width)
    requires OpenLineFits(t, cur, start, width)
    ensures AllLinesFit(Scan(t, width, cur, start, space, out), width)
    decreases |t| - cur, 0
  {
    if cur - start >= width && start != space {
      StepBreakAtLastSpace(t, width, cur, start, space, out);
      ScanFits(t, width, cur + 1, space + 1, space, out[space := '\n']);
    } else {
      StepOther(t, width, cur, start, space, out);
      ScanFits(t, width, cur + 1, start, space, out);
    }
  }

  /** A line feed of the text closes the open line. */
  lemma StepNewline(t: string, width: int, cur: nat, start: nat, space: nat, out: string)
    requires ScanState(t, width, cur, start, space, out) && cur < |t| && t[cur] == '\n'
    requires ClosedLinesFit(out, start, width) && OpenLineFits(t, cur, start, width)
    ensures ScanState(t, width, cur + 1, cur + 1, cur + 1, out)
    ensures ClosedLinesFit(out, cur + 1, width) && OpenLineFits(t, cur + 1, cur + 1, width)
  {
    assert out[cur] == '\n';
    CloseLine(t, out, out, start, cur, width);
  }

  /** A space at or past the width becomes the break. */
  lemma StepBreakAtSpace(t: string, width: int, cur: nat, start: nat, space: nat, out: string)
    requires ScanState(t, width, cur, start, space, out) && cur < |t| && t[cur] == ' ' && cur - start >= width
    requires ClosedLinesFit(out, start, width) && OpenLineFits(t, cur, start, width)
    ensures ScanState(t, width, cur + 1, cur + 1, cur, out[cur := '\n'])
    ensures ClosedLinesFit(out[cur := '\n'], cur + 1, width) && OpenLineFits(t, cur + 1, cur + 1, width)
  {
    CloseLine(t, out, out[cur := '\n'], start, cur, width);
  }

  /** A space before the width is remembered as the last space. */
  lemma StepSpace(t: string, width: int, cur: nat, start: nat, space: nat, out: string)
    requires ScanState(t, width, cur, start, space, out) && cur < |t| && t[cur] == ' ' && cur - start < width
    requires OpenLineFits(t, cur, start, width)
    ensures ScanState(t, width, cur + 1, start, cur, out)
    ensures OpenLineFits(t, cur + 1, start, width)
  {
  }

  /** Past the width, the last space of the line becomes the break. */
  lemma StepBreakAtLastSpace(t: string, width: int, cur: nat, start: nat, space: nat, out: string)
    requires ScanState(t, width, cur, start, space, out) && cur < |t| && t[cur] != ' ' && t[cur] != '\n'
    requires cur - start >= width && start != space
    requires ClosedLinesFit(out, start, width) && OpenLineFits(t, cur, start, width)
    ensures ScanState(t, width, cur + 1, space + 1, space, out[space := '\n'])
    ensures ClosedLinesFit(out[space := '\n'], space + 1, width) && OpenLineFits(t, cur + 1, space + 1, width)
  {
    var out' := out[space := '\n'];
    if space + 1 == start {
      assert out' == out;
    } else {
      CloseLine(t, out, out', start, space, width);
    }
  }

  /** Any other character extends the open line. */
  lemma StepOther(t: string, width: int, cur: nat, start: nat, space: nat, out: string)
    requires ScanState(t, width, cur, start, space, out) && cur < |t| && t[cur] != ' ' && t[cur] != '\n'
    requires !(cur - start >= width && start != space)
    requires OpenLineFits(t, cur, start, width)
    ensures ScanState(t, width, cur + 1, start, space, out)
    ensures OpenLineFits(t, cur + 1, start, width)
  {
  }

  /** At the end of the text the open line is the last line, and it fits. */
  lemma ScanEndFits(t: string, width: int, start: nat, space: nat, out: string)
    requires ScanState(t, width, |t|, start, space, out)
    requires ClosedLinesFit(out, start, width)
    requires OpenLineFits(t, |t|, start, width)
    ensures AllLinesFit(out, width)
  {
    forall a, b | IsLine(out, a, b) ensures Fits(out, a, b, width) {
      if b >= start {
        LineStartsAt(out, start, a, b);
        assert b == |t|;
        assert forall k :: start < k < |t| ==> out[k] == t[k];
      }
    }
  }

  /**
   * Every line of the wrapped text is at most `width` long, unless it holds a
   * single word (no space after its first column) that could not be broken.
   */
  lemma WrapFits(t: string, width: int)
    ensures AllLinesFit(Wrap(t, width), width)
  {
    ScanFits(t, width, 0, 0, 0, t);
  }

  // ------------------------------------------------------------ greediness

  /** A character of a word: neither a space nor a line feed. */
  predicate InWord(c: char) {
    c != ' ' && c != '\n'
  }

  /**
   * The break at `i` was needed: the line it ends, one space and the word of
   * `t` that follows would be wider than `width`.
   */
  predicate BreakNeeded(t: string, r: string, i: nat, width: int)
    requires i < |t| && |r| == |t|
  {
    (i - LineStart(r, i)) + 1 + (Matching.RunEnd(t, i + 1, InWord) - (i + 1)) > width
  }

  /** Every space of `t` that is a line feed in `r` was a needed break. */
  predicate BreaksNeeded(t: string, r: string, width: int)
    requires |r| == |t|
  {
    forall i {:trigger BreakNeeded(t, r, i, width)} ::
      0 <= i < |t| && t[i] == ' ' && r[i] == '\n' ==> BreakNeeded(t, r, i, width)
  }

  /** The line start of a position depends only on what lies before it. */
  lemma {:induction false} LineStartAgrees(r: string, r': string, i: nat)
    requires i <= |r| && i <= |r'|
    requires forall k :: 0 <= k < i ==> r[k] == r'[k]
    ensures LineStart(r, i) == LineStart(r', i)
    decreases i
  {
    if i > 0 && r[i - 1] != '\n' {
      LineStartAgrees(r, r', i - 1);
    }
  }

  /** A position with no line feed between it and a line start `a` is on the line starting at `a`. */
  lemma {:induction false} LineStartIs(r: string, a: nat, i: nat)
    requires a <= i <= |r| && (a == 0 || r[a - 1] == '\n')
    requires forall k :: a <= k < i ==> r[k] != '\n'
    ensures LineStart(r, i) == a
    decreases i
  {
    if i > a {
      LineStartIs(r, a, i - 1);
    }
  }

  /**
   * Turning the space at `p` into a line feed keeps the earlier breaks
   * needed, and adds a needed one when the open line from `start`, a space
   * and the next word do not fit.
   */
  lemma AddBreak(t: string, out: string, start: nat, p: nat, width: int)
    requires |out| == |t| && start <= p < |t| && t[p] == ' '
    requires start == 0 || out[start - 1] == '\n'
    requires forall k :: start <= k < p ==> out[k] != '\n'
    requires forall k :: p <= k < |t| ==> out[k] == t[k]
    requires BreaksNeeded(t, out, width)
    requires (p - start) + 1 + (Matching.RunEnd(t, p + 1, InWord) - (p + 1)) > width
    ensures BreaksNeeded(t, out[p := '\n'], width)
  {
    var out' := out[p := '\n'];
    forall i | 0 <= i < |t| && t[i] == ' ' && out'[i] == '\n' ensures BreakNeeded(t, out', i, width) {
      if i == p {
        LineStartIs(out', start, p);
      } else {
        assert i < p;
        LineStartAgrees(out, out', i);
        assert BreakNeeded(t, out, i, width);
      }
    }
  }

  /** The scan only ever breaks where a break is needed. */
  lemma {:induction false} ScanNeeded(t: string, width: int, cur: nat, start: nat, space: nat, out: string)
    requires ScanState(t, width, cur, start, space, out)
    requires BreaksNeeded(t, out, width)
    ensures BreaksNeeded(t, Scan(t, width, cur, start, space, out), width)
    decreases |t| - cur, 1
  {
    if cur == |t| {
    } else if t[cur] == '\n' {
      assert ScanState(t, width, cur + 1, cur + 1, cur + 1, out);
      ScanNeeded(t, width, cur + 1, cur + 1, cur + 1, out);
    } else if t[cur] == ' ' {
      ScanNeededSpace(t, width, cur, start, space, out);
    } else {
      ScanNeededOther(t, width, cur, start, space, out);
    }
  }

  lemma {:induction false} ScanNeededSpace(t: string, width: int, cur: nat, start: nat, space: nat, out: string)
    requires ScanState(t, width, cur, start, space, out) && cur < |t| && t[cur] == ' '
    requires BreaksNeeded(t, out, width)
    ensures BreaksNeeded(t, Scan(t, width, cur, start, space, out), width)
    decreases |t| - cur, 0
  {
    if cur - start >= width {
      AddBreak(t, out, start, cur, width);
      NextAtSpace(t, width, cur, start, space, out);
      ScanNeeded(t, width, cur + 1, cur + 1, cur, out[cur := '\n']);
    } else {
      assert ScanState(t, width, cur + 1, start, cur, out);
      ScanNeeded(t, width, cur + 1, start, cur, out);
    }
  }

  lemma {:induction false} ScanNeededOther(t: string, width: int, cur: nat, start: nat, space: nat, out: string)
    requires ScanState(t, width, cur, start, space, out) && cur < |t| && t[cur] != ' ' && t[cur] != '\n'
    requires BreaksNeeded(t, out, width)
    ensures BreaksNeeded(t, Scan(t, width, cur, start, space, out), width)
    decreases |t| - cur, 0
  {
    if cur - start >= width && start != space {
      BreakAtLastSpace(t, width, cur, start, space, out);
      ScanNeeded(t, width, cur + 1, space + 1, space, out[space := '\n']);
    } else {
      NextOther(t, width, cur, start, space, out);
      ScanNeeded(t, width, cur + 1, start, space, out);
    }
  }

  /** Breaking at a space at or past the width leads to the next scan state. */
  lemma NextAtSpace(t: string, width: int, cur: nat, start: nat, space: nat, out: string)
    requires ScanState(t, width, cur, start, space, out) && cur < |t| && t[cur] == ' ' && cur - start >= width
    ensures ScanState(t, width, cur + 1, cur + 1, cur, out[cur := '\n'])
  {
  }

  /** A word character that needs no break extends the open line. */
  lemma NextOther(t: string, width: int, cur: nat, start: nat, space: nat, out: string)
    requires ScanState(t, width, cur, start, space, out) && cur < |t| && t[cur] != ' ' && t[cur] != '\n'
    ensures ScanState(t, width, cur + 1, start, space, out)
  {
  }

  /** Breaking at the last space once a word runs past the width is needed: that word would not fit. */
  lemma BreakAtLastSpace(t: string, width: int, cur: nat, start: nat, space: nat, out: string)
    requires ScanState(t, width, cur, start, space, out) && cur < |t| && t[cur] != ' ' && t[cur] != '\n'
    requires cur - start >= width && start != space
    requires BreaksNeeded(t, out, width)
    ensures ScanState(t, width, cur + 1, space + 1, space, out[space := '\n'])
    ensures BreaksNeeded(t, out[space := '\n'], width)
  {
    if space + 1 == start {
      assert out[space := '\n'] == out;
    } else {
      var e := Matching.RunEnd(t, space + 1, InWord);
      assert InWord(t[cur]);
      assert e > cur;
      AddBreak(t, out, start, space, width);
    }
  }

  /**
   * wordwrap is greedy: every space it turns into a line feed ends a line
   * that could not also take the next word.
   */
  lemma WrapNeeded(t: string, width: int)
    ensures BreaksNeeded(t, Wrap(t, width), width)
  {
    ScanNeeded(t, width, 0, 0, 0, t);
  }

  /** Every line of `t` is at most `width` characters long. */
  predicate LinesWithin(t: string, width: int) {
    forall i :: 0 <= i < |t| && t[i] != '\n' ==> i - LineStart(t, i) < width
  }

  /** Breaking spaces only moves line starts later. */
  lemma {:induction false} LineStartBroken(t: string, r: string, i: nat)
    requires SpacesBroken(t, r) && i <= |t|
    ensures LineStart(t, i) <= LineStart(r, i)
    decreases i
  {
    if i > 0 && r[i - 1] != '\n' {
      LineStartBroken(t, r, i - 1);
    }
  }

  /** A text whose lines already fit the width comes back from wordwrap unchanged. */
  lemma WrapKeepsFitting(t: string, width: int)
    requires LinesWithin(t, width)
    ensures Wrap(t, width) == t
  {
    var r := Wrap(t, width);
    WrapNeeded(t, width);
    forall i | 0 <= i < |t| ensures r[i] == t[i] {
      if r[i] != t[i] {
        assert BreakNeeded(t, r, i, width);
        LineStartBroken(t, r, i);
        var e := Matching.RunEnd(t, i + 1, InWord);
        LineStartIs(t, LineStart(t, i), e - 1);
        assert false;
      }
    }
  }
}
